=== FILE: README.md ===
# ERCOT RAG assistant: a Dafny model of its core

This project models the core of the ERCOT document assistant. The assistant
answers questions about ERCOT (Electric Reliability Council of Texas)
market rules. It chunks and embeds the ERCOT documents and web pages, and it
answers queries from the closest chunks with cited sources. The model covers
these parts:

- **Chunk quality and de-duplication.** The document types and their
  configurations, the rule table that decides whether a chunk is low quality,
  the spreadsheet-row helpers, and the similar-pair search whose second
  members are deleted (`scripts/chunk_optimizer.py`).
- **The answering path.** Document metadata, highlights, the search result
  rows, citation extraction, the prompt, and the answer with de-duplicated
  sources (`src/assistant/rag_assistant.py`).
- **URL handling.**
  - The shared URL handler: normalisation, document URLs, and the
    completion lookup against the `documents` table.
  - The processor's variant of the handler and its URL clean-up.
  - The SQL clean-up script.
  - To support these: Python's `quote`/`unquote` (section 2.1 of RFC 3986,
    UTF-8 percent-encoding), `urlsplit`/`urlparse` and `urljoin` for the two
    ERCOT base directories.
- **Ingestion.** Loader choice, chunk filtering and storing in the processor
  and the reprocessing script, and the web-content refresh.
- **Embedding generation.** The provider retry policy, the resumable batch
  loop and the web-chunk batch loop.
- **Small helpers.** Spreadsheet-text cleaning, the extractor's file lookup,
  and API-key masking.

Every effect becomes data:

- A database table is a sequence of rows.
- A provider or HTTP reply is a function from the attempt number to a
  response.
- A directory walk is a function from a path to its listing.
- The regular expressions the source passes to `re` are an oracle parameter.
  The one pattern whose meaning a property depends on is written out.
- A Python `None` is `Option.None`. A SQL `NULL` string column is `""`
  only where the source tests it for truth or hands it to `urljoin`, which
  treats `None` like `""`. These are the `file_name` and `url` of the
  metadata lookup, the chunk optimizer's `file_name` and the processor's
  URL clean-up. The extractor's `section_name` is an `Option`, because
  `os.path.join` raises `TypeError` on `None`.

Modules, one per file: `Wrappers`, `Text`, `Seqs`, `Patterns`, `Ercot`,
`Urls`, `Joins`, `UrlHandler`, `ProcessorUrls`, `UrlCleanup`, `ChunkQuality`,
`ChunkPairs`, `Citations`, `Assistant`, `Ingest`, `Embeddings`, `ExcelClean`,
`Extractor`, `KeyMask`.

## Model

| member | source | states |
|---|---|---|
| ChunkQuality.DetermineDocumentType | scripts/chunk_optimizer.py:68-118 | a `.xlsx`/`.xls` name in any letter case is always `excel`; otherwise `technical` exactly when a technical keyword occurs in the lower-cased name or content, then `legal` exactly when a legal keyword does, and `default` when neither does |
| ChunkQuality.SpreadsheetNameWins | scripts/chunk_optimizer.py:101-103 | a spreadsheet name decides the type whatever keywords the content holds |
| ChunkQuality.UppercaseKeywordsNeverMatch | scripts/chunk_optimizer.py:82-84 | the keywords written in capitals (`RIOO`, `ELSE`, `QSE`) are searched for in lower-cased text, so they never match and the technical verdict rests on the other keywords alone |
| ChunkQuality.IsNanHeavy | scripts/chunk_optimizer.py:120-124 | a row with no words counts as NaN-heavy; a row with words but no `nan` in its lower-cased text never does |
| ChunkQuality.IsHeaderRow | scripts/chunk_optimizer.py:126-138 | a blank row is never a header row |
| ChunkQuality.HeaderRowWithoutUnnamed | scripts/chunk_optimizer.py:126-138 | a row holding no `Unnamed:` is a header exactly when its stripped text is non-empty and one of the three header patterns matches that stripped text |
| ChunkQuality.IsValidDataRow | scripts/chunk_optimizer.py:140-145 | a spreadsheet row is valid data exactly when a letter or digit is left once the whole-word, case-sensitive `NaN` tokens are removed |
| ChunkQuality.StripKeepsAlnum | scripts/chunk_optimizer.py:143-145 | stripping whitespace neither adds nor removes a letter or digit, so the strip before the alphanumeric test changes no verdict |
| ChunkQuality.UnnamedMatchAt | scripts/chunk_optimizer.py:128 | a match found at a position starts with `Unnamed:`, continues with whitespace and ends with a maximal run of digits |
| ChunkQuality.UnnamedMatchIsTheMatch | scripts/chunk_optimizer.py:128 | wherever `Unnamed:` is followed by whitespace and a maximal digit run, the match found there spans exactly that text, as the greedy `\s*\d+` does |
| ChunkQuality.RemoveUnnamed | scripts/chunk_optimizer.py:128 | removing the pandas `Unnamed: n` column labels never lengthens the text, and text in which the pattern matches at no position comes back unchanged |
| ChunkQuality.KeptBeforeFirstMatch | scripts/chunk_optimizer.py:128 | the substitution copies the text up to the first match, drops the whole match, and carries on after it |
| ChunkQuality.Decide | scripts/chunk_optimizer.py:147-185 | the verdict comes from the first rule, in source order, whose condition holds, and no rule ranked before it holds |
| ChunkQuality.BlankIsLowQuality | scripts/chunk_optimizer.py:149-150 | empty or whitespace-only text is low quality for every type |
| ChunkQuality.FileNameUnused | scripts/chunk_optimizer.py:147-185 | the verdict does not depend on the file-name argument |
| ChunkQuality.CollapseKeepsVerdict | scripts/chunk_optimizer.py:152-153 | collapsing whitespace first does not change the verdict |
| ChunkQuality.IsLowQualityChunk | scripts/chunk_optimizer.py:147-191 | blank text is low quality, and non-blank text whose whitespace-collapsed form its type preserves is kept |
| ChunkQuality.ShouldPreserve | scripts/chunk_optimizer.py:327-330 | a one-line spreadsheet chunk without `NaN` is always preserved |
| ChunkQuality.PreserveOverrides | scripts/chunk_optimizer.py:155-158 | non-blank text matching one of its type's preserve patterns is kept, whatever the later rules say |
| ChunkQuality.SpreadsheetWithoutNaNKept | scripts/chunk_optimizer.py:155-158 | a non-blank spreadsheet chunk whose whitespace-collapsed text has no `NaN` matches the spreadsheet preserve pattern and is kept |
| ChunkQuality.LetterRowKept | scripts/chunk_optimizer.py:50-58 | a spreadsheet chunk whose collapsed text has two or more characters, all letters or spaces, matches the letters-and-spaces preserve pattern and is kept |
| ChunkQuality.SpacedNaNRowKept | scripts/chunk_optimizer.py:56 | the space-separated row `NaN NaN NaN` is letters and spaces, so a spreadsheet keeps it |
| ChunkQuality.AllNaNRowIsLowQuality | scripts/chunk_optimizer.py:155-165 | the comma-separated row `NaN, NaN, NaN` is neither preserved nor a header row and is dropped as NaN-heavy; the only premise is that the unit and keyword patterns, which hold a digit or a capitalised keyword, do not match it |
| ChunkQuality.NanWordsAreHeavy | scripts/chunk_optimizer.py:120-124 | text of any length whose every word holds `nan` once lower-cased is NaN-heavy, because whitespace separates the words and each word adds its own occurrence |
| Patterns.NoNaNLineOnSingleLine | scripts/chunk_optimizer.py:55 | on one line the spreadsheet preserve pattern matches exactly when the text does not contain `NaN` |
| Patterns.NoNaNLineFailsOnTwoLines | scripts/chunk_optimizer.py:55 | a chunk with a non-empty second line never matches that pattern, because `$` without MULTILINE anchors only at the end |
| Patterns.LetterLineOfLetters | scripts/chunk_optimizer.py:56 | text of two or more characters that starts with a letter and holds only letters and whitespace matches the letters-and-spaces pattern, with or without the leading `\s*` |
| Patterns.LetterLineNeedsClass | scripts/chunk_optimizer.py:133 | one character that is not a letter, whitespace or `_` anywhere in the text stops the letters-and-spaces pattern from matching |
| ChunkPairs.ProcessDocumentChunks | scripts/chunk_optimizer.py:234-286 | every reported pair belongs to the document's first row, carries the type judged from its file name, and is more similar than that type's threshold; no chunks give no pairs |
| ChunkPairs.DocumentJudge | scripts/chunk_optimizer.py:239-242 | one type, from the first row's file name, and that type's threshold judge the whole document |
| ChunkPairs.Survivors | scripts/chunk_optimizer.py:247-251 | the chunks kept for comparison are exactly those not judged low quality, in order |
| ChunkPairs.JudgedPairs | scripts/chunk_optimizer.py:253-281 | fewer than two surviving chunks, or a vectorizer failure, give no pairs; every pair is above the threshold and names the document |
| ChunkPairs.SelectedPairs | scripts/chunk_optimizer.py:263-264 | the double loop visits each index pair `i < j` once, in lexicographic order, and keeps exactly the selected ones |
| ChunkPairs.ReportedPairs | scripts/chunk_optimizer.py:263-270 | the reported index pairs are exactly those over the threshold and neither side preserved, in loop order |
| ChunkPairs.PairsAreReported | scripts/chunk_optimizer.py:263-281 | every pair in the output comes from a reported index pair |
| ChunkPairs.ReportedArePairs | scripts/chunk_optimizer.py:263-281 | every reported index pair appears in the output |
| ChunkPairs.PairsOrdered | scripts/chunk_optimizer.py:263-276 | with chunks in id order, the kept chunk of each pair has the smaller id, and the first survivor is never the one deleted |
| ChunkPairs.SecondIdsMayRepeat | scripts/chunk_optimizer.py:472 | three mutually similar chunks put the third chunk's id on the deletion list twice |
| ChunkPairs.RunLength | scripts/chunk_optimizer.py:304-317 | a document's run is the longest prefix of rows sharing the first row's document id |
| ChunkPairs.PairsOfRuns | scripts/chunk_optimizer.py:310-321 | every pair found comes from processing one document's run |
| ChunkPairs.FindSimilarChunks | scripts/chunk_optimizer.py:288-321 | both chunks of every pair are named rows of the document the pair reports |
| ChunkPairs.RunsOrdered | scripts/chunk_optimizer.py:296 | rows sorted by document id and then chunk id give runs in increasing id order |
| ChunkPairs.PairsIdOrdered | scripts/chunk_optimizer.py:296-321 | with the query's ordering, every pair's first id is smaller than its second |
| ChunkPairs.DeletionKeepsAnEarlierChunk | scripts/chunk_optimizer.py:472-473 | each deleted chunk has a smaller-id chunk of the same document that it duplicates |
| Assistant.DocumentMetadata | src/assistant/rag_assistant.py:95-105 | a missing row gives no metadata; a row without a file name is `web` with no URL; otherwise the type is the file's extension after its last dot, the URL is the stored one or a `document://` URL built from the name, and the date is the row's |
| Assistant.StoredUrlNeedsFileName | src/assistant/rag_assistant.py:104 | a stored URL is dropped when the row has no file name |
| Assistant.SplitSentences | src/assistant/rag_assistant.py:110 | splitting on runs of `.`, `!`, `?` gives at least one piece, and no piece holds a terminator |
| Assistant.SplitSentencesKeepsText | src/assistant/rag_assistant.py:110 | the pieces, put back together, are the text with its terminators removed |
| Assistant.SingleSentenceIff | src/assistant/rag_assistant.py:110 | the split gives one piece exactly when the text has no terminator |
| Assistant.QueryTerms | src/assistant/rag_assistant.py:162 | query terms are lower-case whitespace-free tokens |
| Assistant.HasTermIff | src/assistant/rag_assistant.py:118 | a sentence has a term exactly when some lower-cased query term occurs in the lower-cased sentence |
| Assistant.QualifyingFacts | src/assistant/rag_assistant.py:112-119 | every collected sentence is stripped and qualifies; none is collected exactly when no sentence qualifies |
| Assistant.HighlightsCount | src/assistant/rag_assistant.py:121-125 | between one and three highlights are returned |
| Assistant.HighlightsQualify | src/assistant/rag_assistant.py:112-125 | when some sentence qualifies, every highlight qualifies and is stripped |
| Assistant.HighlightsFallback | src/assistant/rag_assistant.py:121-123 | when no sentence qualifies, the single highlight is the first piece of the split |
| Assistant.NoTermsFirstPiece | src/assistant/rag_assistant.py:118-123 | an empty query falls back to the first piece |
| Assistant.ExtractHighlights | src/assistant/rag_assistant.py:107-125 | the loop computes the highlight list and returns between one and three sentences |
| Assistant.Preview | src/assistant/rag_assistant.py:172 | content of up to 200 characters is its own preview; longer content shows its first 200 characters and `...` |
| Assistant.Retrieve | src/assistant/rag_assistant.py:165-189 | a result row keeps the chunk's id, distance, document and title, strips the content, and carries the preview and one to three highlights |
| Assistant.VectorSearch | src/assistant/rag_assistant.py:160-198 | the search succeeds exactly when every row's document has metadata; it then gives one result per row, in row order, and counts the distinct documents as sources used |
| Citations.Matches | src/assistant/rag_assistant.py:206-207 | the matches of `\[(.*?)\]` are consecutive and non-overlapping; each runs from a `[` to the first `]` after it with no line break between |
| Citations.NoBracketNoMatch | src/assistant/rag_assistant.py:206-207 | text without `[` has no citation and comes back unchanged |
| Citations.BareTagMatches | src/assistant/rag_assistant.py:206 | a bracketed title without `]` or a line break is one whole match whose group is the title |
| Citations.CleanIsKept | src/assistant/rag_assistant.py:205-224 | the cleaned text is the input with exactly the matched spans cut out |
| Citations.TotalBound | src/assistant/rag_assistant.py:209-223 | the matched spans never add up to more than the text |
| Citations.CutMatches | src/assistant/rag_assistant.py:209-223 | the loop's in-place cuts, shifted by the running offset, give the cut-out text and one citation per match |
| Citations.ExtractCitations | src/assistant/rag_assistant.py:200-225 | one citation per match, holding the bracketed title, its start in the cleaned text (its original start less everything cut before it), its original length, and starts in non-decreasing order |
| Citations.CitationsFromAt | src/assistant/rag_assistant.py:209-223 | the k-th citation's start is its match's start less the lengths of the earlier matches |
| Citations.CitationsFromFacts | src/assistant/rag_assistant.py:209-223 | citation starts stay within the cleaned text and never decrease |
| Assistant.SourceTag | src/assistant/rag_assistant.py:232-234 | the source tag is the title in brackets, the same length plus two, with no `_` inside |
| Assistant.TitleKeepsChars | src/assistant/rag_assistant.py:233 | title-casing the title with `_` replaced keeps its length and keeps exactly its `]` and line-break positions |
| Assistant.SourceTagIsCitation | src/assistant/rag_assistant.py:232-234 | a source tag the prompt shows is read back by citation extraction as one citation of the displayed title |
| Assistant.CreatePrompt | src/assistant/rag_assistant.py:227-253 | the prompt opens with the instructions and the quoted query, ends with the closing instructions, and holds every chunk's source line |
| Assistant.ToSource | src/assistant/rag_assistant.py:286-298 | a source keeps the chunk's title, content and URL, and its relevance is one minus the distance |
| Assistant.FirstIndices | src/assistant/rag_assistant.py:279-285 | the sources come from exactly the first chunk of each document, in order |
| Assistant.FirstIndicesCount | src/assistant/rag_assistant.py:279-285 | there is one source per distinct document |
| Assistant.FirstIndicesDistinct | src/assistant/rag_assistant.py:279-285 | no two sources come from the same document |
| Assistant.DedupSources | src/assistant/rag_assistant.py:279-298 | the loop with its seen-set gives exactly the first-chunk sources, one per distinct document |
| Assistant.SameDocuments | src/assistant/rag_assistant.py:191-196 | the search's sources-used count and the answer's source list count the same documents |
| Assistant.ProcessQuery | src/assistant/rag_assistant.py:255-309 | no rows give the fixed not-found answer; otherwise the model is prompted once, and the answer is its reply with citations cut out, with one citation per bracketed match of the reply, recording its title, its position in the cleaned answer and its length, the de-duplicated sources and their count, and a word count |
| Urls.Quote | src/utils/url_handler.py:44 | `quote(s)` keeps unreserved characters and `/` and percent-encodes the others; it changes nothing exactly when every character is safe |
| Urls.QuoteAppend | src/utils/url_handler.py:44 | quoting distributes over concatenation |
| Urls.Utf8RoundTrip | src/utils/url_handler.py:61 | UTF-8 decoding undoes UTF-8 encoding |
| Urls.QuoteRoundTrip | src/utils/url_handler.py:61 | `unquote(quote(s))` is `s` for every string |
| Urls.QuoteInjective | src/utils/url_handler.py:67 | two names with the same quoted form are the same name |
| Urls.ParsedPath | src/utils/url_handler.py:34 | the parsed path contains no `?` or `#`, and parsing fails exactly when the split fails |
| Urls.ParsedPathOfHttps | src/utils/url_handler.py:34 | the path of `https://host/p` is `p` up to its query or fragment |
| Urls.UrlSplit | src/utils/url_handler.py:34 | the path of a successful split has no `?` or `#` |
| Urls.UrlSplitFailsIff | src/utils/url_handler.py:34 | the split fails exactly when the authority has a `[` without a `]` or a `]` without a `[` |
| Joins.UrlJoin | src/utils/url_handler.py:69-71 | joining an empty reference gives the base directory URL; the join fails exactly when the reference cannot be split |
| Joins.JoinPlain | src/utils/url_handler.py:69-71 | joining a plain name onto an ERCOT base directory appends the name |
| Joins.RelativeReference | src/utils/url_handler.py:69-71 | a reference without a scheme or authority parses with the default scheme and no host |
| Joins.JoinStaysOnHost | src/utils/url_handler.py:69-71 | joining any reference without a host stays on `https://www.ercot.com/` |
| Joins.UrlParsePath | src/processor/processor.py:51-52 | `urlparse` agrees with `urlsplit` on success and on the path |
| UrlHandler.OriginalUrl | src/utils/url_handler.py:57-62 | the original URL lies under the files root, and unquoting its tail gives the file name back |
| UrlHandler.DocumentBase | src/utils/url_handler.py:65-71 | a document resolves against either the files directory or the services directory |
| UrlHandler.DocumentUrl | src/utils/url_handler.py:65-71 | a name that does not start with `/` yields a URL on the ERCOT site |
| UrlHandler.QuotedNameStaysOnHost | src/utils/url_handler.py:67-71 | joining a quoted file name never fails and stays on the ERCOT site |
| UrlHandler.DocumentUrlOfName | src/utils/url_handler.py:65-71 | a name without `/` that is not a dot segment yields the base directory URL followed by the quoted name |
| UrlHandler.DirectoryUrlShape | src/utils/url_handler.py:57-71 | that URL, for a `web` row, lies under the services root and its tail decodes back to the name; for any other row it is the original URL |
| UrlHandler.NormalizeUrl | src/utils/url_handler.py:17-54 | an empty URL stays empty; normalisation fails only when an ERCOT URL's path cannot be parsed |
| UrlHandler.NormalizeFileUrl | src/utils/url_handler.py:25-30 | a `file://` URL becomes the original URL of the file name, which unquotes back to the name, or loses only its version marker when there is no name |
| UrlHandler.NormalizeForeignUrl | src/utils/url_handler.py:19-23 | a URL of another site is cut at its version marker, and it is unchanged exactly when it has no marker |
| UrlHandler.NormalizeErcotUrl | src/utils/url_handler.py:32-52 | a normalised ERCOT URL starts with the site URL and has no query or fragment characters after it |
| UrlHandler.RebuildKeepsNoQuery | src/utils/url_handler.py:43-46 | rebuilding a document path keeps it free of query and fragment characters |
| UrlHandler.NormalizeDropsVersionMarker | src/utils/url_handler.py:17-54 | a normalised URL never contains the `_v` version marker, unless it is a file's original URL whose name has one |
| UrlHandler.NormalizeServiceDocument | src/utils/url_handler.py:41-50 | a services URL naming a document file becomes that file's original URL under the files directory |
| UrlHandler.LikePlainPrefix | src/utils/url_handler.py:91 | `LIKE u || '%'` with a wildcard-free `u` is a prefix test |
| UrlHandler.LongestLike | src/utils/url_handler.py:88-98 | the lookup answers with a matching stored URL no shorter than any other match, or nothing exactly when no row matches |
| UrlHandler.UrlOfTitle | src/utils/url_handler.py:101-111 | the title lookup answers with the URL of a row of that title, or nothing exactly when there is none |
| UrlHandler.GetCompleteUrl | src/utils/url_handler.py:74-116 | a URL naming a document comes back as it is; otherwise the longest LIKE match, then a row of the title, and otherwise the URL itself |
| UrlHandler.CompleteUrlExtendsPlainUrl | src/utils/url_handler.py:88-98 | for a wildcard-free URL with a stored extension, the answer extends the URL and is a longest such stored URL |
| UrlHandler.UnderscoreMatchesOtherDocument | src/utils/url_handler.py:88-98 | as written, a `_` in the URL matches any character, so a stored URL that does not extend it can be returned |
| UrlHandler.LikeEscapedPrefix | src/utils/url_handler.py:91 | with its wildcards escaped, the pattern matches exactly the URLs that extend the given URL |
| UrlHandler.GetCompleteUrlEscaped | src/utils/url_handler.py:74-116 | the corrected lookup answers only with a longest stored URL that extends the URL, then a row of the title, and otherwise the URL itself |
| UrlHandler.EscapedAgreesOnPlainUrl | src/utils/url_handler.py:88-98 | on a URL without `%`, `_` or `\` the corrected lookup answers as the original one |
| UrlHandler.Like | src/utils/url_handler.py:91 | a pattern without `%`, `_` or `\` matches exactly the string equal to it |
| ProcessorUrls.NormalizeUrl | src/processor/processor.py:41-64 | a `file://` URL with a name is joined onto the files directory; other sites pass unchanged; an ERCOT URL fails exactly when its path cannot be parsed, and it changes only to a services path under the site URL |
| ProcessorUrls.NormalizeDropsServiceQuery | src/processor/processor.py:49-62 | a services URL loses its query string |
| ProcessorUrls.ServiceUrlFixed | src/processor/processor.py:59-62 | a services URL without a query is already normal |
| ProcessorUrls.FileUrlJoinsRawName | src/processor/processor.py:43-47 | a plain file name is appended to the files root unquoted |
| ProcessorUrls.DocumentUrl | src/processor/processor.py:67-72 | the document URL fails exactly when a non-empty name cannot be split, and a plain name is appended to its base directory |
| ProcessorUrls.GetLoader | src/processor/processor.py:77-88 | a loader is chosen exactly when the lower-cased extension is one of the five document extensions |
| ProcessorUrls.LoaderIffDocumentExtension | src/processor/processor.py:77-88 | the loader choice and the URL handler's document-extension test agree on every path |
| ProcessorUrls.TargetUrl | src/processor/processor.py:359-362 | a document row with a plain file name is pointed at the files root followed by that name |
| ProcessorUrls.DocumentTargetIgnoresUrl | src/processor/processor.py:359-360 | a document row's target does not depend on its current URL |
| ProcessorUrls.UpdateUrl | src/db/setup.py:35-43 | an `UPDATE` of one row's URL is refused with the constraint's error, changing nothing, or sets that one URL |
| ProcessorUrls.UpdateRefusedIffDuplicate | src/db/setup.py:42 | on a table with unique URLs, an update is refused exactly when it would leave two rows with the same URL |
| ProcessorUrls.UpdateKeepsUnique | src/db/setup.py:42 | an accepted update keeps the URLs unique |
| ProcessorUrls.ApplyTargets | src/processor/processor.py:364-378 | the batch fails exactly when a target cannot be computed or an `UPDATE` would give a URL another row already holds (the `unique_document_url` constraint); on success every row has its target, the count is the number of URLs that changed, and unique URLs stay unique; a failed batch is rolled back with no updates |
| ProcessorUrls.CleanupUrls | src/processor/processor.py:344-378 | all rows are retargeted or none are: the run fails exactly when a target fails or an update is refused by `unique_document_url`; afterwards every document row is clean and unique URLs stay unique, and a clean table is left as it is with zero updates |
| UrlCleanup.SqlNormalized | scripts/cleanup_urls.py:52-58 | the SQL CASE points `file://` rows at the files root followed by the file name and cuts other URLs before their `?v=` |
| UrlCleanup.SqlFilePattern | scripts/cleanup_urls.py:53 | `LIKE 'file://%'` is a prefix test |
| UrlCleanup.SqlVersionPattern | scripts/cleanup_urls.py:55 | `LIKE '%?v=%'` is a substring test |
| UrlCleanup.LikeContains | scripts/cleanup_urls.py:55 | `LIKE '%' || u || '%'` with a wildcard-free `u` is a substring test |
| UrlCleanup.VersionedInjective | scripts/cleanup_urls.py:83 | two versioned URLs are equal only for the same key and version |
| UrlCleanup.RenameOf | scripts/cleanup_urls.py:75-89 | a renamed row is a non-first member of some group and gets that group's versioned URL |
| UrlCleanup.PassOne | scripts/cleanup_urls.py:75-89 | the first pass keeps every row's id, file name and type, and changes only rows it renames |
| UrlCleanup.PassOneKeepsPrimary | scripts/cleanup_urls.py:79 | the first row of each duplicate group keeps its URL |
| UrlCleanup.PassOneVersionsMembers | scripts/cleanup_urls.py:82-88 | the k-th later member of a group gets the group's URL with version k |
| UrlCleanup.PassOneRenamesDistinct | scripts/cleanup_urls.py:75-89 | no two renamed rows get the same URL |
| UrlCleanup.PassTwo | scripts/cleanup_urls.py:92-109 | the second pass sets every row whose URL is not shared to its normalised URL; it fails exactly when one of those cannot be normalised or its `UPDATE` is refused by `unique_document_url`, and on success unique URLs stay unique |
| UrlCleanup.Cleanup | scripts/cleanup_urls.py:44-133 | the clean-up keeps the rows and their ids; an error anywhere rolls the whole run back |
| UrlCleanup.CleanupMergesServiceQueries | scripts/cleanup_urls.py:92-133 | as written, two services URLs that differ only in their query both normalise to one URL, so the second `UPDATE` violates `unique_document_url` and the whole run is rolled back |
| UrlCleanup.UniqueUrlsNoneShared | scripts/cleanup_urls.py:92-100 | on a table with unique URLs the second pass selects every row |
| UrlCleanup.FreshUrlKeepsUnshared | scripts/cleanup_urls.py:92-109 | writing a URL no other row holds never makes an unshared row shared |
| UrlCleanup.GuardedPassTwo | scripts/cleanup_urls.py:92-109 | the corrected second pass writes a URL only when no other row holds it, so no update is refused, every unshared row stays unshared and unique URLs stay unique |
| UrlCleanup.CleanupGuarded | scripts/cleanup_urls.py:44-133 | the corrected clean-up fails exactly when a selected row cannot be normalised, never makes two rows share a URL, and keeps unique URLs unique |
| UrlCleanup.GuardedKeepsServiceRowsApart | scripts/cleanup_urls.py:92-133 | on the two services rows of the finding, the corrected clean-up succeeds, rewrites the first and leaves the second, with URLs still unique |
| Ingest.CreateChunks | src/processor/processor.py:210-223 | chunks are the stripped splitter texts of at least 50 characters, in order, each with its document id and splitter index |
| Ingest.CreateChunksExactly | src/processor/processor.py:210-213 | a text yields a chunk exactly when its stripped form is long enough |
| Ingest.ShortTextsGiveNoChunks | src/processor/processor.py:210-213 | a document of short texts gives no chunks |
| Ingest.Metadata | src/processor/processor.py:219-222 | the metadata records the chunk's size, and its quality score is 100 times its words per character |
| Ingest.CreateScoredChunks | src/processor/processor.py:198-225 | one scored chunk per filtered chunk, each with its size |
| Ingest.EnumerateChunksContents | src/processor/extractor.py:171-178 | the extractor's chunks are its texts, all kept, in order |
| Ingest.Store | scripts/web_content/update_web_content.py:99-126 | storing appends all chunks or, on failure, none, and reports how many rows were added |
| Ingest.StorePair | src/processor/processor.py:227-255 | the processor's store appends all chunks or none, and reports the count stored and zero skipped |
| Ingest.Unpack2 | scripts/reprocess_document_chunks.py:343 | two-name unpacking succeeds exactly on a pair |
| Ingest.ReprocessDocument | scripts/reprocess_document_chunks.py:343-360 | the unpacking always fails, so the document is logged as an error; the table gains its chunks when the insert succeeds and is unchanged otherwise |
| Ingest.ReprocessAlwaysFails | scripts/reprocess_document_chunks.py:343-360 | as written, every successfully stored document is logged as an error after its chunks are committed |
| Ingest.ProcessDocument | scripts/reprocess_document_chunks.py:303-363 | the corrected loop logs the number stored and none skipped, and the table gains the document's chunks |
| Ingest.ReprocessExtensionOf | scripts/reprocess_document_chunks.py:391 | the extension is the lower-cased text after the last dot |
| Ingest.KeepLines | scripts/web_content/update_web_content.py:57-60 | kept lines are stripped input lines longer than 20 characters |
| Ingest.KeptLinesStripped | scripts/web_content/update_web_content.py:57-60 | kept lines have no surrounding whitespace |
| Ingest.SplitBlankJoin | scripts/web_content/update_web_content.py:62 | splitting the blank-line-joined lines gives the lines with empty lines between them |
| Ingest.CleanLines | scripts/web_content/update_web_content.py:55-62 | every line of the cleaned text is empty or a stripped line of the page longer than 20 characters |
| Ingest.KeepLinesWithBlanks | scripts/web_content/update_web_content.py:55-62 | filtering a cleaned page again keeps exactly its lines |
| Ingest.CleanLinesIdempotent | scripts/web_content/update_web_content.py:55-62 | cleaning page text twice is cleaning it once |
| Ingest.EnhancedContent | scripts/web_content/update_web_content.py:25-68 | a failed fetch yields text starting with `Error: ` |
| Ingest.UpdateDocument | scripts/web_content/update_web_content.py:146-172 | a document's chunks are replaced exactly when the page text is non-empty and the insert succeeds |
| Ingest.FailedFetchReplaces | scripts/web_content/update_web_content.py:146-166 | as written, a failed fetch replaces the document's chunks with chunks of the error text |
| Ingest.StatusErrorEmptiesDocument | scripts/web_content/update_web_content.py:86-89 | as written, an HTTP error status leaves the document with no chunks, because the error text is shorter than any chunk |
| Ingest.UpdateDocumentChecked | scripts/web_content/update_web_content.py:146-172 | the corrected update leaves a document unchanged when its fetch fails, and otherwise updates it as before |
| Embeddings.QuotaMessageIsQuotaError | src/processor/embedding_generator.py:59 | the error raised for 402 Payment Required is recognised as a quota error |
| Embeddings.Attempts | src/processor/embedding_generator.py:55-75 | the loop stops within the remaining attempts; the waits double from the delay; a returned result is the last attempt's answer, and a raised error is the last attempt's error |
| Embeddings.GetEmbeddings | src/processor/embedding_generator.py:40-75 | at most `retry_count` attempts; the call returns nothing and attempts nothing exactly when `retry_count` is not positive |
| Embeddings.NeverNoneOnceTried | src/processor/embedding_generator.py:55 | once an attempt is made the call either returns or raises |
| Embeddings.QuotaNeverRetried | src/processor/embedding_generator.py:68-70 | a quota error is raised at once, with no wait and no retry |
| Embeddings.PaymentRequiredNeverRetried | src/processor/embedding_generator.py:58-59 | a first 402 reply is raised as the quota error after one attempt |
| Embeddings.FirstAnswerReturned | src/processor/embedding_generator.py:61-67 | after retryable failures, the first answer is returned, one wait per earlier failure |
| Embeddings.LastFailureRaised | src/processor/embedding_generator.py:71-72 | when every attempt fails retryably, the last failure is raised after all attempts |
| Embeddings.DefaultBackoff | src/processor/embedding_generator.py:73-75 | with the defaults, two failures wait 2 and then 4 seconds before the third attempt |
| Embeddings.BatchRows | src/processor/embedding_generator.py:138-151 | each stored row pairs a batch chunk with its vector, the provider and an equal share of the tokens; rows stop where the vectors do |
| Embeddings.BatchTokensBounded | src/processor/embedding_generator.py:148 | the tokens recorded for a batch never exceed the tokens the provider reported |
| Embeddings.FullAnswerEmbedsBatch | src/processor/embedding_generator.py:138 | a full answer stores one row for each chunk of the batch, in order |
| Embeddings.NextBatch | src/processor/embedding_generator.py:116-128 | the next batch has at most the batch size of chunks not yet embedded, and is empty exactly when none are left |
| Embeddings.NextBatchLowest | src/processor/embedding_generator.py:116-128 | the batch takes the lowest ids not yet embedded |
| Embeddings.ResumeLoop | src/processor/embedding_generator.py:110-162 | the loop only appends to the table; it stops when all chunks are embedded, on a quota error (the failing call being the last one made), or when the replies run out |
| Embeddings.Resume | src/processor/embedding_generator.py:77-188 | nothing left to embed means nothing is done; a refusal at the prompt changes nothing; the table is only appended to |
| Embeddings.AllEmbeddedMeansDone | src/processor/embedding_generator.py:126-128 | when the loop ends for lack of work, every chunk has an embedding |
| Embeddings.ResumeKeepsIdsDistinct | src/processor/embedding_generator.py:116-151 | the loop never embeds a chunk twice |
| Embeddings.FailedBatchRolledBack | src/processor/embedding_generator.py:154-162 | a batch that fails with another error is rolled back and the loop goes on as if it had not been tried |
| Embeddings.SlicesPartition | scripts/web_content/update_web_embeddings.py:102-105 | the batches, in order, are exactly the chunks |
| Embeddings.SlicesFull | scripts/web_content/update_web_embeddings.py:102-105 | every batch but the last is full |
| Embeddings.WebLoop | scripts/web_content/update_web_embeddings.py:102-133 | the loop makes one call per batch until a failure, which it reports and stops at |
| Embeddings.WebLoopFailsAt | scripts/web_content/update_web_embeddings.py:121-133 | the first failed batch stops the loop with its error, and earlier batches stay committed |
| Embeddings.UpdateWebEmbeddings | scripts/web_content/update_web_embeddings.py:78-139 | no chunks or a non-positive batch size change nothing, and the table is only appended to |
| Embeddings.WebFailureKeepsEarlierBatches | scripts/web_content/update_web_embeddings.py:121-133 | a failure at batch k keeps the rows of batches before k and raises the error |
| Embeddings.WebEmbedsEveryChunk | scripts/web_content/update_web_embeddings.py:102-127 | when every batch is answered in full, every chunk is embedded once, in order |
| ExcelClean.CleanExcelContent | scripts/improve_rag/fix_excel_processing.py:15-26 | the cleaned text is the kept tokens joined by single spaces |
| ExcelClean.CleanDropsExactlyNan | scripts/improve_rag/fix_excel_processing.py:18-21 | the result has no `nan` token, and every other input token is in it |
| ExcelClean.CleanShape | scripts/improve_rag/fix_excel_processing.py:18-24 | the result has no outer whitespace and no run of spaces |
| ExcelClean.CleanIdempotent | scripts/improve_rag/fix_excel_processing.py:15-26 | cleaning twice is cleaning once |
| ExcelClean.AllNanCleansToEmpty | scripts/improve_rag/fix_excel_processing.py:20 | text made only of `nan` tokens cleans to empty text |
| ExcelClean.LongerTokenKept | scripts/improve_rag/fix_excel_processing.py:20 | a token that only contains `nan` is kept |
| ExcelClean.NanSpellingsDropped | scripts/improve_rag/fix_excel_processing.py:20 | `NaN`, `nan` and `NAN` are all dropped |
| Extractor.CleanFilename | src/processor/extractor.py:25-27 | the cleaned name is no longer than the title and holds only lower-case allowed characters |
| Extractor.CleanFilenameIsFilterLower | src/processor/extractor.py:27 | the cleaned name is the title's allowed characters, in order, lower-cased |
| Extractor.CleanFilenameIdempotent | src/processor/extractor.py:27 | cleaning a cleaned name changes nothing |
| Extractor.CleanFilenameIgnoresCase | src/processor/extractor.py:27 | titles that differ only in case clean to the same name |
| Extractor.Stem | src/processor/extractor.py:67 | the stem is a prefix of the file name |
| Extractor.StemOfPlainName | src/processor/extractor.py:67 | `base.ext` has stem `base` |
| Extractor.SectionPaths | src/processor/extractor.py:49-55 | the transmission section searches two directories and every other section one |
| Extractor.FindFile | src/processor/extractor.py:45-79 | a found path belongs to a listed file whose cleaned stem is the cleaned title, was not returned before, and is recorded; nothing is found exactly when no listed file qualifies; a missing section finds nothing and records nothing |
| Extractor.NullSectionFindsNothing | src/processor/extractor.py:55 | a NULL section finds nothing even where the empty section would find a file under `data/documents`, since `os.path.join` raises on `None` and the handler returns `None` |
| Extractor.NeverSamePathTwice | src/processor/extractor.py:43 | two lookups never return the same path |
| Extractor.TdspFirstDirectoryFirst | src/processor/extractor.py:49-72 | in the transmission section, a match in the first directory wins over any in the second |
| Extractor.FindFileIgnoresCase | src/processor/extractor.py:57 | the lookup finds the same file whatever the title's case |
| KeyMask.LastChars | src/processor/check_jina_quota.py:64-65 | the last n characters of the key, or the whole key when it is shorter |
| KeyMask.MaskApiKey | src/processor/check_jina_quota.py:61-65 | a mask is at most 16 characters, ends with the key's last 6 characters (all of a shorter key), and starts with the first 7 of a key longer than 13 |
| KeyMask.LongKeyMask | src/processor/check_jina_quota.py:63-65 | a key longer than 13 characters shows its first 7 and last 6 characters around `...` |
| KeyMask.ShortKeyMask | src/processor/check_jina_quota.py:63-64 | a shorter key shows `...` and at most its last 6 characters |
| KeyMask.MaskShape | src/processor/check_jina_quota.py:61-65 | every mask contains `...` and ends with the key's last characters |
| KeyMask.MaskHidesMiddle | src/processor/check_jina_quota.py:61-65 | a mask shows at most 13 characters of the key, so a longer key is never shown whole |
| KeyMask.LongMasksEqualIff | src/processor/check_jina_quota.py:65 | two long keys mask alike exactly when their first 7 and last 6 characters agree |

## Left out

- Database connections, cursors, commits and rollbacks are not modelled as effects. A table is a sequence of rows, and a commit or rollback is the table kept or the table restored.
- HTTP requests, the Jina and Groq clients, and `time.sleep` are left out. A provider or model reply is a function of the attempt number, and waits are returned as values.
- Console prompts (`input`), progress bars, logging and `print` are left out. A prompt's answer is a parameter.
- The LangChain text splitter, the document loaders, BeautifulSoup, and the Word and Excel readers are not modelled. Their output (the split texts, the page text) is an input.
- TF-IDF vectors and cosine similarity are not modelled. They are a similarity function given as a parameter.
- Backups, the registration scripts, the diagnostics, and the scraper are outside the modelled core.
- ChunkQuality.Decide: the preserve, header and unit regular expressions are an oracle parameter. The spreadsheet no-NaN pattern and the two letters-and-spaces patterns are written out, in `Patterns`.
- ChunkQuality.DetermineDocumentType: letter case is ASCII. Python's Unicode `lower()` is not modelled.
- ChunkQuality.IsValidDataRow: `\b` and `isalnum` are ASCII. Python's Unicode word boundary differs, so for `éNaN` the source keeps `NaN` as part of a word and the model removes it.
- ChunkQuality.Decide: the alphabetic-ratio rule counts ASCII letters. Python's `isalpha` also counts letters such as `ñ`, so a mostly non-ASCII chunk can get a different verdict.
- Assistant.HasTermIff: `lower()` is ASCII. Python lower-cases non-ASCII letters too, so `É` in a sentence does not match `é` in the query here.
- UrlCleanup.PassOne: the renames are applied together. The `unique_document_url` check on each rename `UPDATE` is not modelled, because whether a versioned URL collides depends on the order of the writes.
- Extractor.CleanFilename: `isalnum` and `lower` are ASCII. Non-ASCII letters count as removed characters.
- Ingest.Metadata: the quality score is a real number, not a binary float with rounding.
- Embeddings.ResumeLoop: the loop runs for as long as the finite sequence of provider replies lasts. It then stops with `OutOfCalls`, so a provider that never refuses is not modelled as an endless run.
- Embeddings.GetEmbeddings: the exception inside `time.sleep` is folded into one sleep-error outcome.
- ChunkPairs.ProcessDocumentChunks: the one failure modelled is the vectorizer's, before the loop, which gives no pairs. The similarity function is total, so an exception inside the loop is not modelled. In the source such an exception is logged and the pairs found up to that point are returned.
- KeyMask.MaskApiKey: the `None` key (the "Not found" branch) is not modelled.
- UrlHandler.NormalizeUrl: `urlsplit`'s Unicode (NFKC) netloc check and bracketed-host validation are left out. Only the unbalanced-bracket `ValueError` is kept.
- UrlHandler.GetCompleteUrl: the row order for `ORDER BY LENGTH(url) DESC` ties and for `LIMIT 1` is taken to be table order. Database errors are not modelled.
- Extractor.FindFile: `os.walk` errors are not modelled, and paths use `/`.
- UrlCleanup.PassTwo: rows are taken in table order. The second pass's `SELECT` has no `ORDER BY`, so which row's `UPDATE` fails first depends on an order the database does not fix.
- Ingest.EnhancedContent: fetching and parsing the page is an input (`Fetch`). Only the line filter and the error texts are modelled.
- Assistant.ProcessQuery: the elapsed-time field is not modelled.
- ChunkQuality.RemoveUnnamed: `\d` is ASCII here. Python's `\d` on text matches every Unicode decimal digit, so the source removes `Unnamed: ٣` and the model keeps it.
- Assistant.SourceTag: title-casing is ASCII. Python's `str.title()` maps `ß` to `Ss`, so for the title `straße` the source's tag is longer than the title plus two.
- Assistant.TitleKeepsChars: title-casing is ASCII. Python treats `é` as a cased letter, so `éa` becomes `Éa` in the source and `éA` here, and `ß` becomes `Ss`, which changes the length.
- Ingest.ReprocessExtensionOf: `lower()` is ASCII. For `x.PDÉ` the source gives `pdé` and the model gives `pdÉ`.
- Ingest.StorePair: whether the insert succeeds is a parameter. As written, `store_chunks` passes each chunk's `metadata` dict for a `metadata` column that the `chunks` table of src/db/setup.py:46-52 lacks, and psycopg2 cannot adapt a dict, so every non-empty insert would fail and be rolled back.
- Assistant.CreatePrompt: a `None` title is not modelled. The source would fail on it.

## Findings

| source | as written | input that shows it | evidently intended | confidence | as-written member | corrected member |
|---|---|---|---|---|---|---|
| src/utils/url_handler.py:88-94 | The URL is used directly as a `LIKE` prefix, so `_` and `%` in it are wildcards. | URL `<head>_b` with a stored URL `<head>Xb.pdf` returns `<head>Xb.pdf`, which does not extend it. | Only stored URLs that extend the given URL are returned. | medium, not executed | UrlHandler.UnderscoreMatchesOtherDocument | UrlHandler.GetCompleteUrlEscaped |
| scripts/cleanup_urls.py:92-109 | The second pass rewrites every unshared URL to its normalised form without checking that the new URL is free. | Two `web` rows `…/services/rq/<name>?a=1` and `…/services/rq/<name>?a=2` normalise to the same URL; the second `UPDATE` violates `unique_document_url` and the whole run is rolled back. | Rows whose normalised URL is taken are left alone, so the clean-up completes. | medium, not executed | UrlCleanup.CleanupMergesServiceQueries | UrlCleanup.GuardedKeepsServiceRowsApart |
| scripts/reprocess_document_chunks.py:343 | `stored, skipped = self.store_chunks(chunks)` unpacks the single int that `store_chunks` returns (line 276), after the insert is committed. | Any document whose chunks store successfully is logged as an error. | Record the stored count, with none skipped. | high, not executed | Ingest.ReprocessAlwaysFails | Ingest.ProcessDocument |
| scripts/web_content/update_web_content.py:64-68 | A failed fetch returns an `Error: …` string, which the update loop chunks and uses to replace the document's chunks. | A fetch that raises replaces the chunks with chunks of the error text. An HTTP 404 leaves the document with none. | A failed fetch leaves the document's chunks unchanged. | high, not executed | Ingest.FailedFetchReplaces | Ingest.UpdateDocumentChecked |

=== FILE: assistant.dfy ===
/** The answer pipeline of the assistant: metadata and preview of retrieved
    chunks, highlight sentences, the prompt, and `process_query`, which
    deduplicates sources and cleans citation tags out of the model's answer.

    The embedding call, the vector search itself and the language model are
    not modelled: the rows the search returns, the documents table and the
    model's reply are inputs. */
module Assistant {
  import opened Wrappers
  import opened Text
  import opened Seqs
  import opened Citations

  // ---------------------------------------------------------------------
  // get_document_metadata
  // ---------------------------------------------------------------------

  /** The columns of a `documents` row the metadata is built from. A NULL
      file name or url is the empty string: Python treats both as false. */
  datatype DocRow = DocRow(fileName: string, url: string, createdAt: Option<string>)

  /** `created_at` is carried as its `isoformat()` text. */
  datatype Metadata = Metadata(documentType: string, lastUpdated: Option<string>, url: Option<string>)

  /** The documents table, by id. */
  type Documents = int -> Option<DocRow>

  /** `get_document_metadata`: `None` stands for the empty dict returned for
      an unknown id. */
  function DocumentMetadata(row: Option<DocRow>): (r: Option<Metadata>)
    ensures r.Some? <==> row.Some?
    ensures row.Some? && row.value.fileName == "" ==>
      r.value.documentType == "web" && r.value.url == None
    ensures row.Some? && row.value.fileName != "" ==>
      var fn := row.value.fileName;
      var t := r.value.documentType;
      && (forall j :: 0 <= j < |t| ==> t[j] != '.')
      && EndsWith(fn, t)
      && (t == fn || fn[|fn| - |t| - 1] == '.')
      && r.value.url.Some?
    ensures row.Some? && row.value.fileName != "" && row.value.url != "" ==>
      r.value.url == Some(row.value.url)
    ensures row.Some? && row.value.fileName != "" && row.value.url == "" ==>
      r.value.url == Some("document://" + row.value.fileName)
    ensures row.Some? ==> r.value.lastUpdated == row.value.createdAt
  {
    match row
    case None => None
    case Some(d) =>
      Some(Metadata(
        if d.fileName != "" then LastSegment(d.fileName, '.') else "web",
        d.createdAt,
        if d.fileName != "" then Some(if d.url != "" then d.url else "document://" + d.fileName) else None))
  }

  /** A stored url is dropped when the document has no file name. */
  lemma StoredUrlNeedsFileName(u: string, createdAt: Option<string>)
    ensures DocumentMetadata(Some(DocRow("", u, createdAt))).value.url == None
  {
  }

  // ---------------------------------------------------------------------
  // extract_highlights
  // ---------------------------------------------------------------------

  /** A character of the class `[.!?]`. */
  predicate IsTerminator(c: char) { c == '.' || c == '!' || c == '?' }

  predicate NotTerminator(c: char) { !IsTerminator(c) }

  function FirstTerminator(s: string): (r: Option<nat>)
    ensures r.Some? ==> r.value < |s| && IsTerminator(s[r.value])
    ensures r.Some? ==> forall k :: 0 <= k < r.value ==> !IsTerminator(s[k])
    ensures r.None? ==> forall k :: 0 <= k < |s| ==> !IsTerminator(s[k])
  {
    if s == [] then None
    else if IsTerminator(s[0]) then Some(0)
    else match FirstTerminator(s[1..])
      case None => None
      case Some(i) => Some(i + 1)
  }

  /** Length of the run of terminators `s` starts with. */
  function TerminatorRun(s: string): (n: nat)
    ensures n <= |s|
    ensures forall k :: 0 <= k < n ==> IsTerminator(s[k])
    ensures n < |s| ==> !IsTerminator(s[n])
  {
    if s == [] || !IsTerminator(s[0]) then 0 else 1 + TerminatorRun(s[1..])
  }

  /** `re.split('[.!?]+', s)`: the pieces between maximal runs of
      terminators; never empty, and no piece holds a terminator. */
  function SplitSentences(s: string): (r: seq<string>)
    decreases |s|
    ensures |r| >= 1
    ensures forall k, j :: 0 <= k < |r| && 0 <= j < |r[k]| ==> !IsTerminator(r[k][j])
  {
    match FirstTerminator(s)
    case None => [s]
    case Some(i) => [s[..i]] + SplitSentences(s[i + TerminatorRun(s[i..])..])
  }

  /** Splitting loses exactly the terminators: the pieces, put back together,
      are the text with its terminators deleted. */
  lemma {:induction false} SplitSentencesKeepsText(s: string)
    ensures Flatten(SplitSentences(s)) == Filter(s, NotTerminator)
    decreases |s|
  {
    match FirstTerminator(s)
    case None =>
      FilterAll(s, NotTerminator);
      assert Flatten([s]) == s + Flatten([]);
    case Some(i) =>
      var rest := s[i + TerminatorRun(s[i..])..];
      SplitSentencesKeepsText(rest);
      FlattenSplitCons(s, i);
      FilterSplitCons(s, i);
  }

  lemma FlattenSplitCons(s: string, i: nat)
    requires FirstTerminator(s) == Some(i)
    ensures Flatten(SplitSentences(s)) == s[..i] + Flatten(SplitSentences(s[i + TerminatorRun(s[i..])..]))
  {
    var r := SplitSentences(s);
    var rest := s[i + TerminatorRun(s[i..])..];
    assert r == [s[..i]] + SplitSentences(rest);
    assert r[1..] == SplitSentences(rest);
  }

  lemma FilterSplitCons(s: string, i: nat)
    requires FirstTerminator(s) == Some(i)
    ensures Filter(s, NotTerminator) == s[..i] + Filter(s[i + TerminatorRun(s[i..])..], NotTerminator)
  {
    var n := TerminatorRun(s[i..]);
    SentenceParts(s, i, n, s[..i], s[i..i + n], s[i + n..]);
    KeepDropKeep(s[..i], s[i..i + n], s[i + n..], NotTerminator);
  }

  /** The text before its first terminator, the run of terminators there,
      and the rest. */
  lemma SentenceParts(s: string, i: nat, n: nat, head: string, run: string, rest: string)
    requires FirstTerminator(s) == Some(i) && n == TerminatorRun(s[i..])
    requires i + n <= |s| && head == s[..i] && run == s[i..i + n] && rest == s[i + n..]
    ensures s == head + run + rest
    ensures forall k :: 0 <= k < |head| ==> NotTerminator(head[k])
    ensures forall k :: 0 <= k < |run| ==> !NotTerminator(run[k])
  {
    SliceThree(s, i, i + n);
    forall k | 0 <= k < |run| ensures !NotTerminator(run[k]) {
      assert run[k] == s[i..][k];
    }
  }

  /** The text is one sentence exactly when it holds no terminator. */
  lemma SingleSentenceIff(s: string)
    ensures |SplitSentences(s)| == 1 <==> forall k :: 0 <= k < |s| ==> !IsTerminator(s[k])
  {
    match FirstTerminator(s)
    case None =>
    case Some(i) =>
  }

  /** `query.lower().split()` */
  function QueryTerms(query: string): (terms: seq<string>)
    ensures forall t, j :: 0 <= t < |terms| && 0 <= j < |terms[t]| ==> !IsUpper(terms[t][j])
    ensures forall t :: 0 <= t < |terms| ==> IsToken(terms[t])
  {
    WordsAreTokens(Lower(query));
    WordsChars(Lower(query));
    Words(Lower(query))
  }

  /** The characters of the words are characters of the text. */
  lemma {:induction false} WordsChars(s: string)
    requires forall i :: 0 <= i < |s| ==> !IsUpper(s[i])
    ensures forall t, j :: 0 <= t < |Words(s)| && 0 <= j < |Words(s)[t]| ==> !IsUpper(Words(s)[t][j])
    decreases |s|
  {
    if s != [] {
      if IsSpace(s[0]) {
        WordsChars(s[1..]);
      } else {
        var n := WordLen(s);
        WordsChars(s[n..]);
        var ws := Words(s);
        assert ws == [s[..n]] + Words(s[n..]);
        forall t, j | 0 <= t < |ws| && 0 <= j < |ws[t]| ensures !IsUpper(ws[t][j]) {
          if t > 0 {
            assert ws[t] == Words(s[n..])[t - 1];
          }
        }
      }
    }
  }

  /** A sentence becomes a highlight when, stripped, it is non-empty and
      contains some query term, ignoring case. */
  predicate Qualifies(terms: seq<string>, sentence: string) {
    sentence != "" && HasTerm(terms, Lower(sentence))
  }

  /** `any(term.lower() in lowered for term in terms)` */
  predicate HasTerm(terms: seq<string>, lowered: string)
    decreases |terms|
  {
    terms != [] && (Contains(lowered, Lower(terms[0])) || HasTerm(terms[1..], lowered))
  }

  lemma {:induction false} HasTermIff(terms: seq<string>, lowered: string)
    ensures HasTerm(terms, lowered) <==> exists t :: 0 <= t < |terms| && Contains(lowered, Lower(terms[t]))
    decreases |terms|
  {
    if terms != [] {
      HasTermIff(terms[1..], lowered);
      if HasTerm(terms[1..], lowered) {
        var t :| 0 <= t < |terms[1..]| && Contains(lowered, Lower(terms[1..][t]));
        assert terms[t + 1] == terms[1..][t];
      }
      if exists t :: 0 <= t < |terms| && Contains(lowered, Lower(terms[t])) {
        var t :| 0 <= t < |terms| && Contains(lowered, Lower(terms[t]));
        if t > 0 {
          assert terms[1..][t - 1] == terms[t];
        }
      }
    }
  }

  /** `Qualifies` as a test on one sentence. */
  function Qualifier(terms: seq<string>): string -> bool {
    (sentence: string) => Qualifies(terms, sentence)
  }

  /** The stripped sentences that qualify, in content order. */
  function Qualifying(terms: seq<string>, sentences: seq<string>): (q: seq<string>)
    ensures |q| <= |sentences|
  {
    Filter(Map(sentences, Strip), Qualifier(terms))
  }

  /** What qualifies is stripped and holds a term; nothing qualifies exactly
      when no stripped sentence does. */
  lemma QualifyingFacts(terms: seq<string>, sentences: seq<string>)
    ensures forall h :: h in Qualifying(terms, sentences) ==> Qualifies(terms, h) && Strip(h) == h
    ensures Qualifying(terms, sentences) == [] <==>
      forall k :: 0 <= k < |sentences| ==> !Qualifies(terms, Strip(sentences[k]))
  {
    var m := Map(sentences, Strip);
    var q := Qualifying(terms, sentences);
    forall h | h in q ensures Qualifies(terms, h) && Strip(h) == h {
      assert h in m && Qualifier(terms)(h);
      var k :| 0 <= k < |m| && m[k] == h;
      StripIdempotent(sentences[k]);
    }
    if q != [] {
      var h := q[0];
      assert h in m && Qualifier(terms)(h);
      var k :| 0 <= k < |m| && m[k] == h;
      assert Qualifies(terms, Strip(sentences[k]));
    } else {
      forall k | 0 <= k < |sentences| ensures !Qualifies(terms, Strip(sentences[k])) {
        assert m[k] in m && m[k] !in q;
        assert !Qualifier(terms)(m[k]);
      }
    }
  }

  /** Qualifying one more sentence appends it when it qualifies. */
  lemma QualifyingSnoc(terms: seq<string>, sentences: seq<string>, s: string)
    ensures Qualifying(terms, sentences + [s])
         == Qualifying(terms, sentences) + (if Qualifier(terms)(Strip(s)) then [Strip(s)] else [])
  {
    assert Map(sentences + [s], Strip) == Map(sentences, Strip) + [Strip(s)];
    FilterAppend(Map(sentences, Strip), [Strip(s)], Qualifier(terms));
    assert Filter([Strip(s)], Qualifier(terms)) == (if Qualifier(terms)(Strip(s)) then [Strip(s)] else []) by {
      assert [Strip(s)][1..] == [];
    }
  }

  /** Qualifying the first `i + 1` sentences extends qualifying the first `i`. */
  lemma QualifyingStep(terms: seq<string>, sentences: seq<string>, i: nat)
    requires i < |sentences|
    ensures Qualifying(terms, sentences[..i + 1])
         == Qualifying(terms, sentences[..i]) + (if Qualifier(terms)(Strip(sentences[i])) then [Strip(sentences[i])] else [])
  {
    assert sentences[..i + 1] == sentences[..i] + [sentences[i]];
    QualifyingSnoc(terms, sentences[..i], sentences[i]);
  }

  /** The reference meaning of `extract_highlights(content, terms)`: the
      first three qualifying sentences, or else the first piece as split. */
  function Highlights(content: string, terms: seq<string>): (r: seq<string>)
  {
    var q := Qualifying(terms, SplitSentences(content));
    if q == [] then [SplitSentences(content)[0]] else q[..if |q| < 3 then |q| else 3]
  }

  /** Between one and three highlights. */
  lemma HighlightsCount(content: string, terms: seq<string>)
    ensures 1 <= |Highlights(content, terms)| <= 3
  {
  }

  /** When some sentence qualifies, every highlight is a stripped sentence
      holding a query term. */
  lemma HighlightsQualify(content: string, terms: seq<string>)
    ensures (exists k :: 0 <= k < |SplitSentences(content)| && Qualifies(terms, Strip(SplitSentences(content)[k]))) ==>
      forall h :: h in Highlights(content, terms) ==> Qualifies(terms, h) && Strip(h) == h
  {
    var ss := SplitSentences(content);
    QualifyingFacts(terms, ss);
    if Qualifying(terms, ss) != [] {
      HighlightsAreQualifying(content, terms);
    }
  }

  /** When some sentence qualifies, the highlights are taken from those. */
  lemma HighlightsAreQualifying(content: string, terms: seq<string>)
    requires Qualifying(terms, SplitSentences(content)) != []
    ensures forall h :: h in Highlights(content, terms) ==> h in Qualifying(terms, SplitSentences(content))
  {
    var q := Qualifying(terms, SplitSentences(content));
    var n := if |q| < 3 then |q| else 3;
    assert Highlights(content, terms) == q[..n];
    PrefixMembers(q, n);
  }

  /** When none qualifies, the first piece as split stands in. */
  lemma HighlightsFallback(content: string, terms: seq<string>)
    ensures (forall k :: 0 <= k < |SplitSentences(content)| ==> !Qualifies(terms, Strip(SplitSentences(content)[k]))) ==>
      Highlights(content, terms) == [SplitSentences(content)[0]]
  {
    QualifyingFacts(terms, SplitSentences(content));
  }

  /** Without query terms the first piece is the only highlight. */
  lemma NoTermsFirstPiece(content: string)
    ensures Highlights(content, []) == [SplitSentences(content)[0]]
  {
    var ss := SplitSentences(content);
    assert forall k :: 0 <= k < |ss| ==> !Qualifies([], Strip(ss[k]));
    QualifyingFacts([], ss);
  }

  /** `extract_highlights`, as the loop over the split pieces. */
  method ExtractHighlights(content: string, terms: seq<string>) returns (hs: seq<string>)
    ensures hs == Highlights(content, terms)
    ensures 1 <= |hs| <= 3
  {
    var sentences := SplitSentences(content);
    var highlights: seq<string> := [];
    var i := 0;
    while i < |sentences|
      invariant 0 <= i <= |sentences|
      invariant highlights == Qualifying(terms, sentences[..i])
    {
      QualifyingStep(terms, sentences, i);
      var sentence := Strip(sentences[i]);
      if Qualifier(terms)(sentence) {
        highlights := highlights + [sentence];
      }
      i := i + 1;
    }
    assert sentences[..i] == sentences;
    if highlights == [] {
      highlights := [sentences[0]];
      hs := highlights;
    } else {
      hs := highlights[..if |highlights| < 3 then |highlights| else 3];
    }
    HighlightsCount(content, terms);
  }

  // ---------------------------------------------------------------------
  // vector_search: post-processing of the returned rows
  // ---------------------------------------------------------------------

  /** `content[:200] + "..."` when longer than 200 characters. */
  function Preview(content: string): (p: string)
    ensures |content| <= 200 ==> p == content
    ensures |content| > 200 ==> |p| == 203 && StartsWith(content, p[..200]) && EndsWith(p, "...")
    ensures |p| <= 203
  {
    if |content| > 200 then content[..200] + "..." else content
  }

  /** One row of the similarity query. */
  datatype SearchRow = SearchRow(chunkId: int, content: string, documentId: int,
                                 title: string, contentType: string, distance: real)

  datatype ChunkMeta = ChunkMeta(documentId: int, title: string, url: Option<string>,
                                 contentType: string, documentType: string,
                                 lastUpdated: Option<string>)

  datatype Retrieved = Retrieved(chunkId: int, content: string, meta: ChunkMeta,
                                 preview: string, highlights: seq<string>, distance: real)

  datatype SearchMeta = SearchMeta(totalSources: int, sourcesUsed: nat)

  datatype Search = Search(chunks: seq<Retrieved>, meta: SearchMeta)

  /** The dict built for one row. */
  function Retrieve(terms: seq<string>, row: SearchRow, md: Metadata): (c: Retrieved)
    ensures c.chunkId == row.chunkId && c.distance == row.distance
    ensures c.meta.documentId == row.documentId && c.meta.title == row.title
    ensures c.content == Strip(row.content) && c.preview == Preview(row.content)
    ensures 1 <= |c.highlights| <= 3
  {
    HighlightsCount(row.content, terms);
    Retrieved(row.chunkId, Strip(row.content),
              ChunkMeta(row.documentId, row.title, md.url, row.contentType, md.documentType, md.lastUpdated),
              Preview(row.content), Highlights(row.content, terms), row.distance)
  }

  /** The distinct document ids among the first `n` rows. */
  function RowDocIds(rows: seq<SearchRow>, n: nat): set<int>
    requires n <= |rows|
  {
    set k | 0 <= k < n :: rows[k].documentId
  }

  /** `vector_search` after the query: a row whose document has no metadata
      fails on the missing `'url'` key. */
  function VectorSearch(query: string, rows: seq<SearchRow>, docs: Documents, totalSources: int): (r: Result<Search>)
    ensures r.Ok? <==> forall k :: 0 <= k < |rows| ==> docs(rows[k].documentId).Some?
    ensures r.Ok? ==> |r.value.chunks| == |rows|
    ensures r.Ok? ==> forall k :: 0 <= k < |rows| ==>
      r.value.chunks[k]
      == Retrieve(QueryTerms(query), rows[k], DocumentMetadata(docs(rows[k].documentId)).value)
    ensures r.Ok? ==> r.value.meta == SearchMeta(totalSources, |RowDocIds(rows, |rows|)|)
  {
    if exists k :: 0 <= k < |rows| && docs(rows[k].documentId).None? then Err("KeyError: 'url'")
    else
      var terms := QueryTerms(query);
      Ok(Search(
        seq(|rows|, k requires 0 <= k < |rows| =>
          Retrieve(terms, rows[k], DocumentMetadata(docs(rows[k].documentId)).value)),
        SearchMeta(totalSources, |RowDocIds(rows, |rows|)|)))
  }

  // ---------------------------------------------------------------------
  // create_prompt
  // ---------------------------------------------------------------------

  /** `"[" + title.replace('_', ' ').title() + "]"` */
  function SourceTag(title: string): (tag: string)
    ensures |tag| == |title| + 2 && tag[0] == '[' && tag[|tag| - 1] == ']'
    ensures forall i :: 1 <= i < |tag| - 1 ==> tag[i] != '_'
  {
    var spaced := ReplaceAll(title, "_", " ");
    TitleKeepsChars(title);
    "[" + Title(spaced) + "]"
  }

  /** `title()` after the replacement: no `_` is left, and `]` and line
      breaks occur exactly where they did. */
  lemma TitleKeepsChars(title: string)
    ensures |Title(ReplaceAll(title, "_", " "))| == |title|
    ensures forall i :: 0 <= i < |title| ==>
      && Title(ReplaceAll(title, "_", " "))[i] != '_'
      && (Title(ReplaceAll(title, "_", " "))[i] == ']' <==> title[i] == ']')
      && (Title(ReplaceAll(title, "_", " "))[i] == '\n' <==> title[i] == '\n')
  {
    var spaced := ReplaceAll(title, "_", " ");
    ReplaceCharPointwise(title, '_', ' ');
    TitlePointwise(spaced);
    var t := Title(spaced);
    forall i | 0 <= i < |title|
      ensures t[i] != '_' && (t[i] == ']' <==> title[i] == ']') && (t[i] == '\n' <==> title[i] == '\n')
    {
      var c := spaced[i];
      assert c == (if title[i] == '_' then ' ' else title[i]);
      CaseKeepsClass(c);
      assert t[i] == (if i > 0 && IsLetter(spaced[i - 1]) then LowerChar(c) else UpperChar(c));
    }
  }

  /** A source tag is read back by the citation pattern as one citation
      whose title is the tag's text, unless the title holds `]` or a line
      break. */
  lemma SourceTagIsCitation(title: string)
    requires forall i :: 0 <= i < |title| ==> title[i] != ']' && title[i] != '\n'
    ensures Matches(SourceTag(title), 0) == [Span(0, |SourceTag(title)|)]
    ensures Interior(SourceTag(title), Span(0, |SourceTag(title)|)) == Title(ReplaceAll(title, "_", " "))
    ensures CleanText(SourceTag(title), 0) == ""
  {
    var inner := Title(ReplaceAll(title, "_", " "));
    TitleKeepsChars(title);
    assert SourceTag(title) == "[" + inner + "]";
    BareTagMatches(inner);
  }

  function SourceLine(c: Retrieved): string {
    SourceTag(c.meta.title) + ": " + c.content
  }

  /** The prompt text before the quoted query. */
  const PromptIntro: string :=
    "You are an expert assistant helping users understand ERCOT registration and qualification processes. \n"
    + "        Answer the following question using the provided "
    + "sources: "

  /** The prompt text between the quoted query and the source lines. */
  const PromptGuidelines: string :=
    "\n"
    + "\n"
    + "        Guidelines:\n"
    + "        1. Start with a direct answer to the question\n"
    + "        2. Use clear structure with paragraphs and numbered lists for steps\n"
    + "        3. Cite sources using [Document Title] format - ALWAYS include citations\n"
    + "        4. Make citations frequency - aim for at least one citation per paragraph\n"
    + "        5. Highlight key terms or requirements\n"
    + "        6. If sources lack information, be explicit about it\n"
    + "        7. Be concise but comprehensive\n"
    + "\n"
    + "        Sources:\n"
    + "        "

  /** The prompt text after the source lines. */
  const PromptTail: string := "\n\n        Answer the question with frequent citations:"

  /** `create_prompt`: the fixed instructions around the quoted query and one
      `[Title]: content` line per chunk, in order, joined by line breaks. */
  function CreatePrompt(query: string, chunks: seq<Retrieved>): (p: string)
    ensures StartsWith(p, PromptIntro + "\"" + query + "\"" + PromptGuidelines)
    ensures EndsWith(p, PromptTail)
    ensures forall k :: 0 <= k < |chunks| ==> Contains(p, SourceLine(chunks[k]))
  {
    var head := PromptIntro + "\"" + query + "\"" + PromptGuidelines;
    var body := Join(Map(chunks, SourceLine), "\n");
    PromptFacts(head, body, PromptTail, Map(chunks, SourceLine));
    head + body + PromptTail
  }

  lemma PromptFacts(head: string, body: string, tail: string, lines: seq<string>)
    requires body == Join(lines, "\n")
    ensures StartsWith(head + body + tail, head)
    ensures EndsWith(head + body + tail, tail)
    ensures forall k :: 0 <= k < |lines| ==> Contains(head + body + tail, lines[k])
  {
    var p := head + body + tail;
    assert p[..|head|] == head;
    assert p[|p| - |tail|..] == tail;
    assert p[|head|..|head| + |body|] == body;
    forall k | 0 <= k < |lines| ensures Contains(p, lines[k]) {
      JoinContains(lines, "\n", k);
      var i := Find(body, lines[k]).value;
      OccursInSlice(p, |head|, |head| + |body|, lines[k], i);
    }
  }

  // ---------------------------------------------------------------------
  // process_query
  // ---------------------------------------------------------------------

  datatype Source = Source(title: string, url: Option<string>, contentType: string, content: string,
                           documentType: string, lastUpdated: Option<string>,
                           preview: string, highlights: seq<string>, relevance: real)

  function ToSource(c: Retrieved): (s: Source)
    ensures s.relevance == 1.0 - c.distance
    ensures s.title == c.meta.title && s.content == c.content && s.url == c.meta.url
  {
    Source(c.meta.title, c.meta.url, c.meta.contentType, c.content,
           c.meta.documentType, c.meta.lastUpdated, c.preview, c.highlights, 1.0 - c.distance)
  }

  /** No earlier chunk has the same document. */
  predicate FirstOfDocument(chunks: seq<Retrieved>, k: nat)
    requires k < |chunks|
  {
    forall j :: 0 <= j < k ==> chunks[j].meta.documentId != chunks[k].meta.documentId
  }

  function DocIds(chunks: seq<Retrieved>, n: nat): set<int>
    requires n <= |chunks|
  {
    set k | 0 <= k < n :: chunks[k].meta.documentId
  }

  /** Indices below `n` of the first chunk of each document: increasing, and
      holding every such first chunk. */
  function FirstIndices(chunks: seq<Retrieved>, n: nat): (idx: seq<nat>)
    requires n <= |chunks|
    ensures forall i :: 0 <= i < |idx| ==> idx[i] < n && FirstOfDocument(chunks, idx[i])
    ensures forall i, j :: 0 <= i < j < |idx| ==> idx[i] < idx[j]
    ensures forall k :: 0 <= k < n && FirstOfDocument(chunks, k) ==> k in idx
  {
    if n == 0 then []
    else FirstIndices(chunks, n - 1) + (if FirstOfDocument(chunks, n - 1) then [n - 1] else [])
  }

  /** One first chunk per distinct document. */
  lemma {:induction false} FirstIndicesCount(chunks: seq<Retrieved>, n: nat)
    requires n <= |chunks|
    ensures |FirstIndices(chunks, n)| == |DocIds(chunks, n)|
    decreases n
  {
    if n > 0 {
      FirstIndicesCount(chunks, n - 1);
      DocIdsStep(chunks, n);
    }
  }

  /** The next chunk adds its document to the set exactly when it is the
      first of that document. */
  lemma DocIdsStep(chunks: seq<Retrieved>, n: nat)
    requires 0 < n <= |chunks|
    ensures FirstOfDocument(chunks, n - 1) ==>
      |DocIds(chunks, n)| == |DocIds(chunks, n - 1)| + 1
    ensures !FirstOfDocument(chunks, n - 1) ==> DocIds(chunks, n) == DocIds(chunks, n - 1)
  {
    var d := chunks[n - 1].meta.documentId;
    assert DocIds(chunks, n) == DocIds(chunks, n - 1) + {d};
    if FirstOfDocument(chunks, n - 1) {
      assert d !in DocIds(chunks, n - 1);
    } else {
      var j :| 0 <= j < n - 1 && chunks[j].meta.documentId == d;
      assert d in DocIds(chunks, n - 1);
    }
  }

  /** The first chunks of the documents have pairwise different documents. */
  lemma FirstIndicesDistinct(chunks: seq<Retrieved>, n: nat)
    requires n <= |chunks|
    ensures var idx := FirstIndices(chunks, n);
      forall i, j :: 0 <= i < j < |idx| ==>
        chunks[idx[i]].meta.documentId != chunks[idx[j]].meta.documentId
  {
  }

  /** The sources of `process_query`: one per document, from its first chunk. */
  function Sources(chunks: seq<Retrieved>): (s: seq<Source>)
    ensures |s| == |FirstIndices(chunks, |chunks|)|
  {
    SourcesAt(chunks, FirstIndices(chunks, |chunks|))
  }

  /** The sources of the chunks at positions `idx`, in that order. */
  function SourcesAt(chunks: seq<Retrieved>, idx: seq<nat>): (s: seq<Source>)
    requires forall t :: 0 <= t < |idx| ==> idx[t] < |chunks|
    ensures |s| == |idx|
  {
    seq(|idx|, t requires 0 <= t < |idx| => ToSource(chunks[idx[t]]))
  }

  lemma SourcesAtSnoc(chunks: seq<Retrieved>, idx: seq<nat>, j: nat)
    requires forall t :: 0 <= t < |idx| ==> idx[t] < |chunks|
    requires j < |chunks|
    ensures SourcesAt(chunks, idx + [j]) == SourcesAt(chunks, idx) + [ToSource(chunks[j])]
  {
  }

  /** The source loop of `process_query`, with its set of seen documents. */
  method DedupSources(chunks: seq<Retrieved>) returns (sources: seq<Source>)
    ensures sources == Sources(chunks)
    ensures |sources| == |DocIds(chunks, |chunks|)|
  {
    sources := [];
    var seen: set<int> := {};
    var i := 0;
    while i < |chunks|
      invariant 0 <= i <= |chunks|
      invariant seen == DocIds(chunks, i)
      invariant sources == SourcesUpTo(chunks, i)
    {
      var docId := chunks[i].meta.documentId;
      DedupStep(chunks, i);
      if docId !in seen {
        seen := seen + {docId};
        sources := sources + [ToSource(chunks[i])];
      }
      i := i + 1;
    }
    SourcesUpToAll(chunks, |chunks|);
    FirstIndicesCount(chunks, |chunks|);
  }

  /** The sources the loop has collected after the first `n` chunks. */
  function SourcesUpTo(chunks: seq<Retrieved>, n: nat): seq<Source>
    requires n <= |chunks|
  {
    if n == 0 then []
    else SourcesUpTo(chunks, n - 1) + (if FirstOfDocument(chunks, n - 1) then [ToSource(chunks[n - 1])] else [])
  }

  /** One turn of the source loop: a chunk is the first of its document
      exactly when its document was not seen before it. */
  lemma DedupStep(chunks: seq<Retrieved>, i: nat)
    requires i < |chunks|
    ensures FirstOfDocument(chunks, i) <==> chunks[i].meta.documentId !in DocIds(chunks, i)
    ensures DocIds(chunks, i + 1) == DocIds(chunks, i) + {chunks[i].meta.documentId}
  {
  }

  /** The loop collects the source of each first chunk, in order. */
  lemma {:induction false} SourcesUpToAll(chunks: seq<Retrieved>, n: nat)
    requires n <= |chunks|
    ensures SourcesUpTo(chunks, n) == SourcesAt(chunks, FirstIndices(chunks, n))
    decreases n
  {
    if n > 0 {
      SourcesUpToAll(chunks, n - 1);
      if FirstOfDocument(chunks, n - 1) {
        SourcesAtSnoc(chunks, FirstIndices(chunks, n - 1), n - 1);
      }
    }
  }

  datatype QueryMeta = QueryMeta(totalSources: int, sourcesUsed: nat, tokenCount: Option<nat>)

  /** The response of `process_query`; `prompts` lists what was sent to the
      language model. */
  datatype Answer = Answer(answer: string, citations: seq<Citation>, sources: seq<Source>,
                           meta: QueryMeta, prompts: seq<string>)

  const NotFound: string := "I couldn't find relevant information in the ERCOT documentation."

  /** `process_query`, with the search rows, the documents table and the
      language model (`llm`) as inputs. */
  method ProcessQuery(query: string, rows: seq<SearchRow>, docs: Documents, totalSources: int,
                      llm: string -> string) returns (r: Result<Answer>)
    ensures r.Ok? <==> VectorSearch(query, rows, docs, totalSources).Ok?
    ensures rows == [] ==> r == Ok(Answer(NotFound, [], [], QueryMeta(totalSources, 0, None), []))
    ensures r.Ok? && rows != [] ==>
      var chunks := VectorSearch(query, rows, docs, totalSources).value.chunks;
      var reply := llm(CreatePrompt(query, chunks));
      && r.value.prompts == [CreatePrompt(query, chunks)]
      && r.value.answer == CleanText(reply, 0)
      && Describes(reply, Matches(reply, 0), r.value.answer, r.value.citations)
      && r.value.sources == Sources(chunks)
      && r.value.meta.totalSources == totalSources
      && r.value.meta.sourcesUsed == |r.value.sources|
      && r.value.meta.tokenCount == Some(|Words(r.value.answer)|)
  {
    var search := VectorSearch(query, rows, docs, totalSources);
    if search.Err? {
      return Err(search.msg);
    }
    var chunks := search.value.chunks;
    var meta := search.value.meta;
    if chunks == [] {
      assert RowDocIds(rows, |rows|) == {};
      return Ok(Answer(NotFound, [], [], QueryMeta(meta.totalSources, meta.sourcesUsed, None), []));
    }
    var prompt := CreatePrompt(query, chunks);
    var reply := llm(prompt);
    var clean, citations := ExtractCitations(reply);
    var sources := DedupSources(chunks);
    SameDocuments(rows, chunks);
    r := Ok(Answer(clean, citations, sources,
                   QueryMeta(meta.totalSources, meta.sourcesUsed, Some(|Words(clean)|)), [prompt]));
  }

  /** The chunks carry the rows' documents, so the search's `sources_used`
      counts the same set as the deduplicated sources. */
  lemma SameDocuments(rows: seq<SearchRow>, chunks: seq<Retrieved>)
    requires |chunks| == |rows|
    requires forall k :: 0 <= k < |rows| ==> chunks[k].meta.documentId == rows[k].documentId
    ensures RowDocIds(rows, |rows|) == DocIds(chunks, |chunks|)
  {
    forall d | d in DocIds(chunks, |chunks|) ensures d in RowDocIds(rows, |rows|) {
      var k :| 0 <= k < |chunks| && chunks[k].meta.documentId == d;
      assert rows[k].documentId == d;
    }
  }
}

=== FILE: chunk_pairs.dfy ===
/** Near-duplicate detection of the chunk curation script: pair selection
    inside one document (`process_document_chunks`), the per-document
    grouping of the id-ordered rows (`find_similar_chunks`) and the list of
    chunk ids scheduled for deletion (`optimize_chunks`).

    TF-IDF vectorisation and cosine similarity are a `Vectorizer` parameter:
    given the chunk texts it either fails (the exception caught in the
    source) or yields the similarity matrix `sim(i, j)`. */
module ChunkPairs {
  import opened Wrappers
  import opened Seqs
  import opened Patterns
  import opened ChunkQuality

  /** One row of the chunk query: chunk id, content, document id, file name
      (a missing file name is the empty string). */
  datatype ChunkRow = ChunkRow(id: int, content: string, documentId: int, fileName: string)

  /** One reported near-duplicate pair. */
  datatype SimilarPair = SimilarPair(
    id1: int, text1: string,
    id2: int, text2: string,
    documentId: int, fileName: string,
    similarity: real, docType: DocType)

  type Similarity = (nat, nat) -> real
  type Vectorizer = seq<string> -> Option<Similarity>

  // ---------------------------------------------------------------------
  // Index pairs i < j, in the order of the two nested loops
  // ---------------------------------------------------------------------

  predicate LexLess(a: (nat, nat), b: (nat, nat)) {
    a.0 < b.0 || (a.0 == b.0 && a.1 < b.1)
  }

  /** The pairs `(i', j')` visited from `(i, j)` on by
      `for i in range(n): for j in range(i + 1, n)` that pass `keep`. */
  function PairsFrom(n: nat, keep: (nat, nat) -> bool, i: nat, j: nat): (r: seq<(nat, nat)>)
    requires i < j
    decreases n - i, n - j
    ensures forall p :: p in r <==>
      keep(p.0, p.1) && p.1 < n &&
      ((p.0 == i && j <= p.1) || (i < p.0 && p.0 < p.1))
    ensures forall k, l :: 0 <= k < l < |r| ==> LexLess(r[k], r[l])
  {
    if n <= i then []
    else if n <= j then PairsFrom(n, keep, i + 1, i + 2)
    else
      var rest := PairsFrom(n, keep, i, j + 1);
      if keep(i, j) then
        assert forall l :: 0 <= l < |rest| ==> rest[l] in rest;
        [(i, j)] + rest
      else rest
  }

  /** Every `i < j < n` passing `keep`, each once, in loop order. */
  function SelectedPairs(n: nat, keep: (nat, nat) -> bool): (r: seq<(nat, nat)>)
    ensures forall p :: p in r <==> p.0 < p.1 < n && keep(p.0, p.1)
    ensures forall k, l :: 0 <= k < l < |r| ==> LexLess(r[k], r[l])
  {
    PairsFrom(n, keep, 0, 1)
  }

  // ---------------------------------------------------------------------
  // process_document_chunks
  // ---------------------------------------------------------------------

  /** What `process_document_chunks` decides about one document, fixed by
      its first row: the type, its similarity threshold, the quality filter
      and the test that protects a chunk from pairing. */
  datatype Judge = Judge(
    docType: DocType,
    threshold: real,
    lowQuality: string -> bool,
    protects: string -> bool)

  /** The type of a document's run, from its first row's file name only. */
  function RunType(chunks: seq<ChunkRow>): DocType
    requires chunks != []
  {
    DetermineDocumentType(chunks[0].fileName, "")
  }

  /** The judge of a document's run. Only technical and spreadsheet
      documents protect chunks matching a preserve pattern, on their raw text. */
  function DocumentJudge(oracle: Oracle, chunks: seq<ChunkRow>): (j: Judge)
    requires chunks != []
    ensures j.docType == RunType(chunks)
    ensures j.threshold == Config(j.docType).similarityThreshold
  {
    var t := RunType(chunks);
    var f := chunks[0].fileName;
    Judge(t, Config(t).similarityThreshold,
          (c: string) => IsLowQualityChunk(oracle, c, t, f),
          (c: string) => (t == Technical || t == Excel) && ShouldPreserve(oracle, c, t))
  }

  /** The rows that pass the quality filter, in order. */
  function Survivors(j: Judge, chunks: seq<ChunkRow>): (v: seq<ChunkRow>)
    ensures |v| <= |chunks|
    ensures forall c :: c in v <==> c in chunks && !j.lowQuality(c.content)
  {
    Filter(chunks, (c: ChunkRow) => !j.lowQuality(c.content))
  }

  /** The contents the vectoriser is given, in row order. */
  function Texts(v: seq<ChunkRow>): seq<string> {
    Map(v, (c: ChunkRow) => c.content)
  }

  /** The test the inner loop applies to `(a, b)`. */
  predicate Reported(j: Judge, v: seq<ChunkRow>, sim: Similarity, a: nat, b: nat) {
    a < b < |v| &&
    sim(a, b) > j.threshold &&
    !(j.protects(v[a].content) || j.protects(v[b].content))
  }

  /** The reported record; document id and file name come from the first row. */
  function MakePair(j: Judge, head: ChunkRow, v: seq<ChunkRow>, sim: Similarity, p: (nat, nat)): SimilarPair
    requires p.0 < |v| && p.1 < |v|
  {
    SimilarPair(v[p.0].id, v[p.0].content, v[p.1].id, v[p.1].content,
                head.documentId, head.fileName, sim(p.0, p.1), j.docType)
  }

  /** The index pairs reported for the survivors `v` under `sim`. */
  function ReportedPairs(j: Judge, v: seq<ChunkRow>, sim: Similarity): (ps: seq<(nat, nat)>)
    ensures forall p :: p in ps <==> Reported(j, v, sim, p.0, p.1)
    ensures forall k, l :: 0 <= k < l < |ps| ==> LexLess(ps[k], ps[l])
  {
    SelectedPairs(|v|, (a: nat, b: nat) => Reported(j, v, sim, a, b))
  }

  /** Pair selection of `process_document_chunks` for a judged document. */
  function JudgedPairs(j: Judge, vec: Vectorizer, chunks: seq<ChunkRow>): (r: seq<SimilarPair>)
    ensures |Survivors(j, chunks)| < 2 ==> r == []
    ensures vec(Texts(Survivors(j, chunks))).None? ==> r == []
    ensures forall p :: p in r ==>
      chunks != [] && p.docType == j.docType && p.similarity > j.threshold &&
      p.documentId == chunks[0].documentId && p.fileName == chunks[0].fileName
  {
    var v := Survivors(j, chunks);
    if |v| < 2 then []
    else
      assert v[0] in chunks;
      assert chunks != [];
      match vec(Texts(v))
      case None => []
      case Some(sim) =>
        var ps := ReportedPairs(j, v, sim);
        seq(|ps|, k requires 0 <= k < |ps| => (assert ps[k] in ps; MakePair(j, chunks[0], v, sim, ps[k])))
  }

  /** `process_document_chunks(chunks)`; `vec` stands for TF-IDF plus cosine similarity. */
  function ProcessDocumentChunks(oracle: Oracle, vec: Vectorizer, chunks: seq<ChunkRow>): (r: seq<SimilarPair>)
    ensures chunks == [] ==> r == []
    ensures forall p :: p in r ==>
      chunks != [] &&
      p.documentId == chunks[0].documentId && p.fileName == chunks[0].fileName &&
      p.docType == DetermineDocumentType(chunks[0].fileName, "") &&
      p.similarity > Config(p.docType).similarityThreshold
  {
    if chunks == [] then [] else JudgedPairs(DocumentJudge(oracle, chunks), vec, chunks)
  }

  /** Every reported pair is two survivors `i < j` passing the loop's test,
      at the position the loop order gives it. */
  lemma PairsAreReported(j: Judge, vec: Vectorizer, chunks: seq<ChunkRow>, sim: Similarity)
    requires vec(Texts(Survivors(j, chunks))) == Some(sim)
    ensures var v := Survivors(j, chunks);
      forall p :: p in JudgedPairs(j, vec, chunks) ==>
        exists a, b :: Reported(j, v, sim, a, b) && p == MakePair(j, chunks[0], v, sim, (a, b))
  {
    var v := Survivors(j, chunks);
    var r := JudgedPairs(j, vec, chunks);
    if |v| >= 2 {
      var ps := ReportedPairs(j, v, sim);
      forall p | p in r ensures exists a, b :: Reported(j, v, sim, a, b) && p == MakePair(j, chunks[0], v, sim, (a, b)) {
        var k :| 0 <= k < |r| && r[k] == p;
        assert ps[k] in ps;
        assert Reported(j, v, sim, ps[k].0, ps[k].1);
      }
    }
  }

  /** Conversely, every pair of survivors passing the loop's test is reported. */
  lemma ReportedArePairs(j: Judge, vec: Vectorizer, chunks: seq<ChunkRow>, sim: Similarity, a: nat, b: nat)
    requires vec(Texts(Survivors(j, chunks))) == Some(sim)
    requires Reported(j, Survivors(j, chunks), sim, a, b)
    ensures MakePair(j, chunks[0], Survivors(j, chunks), sim, (a, b)) in JudgedPairs(j, vec, chunks)
  {
    var v := Survivors(j, chunks);
    var ps := ReportedPairs(j, v, sim);
    var r := JudgedPairs(j, vec, chunks);
    assert (a, b) in ps;
    var k :| 0 <= k < |ps| && ps[k] == (a, b);
    assert r[k] == MakePair(j, chunks[0], v, sim, (a, b));
  }

  predicate IdsIncreasing(rows: seq<ChunkRow>) {
    Pairwise(rows, (a: ChunkRow, b: ChunkRow) => a.id < b.id)
  }

  /** With the rows in id order, `id1 < id2` in every pair, and the lowest-id
      surviving chunk is never the second of a pair, so never scheduled for
      deletion. */
  lemma PairsOrdered(j: Judge, vec: Vectorizer, chunks: seq<ChunkRow>)
    requires IdsIncreasing(chunks)
    ensures forall p :: p in JudgedPairs(j, vec, chunks) ==>
      p.id1 < p.id2 && p.id2 != Survivors(j, chunks)[0].id
  {
    var r := JudgedPairs(j, vec, chunks);
    var v := Survivors(j, chunks);
    if r != [] {
      FilterPairwise(chunks, (c: ChunkRow) => !j.lowQuality(c.content), (a: ChunkRow, b: ChunkRow) => a.id < b.id);
      var sim := vec(Texts(v)).value;
      PairsAreReported(j, vec, chunks, sim);
      forall p | p in r ensures p.id1 < p.id2 && p.id2 != v[0].id {
        var a, b :| Reported(j, v, sim, a, b) && p == MakePair(j, chunks[0], v, sim, (a, b));
      }
    }
  }

  /** With three survivors all reported against each other, the third
      survivor's id is scheduled twice. */
  lemma SecondIdsMayRepeat(j: Judge, vec: Vectorizer, chunks: seq<ChunkRow>, sim: Similarity)
    requires |Survivors(j, chunks)| == 3
    requires vec(Texts(Survivors(j, chunks))) == Some(sim)
    requires Reported(j, Survivors(j, chunks), sim, 0, 1)
    requires Reported(j, Survivors(j, chunks), sim, 0, 2)
    requires Reported(j, Survivors(j, chunks), sim, 1, 2)
    ensures |DeletionList(JudgedPairs(j, vec, chunks))| == 3
    ensures DeletionList(JudgedPairs(j, vec, chunks))[1] == Survivors(j, chunks)[2].id
    ensures DeletionList(JudgedPairs(j, vec, chunks))[2] == Survivors(j, chunks)[2].id
  {
    var v := Survivors(j, chunks);
    var keep := (a: nat, b: nat) => Reported(j, v, sim, a, b);
    assert PairsFrom(3, keep, 3, 4) == [];
    assert PairsFrom(3, keep, 2, 3) == [];
    assert PairsFrom(3, keep, 1, 3) == [];
    assert PairsFrom(3, keep, 1, 2) == [(1, 2)];
    assert PairsFrom(3, keep, 0, 3) == [(1, 2)];
    assert PairsFrom(3, keep, 0, 2) == [(0, 2), (1, 2)];
    assert PairsFrom(3, keep, 0, 1) == [(0, 1), (0, 2), (1, 2)];
  }

  // ---------------------------------------------------------------------
  // find_similar_chunks and the deletion list
  // ---------------------------------------------------------------------

  /** Length of the leading run of rows sharing the first row's document id. */
  function RunLength(rows: seq<ChunkRow>): (n: nat)
    requires rows != []
    ensures 1 <= n <= |rows|
    ensures forall k :: 0 <= k < n ==> rows[k].documentId == rows[0].documentId
    ensures n < |rows| ==> rows[n].documentId != rows[0].documentId
  {
    if |rows| == 1 || rows[1].documentId != rows[0].documentId then 1
    else 1 + RunLength(rows[1..])
  }

  /** Consecutive runs of equal document id. */
  function Runs(rows: seq<ChunkRow>): (runs: seq<seq<ChunkRow>>)
    decreases |rows|
    ensures forall g :: g in runs ==> g != [] && forall c :: c in g ==> c in rows && c.documentId == g[0].documentId
  {
    if rows == [] then []
    else
      var n := RunLength(rows);
      [rows[..n]] + Runs(rows[n..])
  }

  function PairsOfRuns(oracle: Oracle, vec: Vectorizer, runs: seq<seq<ChunkRow>>): (r: seq<SimilarPair>)
    ensures forall p :: p in r ==> exists g :: g in runs && p in ProcessDocumentChunks(oracle, vec, g)
  {
    if runs == [] then []
    else ProcessDocumentChunks(oracle, vec, runs[0]) + PairsOfRuns(oracle, vec, runs[1..])
  }

  /** Rows with a file name; the others are skipped. */
  function Named(rows: seq<ChunkRow>): seq<ChunkRow> {
    Filter(rows, (c: ChunkRow) => c.fileName != "")
  }

  /** `find_similar_chunks` over the rows of the ordered query: every pair
      joins two named rows of the document it reports. */
  function FindSimilarChunks(oracle: Oracle, vec: Vectorizer, rows: seq<ChunkRow>): (r: seq<SimilarPair>)
    ensures forall p :: p in r ==> RowOf(rows, p.id1, p.documentId) && RowOf(rows, p.id2, p.documentId)
  {
    PairsWithinDocument(oracle, vec, rows);
    PairsOfRuns(oracle, vec, Runs(Named(rows)))
  }

  /** `id` is the id of a named row of document `d`. */
  predicate RowOf(rows: seq<ChunkRow>, id: int, d: int) {
    exists k :: 0 <= k < |rows| && rows[k].id == id && rows[k].documentId == d && rows[k].fileName != ""
  }

  /** Order of the query: document id, then chunk id. */
  predicate RowPrecedes(a: ChunkRow, b: ChunkRow) {
    a.documentId < b.documentId || (a.documentId == b.documentId && a.id < b.id)
  }

  predicate QueryOrdered(rows: seq<ChunkRow>) {
    Pairwise(rows, RowPrecedes)
  }

  /** The two ids of a reported pair are ids of rows of the document's run. */
  lemma PairIdsFromRun(j: Judge, vec: Vectorizer, g: seq<ChunkRow>, p: SimilarPair)
    requires p in JudgedPairs(j, vec, g)
    ensures exists c1, c2 :: c1 in g && c2 in g && c1.id == p.id1 && c2.id == p.id2
  {
    var v := Survivors(j, g);
    var sim := vec(Texts(v)).value;
    PairsAreReported(j, vec, g, sim);
    var a: nat, b: nat :| Reported(j, v, sim, a, b) && p == MakePair(j, g[0], v, sim, (a, b));
    assert v[a] in v && v[b] in v;
  }

  /** Every pair of the document runs joins two named rows of one document,
      the document it reports. */
  lemma PairsWithinDocument(oracle: Oracle, vec: Vectorizer, rows: seq<ChunkRow>)
    ensures forall p :: p in PairsOfRuns(oracle, vec, Runs(Named(rows))) ==>
      RowOf(rows, p.id1, p.documentId) && RowOf(rows, p.id2, p.documentId)
  {
    var named := Named(rows);
    var runs := Runs(named);
    forall p | p in PairsOfRuns(oracle, vec, runs)
      ensures RowOf(rows, p.id1, p.documentId) && RowOf(rows, p.id2, p.documentId)
    {
      var g :| g in runs && p in ProcessDocumentChunks(oracle, vec, g);
      PairIdsFromRun(DocumentJudge(oracle, g), vec, g, p);
      var c1, c2 :| c1 in g && c2 in g && c1.id == p.id1 && c2.id == p.id2;
      assert c1 in named && c2 in named;
      var k1 :| 0 <= k1 < |rows| && rows[k1] == c1;
      var k2 :| 0 <= k2 < |rows| && rows[k2] == c2;
    }
  }

  /** In the ordered query, the first id of every pair is the smaller. */
  lemma PairsIdOrdered(oracle: Oracle, vec: Vectorizer, rows: seq<ChunkRow>)
    requires QueryOrdered(rows)
    ensures forall p :: p in FindSimilarChunks(oracle, vec, rows) ==> p.id1 < p.id2
  {
    var named := Named(rows);
    FilterPairwise(rows, (c: ChunkRow) => c.fileName != "", RowPrecedes);
    RunsOrdered(named);
    var runs := Runs(named);
    forall p | p in FindSimilarChunks(oracle, vec, rows) ensures p.id1 < p.id2 {
      var g :| g in runs && p in ProcessDocumentChunks(oracle, vec, g);
      PairsOrdered(DocumentJudge(oracle, g), vec, g);
    }
  }

  /** Inside a run of the ordered query, ids increase. */
  lemma {:induction false} RunsOrdered(rows: seq<ChunkRow>)
    requires QueryOrdered(rows)
    ensures forall g :: g in Runs(rows) ==> IdsIncreasing(g)
    decreases |rows|
  {
    if rows != [] {
      var n := RunLength(rows);
      var g := rows[..n];
      forall k, l | 0 <= k < l < |g| ensures g[k].id < g[l].id {
        assert RowPrecedes(rows[k], rows[l]);
      }
      assert Pairwise(rows[n..], RowPrecedes) by {
        forall k, l | 0 <= k < l < |rows[n..]| ensures RowPrecedes(rows[n..][k], rows[n..][l]) {
          assert RowPrecedes(rows[n + k], rows[n + l]);
        }
      }
      RunsOrdered(rows[n..]);
    }
  }

  /** The ids `optimize_chunks` deletes for near-duplicates: every second id. */
  function DeletionList(pairs: seq<SimilarPair>): (ids: seq<int>)
    ensures |ids| == |pairs|
    ensures forall k :: 0 <= k < |ids| ==> ids[k] == pairs[k].id2
  {
    seq(|pairs|, k requires 0 <= k < |pairs| => pairs[k].id2)
  }

  /** Every id scheduled for deletion has a smaller surviving id of the same
      document reported as its near-duplicate. */
  lemma DeletionKeepsAnEarlierChunk(oracle: Oracle, vec: Vectorizer, rows: seq<ChunkRow>)
    requires QueryOrdered(rows)
    ensures var pairs := FindSimilarChunks(oracle, vec, rows);
      forall k :: 0 <= k < |DeletionList(pairs)| ==>
        pairs[k].id1 < DeletionList(pairs)[k] &&
        RowOf(rows, pairs[k].id1, pairs[k].documentId) &&
        RowOf(rows, DeletionList(pairs)[k], pairs[k].documentId)
  {
    var pairs := FindSimilarChunks(oracle, vec, rows);
    PairsIdOrdered(oracle, vec, rows);
    forall k | 0 <= k < |pairs| ensures pairs[k] in pairs { }
  }
}

=== FILE: chunk_quality.dfy ===
/** Document-type classification and the chunk quality filter of the chunk
    curation script: the per-type configuration table, the keyword
    classifier, the spreadsheet helpers and the ordered low-quality rules. */
module ChunkQuality {
  import opened Text
  import opened Patterns
  import opened Wrappers

  // ---------------------------------------------------------------------
  // Configuration table
  // ---------------------------------------------------------------------

  /** The four keys of the configuration table. */
  datatype DocType = Technical | Legal | Excel | Default

  datatype TypeConfig = TypeConfig(
    similarityThreshold: real,
    minLength: nat,
    preservePatterns: seq<Regex>)

  /** A number followed by an electrical unit, as the spreadsheet rules write it. */
  const UnitPattern: string := "\\d+(?:\\.\\d+)?(?:\\s*(?:MW|MVar|kV|kW|V|A))"

  /** The shorter unit pattern of the alphabetic-ratio rule. */
  const PowerUnitPattern: string := "\\d+\\s*(?:MW|MVar|kV)"

  /** `DOCUMENT_CONFIGS[t]` */
  function Config(t: DocType): TypeConfig {
    match t
    case Technical => TypeConfig(0.98, 20, [
      Opaque("Section \\d+\\.\\d+"),
      Opaque("Resource\\s+\\w+"),
      Opaque("[A-Z]{2,}(?:\\s+[A-Z]{2,})*"),
      Opaque(PowerUnitPattern),
      Opaque("QSE\\s+Comment:"),
      Opaque("Protocol\\s+Section"),
      Opaque("Resource\\s+ID:"),
      Opaque("(?:Primary|Secondary|Backup)\\s+(?:Contact|Phone|Email)")])
    case Legal => TypeConfig(0.95, 50, [
      Opaque("Section \\d+\\.\\d+"),
      Opaque("Article \\w+"),
      Opaque("Exhibit [A-Z]"),
      Lit("pursuant to"),
      Lit("herein"),
      AnyLit(["shall", "must", "will"])])
    case Excel => TypeConfig(0.99, 10, [
      NoNaNLine,
      LetterLine(true),
      Opaque(UnitPattern),
      AnyLit(["Date", "Time", "ID", "Name", "Value", "Status", "Comment"])])
    case Default => TypeConfig(0.97, 35, [])
  }

  // ---------------------------------------------------------------------
  // determine_document_type
  // ---------------------------------------------------------------------

  const TechnicalKeywords: seq<string> := [
    "checklist", "commissioning", "specification", "protocol", "resource",
    "generator", "technical", "operational", "export", "meter", "template",
    "RIOO", "ELSE", "QSE", "measurement", "data"]

  const LegalKeywords: seq<string> := [
    "letter of credit", "agreement", "contract", "legal", "terms",
    "conditions", "rights", "obligations", "liability"]

  /** Some keyword occurs in the (lower-cased) file name or content. */
  predicate AnyKeyword(keywords: seq<string>, name: string, content: string) {
    exists i :: 0 <= i < |keywords| && (Contains(name, keywords[i]) || Contains(content, keywords[i]))
  }

  predicate IsSpreadsheetName(fileName: string) {
    EndsWith(Lower(fileName), ".xlsx") || EndsWith(Lower(fileName), ".xls")
  }

  /** `determine_document_type(file_name, content)` */
  function DetermineDocumentType(fileName: string, content: string): (t: DocType)
    ensures !IsSpreadsheetName(fileName) ==>
      (t == Technical <==> AnyKeyword(TechnicalKeywords, Lower(fileName), Lower(content)))
    ensures !IsSpreadsheetName(fileName) && t != Technical ==>
      (t == Legal <==> AnyKeyword(LegalKeywords, Lower(fileName), Lower(content)))
    ensures t == Excel <==> IsSpreadsheetName(fileName)
    ensures t == Default <==>
      !IsSpreadsheetName(fileName)
      && !AnyKeyword(TechnicalKeywords, Lower(fileName), Lower(content))
      && !AnyKeyword(LegalKeywords, Lower(fileName), Lower(content))
  {
    var name := Lower(fileName);
    var body := Lower(content);
    if EndsWith(name, ".xlsx") || EndsWith(name, ".xls") then Excel
    else if AnyKeyword(TechnicalKeywords, name, body) then Technical
    else if AnyKeyword(LegalKeywords, name, body) then Legal
    else Default
  }

  /** The technical keywords that can ever match a lower-cased string. */
  const LiveTechnicalKeywords: seq<string> := [
    "checklist", "commissioning", "specification", "protocol", "resource",
    "generator", "technical", "operational", "export", "meter", "template",
    "measurement", "data"]

  /** `RIOO`, `ELSE` and `QSE` are searched for in lower-cased text and never match. */
  lemma UppercaseKeywordsNeverMatch(fileName: string, content: string)
    ensures forall i :: 11 <= i < 14 ==>
      !Contains(Lower(fileName), TechnicalKeywords[i]) && !Contains(Lower(content), TechnicalKeywords[i])
    ensures AnyKeyword(TechnicalKeywords, Lower(fileName), Lower(content))
        <==> AnyKeyword(LiveTechnicalKeywords, Lower(fileName), Lower(content))
  {
    UppercaseKeywordsMissLower(fileName);
    UppercaseKeywordsMissLower(content);
    assert TechnicalKeywords == LiveTechnicalKeywords[..11] + TechnicalKeywords[11..14] + LiveTechnicalKeywords[11..];
    SkippedIndex(TechnicalKeywords, LiveTechnicalKeywords, 11, 14);
    var name, body := Lower(fileName), Lower(content);
    var hit := (k: string) => Contains(name, k) || Contains(body, k);
    AnySkipping(TechnicalKeywords, LiveTechnicalKeywords, 11, 14, hit);
    assert AnyKeyword(TechnicalKeywords, name, body) <==> exists i :: 0 <= i < |TechnicalKeywords| && hit(TechnicalKeywords[i]);
    assert AnyKeyword(LiveTechnicalKeywords, name, body) <==> exists j :: 0 <= j < |LiveTechnicalKeywords| && hit(LiveTechnicalKeywords[j]);
  }

  /** No capitalised keyword occurs in a lower-cased string. */
  lemma UppercaseKeywordsMissLower(s: string)
    ensures forall i :: 11 <= i < 14 ==> !Contains(Lower(s), TechnicalKeywords[i])
  {
    LowerHasNoUpper(s);
    forall i | 11 <= i < 14 ensures !Contains(Lower(s), TechnicalKeywords[i]) {
      assert IsUpper(TechnicalKeywords[i][0]);
      NoUpperNoMatch(Lower(s), TechnicalKeywords[i], 0);
    }
  }

  /** Entries that never pass `hit` can be dropped from a list: `ks` is
      `live` with the entries `lo` up to `hi` inserted. */
  lemma AnySkipping(ks: seq<string>, live: seq<string>, lo: nat, hi: nat, hit: string -> bool)
    requires lo <= hi <= |ks| && lo <= |live| && |ks| == |live| + (hi - lo)
    requires forall j :: 0 <= j < lo ==> ks[j] == live[j]
    requires forall j :: lo <= j < |live| ==> ks[j + (hi - lo)] == live[j]
    requires forall i :: lo <= i < hi ==> !hit(ks[i])
    ensures (exists i :: 0 <= i < |ks| && hit(ks[i])) <==> (exists j :: 0 <= j < |live| && hit(live[j]))
  {
    var d := hi - lo;
    if exists i :: 0 <= i < |ks| && hit(ks[i]) {
      var i :| 0 <= i < |ks| && hit(ks[i]);
      if i < lo {
        assert live[i] == ks[i];
      } else {
        var j := i - d;
        assert ks[j + d] == live[j];
      }
    }
    if exists j :: 0 <= j < |live| && hit(live[j]) {
      var j :| 0 <= j < |live| && hit(live[j]);
      if j < lo {
        assert live[j] == ks[j];
      } else {
        assert ks[j + d] == live[j];
      }
    }
  }

  /** Where each element of `live` sits in `ks` after the insertion. */
  lemma SkippedIndex(ks: seq<string>, live: seq<string>, lo: nat, hi: nat)
    requires lo <= hi <= |ks| && lo <= |live|
    requires ks == live[..lo] + ks[lo..hi] + live[lo..]
    ensures |ks| == |live| + (hi - lo)
    ensures forall j :: 0 <= j < lo ==> ks[j] == live[j]
    ensures forall j :: lo <= j < |live| ==> ks[j + (hi - lo)] == live[j]
  {
  }

  /** A spreadsheet extension decides the type whatever the content says. */
  lemma SpreadsheetNameWins(fileName: string, c1: string, c2: string)
    requires IsSpreadsheetName(fileName)
    ensures DetermineDocumentType(fileName, c1) == DetermineDocumentType(fileName, c2) == Excel
  {
  }

  // ---------------------------------------------------------------------
  // Spreadsheet helpers
  // ---------------------------------------------------------------------

  /** `is_nan_heavy`: `nan` occurrences exceed 0.3 of the word count, or there are no words. */
  function IsNanHeavy(text: string): (heavy: bool)
    ensures Words(text) == [] ==> heavy
    ensures Words(text) != [] && !Contains(Lower(text), "nan") ==> !heavy
  {
    CountZeroIff(Lower(text), "nan");
    var words := Words(text);
    if words == [] then true
    else 10 * Count(Lower(text), "nan") > 3 * |words|
  }

  /** `text[a..e]` is what `\s*\d+` matches at `a`: whitespace up to `b`,
      then digits up to the last digit of the run. */
  predicate UnnamedTail(text: string, a: nat, b: nat, e: nat) {
    && a <= b < e <= |text|
    && (forall k :: a <= k < b ==> IsSpace(text[k]))
    && (forall k :: b <= k < e ==> IsDigit(text[k]))
    && (e == |text| || !IsDigit(text[e]))
  }

  /** `\s*\d+` matches `text[a..e]`. */
  predicate IsUnnamedTail(text: string, a: nat, e: nat) {
    exists b :: a <= b < e && UnnamedTail(text, a, b, e)
  }

  /** Length of the match of `Unnamed:\s*\d+` at position `i`, or 0 when
      the pattern does not match there. */
  function UnnamedMatchAt(text: string, i: nat): (n: nat)
    requires i <= |text|
    ensures n == 0 || (n > 8 && i + n <= |text|)
    ensures n > 0 ==> OccursAt(text, "Unnamed:", i) && IsUnnamedTail(text, i + 8, i + n)
  {
    if !StartsWith(text[i..], "Unnamed:") then 0
    else
      assert text[i..i + 8] == text[i..][..8];
      var spaces := SpaceRun(text, i + 8);
      var digits := DigitRun(text, i + 8 + spaces);
      if digits == 0 then 0
      else
        assert UnnamedTail(text, i + 8, i + 8 + spaces, i + 8 + spaces + digits);
        8 + spaces + digits
  }

  /** The match found is the match: wherever `Unnamed:\s*\d+` matches at
      `i` and ends at `e`, `UnnamedMatchAt` gives length `e - i`. */
  lemma UnnamedMatchIsTheMatch(text: string, i: nat, b: nat, e: nat)
    requires i <= |text| && OccursAt(text, "Unnamed:", i) && UnnamedTail(text, i + 8, b, e)
    ensures UnnamedMatchAt(text, i) == e - i
  {
    assert text[i..][..8] == text[i..i + 8];
    SpaceRunIs(text, i + 8, b);
    DigitRunIs(text, b, e);
  }

  /** A whitespace stretch that ends at a non-space is the whole run. */
  lemma {:induction false} SpaceRunIs(text: string, a: nat, b: nat)
    requires a <= b <= |text|
    requires forall k :: a <= k < b ==> IsSpace(text[k])
    requires b == |text| || !IsSpace(text[b])
    ensures SpaceRun(text, a) == b - a
    decreases b - a
  {
    if a < b {
      SpaceRunIs(text, a + 1, b);
    }
  }

  /** A digit stretch that ends at a non-digit is the whole run. */
  lemma {:induction false} DigitRunIs(text: string, a: nat, b: nat)
    requires a <= b <= |text|
    requires forall k :: a <= k < b ==> IsDigit(text[k])
    requires b == |text| || !IsDigit(text[b])
    ensures DigitRun(text, a) == b - a
    decreases b - a
  {
    if a < b {
      DigitRunIs(text, a + 1, b);
    }
  }

  /** Length of the whitespace run at `i`. */
  function SpaceRun(text: string, i: nat): (n: nat)
    requires i <= |text|
    ensures i + n <= |text|
    ensures forall k :: i <= k < i + n ==> IsSpace(text[k])
    ensures i + n < |text| ==> !IsSpace(text[i + n])
    decreases |text| - i
  {
    if i < |text| && IsSpace(text[i]) then 1 + SpaceRun(text, i + 1) else 0
  }

  /** Length of the digit run at `i`. */
  function DigitRun(text: string, i: nat): (n: nat)
    requires i <= |text|
    ensures i + n <= |text|
    ensures forall k :: i <= k < i + n ==> IsDigit(text[k])
    ensures i + n < |text| ==> !IsDigit(text[i + n])
    decreases |text| - i
  {
    if i < |text| && IsDigit(text[i]) then 1 + DigitRun(text, i + 1) else 0
  }

  /** `re.sub(r'Unnamed:\s*\d+', '', text[i:])`: text in which the pattern
      matches nowhere comes back unchanged. */
  function RemoveUnnamed(text: string, i: nat): (r: string)
    requires i <= |text|
    decreases |text| - i
    ensures |r| <= |text| - i
    ensures UnnamedFree(text, i, |text|) ==> r == text[i..]
  {
    if i == |text| then ""
    else
      var n := UnnamedMatchAt(text, i);
      if n > 0 then RemoveUnnamed(text, i + n)
      else
        assert text[i..] == [text[i]] + text[i + 1..];
        [text[i]] + RemoveUnnamed(text, i + 1)
  }

  /** `Unnamed:\s*\d+` matches at no position from `i` up to `j`. */
  predicate UnnamedFree(text: string, i: nat, j: nat)
    requires j <= |text|
  {
    forall k :: i <= k < j ==> UnnamedMatchAt(text, k) == 0
  }

  /** Up to the first match `re.sub` copies the text, and it drops the match
      whole, from `Unnamed:` to the last digit. */
  lemma KeptBeforeFirstMatch(text: string, i: nat, j: nat)
    requires i <= j <= |text|
    requires UnnamedFree(text, i, j)
    ensures RemoveUnnamed(text, i) == text[i..j] + RemoveUnnamed(text, j + UnnamedMatchAt(text, j))
  {
    CopiedUpTo(text, i, j);
    RemoveUnnamedSkipsMatch(text, j);
  }

  /** Where the pattern matches nowhere between `i` and `j`, that stretch is
      copied. */
  lemma {:induction false} CopiedUpTo(text: string, i: nat, j: nat)
    requires i <= j <= |text|
    requires UnnamedFree(text, i, j)
    ensures RemoveUnnamed(text, i) == text[i..j] + RemoveUnnamed(text, j)
    decreases j - i
  {
    if i < j {
      RemoveUnnamedCopiesOne(text, i);
      CopiedUpTo(text, i + 1, j);
      PrependSlice(text, i, j, RemoveUnnamed(text, j));
    }
  }

  /** Putting one character in front of a slice that follows it. */
  lemma PrependSlice(text: string, i: nat, j: nat, rest: string)
    requires i < j <= |text|
    ensures [text[i]] + (text[i + 1..j] + rest) == text[i..j] + rest
  {
    assert text[i..j] == [text[i]] + text[i + 1..j];
  }

  /** Where the pattern does not match, one character is copied. */
  lemma RemoveUnnamedCopiesOne(text: string, i: nat)
    requires i < |text| && UnnamedMatchAt(text, i) == 0
    ensures RemoveUnnamed(text, i) == [text[i]] + RemoveUnnamed(text, i + 1)
  {
  }

  /** Where the pattern matches, the whole match is skipped. */
  lemma RemoveUnnamedSkipsMatch(text: string, j: nat)
    requires j <= |text|
    ensures RemoveUnnamed(text, j) == RemoveUnnamed(text, j + UnnamedMatchAt(text, j))
  {
  }

  /** Text without `Unnamed:` has no match of the pattern anywhere. */
  lemma NoUnnamedMatches(text: string)
    requires !Contains(text, "Unnamed:")
    ensures UnnamedFree(text, 0, |text|)
  {
    forall j | 0 <= j < |text| ensures UnnamedMatchAt(text, j) == 0 {
      if UnnamedMatchAt(text, j) > 0 {
        ContainsWitness(text, "Unnamed:", j);
      }
    }
  }

  /** `\bNaN\b` matches at `i`. */
  predicate WordNaNAt(text: string, i: nat) {
    && OccursAt(text, "NaN", i)
    && (i == 0 || !IsWordChar(text[i - 1]))
    && (i + 3 == |text| || !IsWordChar(text[i + 3]))
  }

  /** `re.sub(r'\bNaN\b', '', text[i:])`; word boundaries look at the original text. */
  function RemoveWordNaN(text: string, i: nat): (r: string)
    requires i <= |text|
    decreases |text| - i
    ensures |r| <= |text| - i
  {
    if i == |text| then ""
    else if WordNaNAt(text, i) then RemoveWordNaN(text, i + 3)
    else [text[i]] + RemoveWordNaN(text, i + 1)
  }

  const HeaderPatterns: seq<Regex> := [
    LetterLine(false),
    Opaque("(?:ID|Name|Date|Time|Value|Status|Comments?)\\b"),
    Opaque("^(?:Primary|Secondary|Backup|Contact|Phone|Email)\\b")]

  /** A run of whitespace holds no `Unnamed:` column name to remove. */
  lemma {:induction false} BlankHasNoUnnamed(text: string, i: nat)
    requires i <= |text|
    ensures (forall k :: i <= k < |text| ==> IsSpace(text[k])) ==> RemoveUnnamed(text, i) == text[i..]
    decreases |text| - i
  {
    if i < |text| && forall k :: i <= k < |text| ==> IsSpace(text[k]) {
      assert text[i..][0] == text[i];
      FirstCharBlocksPrefix(text[i..], "Unnamed:");
      BlankHasNoUnnamed(text, i + 1);
      assert text[i..] == [text[i]] + text[i + 1..];
    }
  }

  /** `is_header_row`: a blank row is never a header. */
  function IsHeaderRow(oracle: Oracle, text: string): (header: bool)
    ensures (forall k :: 0 <= k < |text| ==> IsSpace(text[k])) ==> !header
  {
    BlankHasNoUnnamed(text, 0);
    StripEmptyIff(text);
    assert text[0..] == text;
    HeaderMatch(oracle, Strip(RemoveUnnamed(text, 0)))
  }

  /** The cleaned row is non-empty and some header pattern matches it. */
  predicate HeaderMatch(oracle: Oracle, cleaned: string) {
    cleaned != [] && exists i :: 0 <= i < |HeaderPatterns| && Search(oracle, HeaderPatterns[i], cleaned)
  }

  /** A row without `Unnamed:` is judged on its stripped text alone: it is
      a header when that is non-empty and some header pattern matches it. */
  lemma HeaderRowWithoutUnnamed(oracle: Oracle, text: string)
    requires !Contains(text, "Unnamed:")
    ensures IsHeaderRow(oracle, text) == HeaderMatch(oracle, Strip(text))
  {
    NoUnnamedMatches(text);
    assert RemoveUnnamed(text, 0) == text[0..] == text;
  }

  /** `is_valid_data_row`: valid exactly when a letter or digit is left
      once the whole-word `NaN` tokens are removed. */
  function IsValidDataRow(text: string): (valid: bool)
    ensures valid <==> HasAlnum(RemoveWordNaN(text, 0))
  {
    StripKeepsAlnum(RemoveWordNaN(text, 0));
    var cleaned := Strip(RemoveWordNaN(text, 0));
    cleaned != [] && HasAlnum(cleaned)
  }

  /** Some character of `s` is a letter or a digit. */
  predicate HasAlnum(s: string)
  {
    exists k :: 0 <= k < |s| && IsAlnum(s[k])
  }

  /** Stripping keeps every alphanumeric character, so a stripped string has
      one exactly when the unstripped string has one. */
  lemma StripKeepsAlnum(r: string)
    ensures HasAlnum(Strip(r)) <==> HasAlnum(r)
  {
    if HasAlnum(r) {
      var k :| 0 <= k < |r| && IsAlnum(r[k]);
      AlnumIsNotSpace(r[k]);
      StripKeepsNonSpace(r, k);
      assert IsAlnum(Strip(r)[k - StripOffset(r)]);
    }
    if HasAlnum(Strip(r)) {
      var i :| 0 <= i < |Strip(r)| && IsAlnum(Strip(r)[i]);
      StripCharAt(r, i);
      assert IsAlnum(r[StripOffset(r) + i]);
    }
  }

  /** Letters and digits are never whitespace. */
  lemma AlnumIsNotSpace(c: char)
    requires IsAlnum(c)
    ensures !IsSpace(c)
  {
  }

  // ---------------------------------------------------------------------
  // is_low_quality_chunk: an ordered table of rules, first match decides
  // ---------------------------------------------------------------------

  /** The rules of `is_low_quality_chunk`, in evaluation order. */
  datatype Rule =
    | Blank          // empty or whitespace only
    | Preserved      // a preserve pattern of the type matches
    | ExcelHeader    // spreadsheet header row
    | ExcelNaNHeavy  // spreadsheet row of mostly `NaN` with no data left
    | ExcelUnit      // spreadsheet value with a unit
    | TooShort       // shorter than the type's minimum length
    | MostlySymbols  // under 30% letters and no power unit
    | Repetitive     // at least four words, under half of them distinct
    | Acceptable     // none of the above
  {
    function Rank(): nat {
      match this
      case Blank => 0 case Preserved => 1 case ExcelHeader => 2
      case ExcelNaNHeavy => 3 case ExcelUnit => 4 case TooShort => 5
      case MostlySymbols => 6 case Repetitive => 7 case Acceptable => 8
    }

    /** The verdict of `is_low_quality_chunk` when this rule decides. */
    predicate LowQuality() {
      Blank? || ExcelNaNHeavy? || TooShort? || MostlySymbols? || Repetitive?
    }
  }

  function AlphaCount(s: string): (n: nat)
    ensures n <= |s|
  {
    if s == [] then 0 else (if IsLetter(s[0]) then 1 else 0) + AlphaCount(s[1..])
  }

  function DistinctCount(ws: seq<string>): nat {
    |set i | 0 <= i < |ws| :: ws[i]|
  }

  /** The first spreadsheet preserve pattern keeps one line of text without
      `NaN`. */
  lemma ExcelNoNaNLinePreserved(oracle: Oracle, text: string)
    ensures (forall i :: 0 <= i < |text| ==> text[i] != '\n') && !Contains(text, "NaN") ==>
      Search(oracle, Config(Excel).preservePatterns[0], text)
  {
    if forall i :: 0 <= i < |text| ==> text[i] != '\n' {
      NoNaNLineOnSingleLine(text);
    }
  }

  /** Some preserve pattern of type `t` matches `text`: `should_preserve_chunk`.
      For a spreadsheet, any single line without `NaN` is preserved. */
  function ShouldPreserve(oracle: Oracle, text: string, t: DocType): (keep: bool)
    ensures t == Excel && (forall i :: 0 <= i < |text| ==> text[i] != '\n') && !Contains(text, "NaN") ==> keep
  {
    ExcelNoNaNLinePreserved(oracle, text);
    var ps := Config(t).preservePatterns;
    exists i :: 0 <= i < |ps| && Search(oracle, ps[i], text)
  }

  /** Whether each rule's condition holds for a chunk, in rule order.
      Every condition but the first looks only at the whitespace-collapsed
      text. */
  datatype Conditions = Conditions(blank: bool, preserved: bool, header: bool, nanHeavy: bool,
                                   unit: bool, short: bool, symbols: bool, repetitive: bool)
  {
    /** The condition of `rule`, read on its own. */
    predicate Holds(rule: Rule) {
      match rule
      case Blank => blank
      case Preserved => preserved
      case ExcelHeader => header
      case ExcelNaNHeavy => nanHeavy
      case ExcelUnit => unit
      case TooShort => short
      case MostlySymbols => symbols
      case Repetitive => repetitive
      case Acceptable => true
    }

    /** The first rule whose condition holds. */
    function First(): Rule {
      if blank then Blank
      else if preserved then Preserved
      else if header then ExcelHeader
      else if nanHeavy then ExcelNaNHeavy
      else if unit then ExcelUnit
      else if short then TooShort
      else if symbols then MostlySymbols
      else if repetitive then Repetitive
      else Acceptable
    }
  }

  /** The conditions of the rules of `is_low_quality_chunk` for one chunk. */
  function ConditionsOf(oracle: Oracle, text: string, t: DocType): Conditions
  {
    var c := Collapse(text);
    Conditions(
      Strip(text) == [],
      ShouldPreserve(oracle, c, t),
      t == Excel && IsHeaderRow(oracle, c),
      t == Excel && IsNanHeavy(c) && !IsValidDataRow(c),
      t == Excel && oracle(UnitPattern, c),
      |c| < Config(t).minLength,
      10 * AlphaCount(c) < 3 * |c| && !oracle(PowerUnitPattern, c),
      |Words(c)| >= 4 && 2 * DistinctCount(Words(c)) < |Words(c)|)
  }

  /** The first rule holds, and every rule before it fails. */
  lemma FirstHolds(cs: Conditions)
    ensures cs.Holds(cs.First())
    ensures forall q: Rule :: q.Rank() < cs.First().Rank() ==> !cs.Holds(q)
  {
  }

  /** The rule that decides `is_low_quality_chunk(text, t, _)`: the first whose condition holds. */
  function Decide(oracle: Oracle, text: string, t: DocType): (r: Rule)
    ensures ConditionsOf(oracle, text, t).Holds(r)
    ensures forall q: Rule :: q.Rank() < r.Rank() ==> !ConditionsOf(oracle, text, t).Holds(q)
  {
    FirstHolds(ConditionsOf(oracle, text, t));
    ConditionsOf(oracle, text, t).First()
  }

  /** `is_low_quality_chunk(text, doc_type, file_name)` */
  function IsLowQualityChunk(oracle: Oracle, text: string, t: DocType, fileName: string): (low: bool)
    ensures Strip(text) == [] ==> low
    ensures Strip(text) != [] && ShouldPreserve(oracle, Collapse(text), t) ==> !low
  {
    Decide(oracle, text, t).LowQuality()
  }

  /** Empty and whitespace-only chunks are always low quality. */
  lemma BlankIsLowQuality(oracle: Oracle, text: string, t: DocType, fileName: string)
    requires forall i :: 0 <= i < |text| ==> IsSpace(text[i])
    ensures IsLowQualityChunk(oracle, text, t, fileName)
  {
    StripEmptyIff(text);
  }

  /** The verdict ignores the file name argument. */
  lemma FileNameUnused(oracle: Oracle, text: string, t: DocType, f1: string, f2: string)
    ensures IsLowQualityChunk(oracle, text, t, f1) == IsLowQualityChunk(oracle, text, t, f2)
  {
  }

  /** Blankness survives whitespace collapsing. */
  lemma BlankAfterCollapse(text: string)
    ensures Strip(Collapse(text)) == [] <==> Strip(text) == []
  {
    StripEmptyIff(text);
    StripEmptyIff(Collapse(text));
    WordsEmptyIff(text);
    WordsEmptyIff(Collapse(text));
  }

  /** Collapsing whitespace runs beforehand does not change the verdict. */
  lemma CollapseKeepsVerdict(oracle: Oracle, text: string, t: DocType, fileName: string)
    ensures IsLowQualityChunk(oracle, Collapse(text), t, fileName) == IsLowQualityChunk(oracle, text, t, fileName)
  {
    CollapseIdempotent(text);
    BlankAfterCollapse(text);
    assert ConditionsOf(oracle, Collapse(text), t) == ConditionsOf(oracle, text, t);
  }

  /** A matching preserve pattern keeps any non-blank chunk, before every other rule. */
  lemma PreserveOverrides(oracle: Oracle, text: string, t: DocType, fileName: string)
    requires Strip(text) != []
    requires ShouldPreserve(oracle, Collapse(text), t)
    ensures Decide(oracle, text, t) == Preserved
    ensures !IsLowQualityChunk(oracle, text, t, fileName)
  {
  }

  /** A non-blank spreadsheet chunk without `NaN` is always kept. */
  lemma SpreadsheetWithoutNaNKept(oracle: Oracle, text: string, fileName: string)
    requires Strip(text) != []
    requires !Contains(Collapse(text), "NaN")
    ensures !IsLowQualityChunk(oracle, text, Excel, fileName)
  {
    var c := Collapse(text);
    CollapsedShape(text);
    assert forall i :: 0 <= i < |c| ==> c[i] != '\n' by {
      forall i | 0 <= i < |c| ensures c[i] != '\n' {
        if c[i] == '\n' { assert IsSpace(c[i]); }
      }
    }
    NoNaNLineOnSingleLine(c);
    assert Search(oracle, Config(Excel).preservePatterns[0], c);
  }

  /** Every word of `s` holds `nan` once lower-cased. */
  predicate AllWordsHoldNan(s: string) {
    forall i :: 0 <= i < |Words(s)| ==> Contains(Lower(Words(s)[i]), "nan")
  }

  /** When every word holds `nan`, the count of `nan` is at least the word
      count: whitespace separates the words and no occurrence spans it. */
  lemma {:induction false} NanCountCoversWords(s: string)
    requires AllWordsHoldNan(s)
    ensures Count(Lower(s), "nan") >= |Words(s)|
    decreases |s|, 1
  {
    if s == [] {
    } else if IsSpace(s[0]) {
      assert Words(s) == Words(s[1..]);
      NanCountCoversWords(s[1..]);
      NanCountSpaceStep(s);
    } else {
      NanCountFromWord(s);
    }
  }

  /** The case of `NanCountCoversWords` where `s` starts with a word. */
  lemma {:induction false} NanCountFromWord(s: string)
    requires AllWordsHoldNan(s) && s != [] && !IsSpace(s[0])
    ensures Count(Lower(s), "nan") >= |Words(s)|
    decreases |s|, 0
  {
    var n := WordLen(s);
    WordsAfterFirst(s);
    assert Words(s)[0] == s[..n];
    if n == |s| {
      assert s[..n] == s;
      CountZeroIff(Lower(s), "nan");
    } else {
      var rest := s[n + 1..];
      assert Words(rest) == Words(s)[1..];
      NanCountCoversWords(rest);
      NanCountWordStep(s);
    }
  }

  /** Leading whitespace adds neither a word nor a `nan`. */
  lemma NanCountSpaceStep(s: string)
    requires s != [] && IsSpace(s[0])
    requires Count(Lower(s[1..]), "nan") >= |Words(s[1..])|
    ensures Count(Lower(s), "nan") >= |Words(s)|
  {
    assert s == [] + [s[0]] + s[1..];
    NanCountAcrossSpace([], s[0], s[1..]);
  }

  /** A first word holding `nan`, then whitespace, adds one word and at
      least one `nan`. */
  lemma NanCountWordStep(s: string)
    requires s != [] && !IsSpace(s[0]) && WordLen(s) < |s|
    requires Contains(Lower(s[..WordLen(s)]), "nan")
    requires Count(Lower(s[WordLen(s) + 1..]), "nan") >= |Words(s[WordLen(s) + 1..])|
    ensures Count(Lower(s), "nan") >= |Words(s)|
  {
    var n := WordLen(s);
    var w, rest := s[..n], s[n + 1..];
    WordsAfterFirst(s);
    CountZeroIff(Lower(w), "nan");
    assert s == w + [s[n]] + rest;
    NanCountAcrossSpace(w, s[n], rest);
  }

  /** No `nan` spans a whitespace character. */
  lemma NanCountAcrossSpace(x: string, c: char, y: string)
    requires IsSpace(c)
    ensures Count(Lower(x + [c] + y), "nan") == Count(Lower(x), "nan") + Count(Lower(y), "nan")
  {
    LowerAround(x, c, y);
    CountAcross(Lower(x), c, Lower(y), "nan");
  }

  /** Text whose every word holds `nan` is NaN-heavy, whatever its length. */
  lemma NanWordsAreHeavy(s: string)
    requires AllWordsHoldNan(s)
    ensures IsNanHeavy(s)
  {
    NanCountCoversWords(s);
  }

  /** A row of letters and single spaces, such as `NaN NaN NaN`, matches the
      letters-and-spaces preserve pattern, so a spreadsheet keeps it. */
  lemma LetterRowKept(oracle: Oracle, text: string, fileName: string)
    requires |Collapse(text)| >= 2 && LettersAndSpaces(Collapse(text))
    ensures Decide(oracle, text, Excel) == Preserved
    ensures !IsLowQualityChunk(oracle, text, Excel, fileName)
  {
    var c := Collapse(text);
    CollapsedShape(text);
    LetterLineOfLetters(c, true);
    assert Search(oracle, Config(Excel).preservePatterns[1], c);
    BlankAfterCollapse(text);
    StripEmptyIff(c);
    PreserveOverrides(oracle, text, Excel, fileName);
  }

  /** Every character is an ASCII letter or a plain space. */
  predicate LettersAndSpaces(s: string) {
    forall k :: 0 <= k < |s| ==> IsLetter(s[k]) || s[k] == ' '
  }

  /** A space-separated row of `NaN` cells. */
  const SpacedNaNRow: string := "NaN NaN NaN"

  /** The space-separated all-`NaN` row is kept: it is letters and spaces. */
  lemma SpacedNaNRowKept(oracle: Oracle, fileName: string)
    ensures !IsLowQualityChunk(oracle, SpacedNaNRow, Excel, fileName)
  {
    SpacedNaNRowCollapsed();
    SpacedNaNRowLetters();
    LetterRowKept(oracle, SpacedNaNRow, fileName);
  }

  lemma SpacedNaNRowLetters()
    ensures LettersAndSpaces(SpacedNaNRow)
  {
    var t := SpacedNaNRow;
    assert forall k :: 0 <= k < |t| ==> t[k] in {'N', 'a', ' '};
  }

  lemma SpacedNaNRowCollapsed()
    ensures Collapse(SpacedNaNRow) == SpacedNaNRow
  {
    var ws := ["NaN", "NaN", "NaN"];
    JoinCons("NaN", ["NaN"], " ");
    assert ws == ["NaN"] + ["NaN", "NaN"];
    JoinCons("NaN", ["NaN", "NaN"], " ");
    assert Join(ws, " ") == SpacedNaNRow;
    assert IsToken("NaN");
    CollapseOfJoin(ws);
  }

  /** A comma-separated row of `NaN` cells, as a spreadsheet reader writes
      an empty row: no letters-and-spaces pattern matches it. */
  const NaNRow: string := "NaN, NaN, NaN"

  /** The comma-separated all-`NaN` spreadsheet row is low quality, given
      that the unit pattern and the two keyword header patterns, which the
      oracle resolves, do not match it (none of them can: it holds no digit
      and no keyword). */
  lemma AllNaNRowIsLowQuality(oracle: Oracle, fileName: string)
    requires !oracle(UnitPattern, NaNRow)
    requires forall i :: 1 <= i < |HeaderPatterns| ==> !Search(oracle, HeaderPatterns[i], NaNRow)
    ensures Decide(oracle, NaNRow, Excel) == ExcelNaNHeavy
    ensures IsLowQualityChunk(oracle, NaNRow, Excel, fileName)
  {
    NaNRowCollapsed();
    NaNRowNotPreserved(oracle);
    NaNRowNotHeader(oracle);
    NaNRowNanHeavy();
    NaNRowNoData();
  }

  const NaNWords: seq<string> := ["NaN,", "NaN,", "NaN"]

  lemma NaNRowWords()
    ensures Join(NaNWords, " ") == NaNRow
    ensures Words(NaNRow) == NaNWords
  {
    JoinCons("NaN,", ["NaN"], " ");
    assert NaNWords == ["NaN,"] + ["NaN,", "NaN"];
    JoinCons("NaN,", ["NaN,", "NaN"], " ");
    assert IsToken("NaN,") && IsToken("NaN");
    WordsOfJoin(NaNWords);
  }

  lemma NaNRowCollapsed()
    ensures Collapse(NaNRow) == NaNRow
    ensures Strip(NaNRow) != []
  {
    NaNRowWords();
    assert !IsSpace(NaNRow[0]);
    StripEmptyIff(NaNRow);
  }

  lemma NaNRowNotPreserved(oracle: Oracle)
    requires !oracle(UnitPattern, NaNRow)
    ensures !ShouldPreserve(oracle, NaNRow, Excel)
  {
    var ps := Config(Excel).preservePatterns;
    NaNRowFailsNoNaNLine();
    NaNRowLetters();
    NoColumnNameIn(NaNRow);
    NaNRowNoLetterLine();
    forall i | 0 <= i < |ps| ensures !Search(oracle, ps[i], NaNRow) {
      ExcelPreservePattern(i);
    }
  }

  /** The comma-separated row is no header row. */
  lemma NaNRowNotHeader(oracle: Oracle)
    requires forall i :: 1 <= i < |HeaderPatterns| ==> !Search(oracle, HeaderPatterns[i], NaNRow)
    ensures !IsHeaderRow(oracle, NaNRow)
  {
    NaNRowLetters();
    CellsHoldNoUnnamed(NaNRow);
    HeaderRowWithoutUnnamed(oracle, NaNRow);
    NaNRowStripped();
    NaNRowNoHeaderMatch(oracle);
  }

  /** No header pattern matches the comma-separated row. */
  lemma NaNRowNoHeaderMatch(oracle: Oracle)
    requires forall i :: 1 <= i < |HeaderPatterns| ==> !Search(oracle, HeaderPatterns[i], NaNRow)
    ensures !HeaderMatch(oracle, NaNRow)
  {
    NaNRowNoLetterLine();
    forall i | 0 <= i < |HeaderPatterns| ensures !Search(oracle, HeaderPatterns[i], NaNRow) {
      if i == 0 {
        assert HeaderPatterns[0] == LetterLine(false);
      }
    }
  }

  /** The comma in the row is outside the letters-and-spaces class. */
  lemma NaNRowNoLetterLine()
    ensures !LetterLineMatches(NaNRow, false) && !LetterLineMatches(NaNRow, true)
  {
    LetterLineNeedsClass(NaNRow, false, 3);
    LetterLineNeedsClass(NaNRow, true, 3);
  }

  lemma NaNRowStripped()
    ensures Strip(NaNRow) == NaNRow
  {
    StripOfStripped(NaNRow);
  }

  /** Text made of `N`, `a`, `,` and spaces holds no `Unnamed:`. */
  lemma CellsHoldNoUnnamed(t: string)
    requires forall m :: 0 <= m < |t| ==> t[m] in {'N', 'a', ',', ' '}
    ensures !Contains(t, "Unnamed:")
  {
    forall k: nat | OccursAt(t, "Unnamed:", k) ensures false {
      CharOfOccurrence(t, "Unnamed:", k, 0);
    }
  }

  /** The spreadsheet preserve patterns, one by one. */
  lemma ExcelPreservePattern(i: nat)
    requires i < |Config(Excel).preservePatterns|
    ensures i == 0 ==> Config(Excel).preservePatterns[i] == NoNaNLine
    ensures i == 1 ==> Config(Excel).preservePatterns[i] == LetterLine(true)
    ensures i == 2 ==> Config(Excel).preservePatterns[i] == Opaque(UnitPattern)
    ensures i == 3 ==> Config(Excel).preservePatterns[i] == AnyLit(["Date", "Time", "ID", "Name", "Value", "Status", "Comment"])
    ensures i < 4
  {
  }

  /** The all-`NaN` row has a `NaN` on its only line. */
  lemma NaNRowFailsNoNaNLine()
    ensures !NoNaNLineMatches(NaNRow)
  {
    var t := NaNRow;
    assert OccursAt(t, "NaN", 0);
    assert forall k :: 0 <= k < |t| ==> t[k] != '\n';
    NoNaNLineOnSingleLine(t);
  }

  /** The all-`NaN` row is made of `N`, `a`, commas and spaces. */
  lemma NaNRowLetters()
    ensures forall m :: 0 <= m < |NaNRow| ==> NaNRow[m] in {'N', 'a', ',', ' '}
  {
  }

  /** Text made of `N`, `a`, commas and spaces holds none of the column
      names of the spreadsheet preserve pattern. */
  lemma NoColumnNameIn(t: string)
    requires forall m :: 0 <= m < |t| ==> t[m] in {'N', 'a', ',', ' '}
    ensures forall i :: 0 <= i < 7 ==> !Contains(t, ["Date", "Time", "ID", "Name", "Value", "Status", "Comment"][i])
  {
    var names := ["Date", "Time", "ID", "Name", "Value", "Status", "Comment"];
    forall i, k: nat | 0 <= i < |names|
      ensures !OccursAt(t, names[i], k)
    {
      if OccursAt(t, names[i], k) {
        var j := if i == 3 then 2 else 0;
        CharOfOccurrence(t, names[i], k, j);
      }
    }
  }

  /** Every cell of the row holds `nan` once lower-cased, so the row is
      NaN-heavy. */
  lemma NaNRowNanHeavy()
    ensures IsNanHeavy(NaNRow)
  {
    NaNRowWords();
    NaNWordsHoldNan();
    NanWordsAreHeavy(NaNRow);
  }

  lemma NaNWordsHoldNan()
    ensures forall i :: 0 <= i < |NaNWords| ==> Contains(Lower(NaNWords[i]), "nan")
  {
    forall i | 0 <= i < |NaNWords| ensures Contains(Lower(NaNWords[i]), "nan") {
      LowerOfNaNPrefix(NaNWords[i]);
    }
  }

  /** Text that starts with `NaN` contains `nan` once lower-cased. */
  lemma LowerOfNaNPrefix(s: string)
    requires |s| >= 3 && s[0] == 'N' && s[1] == 'a' && s[2] == 'N'
    ensures Contains(Lower(s), "nan")
  {
    var l := Lower(s);
    assert l[0..3] == "nan";
    ContainsWitness(l, "nan", 0);
  }

  /** One `nan` among at most three words is already more than 30%. */
  lemma FewWordsWithNanAreHeavy(s: string)
    requires Contains(Lower(s), "nan") && |Words(s)| <= 3
    ensures IsNanHeavy(s)
  {
    CountZeroIff(Lower(s), "nan");
  }

  /** Removing the three whole-word `NaN`s leaves `", , "`, with no letter
      or digit. */
  lemma NaNRowNoData()
    ensures !IsValidDataRow(NaNRow)
  {
    var t := NaNRow;
    NaNRowAfterFirstCell();
    assert WordNaNAt(t, 0);
    assert RemoveWordNaN(t, 0) == ", , ";
    CommasHoldNoAlnum();
  }

  lemma CommasHoldNoAlnum()
    ensures !HasAlnum(", , ")
  {
    var s := ", , ";
    assert forall k :: 0 <= k < |s| ==> s[k] in {',', ' '};
  }

  /** After the first `NaN`, the removal leaves `", , "`. */
  lemma NaNRowAfterFirstCell()
    ensures RemoveWordNaN(NaNRow, 3) == ", , "
  {
    var t := NaNRow;
    NaNRowLastCells();
    assert !WordNaNAt(t, 4);
    assert RemoveWordNaN(t, 4) == " , ";
    assert !WordNaNAt(t, 3);
  }

  /** From the second `NaN` on, the removal leaves `", "`. */
  lemma NaNRowLastCells()
    ensures RemoveWordNaN(NaNRow, 5) == ", "
  {
    var t := NaNRow;
    assert WordNaNAt(t, 10);
    assert RemoveWordNaN(t, 10) == "";
    assert !WordNaNAt(t, 9);
    assert RemoveWordNaN(t, 9) == " ";
    assert !WordNaNAt(t, 8);
    assert RemoveWordNaN(t, 8) == ", ";
    assert WordNaNAt(t, 5);
  }
}

=== FILE: citations.dfy ===
/** `extract_citations` of the assistant: bracketed citation tags are found
    left to right with the pattern `\[(.*?)\]` and cut out of the answer,
    each recorded with its position in the text that is returned.

    The pattern is interpreted here: a match starts at a `[` and ends at the
    first `]` after it, provided no line break comes first (`.` does not
    match a newline); scanning resumes after the match. */
module Citations {
  import opened Wrappers

  /** Half-open span `[start, end)` of one match in the original text. */
  datatype Span = Span(start: nat, end: nat)

  /** The record the assistant returns for each citation. */
  datatype Citation = Citation(title: string, startIdx: int, endIdx: int)

  /** Index of the first `]` at or after `i`, unless a line break comes first. */
  function CloseFrom(text: string, i: nat): (r: Option<nat>)
    decreases |text| - i
    ensures r.Some? ==> i <= r.value < |text| && text[r.value] == ']'
    ensures r.Some? ==> forall m :: i <= m < r.value ==> text[m] != ']' && text[m] != '\n'
  {
    if i >= |text| then None
    else if text[i] == ']' then Some(i)
    else if text[i] == '\n' then None
    else CloseFrom(text, i + 1)
  }

  /** End of the match of `\[(.*?)\]` starting at `p`, if one starts there. */
  function MatchEnd(text: string, p: nat): (r: Option<nat>)
    requires p < |text|
    ensures r.Some? ==> p + 2 <= r.value <= |text| && text[p] == '[' && text[r.value - 1] == ']'
    ensures r.Some? ==> forall m :: p < m < r.value - 1 ==> text[m] != ']' && text[m] != '\n'
    ensures text[p] != '[' ==> r.None?
  {
    if text[p] != '[' then None
    else match CloseFrom(text, p + 1)
      case None => None
      case Some(q) => Some(q + 1)
  }

  /** Spans lie in order, without overlap, at or after `from`. */
  predicate Chain(text: string, ms: seq<Span>, from: nat)
    decreases |ms|
  {
    ms == [] ||
    (from <= ms[0].start <= ms[0].end <= |text| && Chain(text, ms[1..], ms[0].end))
  }

  /** `re.finditer(r'\[(.*?)\]', text)` from position `from` on. */
  function Matches(text: string, from: nat): (ms: seq<Span>)
    decreases |text| - from
    ensures Chain(text, ms, from)
    ensures forall k :: 0 <= k < |ms| ==>
      ms[k].start < |text| && MatchEnd(text, ms[k].start) == Some(ms[k].end)
  {
    if from >= |text| then []
    else match MatchEnd(text, from)
      case Some(e) => [Span(from, e)] + Matches(text, e)
      case None => Matches(text, from + 1)
  }

  /** Reference meaning of the cleaned answer: the characters of `text[from..]`
      that no match covers, in order. */
  function CleanText(text: string, from: nat): (r: string)
    requires from <= |text|
    decreases |text| - from
    ensures |r| <= |text| - from
  {
    if from >= |text| then []
    else match MatchEnd(text, from)
      case Some(e) => CleanText(text, e)
      case None => [text[from]] + CleanText(text, from + 1)
  }

  /** Total length of the spans. */
  function Total(ms: seq<Span>): int {
    if ms == [] then 0 else (ms[0].end - ms[0].start) + Total(ms[1..])
  }

  /** `text[from..]` with the spans cut out. */
  function Kept(text: string, ms: seq<Span>, from: nat): (r: string)
    requires from <= |text|
    requires Chain(text, ms, from)
    decreases |ms|
    ensures |r| == |text| - from - Total(ms)
  {
    if ms == [] then text[from..]
    else text[from..ms[0].start] + Kept(text, ms[1..], ms[0].end)
  }

  // ---------------------------------------------------------------------
  // Facts about spans
  // ---------------------------------------------------------------------

  lemma {:induction false} TotalBound(text: string, ms: seq<Span>, from: nat)
    requires Chain(text, ms, from)
    ensures from <= |text| ==> 0 <= Total(ms) <= |text| - from
    ensures ms != [] ==> Total(ms) <= |text| - ms[0].start
    decreases |ms|
  {
    if ms != [] {
      TotalBound(text, ms[1..], ms[0].end);
    }
  }

  /** The reference cleaning cuts exactly the spans `finditer` reports. */
  lemma {:induction false} CleanIsKept(text: string, from: nat)
    requires from <= |text|
    ensures CleanText(text, from) == Kept(text, Matches(text, from), from)
    decreases |text| - from
  {
    if from < |text| {
      match MatchEnd(text, from)
      case Some(e) =>
        CleanIsKept(text, e);
        var ms := Matches(text, from);
        assert ms == [Span(from, e)] + Matches(text, e);
        assert ms[1..] == Matches(text, e);
        assert text[from..from] == [];
      case None =>
        CleanIsKept(text, from + 1);
        var rest := Matches(text, from + 1);
        assert Matches(text, from) == rest;
        if rest == [] {
          assert text[from..] == [text[from]] + text[from + 1..];
        } else {
          assert text[from..rest[0].start] == [text[from]] + text[from + 1..rest[0].start];
        }
    }
  }

  /** Without a `[` there is nothing to match. */
  lemma {:induction false} NoBracketNoMatch(text: string, from: nat)
    requires forall i :: 0 <= i < |text| ==> text[i] != '['
    ensures Matches(text, from) == []
    ensures from <= |text| ==> CleanText(text, from) == text[from..]
    decreases |text| - from
  {
    if from < |text| {
      NoBracketNoMatch(text, from + 1);
      assert text[from..] == [text[from]] + text[from + 1..];
    }
  }

  // ---------------------------------------------------------------------
  // extract_citations
  // ---------------------------------------------------------------------

  /** Every span is at least `[]` long and lies inside the text. */
  predicate Spans(text: string, ms: seq<Span>) {
    forall k :: 0 <= k < |ms| ==> ms[k].start + 2 <= ms[k].end <= |text|
  }

  /** `match.group(1)`: the text between the brackets. */
  function Interior(text: string, m: Span): string
    requires m.start + 2 <= m.end <= |text|
  {
    text[m.start + 1..m.end - 1]
  }

  /** The citations recorded for the spans `ms` when `offset` characters
      have already been cut before them. */
  function CitationsFrom(text: string, ms: seq<Span>, offset: int): (cs: seq<Citation>)
    requires Spans(text, ms)
    decreases |ms|
    ensures |cs| == |ms|
  {
    if ms == [] then []
    else
      [Citation(Interior(text, ms[0]), ms[0].start - offset, ms[0].end - offset)] +
      CitationsFrom(text, ms[1..], offset + (ms[0].end - ms[0].start))
  }

  /** What holds after the loop of `extract_citations` has handled the first
      `k` matches: `done` is the cleaned text before the end `last` of match
      `k - 1`, and the rest of the text is still untouched. */
  ghost predicate LoopState(text: string, ms: seq<Span>, k: nat, last: nat, done: string,
                            offset: int, modified: string, cites: seq<Citation>)
  {
    && Spans(text, ms) && Chain(text, ms, 0)
    && k <= |ms| && last <= |text|
    && Spans(text, ms[k..]) && Chain(text, ms[k..], last)
    && |done| == last - offset
    && modified == done + text[last..]
    && Kept(text, ms, 0) == done + Kept(text, ms[k..], last)
    && cites + CitationsFrom(text, ms[k..], offset) == CitationsFrom(text, ms, 0)
  }

  lemma LoopStart(text: string, ms: seq<Span>)
    requires Spans(text, ms) && Chain(text, ms, 0)
    ensures LoopState(text, ms, 0, 0, [], 0, text, [])
  {
    assert ms[0..] == ms;
  }

  /** One turn of the loop: cut match `k` out at its shifted position. */
  lemma LoopStep(text: string, ms: seq<Span>, k: nat, last: nat, done: string,
                 offset: int, modified: string, cites: seq<Citation>,
                 k': nat, last': nat, done': string,
                 offset': int, modified': string, cites': seq<Citation>)
    requires LoopState(text, ms, k, last, done, offset, modified, cites) && k < |ms|
    requires k' == k + 1 && last' == ms[k].end && done' == done + text[last..ms[k].start]
    requires offset' == offset + (ms[k].end - ms[k].start)
    requires modified' == modified[..ms[k].start - offset] + modified[ms[k].end - offset..]
    requires cites' == cites + [Citation(Interior(text, ms[k]), ms[k].start - offset, ms[k].end - offset)]
    ensures LoopState(text, ms, k', last', done', offset', modified', cites')
  {
    StepChain(text, ms, k, last);
    StepText(text, ms, k, last, done, offset, modified, Kept(text, ms, 0));
    StepCites(text, ms, k, offset, cites, CitationsFrom(text, ms, 0));
  }

  lemma StepChain(text: string, ms: seq<Span>, k: nat, last: nat)
    requires k < |ms| && Spans(text, ms[k..]) && Chain(text, ms[k..], last)
    ensures ms[k..][0] == ms[k] && ms[k..][1..] == ms[k + 1..]
    ensures last <= ms[k].start <= ms[k].end <= |text|
    ensures Spans(text, ms[k + 1..]) && Chain(text, ms[k + 1..], ms[k].end)
  {
    assert ms[k..][0] == ms[k] && ms[k..][1..] == ms[k + 1..];
    SpansTail(text, ms[k..]);
  }

  lemma StepText(text: string, ms: seq<Span>, k: nat, last: nat, done: string,
                 offset: int, modified: string, all: string)
    requires k < |ms| && last <= |text| && Chain(text, ms[k..], last)
    requires |done| == last - offset && modified == done + text[last..]
    requires all == done + Kept(text, ms[k..], last)
    ensures last <= ms[k].start <= ms[k].end <= |text|
    ensures 0 <= ms[k].start - offset <= ms[k].end - offset <= |modified|
    ensures |done + text[last..ms[k].start]| == ms[k].end - (offset + (ms[k].end - ms[k].start))
    ensures modified[..ms[k].start - offset] + modified[ms[k].end - offset..]
            == (done + text[last..ms[k].start]) + text[ms[k].end..]
    ensures all == (done + text[last..ms[k].start]) + Kept(text, ms[k + 1..], ms[k].end)
  {
    var m := ms[k];
    assert ms[k..][0] == m && ms[k..][1..] == ms[k + 1..];
    var start := m.start - offset;
    var end := m.end - offset;
    var done' := done + text[last..m.start];
    assert done + text[last..] == done' + text[m.start..];
    assert modified[..start] == done';
    assert modified[end..] == text[m.end..];
    StepKept(text, ms, k, last, done, all);
  }

  /** Cutting match `k` moves the text before it to the finished part. */
  lemma StepKept(text: string, ms: seq<Span>, k: nat, last: nat, done: string, all: string)
    requires k < |ms| && last <= |text| && Chain(text, ms[k..], last)
    requires all == done + Kept(text, ms[k..], last)
    ensures last <= ms[k].start <= ms[k].end <= |text|
    ensures all == (done + text[last..ms[k].start]) + Kept(text, ms[k + 1..], ms[k].end)
  {
    var m := ms[k];
    assert ms[k..][0] == m && ms[k..][1..] == ms[k + 1..];
    var before := text[last..m.start];
    var after := Kept(text, ms[k + 1..], m.end);
    assert Kept(text, ms[k..], last) == before + after;
    AppendAssoc(done, before, after);
  }

  lemma AppendAssoc(a: string, b: string, c: string)
    ensures a + (b + c) == (a + b) + c
  {
  }

  lemma StepCites(text: string, ms: seq<Span>, k: nat, offset: int, cites: seq<Citation>,
                  all: seq<Citation>)
    requires k < |ms| && Spans(text, ms[k..])
    requires cites + CitationsFrom(text, ms[k..], offset) == all
    ensures ms[k].start + 2 <= ms[k].end <= |text|
    ensures Spans(text, ms[k + 1..])
    ensures (cites + [Citation(Interior(text, ms[k]), ms[k].start - offset, ms[k].end - offset)])
            + CitationsFrom(text, ms[k + 1..], offset + (ms[k].end - ms[k].start))
            == all
  {
    assert ms[k..][0] == ms[k] && ms[k..][1..] == ms[k + 1..];
    SpansTail(text, ms[k..]);
    var c := Citation(Interior(text, ms[k]), ms[k].start - offset, ms[k].end - offset);
    assert CitationsFrom(text, ms[k..], offset)
        == [c] + CitationsFrom(text, ms[k + 1..], offset + (ms[k].end - ms[k].start));
  }

  /** The cut of the next match lies inside the text still being edited. */
  lemma LoopBounds(text: string, ms: seq<Span>, k: nat, last: nat, done: string,
                   offset: int, modified: string, cites: seq<Citation>)
    requires LoopState(text, ms, k, last, done, offset, modified, cites) && k < |ms|
    ensures ms[k].start + 2 <= ms[k].end <= |text|
    ensures 0 <= ms[k].start - offset <= ms[k].end - offset <= |modified|
  {
    assert ms[k..][0] == ms[k];
  }

  /** The loop of `extract_citations` over the matches `ms`, in order: each
      match is cut out at its position shifted left by what was already
      cut, and recorded with that position. */
  method CutMatches(text: string, ms: seq<Span>) returns (clean: string, cites: seq<Citation>)
    requires Spans(text, ms) && Chain(text, ms, 0)
    ensures clean == Kept(text, ms, 0)
    ensures cites == CitationsFrom(text, ms, 0)
  {
    LoopStart(text, ms);
    var modified := text;
    var offset := 0;
    cites := [];
    ghost var done: string := [];
    ghost var last: nat := 0;
    var k := 0;
    while k < |ms|
      invariant LoopState(text, ms, k, last, done, offset, modified, cites)
      decreases |ms| - k
    {
      LoopBounds(text, ms, k, last, done, offset, modified, cites);
      ghost var k0, last0, done0, offset0, modified0, cites0 := k, last, done, offset, modified, cites;
      var m := ms[k];
      var start := m.start - offset;
      var end := m.end - offset;
      cites := cites + [Citation(Interior(text, m), start, end)];
      modified := modified[..start] + modified[end..];
      done := done + text[last..m.start];
      last := m.end;
      offset := offset + (end - start);
      k := k + 1;
      LoopStep(text, ms, k0, last0, done0, offset0, modified0, cites0, k, last, done, offset, modified, cites);
    }
    LoopEnd(text, ms, last, done, offset, modified, cites);
    clean := modified;
  }

  /** When the loop ends, everything has been cut. */
  lemma LoopEnd(text: string, ms: seq<Span>, last: nat, done: string, offset: int,
                modified: string, cites: seq<Citation>)
    requires LoopState(text, ms, |ms|, last, done, offset, modified, cites)
    ensures modified == Kept(text, ms, 0)
    ensures cites == CitationsFrom(text, ms, 0)
  {
    assert ms[|ms|..] == [];
  }

  /** `extract_citations(text)`: cut every match of the original text. */
  method ExtractCitations(text: string) returns (clean: string, cites: seq<Citation>)
    ensures clean == CleanText(text, 0)
    ensures |clean| == |text| - Total(Matches(text, 0))
    ensures Describes(text, Matches(text, 0), clean, cites)
    ensures (forall i :: 0 <= i < |text| ==> text[i] != '[') ==> clean == text && cites == []
  {
    var ms := Matches(text, 0);
    assert Spans(text, ms);
    clean, cites := CutMatches(text, ms);
    CleanIsKept(text, 0);
    CitationFacts(text, ms, clean, cites);
    NoBracketUnchanged(text, clean, cites);
  }

  /** Text without '[' comes back whole, with no citation. */
  lemma NoBracketUnchanged(text: string, clean: string, cites: seq<Citation>)
    requires clean == CleanText(text, 0) && cites == CitationsFrom(text, Matches(text, 0), 0)
    ensures (forall i :: 0 <= i < |text| ==> text[i] != '[') ==> clean == text && cites == []
  {
    if forall i :: 0 <= i < |text| ==> text[i] != '[' {
      NoBracketNoMatch(text, 0);
    }
  }

  /** The citations record the matches `ms` one for one: each holds the
      text between its brackets, starts where its match starts less what
      was cut before it, spans as many characters as its match, and lies
      within the cleaned text; their starts never decrease. */
  predicate Describes(text: string, ms: seq<Span>, clean: string, cites: seq<Citation>)
    requires Spans(text, ms)
  {
    && |cites| == |ms|
    && (forall k :: 0 <= k < |cites| ==>
      && cites[k].title == text[ms[k].start + 1..ms[k].end - 1]
      && cites[k].startIdx == ms[k].start - Total(ms[..k])
      && cites[k].endIdx - cites[k].startIdx == ms[k].end - ms[k].start
      && 0 <= cites[k].startIdx <= |clean|)
    && (forall k :: 0 <= k < |cites| - 1 ==> cites[k].startIdx <= cites[k + 1].startIdx)
  }

  /** What the recorded citations say about the matches they come from. */
  lemma CitationFacts(text: string, ms: seq<Span>, clean: string, cites: seq<Citation>)
    requires ms == Matches(text, 0) && Spans(text, ms)
    requires clean == Kept(text, ms, 0) && cites == CitationsFrom(text, ms, 0)
    ensures Describes(text, ms, clean, cites)
  {
    CitationsFromFacts(text, ms, 0, 0);
    CitationsFromAt(text, ms, 0);
    DescribesParts(text, ms, clean, cites);
  }

  lemma DescribesParts(text: string, ms: seq<Span>, clean: string, cites: seq<Citation>)
    requires Spans(text, ms) && cites == CitationsFrom(text, ms, 0) && |cites| == |ms|
    requires forall k :: 0 <= k < |ms| ==> CiteOf(text, ms, 0, k)
    requires forall k :: 0 <= k < |ms| ==> 0 <= cites[k].startIdx <= |clean|
    requires forall k :: 0 <= k < |ms| - 1 ==> cites[k].startIdx <= cites[k + 1].startIdx
    ensures Describes(text, ms, clean, cites)
  {
    forall k | 0 <= k < |cites|
      ensures cites[k].title == text[ms[k].start + 1..ms[k].end - 1]
      ensures cites[k].startIdx == ms[k].start - Total(ms[..k])
      ensures cites[k].endIdx - cites[k].startIdx == ms[k].end - ms[k].start
    {
      assert CiteOf(text, ms, 0, k);
    }
  }

  /** Start positions rise, and stay within the cleaned text. */
  lemma {:induction false} CitationsFromFacts(text: string, ms: seq<Span>, from: nat, offset: int)
    requires from <= |text| && Spans(text, ms) && Chain(text, ms, from)
    ensures forall k :: 0 <= k < |ms| ==>
      from - offset <= CitationsFrom(text, ms, offset)[k].startIdx <= from - offset + |Kept(text, ms, from)|
    ensures forall k :: 0 <= k < |ms| - 1 ==>
      CitationsFrom(text, ms, offset)[k].startIdx <= CitationsFrom(text, ms, offset)[k + 1].startIdx
    decreases |ms|
  {
    if ms != [] {
      var m := ms[0];
      var rest := ms[1..];
      assert Spans(text, rest) by {
        forall k | 0 <= k < |rest| ensures rest[k].start + 2 <= rest[k].end <= |text| {
          assert rest[k] == ms[k + 1];
        }
      }
      CitationsFromFacts(text, rest, m.end, offset + (m.end - m.start));
      TotalBound(text, ms, from);
      var cs := CitationsFrom(text, ms, offset);
      var tail := CitationsFrom(text, rest, offset + (m.end - m.start));
      assert cs == [Citation(Interior(text, m), m.start - offset, m.end - offset)] + tail;
      var hi := from - offset + |Kept(text, ms, from)|;
      assert m.end - offset - (m.end - m.start) + |Kept(text, rest, m.end)| == hi;
      forall k | 0 <= k < |cs|
        ensures from - offset <= cs[k].startIdx <= hi
        ensures k + 1 < |cs| ==> cs[k].startIdx <= cs[k + 1].startIdx
      {
        if k > 0 {
          assert cs[k] == tail[k - 1];
        }
        if k + 1 < |cs| {
          assert cs[k + 1] == tail[k];
        }
      }
    }
  }

  /** The `k`-th citation records match `k`: its title is the match's
      interior, its start is the match's start less the length of the
      matches before it, and it spans as many characters as the match. */
  predicate CiteOf(text: string, ms: seq<Span>, offset: int, k: nat)
    requires Spans(text, ms) && k < |ms|
  {
    && CitationsFrom(text, ms, offset)[k].title == text[ms[k].start + 1..ms[k].end - 1]
    && CitationsFrom(text, ms, offset)[k].startIdx == ms[k].start - offset - Total(ms[..k])
    && CitationsFrom(text, ms, offset)[k].endIdx - CitationsFrom(text, ms, offset)[k].startIdx
       == ms[k].end - ms[k].start
  }

  lemma {:induction false} CitationsFromAt(text: string, ms: seq<Span>, offset: int)
    requires Spans(text, ms)
    ensures forall k :: 0 <= k < |ms| ==> CiteOf(text, ms, offset, k)
    decreases |ms|
  {
    if ms != [] {
      var len := ms[0].end - ms[0].start;
      SpansTail(text, ms);
      CitationsFromAt(text, ms[1..], offset + len);
      forall k | 0 <= k < |ms| ensures CiteOf(text, ms, offset, k) {
        if k == 0 {
          CiteOfHead(text, ms, offset);
        } else {
          assert CiteOf(text, ms[1..], offset + len, k - 1);
          CiteOfTail(text, ms, offset, k);
        }
      }
    }
  }

  lemma CiteOfHead(text: string, ms: seq<Span>, offset: int)
    requires Spans(text, ms) && ms != []
    ensures CiteOf(text, ms, offset, 0)
  {
    assert ms[..0] == [];
  }

  lemma CiteOfTail(text: string, ms: seq<Span>, offset: int, k: nat)
    requires Spans(text, ms) && 0 < k < |ms|
    requires Spans(text, ms[1..]) && CiteOf(text, ms[1..], offset + (ms[0].end - ms[0].start), k - 1)
    ensures CiteOf(text, ms, offset, k)
  {
    CitationsFromTail(text, ms, offset, k);
    TotalPrefixTail(ms, k);
  }

  lemma SpansTail(text: string, ms: seq<Span>)
    requires Spans(text, ms) && ms != []
    ensures Spans(text, ms[1..])
  {
    forall k | 0 <= k < |ms| - 1 ensures ms[1..][k].start + 2 <= ms[1..][k].end <= |text| {
      assert ms[1..][k] == ms[k + 1];
    }
  }

  lemma CitationsFromTail(text: string, ms: seq<Span>, offset: int, k: nat)
    requires Spans(text, ms) && 0 < k < |ms|
    ensures Spans(text, ms[1..])
    ensures CitationsFrom(text, ms, offset)[k]
         == CitationsFrom(text, ms[1..], offset + (ms[0].end - ms[0].start))[k - 1]
    ensures ms[1..][k - 1] == ms[k]
  {
    SpansTail(text, ms);
  }

  lemma TotalPrefixTail(ms: seq<Span>, k: nat)
    requires 0 < k <= |ms|
    ensures Total(ms[..k]) == (ms[0].end - ms[0].start) + Total(ms[1..][..k - 1])
  {
    assert ms[..k][1..] == ms[1..][..k - 1];
  }

  // ---------------------------------------------------------------------
  // A bare `[Title]` tag is one citation
  // ---------------------------------------------------------------------

  lemma {:induction false} CloseAtEnd(text: string, i: nat)
    requires 1 <= i < |text| && text[|text| - 1] == ']'
    requires forall m :: i <= m < |text| - 1 ==> text[m] != ']' && text[m] != '\n'
    ensures CloseFrom(text, i) == Some(|text| - 1)
    decreases |text| - i
  {
    if i < |text| - 1 {
      CloseAtEnd(text, i + 1);
    }
  }

  /** `[inner]` with no `]` or line break inside matches exactly once, as a
      whole, with title `inner`, and cleaning removes all of it. */
  lemma BareTagMatches(inner: string)
    requires forall i :: 0 <= i < |inner| ==> inner[i] != ']' && inner[i] != '\n'
    ensures Matches("[" + inner + "]", 0) == [Span(0, |inner| + 2)]
    ensures Interior("[" + inner + "]", Span(0, |inner| + 2)) == inner
    ensures CleanText("[" + inner + "]", 0) == ""
  {
    var tag := "[" + inner + "]";
    forall m | 1 <= m < |tag| - 1 ensures tag[m] != ']' && tag[m] != '\n' {
      assert tag[m] == inner[m - 1];
    }
    CloseAtEnd(tag, 1);
    assert MatchEnd(tag, 0) == Some(|tag|);
    assert Matches(tag, |tag|) == [];
    assert tag[1..|tag| - 1] == inner;
  }
}

=== FILE: embeddings.dfy ===
/** The embedding provider's retry policy and the two batch loops that
    store its answers: `JinaProvider.get_embeddings` and
    `resume_embedding_generation` (src/processor/embedding_generator.py),
    and the copy of the provider with `update_web_embeddings`
    (scripts/web_content/update_web_embeddings.py). The HTTP exchange is
    an input: the answer each attempt gets. Sleeping is recorded as the
    waits asked for. */
module Embeddings {
  import opened Wrappers
  import opened Text
  import opened Seqs

  type Vector = seq<real>

  /** What a successful call returns: the embeddings in response order,
      the total token count and the provider name. */
  datatype ProviderResult = ProviderResult(embeddings: seq<Vector>, tokensUsed: nat, provider: string)

  /** What one POST to the embeddings endpoint comes to: a parsed answer,
      a 402 status, or any other exception (a bad status, a connection or
      parse error) with its message. */
  datatype Response = Answer(result: ProviderResult) | PaymentRequired | Failure(message: string)

  const QuotaMessage: string := "API quota exceeded"

  /** The test both the provider and the resume loop apply to an
      exception's text. */
  predicate IsQuotaError(message: string) {
    Contains(message, "quota exceeded")
  }

  lemma QuotaMessageIsQuotaError()
    ensures IsQuotaError(QuotaMessage)
  {
    ContainsWitness(QuotaMessage, "quota exceeded", 4);
  }

  /** The message of the exception an unsuccessful attempt raises. */
  function ErrorMessage(resp: Response): (m: string)
    requires !resp.Answer?
    ensures resp.PaymentRequired? ==> m == QuotaMessage
  {
    if resp.PaymentRequired? then QuotaMessage else resp.message
  }

  const SleepError: string := "ValueError: sleep length must be non-negative"

  function Pow2(n: nat): (r: nat)
    ensures r >= 1
  {
    if n == 0 then 1 else 2 * Pow2(n - 1)
  }

  /** How `get_embeddings` ends: with a result, with None once the loop
      runs out without an attempt, or with an exception. */
  datatype CallOutcome = Returned(result: ProviderResult) | NoneReturned | Raised(message: string)

  /** The outcome, the number of POSTs made and the waits slept between
      them. */
  datatype Call = Call(outcome: CallOutcome, attempts: nat, waits: seq<int>)

  /** Whether an attempt's failure is retried: it is not a quota error. */
  predicate Retryable(resp: Response) {
    !resp.Answer? && !IsQuotaError(ErrorMessage(resp))
  }

  /** The retry loop from attempt `attempt` on; `respond(n)` is the answer
      to the n-th POST. */
  function Attempts(respond: nat -> Response, retryCount: int, retryDelay: int, attempt: nat): (r: Call)
    decreases retryCount - attempt
    ensures attempt >= retryCount ==> r == Call(NoneReturned, 0, [])
    ensures attempt < retryCount ==> 1 <= r.attempts <= retryCount - attempt
    ensures |r.waits| <= r.attempts
    ensures forall k :: 0 <= k < |r.waits| ==> r.waits[k] == retryDelay * Pow2(attempt + k)
    ensures r.outcome.Returned? ==> respond(attempt + r.attempts - 1) == Answer(r.outcome.result)
    ensures r.outcome.Raised? && r.outcome.message != SleepError ==>
      !respond(attempt + r.attempts - 1).Answer? && r.outcome.message == ErrorMessage(respond(attempt + r.attempts - 1))
  {
    if attempt >= retryCount then Call(NoneReturned, 0, [])
    else
      var resp := respond(attempt);
      if resp.Answer? then Call(Returned(resp.result), 1, [])
      else
        var message := ErrorMessage(resp);
        if IsQuotaError(message) || attempt == retryCount - 1 then Call(Raised(message), 1, [])
        else
          var wait := retryDelay * Pow2(attempt);
          if wait < 0 then Call(Raised(SleepError), 1, [])
          else
            var rest := Attempts(respond, retryCount, retryDelay, attempt + 1);
            Call(rest.outcome, rest.attempts + 1, [wait] + rest.waits)
  }

  /** `get_embeddings(texts, retry_count, retry_delay)`. */
  function GetEmbeddings(respond: nat -> Response, retryCount: int, retryDelay: int): (r: Call)
    ensures r.attempts <= if retryCount < 0 then 0 else retryCount
    ensures r.outcome.NoneReturned? <==> retryCount <= 0
    ensures r.attempts == 0 <==> retryCount <= 0
  {
    if retryCount > 0 then
      NeverNoneOnceTried(respond, retryCount, retryDelay, 0);
      Attempts(respond, retryCount, retryDelay, 0)
    else Attempts(respond, retryCount, retryDelay, 0)
  }

  /** Once an attempt is made the call returns or raises, never None. */
  lemma {:induction false} NeverNoneOnceTried(respond: nat -> Response, retryCount: int, retryDelay: int, attempt: nat)
    requires attempt < retryCount
    ensures !Attempts(respond, retryCount, retryDelay, attempt).outcome.NoneReturned?
    decreases retryCount - attempt
  {
    var resp := respond(attempt);
    if !resp.Answer? && !IsQuotaError(ErrorMessage(resp)) && attempt < retryCount - 1 && retryDelay * Pow2(attempt) >= 0 {
      NeverNoneOnceTried(respond, retryCount, retryDelay, attempt + 1);
    }
  }

  /** A quota error ends the call at once with that error. */
  lemma QuotaNeverRetried(respond: nat -> Response, retryCount: int, retryDelay: int, attempt: nat)
    requires attempt < retryCount
    requires !respond(attempt).Answer? && IsQuotaError(ErrorMessage(respond(attempt)))
    ensures Attempts(respond, retryCount, retryDelay, attempt) == Call(Raised(ErrorMessage(respond(attempt))), 1, [])
  {
  }

  /** A 402 answer is a quota error. */
  lemma PaymentRequiredNeverRetried(respond: nat -> Response, retryCount: int, retryDelay: int)
    requires 0 < retryCount && respond(0) == PaymentRequired
    ensures GetEmbeddings(respond, retryCount, retryDelay) == Call(Raised(QuotaMessage), 1, [])
  {
    QuotaMessageIsQuotaError();
  }

  /** The call returns the first answer when every earlier attempt failed
      in a way that is retried, within the attempt budget; it waits
      `retry_delay * 2^k` after the k-th failure. */
  lemma {:induction false} FirstAnswerReturned(respond: nat -> Response, retryCount: int, retryDelay: nat, attempt: nat, n: nat)
    requires attempt <= n < retryCount
    requires respond(n).Answer?
    requires forall m :: attempt <= m < n ==> Retryable(respond(m))
    ensures Attempts(respond, retryCount, retryDelay, attempt).outcome == Returned(respond(n).result)
    ensures Attempts(respond, retryCount, retryDelay, attempt).attempts == n - attempt + 1
    ensures |Attempts(respond, retryCount, retryDelay, attempt).waits| == n - attempt
    decreases n - attempt
  {
    if attempt < n {
      assert Retryable(respond(attempt));
      FirstAnswerReturned(respond, retryCount, retryDelay, attempt + 1, n);
    }
  }

  /** Every attempt failing in a way that is retried exhausts the budget
      and raises the last failure. */
  lemma {:induction false} LastFailureRaised(respond: nat -> Response, retryCount: int, retryDelay: nat, attempt: nat)
    requires attempt < retryCount
    requires forall m :: attempt <= m < retryCount ==> Retryable(respond(m))
    ensures Retryable(respond(retryCount - 1))
    ensures Attempts(respond, retryCount, retryDelay, attempt).outcome == Raised(ErrorMessage(respond(retryCount - 1)))
    ensures Attempts(respond, retryCount, retryDelay, attempt).attempts == retryCount - attempt
    decreases retryCount - attempt
  {
    assert Retryable(respond(attempt));
    if attempt < retryCount - 1 {
      LastFailureRaised(respond, retryCount, retryDelay, attempt + 1);
    }
  }

  /** With the default budget of 3 and delay of 2, two failures wait 2
      and then 4 seconds. */
  lemma DefaultBackoff(respond: nat -> Response)
    requires Retryable(respond(0)) && Retryable(respond(1))
    ensures GetEmbeddings(respond, 3, 2).waits == [2, 4]
    ensures GetEmbeddings(respond, 3, 2).attempts == 3
  {
    assert Pow2(1) == 2;
    LastFailureRaised2(respond);
  }

  lemma LastFailureRaised2(respond: nat -> Response)
    requires Retryable(respond(0)) && Retryable(respond(1))
    ensures Attempts(respond, 3, 2, 1).waits == [4]
    ensures Attempts(respond, 3, 2, 1).attempts == 2
  {
    assert Pow2(1) == 2;
    var last := Attempts(respond, 3, 2, 2);
    assert last.waits == [] && last.attempts == 1;
  }

  // ---------------------------------------------------------------------
  // Storing one batch
  // ---------------------------------------------------------------------

  /** A chunk as the loops select it: its id and text. */
  datatype ChunkRow = ChunkRow(id: int, content: string)

  /** A row of the embeddings table. */
  datatype EmbeddingRow = EmbeddingRow(chunkId: int, embedding: Vector, modelVersion: string, tokensUsed: int)

  /** How one batch's provider call and inserts end: the answer, or an
      exception (from the provider or the insert) with its message. */
  datatype BatchCall = Embedded(result: ProviderResult) | CallFailed(message: string)

  /** How a whole `get_embeddings` call looks to the batch loops; a None
      result fails when the loop subscripts it. */
  function AsBatchCall(c: CallOutcome): (b: BatchCall)
    ensures b.Embedded? <==> c.Returned?
    ensures c.Raised? ==> b == CallFailed(c.message)
  {
    match c
    case Returned(result) => Embedded(result)
    case Raised(message) => CallFailed(message)
    case NoneReturned => CallFailed("TypeError: 'NoneType' object is not subscriptable")
  }

  /** The rows inserted for a batch: chunk ids paired with embeddings in
      order, as far as the shorter of the two goes, each with the floor
      of the total tokens over the batch length. */
  function BatchRows(batch: seq<ChunkRow>, res: ProviderResult): (r: seq<EmbeddingRow>)
    requires |batch| > 0
    ensures |r| == if |batch| <= |res.embeddings| then |batch| else |res.embeddings|
    ensures forall k :: 0 <= k < |r| ==>
      r[k] == EmbeddingRow(batch[k].id, res.embeddings[k], res.provider, res.tokensUsed / |batch|)
  {
    var n := if |batch| <= |res.embeddings| then |batch| else |res.embeddings|;
    seq(n, k requires 0 <= k < n => EmbeddingRow(batch[k].id, res.embeddings[k], res.provider, res.tokensUsed / |batch|))
  }

  function TokenSum(rows: seq<EmbeddingRow>): int
  {
    if rows == [] then 0 else rows[0].tokensUsed + TokenSum(rows[1..])
  }

  lemma {:induction false} TokenSumUniform(rows: seq<EmbeddingRow>, v: int)
    requires forall k :: 0 <= k < |rows| ==> rows[k].tokensUsed == v
    ensures TokenSum(rows) == |rows| * v
    decreases |rows|
  {
    if rows != [] {
      TokenSumUniform(rows[1..], v);
    }
  }

  /** The tokens recorded for a batch never add up to more than the
      total the provider reported. */
  lemma BatchTokensBounded(batch: seq<ChunkRow>, res: ProviderResult)
    requires |batch| > 0
    ensures 0 <= TokenSum(BatchRows(batch, res)) <= res.tokensUsed
  {
    var rows := BatchRows(batch, res);
    var v := res.tokensUsed / |batch|;
    TokenSumUniform(rows, v);
    FloorShareBounded(|rows|, |batch|, res.tokensUsed);
  }

  /** `m` shares of `total // n` with `m <= n` add up to at most `total`. */
  lemma FloorShareBounded(m: nat, n: nat, total: nat)
    requires 0 < n && m <= n
    ensures 0 <= m * (total / n) <= total
  {
    var v := total / n;
    FloorShareWhole(n, total);
    MulMonotone(m, n, v);
  }

  /** `n` shares of `total // n` add up to at most `total`. */
  lemma FloorShareWhole(n: nat, total: nat)
    requires 0 < n
    ensures n * (total / n) <= total
  {
    assert total == n * (total / n) + total % n;
  }

  lemma MulMonotone(m: nat, n: nat, v: nat)
    requires m <= n
    ensures 0 <= m * v <= n * v
  {
    assert n * v == m * v + (n - m) * v;
  }

  function Ids(rows: seq<EmbeddingRow>): (r: seq<int>)
    ensures |r| == |rows| && forall k :: 0 <= k < |rows| ==> r[k] == rows[k].chunkId
  {
    seq(|rows|, k requires 0 <= k < |rows| => rows[k].chunkId)
  }

  function ChunkIds(cs: seq<ChunkRow>): (r: seq<int>)
    ensures |r| == |cs| && forall k :: 0 <= k < |cs| ==> r[k] == cs[k].id
  {
    seq(|cs|, k requires 0 <= k < |cs| => cs[k].id)
  }

  predicate Distinct(ids: seq<int>) {
    forall k, l :: 0 <= k < l < |ids| ==> ids[k] != ids[l]
  }

  /** A batch answered with at least one embedding per chunk embeds every
      chunk of the batch. */
  lemma FullAnswerEmbedsBatch(batch: seq<ChunkRow>, res: ProviderResult)
    requires |batch| > 0 && |res.embeddings| >= |batch|
    ensures Ids(BatchRows(batch, res)) == ChunkIds(batch)
  {
  }

  // ---------------------------------------------------------------------
  // `resume_embedding_generation`
  // ---------------------------------------------------------------------

  /** The chunks with ids strictly increasing, as `ORDER BY c.id` lists them. */
  predicate Ascending(cs: seq<ChunkRow>) {
    forall k, l :: 0 <= k < l < |cs| ==> cs[k].id < cs[l].id
  }

  /** The test `e.id IS NULL` of the left join: no row for the chunk. */
  function Pending(done: set<int>): ChunkRow -> bool
  {
    (c: ChunkRow) => c.id !in done
  }

  function IdLess(): (ChunkRow, ChunkRow) -> bool
  {
    (a: ChunkRow, b: ChunkRow) => a.id < b.id
  }

  /** The chunks without an embedding, in id order. */
  function Unembedded(chunks: seq<ChunkRow>, done: set<int>): (r: seq<ChunkRow>)
    ensures forall c :: c in r <==> c in chunks && c.id !in done
  {
    Filter(chunks, Pending(done))
  }

  /** The next batch: at most `size` chunks without an embedding, the
      lowest ids first. */
  function NextBatch(chunks: seq<ChunkRow>, done: set<int>, size: nat): (r: seq<ChunkRow>)
    ensures |r| <= size
    ensures forall k :: 0 <= k < |r| ==> r[k] in chunks && r[k].id !in done
    ensures |r| < size ==> r == Unembedded(chunks, done)
    ensures r == [] <==> size == 0 || Unembedded(chunks, done) == []
  {
    var u := Unembedded(chunks, done);
    if |u| <= size then u
    else
      assert forall k :: 0 <= k < size ==> u[..size][k] in u;
      u[..size]
  }

  /** The batch holds the lowest ids: every chunk left out of it that still
      needs an embedding has a larger id than each chunk in it. */
  lemma NextBatchLowest(chunks: seq<ChunkRow>, done: set<int>, size: nat, c: ChunkRow)
    requires Ascending(chunks)
    requires c in chunks && c.id !in done && c !in NextBatch(chunks, done, size)
    ensures forall k :: 0 <= k < |NextBatch(chunks, done, size)| ==> NextBatch(chunks, done, size)[k].id < c.id
  {
    var u := Unembedded(chunks, done);
    FilterPairwise(chunks, Pending(done), IdLess());
    var b := NextBatch(chunks, done, size);
    assert c in u;
    var j :| 0 <= j < |u| && u[j] == c;
    assert forall i :: 0 <= i < |b| ==> b[i] == u[i] && u[i] in b;
    assert |b| <= j;
    forall k | 0 <= k < |b| ensures b[k].id < c.id {
      assert IdLess()(u[k], u[j]);
    }
  }

  function EmbeddedIds(table: seq<EmbeddingRow>): set<int>
  {
    set k | 0 <= k < |table| :: table[k].chunkId
  }

  /** How the resume loop ends. `OutOfCalls` marks the end of the given
      provider answers: the loop itself would go on. */
  datatype Stop = AllEmbedded | QuotaStopped | OutOfCalls | Cancelled | Failed(message: string)

  datatype Run = Run(table: seq<EmbeddingRow>, stop: Stop, callsMade: nat)

  /** The `while True` loop: `calls` are the answers of successive provider
      calls. A batch that succeeds is committed; a quota error stops; any
      other error rolls back and the same batch is tried again. */
  function ResumeLoop(chunks: seq<ChunkRow>, table: seq<EmbeddingRow>, size: nat, calls: seq<BatchCall>): (r: Run)
    decreases |calls|
    ensures r.callsMade <= |calls|
    ensures |table| <= |r.table| && r.table[..|table|] == table
    ensures r.stop.AllEmbedded? || r.stop.QuotaStopped? || r.stop.OutOfCalls?
    ensures r.stop.QuotaStopped? ==> 0 < r.callsMade && calls[r.callsMade - 1].CallFailed? && IsQuotaError(calls[r.callsMade - 1].message)
  {
    var batch := NextBatch(chunks, EmbeddedIds(table), size);
    if batch == [] then Run(table, AllEmbedded, 0)
    else if calls == [] then Run(table, OutOfCalls, 0)
    else
      match calls[0]
      case Embedded(res) =>
        var rest := ResumeLoop(chunks, table + BatchRows(batch, res), size, calls[1..]);
        assert (table + BatchRows(batch, res))[..|table|] == table;
        assert rest.table[..|table|] == table;
        Run(rest.table, rest.stop, rest.callsMade + 1)
      case CallFailed(message) =>
        if IsQuotaError(message) then Run(table, QuotaStopped, 1)
        else
          var rest := ResumeLoop(chunks, table, size, calls[1..]);
          Run(rest.table, rest.stop, rest.callsMade + 1)
  }

  /** `resume_embedding_generation(conn, provider, batch_size)`: nothing to
      do returns at once; otherwise the operator's answer (`confirmed`)
      decides; a negative LIMIT is a database error. */
  function Resume(chunks: seq<ChunkRow>, table: seq<EmbeddingRow>, batchSize: int, confirmed: bool, calls: seq<BatchCall>): (r: Run)
    ensures Unembedded(chunks, EmbeddedIds(table)) == [] ==> r == Run(table, AllEmbedded, 0)
    ensures !confirmed ==> r.callsMade == 0 && r.table == table
    ensures |table| <= |r.table| && r.table[..|table|] == table
  {
    if Unembedded(chunks, EmbeddedIds(table)) == [] then Run(table, AllEmbedded, 0)
    else if !confirmed then Run(table, Cancelled, 0)
    else if batchSize < 0 then Run(table, Failed("LIMIT must not be negative"), 0)
    else ResumeLoop(chunks, table, batchSize, calls)
  }

  /** A finished loop has embedded every chunk, unless the batch size is 0. */
  lemma {:induction false} AllEmbeddedMeansDone(chunks: seq<ChunkRow>, table: seq<EmbeddingRow>, size: nat, calls: seq<BatchCall>)
    requires size > 0
    requires ResumeLoop(chunks, table, size, calls).stop.AllEmbedded?
    ensures forall c :: c in chunks ==> c.id in EmbeddedIds(ResumeLoop(chunks, table, size, calls).table)
    decreases |calls|
  {
    var batch := NextBatch(chunks, EmbeddedIds(table), size);
    if batch == [] {
      var u := Unembedded(chunks, EmbeddedIds(table));
      assert |u| == 0;
      assert forall c :: c in chunks && c.id !in EmbeddedIds(table) ==> c in u;
    } else if calls != [] {
      match calls[0]
      case Embedded(res) =>
        AllEmbeddedMeansDone(chunks, table + BatchRows(batch, res), size, calls[1..]);
      case CallFailed(message) =>
        if !IsQuotaError(message) {
          AllEmbeddedMeansDone(chunks, table, size, calls[1..]);
        }
    }
  }

  /** Rows of a batch that needs embeddings keep every chunk embedded at
      most once. */
  lemma BatchKeepsIdsDistinct(chunks: seq<ChunkRow>, table: seq<EmbeddingRow>, size: nat, res: ProviderResult)
    requires Ascending(chunks) && Distinct(Ids(table))
    requires NextBatch(chunks, EmbeddedIds(table), size) != []
    ensures Distinct(Ids(table + BatchRows(NextBatch(chunks, EmbeddedIds(table), size), res)))
  {
    var batch := NextBatch(chunks, EmbeddedIds(table), size);
    var rows := BatchRows(batch, res);
    var t := table + rows;
    var u := Unembedded(chunks, EmbeddedIds(table));
    FilterPairwise(chunks, Pending(EmbeddedIds(table)), IdLess());
    assert forall k :: 0 <= k < |batch| ==> batch[k] == u[k];
    forall k, l | 0 <= k < l < |t| ensures t[k].chunkId != t[l].chunkId {
      if l < |table| {
        assert Ids(table)[k] != Ids(table)[l];
      } else if k < |table| {
        assert t[l].chunkId == batch[l - |table|].id;
        assert t[k].chunkId in EmbeddedIds(table);
      } else {
        assert t[k].chunkId == u[k - |table|].id && t[l].chunkId == u[l - |table|].id;
      }
    }
  }

  /** The resume loop never embeds a chunk twice. */
  lemma {:induction false} ResumeKeepsIdsDistinct(chunks: seq<ChunkRow>, table: seq<EmbeddingRow>, size: nat, calls: seq<BatchCall>)
    requires Ascending(chunks) && Distinct(Ids(table))
    ensures Distinct(Ids(ResumeLoop(chunks, table, size, calls).table))
    decreases |calls|
  {
    var batch := NextBatch(chunks, EmbeddedIds(table), size);
    if batch != [] && calls != [] {
      match calls[0]
      case Embedded(res) =>
        BatchKeepsIdsDistinct(chunks, table, size, res);
        ResumeKeepsIdsDistinct(chunks, table + BatchRows(batch, res), size, calls[1..]);
      case CallFailed(message) =>
        if !IsQuotaError(message) {
          ResumeKeepsIdsDistinct(chunks, table, size, calls[1..]);
        }
    }
  }

  /** A failed batch is rolled back: the loop goes on from the same table. */
  lemma FailedBatchRolledBack(chunks: seq<ChunkRow>, table: seq<EmbeddingRow>, size: nat, message: string, calls: seq<BatchCall>)
    requires NextBatch(chunks, EmbeddedIds(table), size) != [] && !IsQuotaError(message)
    ensures ResumeLoop(chunks, table, size, [CallFailed(message)] + calls).table == ResumeLoop(chunks, table, size, calls).table
  {
    assert ([CallFailed(message)] + calls)[1..] == calls;
  }

  // ---------------------------------------------------------------------
  // `update_web_embeddings`
  // ---------------------------------------------------------------------

  /** `chunks[i:i + batch_size]` for `i` in `range(start, len(chunks), batch_size)`. */
  function Slices(xs: seq<ChunkRow>, size: nat, start: nat): (r: seq<seq<ChunkRow>>)
    requires size > 0
    decreases |xs| - start
    ensures forall k :: 0 <= k < |r| ==> 0 < |r[k]| <= size
  {
    if start >= |xs| then []
    else
      var end := if start + size <= |xs| then start + size else |xs|;
      [xs[start..end]] + Slices(xs, size, start + size)
  }

  /** The slices partition the list from `start` on, in order. */
  lemma {:induction false} SlicesPartition(xs: seq<ChunkRow>, size: nat, start: nat)
    requires size > 0 && start <= |xs|
    ensures Flatten(Slices(xs, size, start)) == xs[start..]
    decreases |xs| - start
  {
    if start < |xs| {
      var end := if start + size <= |xs| then start + size else |xs|;
      var s := Slices(xs, size, start);
      if start + size <= |xs| {
        SlicesPartition(xs, size, start + size);
      } else {
        assert Slices(xs, size, start + size) == [];
      }
      assert s[1..] == Slices(xs, size, start + size);
      assert xs[start..] == xs[start..end] + xs[end..];
    }
  }

  /** Every slice but the last is full. */
  lemma {:induction false} SlicesFull(xs: seq<ChunkRow>, size: nat, start: nat)
    requires size > 0
    ensures forall k :: 0 <= k < |Slices(xs, size, start)| - 1 ==> |Slices(xs, size, start)[k]| == size
    decreases |xs| - start
  {
    if start < |xs| {
      SlicesFull(xs, size, start + size);
    }
  }

  datatype WebRun = WebRun(table: seq<EmbeddingRow>, error: Option<string>, callsMade: nat)

  /** The rows batch `k` inserts when its call succeeds. */
  function RowsOfBatch(batches: seq<seq<ChunkRow>>, respond: nat -> BatchCall, k: nat): seq<EmbeddingRow>
    requires k < |batches| && |batches[k]| > 0
  {
    match respond(k)
    case Embedded(res) => BatchRows(batches[k], res)
    case CallFailed(_) => []
  }

  /** The rows batches `k` up to `n` insert, in order. */
  function RowsFrom(batches: seq<seq<ChunkRow>>, respond: nat -> BatchCall, k: nat, n: nat): seq<EmbeddingRow>
    requires k <= n <= |batches|
    requires forall j :: 0 <= j < |batches| ==> |batches[j]| > 0
    decreases n - k
  {
    if k == n then [] else RowsOfBatch(batches, respond, k) + RowsFrom(batches, respond, k + 1, n)
  }

  /** The batch loop from batch `k`: `respond(k)` is how batch `k`'s call
      and insert end. Each batch commits on its own; a failure rolls back
      that batch and ends the run with its exception. */
  function WebLoop(batches: seq<seq<ChunkRow>>, table: seq<EmbeddingRow>, respond: nat -> BatchCall, k: nat): (r: WebRun)
    requires k <= |batches|
    requires forall j :: 0 <= j < |batches| ==> |batches[j]| > 0
    decreases |batches| - k
    ensures k <= r.callsMade <= |batches|
    ensures r.error.None? ==> r.callsMade == |batches|
    ensures r.error.Some? ==> k < r.callsMade && respond(r.callsMade - 1) == CallFailed(r.error.value)
    ensures forall j :: k <= j < r.callsMade - 1 ==> respond(j).Embedded?
  {
    if k == |batches| then WebRun(table, None, k)
    else
      match respond(k)
      case Embedded(res) => WebLoop(batches, table + BatchRows(batches[k], res), respond, k + 1)
      case CallFailed(message) => WebRun(table, Some(message), k + 1)
  }

  /** A run without error committed every batch from `k` on. */
  lemma {:induction false} WebLoopOkTable(batches: seq<seq<ChunkRow>>, table: seq<EmbeddingRow>, respond: nat -> BatchCall, k: nat)
    requires k <= |batches|
    requires forall j :: 0 <= j < |batches| ==> |batches[j]| > 0
    requires WebLoop(batches, table, respond, k).error.None?
    ensures WebLoop(batches, table, respond, k).table == table + RowsFrom(batches, respond, k, |batches|)
    decreases |batches| - k
  {
    if k == |batches| {
      assert table + [] == table;
    } else {
      var rows := BatchRows(batches[k], respond(k).result);
      WebLoopOkTable(batches, table + rows, respond, k + 1);
      assert RowsFrom(batches, respond, k, |batches|) == rows + RowsFrom(batches, respond, k + 1, |batches|);
    }
  }

  /** The loop from batch `i` when batch `k` is the first to fail. */
  lemma {:induction false} WebLoopFailsAt(batches: seq<seq<ChunkRow>>, table: seq<EmbeddingRow>, respond: nat -> BatchCall, i: nat, k: nat)
    requires i <= k < |batches|
    requires forall j :: 0 <= j < |batches| ==> |batches[j]| > 0
    requires forall j :: i <= j < k ==> respond(j).Embedded?
    requires respond(k).CallFailed?
    ensures WebLoop(batches, table, respond, i) == WebRun(table + RowsFrom(batches, respond, i, k), Some(respond(k).message), k + 1)
    decreases k - i
  {
    if i == k {
      assert RowsFrom(batches, respond, i, k) == [];
      assert table + [] == table;
    } else {
      assert respond(i).Embedded?;
      var rows := BatchRows(batches[i], respond(i).result);
      WebLoopFailsAt(batches, table + rows, respond, i + 1, k);
      WebLoopFailsStep(batches, table, respond, i, k, rows);
    }
  }

  /** One step of `WebLoopFailsAt`: a successful batch `i` moves its rows
      from the loop's table into the rows committed before batch `k`. */
  lemma WebLoopFailsStep(batches: seq<seq<ChunkRow>>, table: seq<EmbeddingRow>, respond: nat -> BatchCall, i: nat, k: nat, rows: seq<EmbeddingRow>)
    requires i < k < |batches|
    requires forall j :: 0 <= j < |batches| ==> |batches[j]| > 0
    requires respond(i).Embedded? && respond(k).CallFailed?
    requires rows == BatchRows(batches[i], respond(i).result)
    requires WebLoop(batches, table + rows, respond, i + 1)
          == WebRun(table + rows + RowsFrom(batches, respond, i + 1, k), Some(respond(k).message), k + 1)
    ensures WebLoop(batches, table, respond, i) == WebRun(table + RowsFrom(batches, respond, i, k), Some(respond(k).message), k + 1)
  {
    var later := RowsFrom(batches, respond, i + 1, k);
    assert RowsOfBatch(batches, respond, i) == rows;
    assert RowsFrom(batches, respond, i, k) == rows + later;
    assert table + (rows + later) == table + rows + later;
  }

  /** A run that fails committed the batches from `k` up to the failed
      one, and nothing of the failed one. */
  lemma WebLoopErrTable(batches: seq<seq<ChunkRow>>, table: seq<EmbeddingRow>, respond: nat -> BatchCall, k: nat)
    requires k <= |batches|
    requires forall j :: 0 <= j < |batches| ==> |batches[j]| > 0
    requires WebLoop(batches, table, respond, k).error.Some?
    ensures WebLoop(batches, table, respond, k).callsMade - 1 >= k
    ensures WebLoop(batches, table, respond, k).table
      == table + RowsFrom(batches, respond, k, WebLoop(batches, table, respond, k).callsMade - 1)
  {
    var r := WebLoop(batches, table, respond, k);
    WebLoopFailsAt(batches, table, respond, k, r.callsMade - 1);
  }

  /** A run without error found every batch embedded. */
  lemma {:induction false} WebLoopAllEmbedded(batches: seq<seq<ChunkRow>>, table: seq<EmbeddingRow>, respond: nat -> BatchCall, k: nat)
    requires k <= |batches|
    requires forall j :: 0 <= j < |batches| ==> |batches[j]| > 0
    requires WebLoop(batches, table, respond, k).error.None?
    ensures forall j :: k <= j < |batches| ==> respond(j).Embedded?
    decreases |batches| - k
  {
    if k < |batches| {
      var rows := BatchRows(batches[k], respond(k).result);
      WebLoopAllEmbedded(batches, table + rows, respond, k + 1);
    }
  }

  /** `update_web_embeddings(batch_size)` over the web chunks that need an
      embedding, in id order: nothing to do makes no provider call; a zero
      step is a `range()` error; a negative step makes no batches. */
  function UpdateWebEmbeddings(chunks: seq<ChunkRow>, table: seq<EmbeddingRow>, batchSize: int, respond: nat -> BatchCall): (r: WebRun)
    ensures chunks == [] ==> r == WebRun(table, None, 0)
    ensures batchSize <= 0 ==> r.callsMade == 0 && r.table == table
    ensures |table| <= |r.table| && r.table[..|table|] == table
  {
    if chunks == [] then WebRun(table, None, 0)
    else if batchSize == 0 then WebRun(table, Some("ValueError: range() arg 3 must not be zero"), 0)
    else if batchSize < 0 then WebRun(table, None, 0)
    else
      var r := WebLoop(Slices(chunks, batchSize, 0), table, respond, 0);
      if r.error.None? then
        WebLoopOkTable(Slices(chunks, batchSize, 0), table, respond, 0);
        assert r.table[..|table|] == table;
        r
      else
        WebLoopErrTable(Slices(chunks, batchSize, 0), table, respond, 0);
        assert r.table[..|table|] == table;
        r
  }

  /** A failure in batch `k` keeps the batches before it committed and
      stores nothing of batch `k` or later. */
  lemma WebFailureKeepsEarlierBatches(chunks: seq<ChunkRow>, table: seq<EmbeddingRow>, batchSize: int, respond: nat -> BatchCall, k: nat)
    requires batchSize > 0 && k < |Slices(chunks, batchSize, 0)|
    requires forall j :: 0 <= j < k ==> respond(j).Embedded?
    requires respond(k).CallFailed?
    ensures UpdateWebEmbeddings(chunks, table, batchSize, respond)
      == WebRun(table + RowsFrom(Slices(chunks, batchSize, 0), respond, 0, k), Some(respond(k).message), k + 1)
  {
    WebLoopFailsAt(Slices(chunks, batchSize, 0), table, respond, 0, k);
  }

  /** When every batch's call answers with an embedding per chunk, each
      web chunk gets exactly one row, in id order. */
  lemma WebEmbedsEveryChunk(chunks: seq<ChunkRow>, table: seq<EmbeddingRow>, batchSize: int, respond: nat -> BatchCall)
    requires batchSize > 0
    requires forall k :: 0 <= k < |Slices(chunks, batchSize, 0)| ==>
      respond(k).Embedded? && |respond(k).result.embeddings| >= |Slices(chunks, batchSize, 0)[k]|
    ensures UpdateWebEmbeddings(chunks, table, batchSize, respond).error.None?
    ensures Ids(UpdateWebEmbeddings(chunks, table, batchSize, respond).table) == Ids(table) + ChunkIds(chunks)
  {
    var batches := Slices(chunks, batchSize, 0);
    var r := UpdateWebEmbeddings(chunks, table, batchSize, respond);
    if chunks == [] {
      assert Ids(table) + ChunkIds(chunks) == Ids(table);
    } else {
      var rows := RowsFrom(batches, respond, 0, |batches|);
      WebLoopOkTable(batches, table, respond, 0);
      assert r.table == table + rows;
      SlicesPartition(chunks, batchSize, 0);
      RowsFromIds(batches, respond, 0, |batches|);
      assert batches[0..|batches|] == batches;
      assert chunks[0..] == chunks;
      IdsAppend(table, rows);
    }
  }

  lemma IdsAppend(a: seq<EmbeddingRow>, b: seq<EmbeddingRow>)
    ensures Ids(a + b) == Ids(a) + Ids(b)
  {
  }

  lemma ChunkIdsAppend(a: seq<ChunkRow>, b: seq<ChunkRow>)
    ensures ChunkIds(a + b) == ChunkIds(a) + ChunkIds(b)
  {
  }

  lemma {:induction false} RowsFromIds(batches: seq<seq<ChunkRow>>, respond: nat -> BatchCall, k: nat, n: nat)
    requires k <= n <= |batches|
    requires forall j :: 0 <= j < |batches| ==> |batches[j]| > 0
    requires forall j :: k <= j < n ==> respond(j).Embedded? && |respond(j).result.embeddings| >= |batches[j]|
    ensures Ids(RowsFrom(batches, respond, k, n)) == ChunkIds(Flatten(batches[k..n]))
    decreases n - k
  {
    if k < n {
      RowsFromIds(batches, respond, k + 1, n);
      FullAnswerEmbedsBatch(batches[k], respond(k).result);
      IdsAppend(RowsOfBatch(batches, respond, k), RowsFrom(batches, respond, k + 1, n));
      assert batches[k..n][1..] == batches[k + 1..n];
      ChunkIdsAppend(batches[k], Flatten(batches[k + 1..n]));
    } else {
      assert batches[k..n] == [];
    }
  }
}

=== FILE: ercot.dfy ===
/** The ERCOT site addresses every URL handler in the repository shares
    (`BASE_URL`, `FILE_BASE`, `SERVICE_BASE`). */
module Ercot {
  const Host: string := "www.ercot.com"
  /** `BASE_URL` */
  const BaseUrl: string := "https://www.ercot.com"
  /** `FILE_BASE` */
  const FileBase: string := "/files/docs/"
  /** `SERVICE_BASE` */
  const ServiceBase: string := "/services/rq/"
  /** The two directory URLs documents are resolved against. */
  const FilesRoot: string := BaseUrl + FileBase
  const ServicesRoot: string := BaseUrl + ServiceBase
}

=== FILE: excel_clean.dfy ===
/** `ExcelProcessor.clean_excel_content`
    (scripts/improve_rag/fix_excel_processing.py): the whitespace-separated
    tokens whose lower-case form is `nan` are dropped, and the rest are
    joined by single spaces. */
module ExcelClean {
  import opened Text
  import opened Seqs

  /** A token pandas wrote for a missing cell. Only ASCII letters can
      lower-case to the letters of `nan`, so ASCII lower-casing decides
      this exactly as Python's `str.lower` does. */
  predicate IsNanWord(w: string) {
    Lower(w) == "nan"
  }

  function KeepWord(): string -> bool
  {
    (w: string) => !IsNanWord(w)
  }

  /** The tokens that survive, in order. */
  function KeptWords(content: string): (ws: seq<string>)
    ensures AllTokens(ws)
  {
    WordsAreTokens(content);
    Filter(Words(content), KeepWord())
  }

  /** `clean_excel_content(content)`: the NaN-free tokens joined by one
      space, then collapsed once more. */
  function CleanExcelContent(content: string): (r: string)
    ensures Words(r) == KeptWords(content)
    ensures r == Join(KeptWords(content), " ")
  {
    var kept := KeptWords(content);
    WordsOfJoin(kept);
    Collapse(Join(kept, " "))
  }

  /** No token of the result is a NaN marker, and every token of the input
      that is not one is there, in the same order. */
  lemma CleanDropsExactlyNan(content: string)
    ensures forall k :: 0 <= k < |Words(CleanExcelContent(content))| ==> !IsNanWord(Words(CleanExcelContent(content))[k])
    ensures forall w :: w in Words(content) && !IsNanWord(w) <==> w in Words(CleanExcelContent(content))
  {
    var kept := KeptWords(content);
    assert forall k :: 0 <= k < |kept| ==> KeepWord()(kept[k]);
  }

  /** The result has no whitespace at either end, only single spaces, and
      never two in a row. */
  lemma CleanShape(content: string)
    ensures var r := CleanExcelContent(content);
      && (r != [] ==> !IsSpace(r[0]) && !IsSpace(r[|r| - 1]))
      && (forall i :: 0 <= i < |r| && IsSpace(r[i]) ==> r[i] == ' ')
      && (forall i :: 0 <= i < |r| - 1 && IsSpace(r[i]) ==> !IsSpace(r[i + 1]))
  {
    TokenJoinShape(KeptWords(content));
  }

  /** Cleaning twice is cleaning once. */
  lemma CleanIdempotent(content: string)
    ensures CleanExcelContent(CleanExcelContent(content)) == CleanExcelContent(content)
  {
    FilterIdempotent(Words(content), KeepWord());
  }

  /** Content made only of NaN markers and whitespace cleans to "". */
  lemma AllNanCleansToEmpty(content: string)
    requires forall k :: 0 <= k < |Words(content)| ==> IsNanWord(Words(content)[k])
    ensures CleanExcelContent(content) == ""
  {
    FilterNone(Words(content), KeepWord());
  }

  /** A token that only contains `nan` (`NaN,`, `nanometer`) is kept. */
  lemma LongerTokenKept(w: string)
    requires IsToken(w) && |w| != 3
    ensures CleanExcelContent(w) == w
  {
    WordsOfJoin([w]);
    assert Join([w], " ") == w;
    assert !IsNanWord(w);
    assert Filter([w], KeepWord()) == [w];
  }

  /** The three spellings pandas and spreadsheets use all go. */
  lemma NanSpellingsDropped()
    ensures IsNanWord("NaN") && IsNanWord("nan") && IsNanWord("NAN")
  {
    assert Lower("NaN") == "nan";
    assert Lower("NAN") == "nan";
    assert Lower("nan") == "nan";
  }
}

=== FILE: extractor.dfy ===
/** File lookup of the content extractor (src/processor/extractor.py):
    `clean_filename`, and `ContentExtractor.find_file` with the set of paths
    it has already handed out. The directory walk is an input: for each
    section directory, whether it exists and the (root, file) pairs
    `os.walk` lists under it, in walk order. */
module Extractor {
  import opened Wrappers
  import opened Text
  import opened Seqs

  /** The characters `clean_filename` keeps: letters and digits, and the
      four characters ' ', '-', '_', '.'. */
  predicate Allowed(c: char) {
    IsAlnum(c) || c == ' ' || c == '-' || c == '_' || c == '.'
  }

  function AllowedChar(): char -> bool
  {
    (c: char) => Allowed(c)
  }

  /** `clean_filename(title)`, character by character. */
  function CleanFilename(title: string): (r: string)
    ensures |r| <= |title|
    ensures forall k :: 0 <= k < |r| ==> Allowed(r[k]) && !IsUpper(r[k])
  {
    if title == [] then ""
    else
      CaseKeepsClass(title[0]);
      (if Allowed(title[0]) then [LowerChar(title[0])] else []) + CleanFilename(title[1..])
  }

  /** Lower-casing a character keeps it allowed or not allowed. */
  lemma AllowedLower(c: char)
    ensures Allowed(LowerChar(c)) <==> Allowed(c)
  {
    CaseKeepsClass(c);
  }

  /** The name keeps exactly its allowed characters, in order, lower-cased. */
  lemma {:induction false} CleanFilenameIsFilterLower(title: string)
    ensures CleanFilename(title) == Lower(Filter(title, AllowedChar()))
    decreases |title|
  {
    if title != [] {
      CleanFilenameIsFilterLower(title[1..]);
      var rest := Filter(title[1..], AllowedChar());
      if Allowed(title[0]) {
        assert Filter(title, AllowedChar()) == [title[0]] + rest;
        LowerAppend([title[0]], rest);
        assert Lower([title[0]]) == [LowerChar(title[0])];
        assert CleanFilename(title) == [LowerChar(title[0])] + CleanFilename(title[1..]);
      } else {
        assert Filter(title, AllowedChar()) == rest;
        assert CleanFilename(title) == CleanFilename(title[1..]);
      }
    }
  }

  /** Cleaning a cleaned name changes nothing. */
  lemma {:induction false} CleanFilenameIdempotent(title: string)
    ensures CleanFilename(CleanFilename(title)) == CleanFilename(title)
    decreases |title|
  {
    if title != [] {
      var rest := CleanFilename(title[1..]);
      CleanFilenameIdempotent(title[1..]);
      if Allowed(title[0]) {
        var c := LowerChar(title[0]);
        AllowedLower(title[0]);
        assert CleanFilename(title) == [c] + rest;
        assert ([c] + rest)[1..] == rest;
        assert LowerChar(c) == c;
        assert CleanFilename([c] + rest) == [c] + CleanFilename(rest);
      } else {
        assert CleanFilename(title) == rest;
      }
    }
  }

  /** Titles that differ only in letter case clean to the same name. */
  lemma {:induction false} CleanFilenameIgnoresCase(title: string)
    ensures CleanFilename(Lower(title)) == CleanFilename(title)
    decreases |title|
  {
    if title != [] {
      CleanFilenameIgnoresCase(title[1..]);
      assert Lower(title)[1..] == Lower(title[1..]);
      AllowedLower(title[0]);
    }
  }

  // ---------------------------------------------------------------------
  // Paths
  // ---------------------------------------------------------------------

  /** `os.path.join(a, b)` with '/' as the separator: an absolute `b`
      replaces `a`; otherwise a separator is added unless `a` is empty or
      already ends with one. */
  function PathJoin(a: string, b: string): (r: string)
    ensures !StartsWith(b, "/") && a != "" && !EndsWith(a, "/") ==> r == a + "/" + b
  {
    if StartsWith(b, "/") then b
    else if a == "" || EndsWith(a, "/") then a + b
    else a + "/" + b
  }

  /** `os.path.splitext(name)[0]`: the name up to its last '.', unless
      only dots come before that '.'. */
  function Stem(name: string): (r: string)
    ensures |r| <= |name| && r == name[..|r|]
  {
    var ext := LastSegment(name, '.');
    if |ext| == |name| then name
    else
      var dot := |name| - |ext| - 1;
      if exists i :: 0 <= i < dot && name[i] != '.' then name[..dot] else name
  }

  lemma StemOfPlainName(base: string, ext: string)
    requires base != [] && base[0] != '.'
    requires forall k :: 0 <= k < |ext| ==> ext[k] != '.'
    ensures Stem(base + "." + ext) == base
  {
    var name := base + "." + ext;
    LastSegmentOfAppend(base, '.', ext);
    assert name[0] == base[0];
    assert name[..|base|] == base;
  }

  const BaseDir: string := "data/documents"
  const TdspSection: string := "Transmission/Distribution Service Providers"

  /** The directories searched for a section, in order. */
  function SectionPaths(section: string): (r: seq<string>)
    ensures section == TdspSection ==> |r| == 2
    ensures section != TdspSection ==> r == [PathJoin(BaseDir, section)]
  {
    if section == TdspSection then
      [PathJoin(PathJoin(BaseDir, "Transmission"), "Distribution Service Providers"),
       PathJoin(BaseDir, "Transmission")]
    else [PathJoin(BaseDir, section)]
  }

  /** One file `os.walk` reports: its directory and its name. */
  datatype Entry = Entry(root: string, file: string)

  /** The entries of the directories that exist, in search order. */
  function Listing(paths: seq<string>, walk: string -> Option<seq<Entry>>): (r: seq<Entry>)
  {
    if paths == [] then []
    else
      (match walk(paths[0]) case Some(es) => es case None => [])
      + Listing(paths[1..], walk)
  }

  function FullPath(e: Entry): string {
    PathJoin(e.root, e.file)
  }

  /** Whether entry `e` is a new match for the cleaned title. */
  predicate Hit(e: Entry, target: string, processed: set<string>) {
    CleanFilename(Stem(e.file)) == target && FullPath(e) !in processed
  }

  function HitTest(target: string, processed: set<string>): Entry -> bool
  {
    (e: Entry) => Hit(e, target, processed)
  }

  /** The first position from `i` on whose entry passes `test`. */
  function FirstHit(es: seq<Entry>, test: Entry -> bool, i: nat): (r: Option<nat>)
    requires i <= |es|
    decreases |es| - i
    ensures r.Some? ==> i <= r.value < |es| && test(es[r.value])
    ensures r.Some? ==> forall j :: i <= j < r.value ==> !test(es[j])
    ensures r.None? ==> forall j :: i <= j < |es| ==> !test(es[j])
  {
    if i == |es| then None
    else if test(es[i]) then Some(i)
    else FirstHit(es, test, i + 1)
  }

  /** The extractor's memory of the paths it has returned. */
  datatype Lookup = Lookup(path: Option<string>, processed: set<string>)

  /** `find_file(title, section)`: the first file, in search order, whose
      cleaned stem equals the cleaned title and whose path was not returned
      before; the path is recorded. A NULL `section_name` arrives as `None`,
      on which `os.path.join` raises `TypeError`; the handler turns that
      into no path. */
  function FindFile(title: string, section: Option<string>, processed: set<string>, walk: string -> Option<seq<Entry>>): (r: Lookup)
    ensures section.None? ==> r == Lookup(None, processed)
    ensures r.path.None? ==> r.processed == processed
    ensures r.path.Some? ==> r.path.value !in processed && r.processed == processed + {r.path.value}
    ensures r.path.Some? ==>
              && section.Some?
              && (exists e :: e in Listing(SectionPaths(section.value), walk)
                   && FullPath(e) == r.path.value && CleanFilename(Stem(e.file)) == CleanFilename(title))
    ensures section.Some? && r.path.None? ==>
              forall e :: e in Listing(SectionPaths(section.value), walk) ==> !Hit(e, CleanFilename(title), processed)
  {
    match section
    case None => Lookup(None, processed)
    case Some(name) =>
      var es := Listing(SectionPaths(name), walk);
      match FirstHit(es, HitTest(CleanFilename(title), processed), 0)
      case None => Lookup(None, processed)
      case Some(i) =>
        assert es[i] in es;
        Lookup(Some(FullPath(es[i])), processed + {FullPath(es[i])})
  }

  /** A document without a section is never found, whatever the directory
      under `data/documents` holds: even a file named after the title. */
  lemma NullSectionFindsNothing(title: string, processed: set<string>, walk: string -> Option<seq<Entry>>, e: Entry)
    requires walk(PathJoin(BaseDir, "")) == Some([e]) && Hit(e, CleanFilename(title), processed)
    ensures FindFile(title, None, processed, walk).path.None?
    ensures FindFile(title, Some(""), processed, walk).path.Some?
  {
    var es := Listing(SectionPaths(""), walk);
    assert es == [e];
    assert HitTest(CleanFilename(title), processed)(es[0]);
  }

  /** No path is handed out twice: a second lookup, for any title and
      section, never returns the path the first one did. */
  lemma NeverSamePathTwice(t1: string, s1: Option<string>, t2: string, s2: Option<string>, processed: set<string>, walk: string -> Option<seq<Entry>>)
    ensures var first := FindFile(t1, s1, processed, walk);
      var second := FindFile(t2, s2, first.processed, walk);
      first.path.Some? && second.path.Some? ==> first.path.value != second.path.value
  {
  }

  /** In the two-directory section a new match in the first directory wins
      over any in the second. */
  lemma TdspFirstDirectoryFirst(title: string, processed: set<string>, walk: string -> Option<seq<Entry>>, es: seq<Entry>, e: Entry)
    requires walk(SectionPaths(TdspSection)[0]) == Some(es)
    requires e in es && Hit(e, CleanFilename(title), processed)
    ensures FindFile(title, Some(TdspSection), processed, walk).path.Some?
    ensures exists f :: f in es && FindFile(title, Some(TdspSection), processed, walk).path == Some(FullPath(f))
  {
    var paths := SectionPaths(TdspSection);
    var all := Listing(paths, walk);
    var rest := Listing(paths[1..], walk);
    assert all == es + rest;
    var j :| 0 <= j < |es| && es[j] == e;
    assert all[j] == e;
    assert HitTest(CleanFilename(title), processed)(all[j]);
    var i := FirstHit(all, HitTest(CleanFilename(title), processed), 0).value;
    assert i <= j;
    assert all[i] == es[i];
    assert FindFile(title, Some(TdspSection), processed, walk).path == Some(FullPath(es[i]));
    assert es[i] in es;
  }

  /** A title finds the same file whatever its letter case. */
  lemma FindFileIgnoresCase(title: string, section: Option<string>, processed: set<string>, walk: string -> Option<seq<Entry>>)
    ensures FindFile(Lower(title), section, processed, walk) == FindFile(title, section, processed, walk)
  {
    CleanFilenameIgnoresCase(title);
  }
}

=== FILE: ingest.dfy ===
/** Turning extracted text into stored chunks: the post-filters around the
    text splitter (src/processor/processor.py, its copy in
    scripts/reprocess_document_chunks.py, scripts/web_content/update_web_content.py
    and src/processor/extractor.py), the `store_chunks` outcomes, and the
    per-document replace decision of the web-content refresh. The splitter
    itself is a foreign library: its output for a text is an input here. */
module Ingest {
  import opened Wrappers
  import opened Text
  import opened Seqs
  import ProcessorUrls

  /** A row of the chunks table as the scripts build it. */
  datatype Chunk = Chunk(documentId: int, content: string, chunkIndex: nat)

  /** The shortest stripped splitter output kept as a chunk. */
  const MinChunkLength: nat := 50

  // ---------------------------------------------------------------------
  // `create_chunks` with the length filter
  // ---------------------------------------------------------------------

  /** Whether splitter output `t` survives the filter. */
  predicate Keeps(t: string) {
    |Strip(t)| >= MinChunkLength
  }

  /** Every splitter piece, stripped. */
  function StripAll(texts: seq<string>): (r: seq<string>)
    ensures |r| == |texts| && forall j :: 0 <= j < |texts| ==> r[j] == Strip(texts[j])
  {
    seq(|texts|, j requires 0 <= j < |texts| => Strip(texts[j]))
  }

  /** The filter loop from position `i` on, over the stripped pieces: a
      piece is kept with its position as `chunk_index` when it has at least
      50 characters. */
  function FilteredChunks(stripped: seq<string>, docId: int, i: nat): seq<Chunk>
    requires i <= |stripped|
    decreases |stripped| - i
  {
    if i == |stripped| then []
    else if |stripped[i]| >= MinChunkLength then [Chunk(docId, stripped[i], i)] + FilteredChunks(stripped, docId, i + 1)
    else FilteredChunks(stripped, docId, i + 1)
  }

  /** Every chunk belongs to the document and holds a piece at or after
      `i` that passes the filter. */
  lemma {:induction false} FilteredChunksSound(stripped: seq<string>, docId: int, i: nat)
    requires i <= |stripped|
    ensures |FilteredChunks(stripped, docId, i)| <= |stripped| - i
    ensures forall k :: 0 <= k < |FilteredChunks(stripped, docId, i)| ==>
      FilteredChunks(stripped, docId, i)[k].documentId == docId
      && i <= FilteredChunks(stripped, docId, i)[k].chunkIndex < |stripped|
      && FilteredChunks(stripped, docId, i)[k].content == stripped[FilteredChunks(stripped, docId, i)[k].chunkIndex]
      && |FilteredChunks(stripped, docId, i)[k].content| >= MinChunkLength
    decreases |stripped| - i
  {
    if i < |stripped| {
      FilteredChunksSound(stripped, docId, i + 1);
      var rest := FilteredChunks(stripped, docId, i + 1);
      if |stripped[i]| >= MinChunkLength {
        var r := FilteredChunks(stripped, docId, i);
        assert r == [Chunk(docId, stripped[i], i)] + rest;
        forall k | 1 <= k < |r|
          ensures r[k].documentId == docId && i <= r[k].chunkIndex < |stripped|
          ensures r[k].content == stripped[r[k].chunkIndex] && |r[k].content| >= MinChunkLength
        {
          assert r[k] == rest[k - 1];
        }
      }
    }
  }

  /** The chunk indices strictly increase. */
  lemma {:induction false} FilteredChunksOrdered(stripped: seq<string>, docId: int, i: nat)
    requires i <= |stripped|
    ensures forall k, l :: 0 <= k < l < |FilteredChunks(stripped, docId, i)| ==>
      FilteredChunks(stripped, docId, i)[k].chunkIndex < FilteredChunks(stripped, docId, i)[l].chunkIndex
    decreases |stripped| - i
  {
    if i < |stripped| {
      FilteredChunksSound(stripped, docId, i + 1);
      FilteredChunksOrdered(stripped, docId, i + 1);
      var rest := FilteredChunks(stripped, docId, i + 1);
      if |stripped[i]| >= MinChunkLength {
        var r := FilteredChunks(stripped, docId, i);
        assert r == [Chunk(docId, stripped[i], i)] + rest;
        forall k, l | 0 <= k < l < |r| ensures r[k].chunkIndex < r[l].chunkIndex {
          assert r[l] == rest[l - 1];
          if k > 0 {
            assert r[k] == rest[k - 1];
          }
        }
      }
    }
  }

  /** Every position that passes the filter has its chunk. */
  lemma {:induction false} FilteredChunksComplete(stripped: seq<string>, docId: int, i: nat, j: nat)
    requires i <= j < |stripped| && |stripped[j]| >= MinChunkLength
    ensures exists k :: 0 <= k < |FilteredChunks(stripped, docId, i)| && FilteredChunks(stripped, docId, i)[k].chunkIndex == j
    decreases |stripped| - i
  {
    var r := FilteredChunks(stripped, docId, i);
    if j == i {
      assert r[0].chunkIndex == j;
    } else {
      FilteredChunksComplete(stripped, docId, i + 1, j);
      var rest := FilteredChunks(stripped, docId, i + 1);
      var k :| 0 <= k < |rest| && rest[k].chunkIndex == j;
      if |stripped[i]| >= MinChunkLength {
        assert r[k + 1] == rest[k];
      } else {
        assert r[k] == rest[k];
      }
    }
  }

  /** `create_chunks(content, doc_id)` of update_web_content.py, and the
      chunk rows of processor.py and reprocess_document_chunks.py. */
  function CreateChunks(texts: seq<string>, docId: int): (r: seq<Chunk>)
    ensures |r| <= |texts|
    ensures forall k :: 0 <= k < |r| ==>
      r[k].documentId == docId && r[k].chunkIndex < |texts|
      && r[k].content == Strip(texts[r[k].chunkIndex]) && |r[k].content| >= MinChunkLength
    ensures forall k, l :: 0 <= k < l < |r| ==> r[k].chunkIndex < r[l].chunkIndex
  {
    FilteredChunksSound(StripAll(texts), docId, 0);
    FilteredChunksOrdered(StripAll(texts), docId, 0);
    FilteredChunks(StripAll(texts), docId, 0)
  }

  /** A chunk is kept exactly for the positions whose stripped text is
      at least 50 characters long. */
  lemma CreateChunksExactly(texts: seq<string>, docId: int, j: nat)
    requires j < |texts|
    ensures Keeps(texts[j]) <==> exists k :: 0 <= k < |CreateChunks(texts, docId)| && CreateChunks(texts, docId)[k].chunkIndex == j
  {
    assert CreateChunks(texts, docId) == FilteredChunks(StripAll(texts), docId, 0);
    if Keeps(texts[j]) {
      FilteredChunksComplete(StripAll(texts), docId, 0, j);
    }
  }

  /** No piece from position `i` on passes the filter, so none is kept. */
  lemma {:induction false} FilteredChunksNone(stripped: seq<string>, docId: int, i: nat)
    requires i <= |stripped|
    requires forall j :: i <= j < |stripped| ==> |stripped[j]| < MinChunkLength
    ensures FilteredChunks(stripped, docId, i) == []
    decreases |stripped| - i
  {
    if i < |stripped| {
      FilteredChunksNone(stripped, docId, i + 1);
    }
  }

  /** Splitter output that strips to fewer than 50 characters gives no
      chunks at all. */
  lemma ShortTextsGiveNoChunks(texts: seq<string>, docId: int)
    requires forall j :: 0 <= j < |texts| ==> |texts[j]| < MinChunkLength
    ensures CreateChunks(texts, docId) == []
  {
    var stripped := StripAll(texts);
    assert forall j :: 0 <= j < |stripped| ==> |stripped[j]| < MinChunkLength;
    FilteredChunksNone(stripped, docId, 0);
  }

  /** The metadata processor.py attaches: the size, and the word count per
      hundred characters. */
  datatype ChunkMetadata = ChunkMetadata(size: nat, qualityScore: real)

  datatype ScoredChunk = ScoredChunk(chunk: Chunk, metadata: ChunkMetadata)

  function Metadata(content: string): (r: ChunkMetadata)
    requires |content| > 0
    ensures r.size == |content|
    ensures r.qualityScore * (|content| as real) == 100.0 * (|Words(content)| as real)
  {
    ChunkMetadata(|content|, (|Words(content)| as real) / ((|content| as real) / 100.0))
  }

  /** `DocumentProcessor.create_chunks` (also in reprocess_document_chunks.py):
      the filtered chunks with their metadata. */
  function CreateScoredChunks(texts: seq<string>, docId: int): (r: seq<ScoredChunk>)
    ensures |r| == |CreateChunks(texts, docId)|
    ensures forall k :: 0 <= k < |r| ==>
      r[k].chunk == CreateChunks(texts, docId)[k] && r[k].metadata.size == |r[k].chunk.content|
  {
    var cs := CreateChunks(texts, docId);
    seq(|cs|, k requires 0 <= k < |cs| => ScoredChunk(cs[k], Metadata(cs[k].content)))
  }

  /** `ContentExtractor.create_chunks`: every splitter piece, unchanged, with
      indices 0..n-1. */
  function EnumerateChunks(texts: seq<string>, docId: int): (r: seq<Chunk>)
    ensures |r| == |texts|
    ensures forall k :: 0 <= k < |r| ==> r[k] == Chunk(docId, texts[k], k)
  {
    seq(|texts|, k requires 0 <= k < |texts| => Chunk(docId, texts[k], k))
  }

  /** The extractor's chunks give the splitter output back, in order. */
  lemma EnumerateChunksContents(texts: seq<string>, docId: int)
    ensures ChunkContents(EnumerateChunks(texts, docId)) == texts
  {
  }

  /** The contents of the chunks, in order. */
  function ChunkContents(cs: seq<Chunk>): seq<string> {
    Map(cs, (c: Chunk) => c.content)
  }

  // ---------------------------------------------------------------------
  // `store_chunks`
  // ---------------------------------------------------------------------

  /** The chunks table after a batch insert that either commits (`insertOk`)
      or raises and is rolled back, with the count the function reports. */
  datatype Stored = Stored(table: seq<Chunk>, stored: nat)

  function Store(table: seq<Chunk>, chunks: seq<Chunk>, insertOk: bool): (r: Stored)
    ensures |table| <= |r.table| && r.table[..|table|] == table
    ensures r.stored == |r.table| - |table|
    ensures r.table[|table|..] == chunks || r.table[|table|..] == []
    ensures r.stored == 0 <== !insertOk
  {
    if insertOk then Stored(table + chunks, |chunks|) else Stored(table, 0)
  }

  /** `DocumentProcessor.store_chunks` of processor.py: the stored count
      and a skipped count that is always 0. */
  function StorePair(table: seq<Chunk>, chunks: seq<Chunk>, insertOk: bool): (r: (seq<Chunk>, nat, nat))
    ensures r.2 == 0
    ensures r.1 == |r.0| - |table| && r.0[..|table|] == table
    ensures insertOk ==> r.0 == table + chunks
    ensures !insertOk ==> r.0 == table && r.1 == 0
  {
    var s := Store(table, chunks, insertOk);
    (s.table, s.stored, 0)
  }

  // ---------------------------------------------------------------------
  // `process_all` of reprocess_document_chunks.py
  // ---------------------------------------------------------------------

  /** The Python values `store_chunks` can return, for the tuple unpacking
      at its call site. */
  datatype PyValue = PyInt(n: int) | PyPair(first: int, second: int)

  /** `stored, skipped = value`: a pair unpacks; an int raises TypeError. */
  function Unpack2(v: PyValue): (r: Result<(int, int)>)
    ensures r.Ok? <==> v.PyPair?
  {
    match v
    case PyPair(a, b) => Ok((a, b))
    case PyInt(_) => Err("TypeError: cannot unpack non-iterable int object")
  }

  /** What one document's processing leaves behind: the chunks table and
      the count logged, or the error the per-document handler caught. */
  datatype DocumentOutcome = DocumentOutcome(table: seq<Chunk>, logged: Result<(int, int)>)

  /** `process_all` for one document with extracted text, as written in
      reprocess_document_chunks.py: the chunks are created and stored
      (committing them), then the single count is unpacked into two names. */
  function ReprocessDocument(table: seq<Chunk>, texts: seq<string>, docId: int, insertOk: bool): (r: DocumentOutcome)
    ensures r.logged.Err?
    ensures insertOk ==> r.table == table + CreateChunks(texts, docId)
    ensures !insertOk ==> r.table == table
  {
    var s := Store(table, CreateChunks(texts, docId), insertOk);
    DocumentOutcome(s.table, Unpack2(PyInt(s.stored)))
  }

  /** Every stored document ends in the error handler, after its chunks
      are committed. */
  lemma ReprocessAlwaysFails(table: seq<Chunk>, texts: seq<string>, docId: int)
    ensures ReprocessDocument(table, texts, docId, true).logged.Err?
    ensures ReprocessDocument(table, texts, docId, true).table == table + CreateChunks(texts, docId)
  {
  }

  /** The same step with the pair processor.py's `store_chunks` returns:
      the stored count is reported with 0 skipped. */
  function ProcessDocument(table: seq<Chunk>, texts: seq<string>, docId: int, insertOk: bool): (r: DocumentOutcome)
    ensures r.logged.Ok? && r.logged.value.1 == 0
    ensures r.logged.value.0 == |r.table| - |table|
    ensures insertOk ==> r.table == table + CreateChunks(texts, docId)
  {
    var p := StorePair(table, CreateChunks(texts, docId), insertOk);
    DocumentOutcome(p.0, Unpack2(PyPair(p.1, p.2)))
  }

  /** `reprocess_chunks` names the temporary file after the text behind the
      last '.' of the URL, lower-cased, as `get_loader` reads a path. */
  function ReprocessExtension(url: string): (r: string)
    ensures |r| <= |url|
  {
    ProcessorUrls.Extension(url)
  }

  /** A URL ending in `.EXT` gives `ext`; anything after a later '.' (a
      query such as `?v=1.2`) wins instead. */
  lemma ReprocessExtensionOf(dir: string, ext: string)
    requires forall k :: 0 <= k < |ext| ==> ext[k] != '.'
    ensures ReprocessExtension(dir + "." + ext) == Lower(ext)
  {
    LastSegmentOfAppend(dir, '.', ext);
  }

  // ---------------------------------------------------------------------
  // `get_enhanced_content` and the web refresh
  // ---------------------------------------------------------------------

  /** The shortest line kept is 21 characters. */
  const MinLineLength: nat := 20

  /** The lines longer than 20 characters, in order. */
  function LongLines(ls: seq<string>): (r: seq<string>)
    ensures |r| <= |ls|
    ensures forall k :: 0 <= k < |r| ==> |r[k]| > MinLineLength
  {
    if ls == [] then []
    else (if |ls[0]| > MinLineLength then [ls[0]] else []) + LongLines(ls[1..])
  }

  lemma LongLinesCons(l: string, rest: seq<string>)
    ensures LongLines([l] + rest) == (if |l| > MinLineLength then [l] else []) + LongLines(rest)
  {
    assert ([l] + rest)[1..] == rest;
  }

  /** Every long line is one of the input lines. */
  lemma {:induction false} LongLinesFrom(ls: seq<string>)
    ensures forall k :: 0 <= k < |LongLines(ls)| ==> exists j :: 0 <= j < |ls| && LongLines(ls)[k] == ls[j]
  {
    if ls != [] {
      LongLinesFrom(ls[1..]);
      var r := LongLines(ls);
      var rest := LongLines(ls[1..]);
      forall k | 0 <= k < |r| ensures exists j :: 0 <= j < |ls| && r[k] == ls[j] {
        if |ls[0]| > MinLineLength && k == 0 {
          assert r[0] == ls[0];
        } else {
          var d := if |ls[0]| > MinLineLength then 1 else 0;
          assert r[k] == rest[k - d];
          var j :| 0 <= j < |ls[1..]| && rest[k - d] == ls[1..][j];
          assert r[k] == ls[j + 1];
        }
      }
    }
  }

  /** The kept lines: each line stripped, kept when longer than 20
      characters. */
  function KeepLines(lines: seq<string>): (r: seq<string>)
    ensures |r| <= |lines|
    ensures forall k :: 0 <= k < |r| ==> |r[k]| > MinLineLength
    ensures forall k :: 0 <= k < |r| ==> exists j :: 0 <= j < |lines| && r[k] == Strip(lines[j])
  {
    LongLinesFrom(StripAll(lines));
    LongLines(StripAll(lines))
  }

  /** Kept lines are stripped already. */
  lemma KeptLinesStripped(lines: seq<string>)
    ensures forall k :: 0 <= k < |KeepLines(lines)| ==> Strip(KeepLines(lines)[k]) == KeepLines(lines)[k]
  {
    var r := KeepLines(lines);
    forall k | 0 <= k < |r| ensures Strip(r[k]) == r[k] {
      var j :| 0 <= j < |lines| && r[k] == Strip(lines[j]);
      StripIdempotent(lines[j]);
    }
  }

  /** The clean-up at the end of `get_enhanced_content`: the text is split
      at '\n', and the kept lines are joined by a blank line. */
  function CleanLines(content: string): (r: string)
    ensures forall p :: p in SplitChar(r, '\n') ==> p == "" || IsKeptLine(content, p)
  {
    KeptPieces(SplitChar(content, '\n'));
    Join(KeepLines(SplitChar(content, '\n')), "\n\n")
  }

  /** `p` is a line of `content`, stripped, longer than 20 characters. */
  predicate IsKeptLine(content: string, p: string) {
    IsKeptOf(SplitChar(content, '\n'), p)
  }

  /** `p` is one of `lines`, stripped, longer than 20 characters. */
  predicate IsKeptOf(lines: seq<string>, p: string) {
    |p| > MinLineLength && exists j :: 0 <= j < |lines| && p == Strip(lines[j])
  }

  /** Splitting the joined kept lines again gives kept lines and blanks. */
  lemma KeptPieces(lines: seq<string>)
    requires forall i, j :: 0 <= i < |lines| && 0 <= j < |lines[i]| ==> lines[i][j] != '\n'
    ensures forall p :: p in SplitChar(Join(KeepLines(lines), "\n\n"), '\n') ==> p == "" || IsKeptOf(lines, p)
  {
    var kept := KeepLines(lines);
    if kept == [] {
      assert SplitChar("", '\n') == [""];
    } else {
      KeptLinesHaveNoNewline(lines);
      SplitBlankJoin(kept);
      KeptAreKeptOf(lines);
      WithBlanksPieces(kept);
    }
  }

  /** Every kept line is a stripped line of the input, long enough. */
  lemma KeptAreKeptOf(lines: seq<string>)
    ensures forall p :: p in KeepLines(lines) ==> IsKeptOf(lines, p)
  {
  }

  /** The pieces are blanks or the lines themselves. */
  lemma WithBlanksPieces(ws: seq<string>)
    ensures forall p :: p in WithBlanks(ws) ==> p == "" || p in ws
  {
  }

  /** The kept lines hold no '\n' when the lines held none. */
  lemma KeptLinesHaveNoNewline(lines: seq<string>)
    requires forall i, j :: 0 <= i < |lines| && 0 <= j < |lines[i]| ==> lines[i][j] != '\n'
    ensures forall i, j :: 0 <= i < |KeepLines(lines)| && 0 <= j < |KeepLines(lines)[i]| ==> KeepLines(lines)[i][j] != '\n'
  {
    var r := KeepLines(lines);
    forall i | 0 <= i < |r| ensures forall j :: 0 <= j < |r[i]| ==> r[i][j] != '\n' {
      var m :| 0 <= m < |lines| && r[i] == Strip(lines[m]);
      StripKeepsCharFree(lines[m], '\n');
    }
  }

  /** Stripping adds no character. */
  lemma StripKeepsCharFree(s: string, c: char)
    requires forall j :: 0 <= j < |s| ==> s[j] != c
    ensures forall j :: 0 <= j < |Strip(s)| ==> Strip(s)[j] != c
  {
    StripSlice(s);
    var a := StripOffset(s);
    forall j | 0 <= j < |Strip(s)| ensures Strip(s)[j] != c {
      assert Strip(s)[j] == s[a + j];
    }
  }

  /** The pieces `split('\n')` makes of lines joined by a blank line: each
      line followed by an empty piece, except the last. */
  function WithBlanks(ws: seq<string>): (r: seq<string>)
    ensures forall k :: 0 <= k < |r| ==> r[k] == "" || r[k] in ws
  {
    if |ws| <= 1 then ws else [ws[0], ""] + WithBlanks(ws[1..])
  }

  lemma {:induction false} SplitBlankJoin(ws: seq<string>)
    requires ws != []
    requires forall i, j :: 0 <= i < |ws| && 0 <= j < |ws[i]| ==> ws[i][j] != '\n'
    ensures SplitChar(Join(ws, "\n\n"), '\n') == WithBlanks(ws)
    decreases |ws|
  {
    if |ws| == 1 {
      SplitCharNone(ws[0], '\n');
    } else {
      var rest := Join(ws[1..], "\n\n");
      SplitBlankJoin(ws[1..]);
      assert forall k :: 0 <= k < |ws[0]| ==> ws[0][k] != '\n';
      SplitBlankStep(ws[0], rest);
      assert Join(ws, "\n\n") == ws[0] + ['\n'] + (['\n'] + rest);
    }
  }

  /** A line without a newline, then a blank line: a piece and an empty piece. */
  lemma SplitBlankStep(w: string, rest: string)
    requires forall k :: 0 <= k < |w| ==> w[k] != '\n'
    ensures SplitChar(w + ['\n'] + (['\n'] + rest), '\n') == [w, ""] + SplitChar(rest, '\n')
  {
    SplitCharCons("", '\n', rest);
    assert "" + ['\n'] + rest == ['\n'] + rest;
    SplitCharCons(w, '\n', ['\n'] + rest);
  }

  /** Lines longer than 20 characters survive the length filter, and the
      blank pieces between them vanish. */
  lemma {:induction false} LongLinesWithBlanks(ws: seq<string>)
    requires forall k :: 0 <= k < |ws| ==> |ws[k]| > MinLineLength
    ensures LongLines(WithBlanks(ws)) == ws
    decreases |ws|
  {
    if |ws| == 1 {
      LongLinesCons(ws[0], []);
      assert ws == [ws[0]] + [];
    } else if |ws| > 1 {
      var tail := WithBlanks(ws[1..]);
      LongLinesWithBlanks(ws[1..]);
      assert WithBlanks(ws) == [ws[0]] + ([""] + tail);
      LongLinesBlankPair(ws[0], tail);
      assert ws == [ws[0]] + ws[1..];
    }
  }

  /** A long line and the blank piece after it leave just the line. */
  lemma LongLinesBlankPair(w: string, tail: seq<string>)
    requires |w| > MinLineLength
    ensures LongLines([w] + ([""] + tail)) == [w] + LongLines(tail)
  {
    LongLinesCons("", tail);
    LongLinesCons(w, [""] + tail);
  }

  /** Blank pieces and stripped lines are left alone by stripping. */
  lemma WithBlanksStripped(ws: seq<string>)
    requires forall k :: 0 <= k < |ws| ==> Strip(ws[k]) == ws[k]
    ensures StripAll(WithBlanks(ws)) == WithBlanks(ws)
  {
    var w := WithBlanks(ws);
    forall k | 0 <= k < |w| ensures Strip(w[k]) == w[k] {
      if w[k] == "" {
        StripOfStripped(w[k]);
      } else {
        assert w[k] in ws;
      }
    }
    StripAllFixed(w);
  }

  lemma StripAllFixed(w: seq<string>)
    requires forall k :: 0 <= k < |w| ==> Strip(w[k]) == w[k]
    ensures StripAll(w) == w
  {
  }

  /** Kept lines survive a second filter, and the blank pieces vanish. */
  lemma KeepLinesWithBlanks(ws: seq<string>)
    requires forall k :: 0 <= k < |ws| ==> |ws[k]| > MinLineLength && Strip(ws[k]) == ws[k]
    ensures KeepLines(WithBlanks(ws)) == ws
  {
    WithBlanksStripped(ws);
    LongLinesWithBlanks(ws);
  }

  /** Cleaning cleaned text changes nothing. */
  lemma CleanLinesIdempotent(content: string)
    ensures CleanLines(CleanLines(content)) == CleanLines(content)
  {
    var kept := KeepLines(SplitChar(content, '\n'));
    KeptLinesHaveNoNewline(SplitChar(content, '\n'));
    KeptLinesStripped(SplitChar(content, '\n'));
    if kept == [] {
      assert CleanLines(content) == "";
      assert SplitChar("", '\n') == [""];
      assert KeepLines([""]) == [];
    } else {
      SplitBlankJoin(kept);
      KeepLinesWithBlanks(kept);
    }
  }

  /** What the page fetch of `get_enhanced_content` can come to: the text of
      the selected page area, a non-200 status, or a raised exception. */
  datatype Fetch = Page(text: string) | Status(code: nat) | Raised(message: string)

  /** `get_enhanced_content(url)`: the cleaned page text, or an error
      message in place of the content. */
  function EnhancedContent(f: Fetch): (r: string)
    ensures !f.Page? ==> StartsWith(r, "Error: ")
  {
    match f
    case Page(text) => CleanLines(text)
    case Status(code) => "Error: Status code " + NatToString(code)
    case Raised(message) => "Error: " + message
  }

  /** The decision `update_web_content` takes for one web document. */
  datatype WebUpdate = Unchanged | Replaced(chunks: seq<Chunk>)

  /** One document of `update_web_content` as written: any non-empty
      content deletes the document's embeddings and chunks and stores the
      new chunks in one transaction; a failed insert rolls the deletions
      back too. `texts` is the splitter output for the content. */
  function UpdateDocument(docId: int, f: Fetch, texts: seq<string>, insertOk: bool): (r: WebUpdate)
    ensures r.Replaced? <==> EnhancedContent(f) != "" && insertOk
    ensures r.Replaced? ==> r.chunks == CreateChunks(texts, docId)
  {
    if EnhancedContent(f) == "" then Unchanged
    else if insertOk then Replaced(CreateChunks(texts, docId))
    else Unchanged
  }

  /** A failed fetch is not noticed: its error message replaces the
      document's chunks. */
  lemma FailedFetchReplaces(docId: int, f: Fetch, texts: seq<string>)
    requires !f.Page?
    ensures UpdateDocument(docId, f, texts, true) == Replaced(CreateChunks(texts, docId))
  {
    assert |EnhancedContent(f)| >= 7;
  }

  /** For an HTTP error status the message is too short to make a chunk,
      so the document is left with no chunks at all. */
  lemma StatusErrorEmptiesDocument(docId: int, code: nat, texts: seq<string>)
    requires code < 1000
    requires forall j :: 0 <= j < |texts| ==> |texts[j]| <= |EnhancedContent(Status(code))|
    ensures UpdateDocument(docId, Status(code), texts, true) == Replaced([])
  {
    ShortCode(code);
    ShortTextsGiveNoChunks(texts, docId);
  }

  lemma ShortCode(code: nat)
    requires code < 1000
    ensures |NatToString(code)| <= 3
  {
    if code >= 10 {
      assert |NatToString(code / 10)| <= 2 by {
        if code / 10 >= 10 {
          assert code / 10 / 10 < 10;
        }
      }
    }
  }

  /** The refresh with failures recognised: only a fetched page can
      replace the document's chunks. */
  function UpdateDocumentChecked(docId: int, f: Fetch, texts: seq<string>, insertOk: bool): (r: WebUpdate)
    ensures !f.Page? ==> r == Unchanged
    ensures f.Page? ==> r == UpdateDocument(docId, f, texts, insertOk)
  {
    match f
    case Page(_) => UpdateDocument(docId, f, texts, insertOk)
    case _ => Unchanged
  }
}

=== FILE: key_mask.dfy ===
/** `mask_api_key` (src/processor/check_jina_quota.py): the form in which
    the quota checker shows the provider key. */
module KeyMask {
  import opened Text

  const Ellipsis: string := "..."

  /** `key[-n:]`: the last `n` characters, or the whole key when it is
      shorter. */
  function LastChars(key: string, n: nat): (r: string)
    ensures |r| == if |key| < n then |key| else n
    ensures r == key[|key| - |r|..]
  {
    if |key| < n then key else key[|key| - n..]
  }

  /** The key with its middle replaced by `...`: keys of up to 13
      characters show only their last 6. */
  function MaskApiKey(key: string): (r: string)
    ensures |r| <= 16
    ensures |r| >= |LastChars(key, 6)| && r[|r| - |LastChars(key, 6)|..] == LastChars(key, 6)
    ensures |key| > 13 ==> |r| >= 7 && r[..7] == key[..7]
  {
    if |key| <= 13 then Ellipsis + LastChars(key, 6)
    else key[..7] + Ellipsis + LastChars(key, 6)
  }

  /** A long key shows its first 7 and last 6 characters around `...`,
      16 characters in all. */
  lemma LongKeyMask(key: string)
    requires |key| > 13
    ensures |MaskApiKey(key)| == 16
    ensures MaskApiKey(key)[..7] == key[..7]
    ensures MaskApiKey(key)[7..10] == Ellipsis
    ensures MaskApiKey(key)[10..] == key[|key| - 6..]
  {
  }

  /** A short key shows `...` and its last 6 characters, all of it when it
      has 6 or fewer. */
  lemma ShortKeyMask(key: string)
    requires |key| <= 13
    ensures MaskApiKey(key)[..3] == Ellipsis
    ensures |key| <= 6 ==> MaskApiKey(key) == Ellipsis + key
    ensures |key| > 6 ==> MaskApiKey(key) == Ellipsis + key[|key| - 6..]
  {
  }

  /** Every mask contains `...` and ends with the key's last
      min(6, len) characters. */
  lemma MaskShape(key: string)
    ensures Contains(MaskApiKey(key), Ellipsis)
    ensures EndsWith(MaskApiKey(key), LastChars(key, 6))
  {
    var r := MaskApiKey(key);
    var at := if |key| <= 13 then 0 else 7;
    assert r[at..at + 3] == Ellipsis;
    ContainsWitness(r, Ellipsis, at);
  }

  /** The mask never shows more than 13 of the key's characters, so a key
      longer than 13 always has characters hidden. */
  lemma MaskHidesMiddle(key: string)
    ensures |MaskApiKey(key)| - |Ellipsis| <= 13
    ensures |key| > 13 ==> |MaskApiKey(key)| - |Ellipsis| < |key|
  {
  }

  /** Two long keys get the same mask exactly when they agree on the
      first 7 and the last 6 characters. */
  lemma LongMasksEqualIff(a: string, b: string)
    requires |a| > 13 && |b| > 13
    ensures MaskApiKey(a) == MaskApiKey(b) <==> a[..7] == b[..7] && a[|a| - 6..] == b[|b| - 6..]
  {
    if MaskApiKey(a) == MaskApiKey(b) {
      LongKeyMask(a);
      LongKeyMask(b);
    }
  }
}

=== FILE: patterns.dfy ===
/** The regular expressions of the chunk curation script.

    Patterns that are plain literals or alternations of literals are
    interpreted here (a `re.search` for them is substring search), as are the
    anchored "no `NaN`" pattern and the anchored letters-and-spaces patterns
    of the spreadsheet rules. Python's `\s` on a `str` is `str.isspace()`,
    which is `IsSpace`. Every other
    pattern is kept as its source text and resolved by an `Oracle`, a
    parameter standing for Python's regular-expression engine. */
module Patterns {
  import opened Text

  /** `oracle(source, text)` is `re.search(source, text) is not None`. */
  type Oracle = (string, string) -> bool

  datatype Regex =
    | Lit(lit: string)           // a pattern without metacharacters
    | AnyLit(alts: seq<string>)  // `a|b|c` over literals
    | NoNaNLine                  // `^(?!.*NaN).*$`
    | LetterLine(leadingSpace: bool)
      // `^\s*[A-Za-z][A-Za-z\s_]+$` when `leadingSpace`, else `^[A-Za-z][A-Za-z\s_]+$`
    | Opaque(source: string)     // anything else, resolved by the oracle

  /** `re.search(r, text) is not None` */
  predicate Search(oracle: Oracle, r: Regex, text: string) {
    match r
    case Lit(l) => Contains(text, l)
    case AnyLit(alts) => exists i :: 0 <= i < |alts| && Contains(text, alts[i])
    case NoNaNLine => NoNaNLineMatches(text)
    case LetterLine(leadingSpace) => LetterLineMatches(text, leadingSpace)
    case Opaque(src) => oracle(src, text)
  }

  /** `re.search(r'^(?!.*NaN).*$', text)`: without MULTILINE, `^` anchors at
      the start and `.` stops at a newline, so the first line must be free of
      `NaN` and must reach the end of the text or a single final newline. */
  predicate NoNaNLineMatches(text: string) {
    var line := Before(text, "\n");
    !Contains(line, "NaN") && (|line| == |text| || |line| + 1 == |text|)
  }

  /** On one line of text the anchored pattern is exactly "no `NaN`". */
  lemma NoNaNLineOnSingleLine(text: string)
    requires forall i :: 0 <= i < |text| ==> text[i] != '\n'
    ensures NoNaNLineMatches(text) <==> !Contains(text, "NaN")
  {
    if Contains(text, "\n") {
      var k := Find(text, "\n").value;
      assert text[k..k + 1][0] == text[k];
    }
  }

  /** On raw text with an inner line break the pattern fails even without `NaN`. */
  lemma NoNaNLineFailsOnTwoLines(a: string, b: string)
    requires forall i :: 0 <= i < |a| ==> a[i] != '\n'
    requires |b| > 0
    ensures !NoNaNLineMatches(a + "\n" + b)
  {
    var t := a + "\n" + b;
    assert OccursAt(t, "\n", |a|);
    forall k: nat | k < |a|
      ensures !OccursAt(t, "\n", k)
    {
      assert t[k] == a[k];
      assert k + 1 <= |t| ==> t[k..k + 1] == [t[k]];
    }
    assert Before(t, "\n") == a;
  }

  /** A character of the class `[A-Za-z\s_]`. */
  predicate IsLetterLineChar(c: char) {
    IsLetter(c) || IsSpace(c) || c == '_'
  }

  /** `re.search` of a letters-and-spaces pattern. Without MULTILINE, `^`
      anchors at the start. The optional `\s*` can only end where the first
      non-whitespace character is, since `[A-Za-z]` is no whitespace. That
      letter must be followed by at least one class character. The class
      holds `\n`, so `$` before a final newline adds no match. */
  predicate LetterLineMatches(text: string, leadingSpace: bool) {
    var o := if leadingSpace then StripOffset(text) else 0;
    && o + 2 <= |text|
    && IsLetter(text[o])
    && forall k :: o < k < |text| ==> IsLetterLineChar(text[k])
  }

  /** A character outside `[A-Za-z\s_]` anywhere in the text defeats both
      letters-and-spaces patterns. */
  lemma LetterLineNeedsClass(text: string, leadingSpace: bool, k: nat)
    requires k < |text| && !IsLetterLineChar(text[k])
    ensures !LetterLineMatches(text, leadingSpace)
  {
    StripSlice(text);
  }

  /** Text of at least two characters, made of letters and whitespace and
      starting with a letter, matches both letters-and-spaces patterns. */
  lemma LetterLineOfLetters(text: string, leadingSpace: bool)
    requires |text| >= 2 && IsLetter(text[0])
    requires forall k :: 0 <= k < |text| ==> IsLetter(text[k]) || IsSpace(text[k])
    ensures LetterLineMatches(text, leadingSpace)
  {
    assert StripLeft(text) == text;
  }
}

=== FILE: processor_urls.dfy ===
/** The URL handling and loader choice of the document processor
    (src/processor/processor.py). Its `URLHandler` is an older variant of
    the assistant's: it joins file names without percent-encoding them,
    keeps `/files/docs/` URLs as they are and does not cut at "_v". The
    clean-up script (scripts/cleanup_urls.py) carries the same
    `normalize_url`. */
module ProcessorUrls {
  import opened Wrappers
  import opened Text
  import opened Urls
  import opened Ercot
  import opened Joins
  import UrlHandler

  // ---------------------------------------------------------------------
  // `URLHandler.normalize_url` and `get_document_url`, processor variant
  // ---------------------------------------------------------------------

  /** `normalize_url(url, file_name)` with "" for a missing file name: a
      `file://` URL with a name becomes the name joined (unencoded) to the
      files directory; an ERCOT URL whose path is under `/services/rq/`
      (and not under `/files/docs/`) becomes `BASE_URL` and that path;
      everything else comes back as it was. `urljoin` and `urlparse` can
      raise ValueError. */
  function NormalizeUrl(url: string, fileName: string): (r: Result<string>)
    ensures StartsWith(url, "file://") && fileName != "" ==> r == UrlJoin(FileBase, fileName)
    ensures StartsWith(url, "file://") && fileName == "" ==> r == Ok(url)
    ensures !StartsWith(url, "file://") && !Contains(url, BaseUrl) ==> r == Ok(url)
    ensures !StartsWith(url, "file://") && Contains(url, BaseUrl) ==>
      (r.Err? <==> ParsedPath(url).Err?)
    ensures !StartsWith(url, "file://") && r.Ok? && r.value != url ==>
      r.value == BaseUrl + ParsedPath(url).value
      && Contains(ParsedPath(url).value, ServiceBase) && !Contains(ParsedPath(url).value, FileBase)
  {
    if StartsWith(url, "file://") then
      if fileName != "" then UrlJoin(FileBase, fileName) else Ok(url)
    else if Contains(url, BaseUrl) then
      match ParsedPath(url)
      case Err(e) => Err(e)
      case Ok(path) =>
        if Contains(path, FileBase) then Ok(url)
        else if Contains(path, ServiceBase) then
          ServicePathHasNoQuery(path);
          Ok(BaseUrl + Before(path, "?"))
        else Ok(url)
    else Ok(url)
  }

  /** The path `urlparse` returns has no '?', so cutting at '?' keeps it. */
  lemma ServicePathHasNoQuery(path: string)
    requires forall k :: 0 <= k < |path| ==> path[k] != '?' && path[k] != '#'
    ensures Before(path, "?") == path
  {
    NotContainsLeadingChar(path, "?");
  }

  /** `get_document_url(file_name, content_type)`: the name joined, without
      percent-encoding, to the services directory for 'web' and to the
      files directory otherwise. */
  function DocumentUrl(fileName: string, contentType: string): (r: Result<string>)
    ensures r.Err? <==> fileName != "" && UrlSplit(fileName).Err?
    ensures IsPlainName(fileName) ==> r == Ok(BaseUrl + UrlHandler.DocumentBase(contentType) + fileName)
  {
    var base := UrlHandler.DocumentBase(contentType);
    if IsPlainName(fileName) then JoinPlain(base, fileName); UrlJoin(base, fileName)
    else UrlJoin(base, fileName)
  }

  /** A service URL with a query: the query goes, the rest stays. */
  lemma NormalizeDropsServiceQuery(name: string, query: string)
    requires UrlHandler.IsSegmentText(name) && AllKept(query)
    requires forall k :: 0 <= k < |query| ==> query[k] != '#' && query[k] != ';'
    ensures NormalizeUrl(ServicesRoot + name + "?" + query, "") == Ok(ServicesRoot + name)
  {
    var head := ServicesRoot + name;
    var url := ServicesRoot + name + "?" + query;
    var path := ServiceBase + name;
    ServiceQueryParsed(name, query, url, path);
    ServiceQueryHead(name, query, url, path, head);
    ServiceBranch(url, path, "");
  }

  /** `ServicesRoot + name + "?" + query` parses to the service path. */
  lemma ServiceQueryParsed(name: string, query: string, url: string, path: string)
    requires UrlHandler.IsSegmentText(name) && AllKept(query)
    requires forall k :: 0 <= k < |query| ==> query[k] != '#' && query[k] != ';'
    requires url == ServicesRoot + name + "?" + query && path == ServiceBase + name
    ensures ParsedPath(url) == Ok(path)
  {
    ServiceQueryPath(name, query, url, ServiceBase + name + "?" + query, path);
  }

  /** `ServicesRoot + name + "?" + query` is a site URL whose service path
      rebuilds its part before the query. */
  lemma ServiceQueryHead(name: string, query: string, url: string, path: string, head: string)
    requires UrlHandler.IsSegmentText(name)
    requires head == ServicesRoot + name && url == head + "?" + query && path == ServiceBase + name
    ensures !StartsWith(url, "file://") && Contains(url, BaseUrl)
    ensures Contains(path, ServiceBase) && !Contains(path, FileBase)
    ensures BaseUrl + path == head
  {
    HeadPrefix(head, "?" + query, url);
    ServiceUrlFacts(name, url, path);
  }

  lemma HeadPrefix(head: string, tail: string, url: string)
    requires url == head + tail
    ensures |url| >= |head| && url[..|head|] == head
  {
  }

  /** The service branch of `normalize_url`, for a URL whose parsed path
      is under the services directory. */
  lemma ServiceBranch(url: string, path: string, fileName: string)
    requires !StartsWith(url, "file://") && Contains(url, BaseUrl)
    requires ParsedPath(url) == Ok(path)
    requires Contains(path, ServiceBase) && !Contains(path, FileBase)
    ensures NormalizeUrl(url, fileName) == Ok(BaseUrl + path)
  {
    ServicePathHasNoQuery(path);
  }

  lemma ServiceQueryPath(name: string, query: string, url: string, p: string, path: string)
    requires UrlHandler.IsSegmentText(name) && AllKept(query)
    requires forall k :: 0 <= k < |query| ==> query[k] != '#' && query[k] != ';'
    requires url == ServicesRoot + name + "?" + query && p == ServiceBase + name + "?" + query
    requires path == ServiceBase + name
    ensures ParsedPath(url) == Ok(path)
  {
    ServiceQueryOnHost(name, query, url, p);
    UrlHandler.ServicePathChars(name, path);
    QueryPathChars(path, query, p);
    SplitOnceAt(p, path, query, '?');
    ParsedPathOfHttps(Host, p);
  }

  /** A service URL with a query is the host's https root followed by its
      path and query. */
  lemma ServiceQueryOnHost(name: string, query: string, url: string, p: string)
    requires url == ServicesRoot + name + "?" + query && p == ServiceBase + name + "?" + query
    ensures url == "https://" + Host + p && IsPlainHost(Host)
  {
    UrlHandler.ErcotRoots();
    assert url == ServicesRoot + (name + "?" + query);
    assert p == ServiceBase + (name + "?" + query);
    UrlHandler.RegroupRoot(BaseUrl, ServiceBase, ServicesRoot, name + "?" + query);
  }

  /** A clean path followed by '?' and a clean query keeps every character
      and holds no ';' or '#'. */
  lemma QueryPathChars(path: string, query: string, p: string)
    requires p == path + "?" + query && path != [] && path[0] == '/'
    requires forall k :: 0 <= k < |path| ==> path[k] != ';' && path[k] != '#' && path[k] != '?' && IsKeptInUrl(path[k])
    requires AllKept(query)
    requires forall k :: 0 <= k < |query| ==> query[k] != '#' && query[k] != ';'
    ensures p[0] == '/' && AllKept(p) && ';' !in p
    ensures SplitOnce(p, '#').0 == p
    ensures forall k :: 0 <= k < |path| ==> path[k] != '?'
  {
    forall k | 0 <= k < |p| ensures IsKeptInUrl(p[k]) && p[k] != ';' && p[k] != '#' {
      if k < |path| {
        assert p[k] == path[k];
      } else if k > |path| {
        assert p[k] == query[k - |path| - 1];
      } else {
        assert p[k] == '?';
      }
    }
  }

  /** Splitting at the first `c` when it follows a `c`-free head. */
  lemma SplitOnceAt(s: string, head: string, tail: string, c: char)
    requires s == head + [c] + tail
    requires forall k :: 0 <= k < |head| ==> head[k] != c
    ensures SplitOnce(s, c).0 == head
  {
    assert s[|head|] == c;
    assert forall k :: 0 <= k < |head| ==> s[k] == head[k];
    assert FindChar(s, c) == Some(|head|);
  }

  /** What `normalize_url` tests of a service URL `ServicesRoot + name`
      followed by anything. */
  lemma ServiceUrlFacts(name: string, url: string, path: string)
    requires UrlHandler.IsSegmentText(name)
    requires |url| >= |ServicesRoot + name| && url[..|ServicesRoot + name|] == ServicesRoot + name
    requires path == ServiceBase + name
    ensures !StartsWith(url, "file://") && Contains(url, BaseUrl)
    ensures Contains(path, ServiceBase) && !Contains(path, FileBase)
    ensures BaseUrl + path == ServicesRoot + name
  {
    assert url[0] == (ServicesRoot + name)[0] == 'h';
    assert url[..|BaseUrl|] == (ServicesRoot + name)[..|BaseUrl|] == BaseUrl;
    ContainsWitness(url, BaseUrl, 0);
    assert path[..|ServiceBase|] == ServiceBase;
    ContainsWitness(path, ServiceBase, 0);
    ServicePathNotFiles(name, path);
  }

  /** `/services/rq/` followed by a name without '/' holds no `/files/docs/`:
      its only '/' are the three of the directory. */
  lemma ServicePathNotFiles(name: string, path: string)
    requires UrlHandler.IsSegmentText(name) && path == ServiceBase + name
    ensures !Contains(path, FileBase)
  {
    forall k: nat ensures !OccursAt(path, FileBase, k) {
      if k + |FileBase| <= |path| {
        var w := path[k..k + |FileBase|];
        if k + 11 < |ServiceBase| {
          assert w[1] == path[k + 1] == ServiceBase[k + 1] != FileBase[1];
        } else {
          assert w[11] == path[k + 11] == name[k + 11 - |ServiceBase|] != FileBase[11];
        }
      }
    }
    ContainsIff(path, FileBase);
  }

  /** A name the processor joins unencoded: a `file://` URL gives the files
      directory and the raw name, where the assistant's handler would have
      percent-encoded it. */
  lemma FileUrlJoinsRawName(url: string, fileName: string)
    requires StartsWith(url, "file://") && IsPlainName(fileName) && fileName != ""
    ensures NormalizeUrl(url, fileName) == Ok(FilesRoot + fileName)
  {
    JoinPlain(FileBase, fileName);
  }

  // ---------------------------------------------------------------------
  // `DocumentLoader.get_loader`
  // ---------------------------------------------------------------------

  /** The loaders `get_loader` picks from. */
  datatype Loader = WordLoader | DocLoader | PdfLoader | ExcelLoader

  /** `file_path.split('.')[-1].lower()`: the text after the last '.', or
      the whole path when it has none, lower-cased. */
  function Extension(path: string): (r: string)
    ensures |r| <= |path|
  {
    Lower(LastSegment(path, '.'))
  }

  /** `get_loader(file_path)`: the loader for a .docx, .doc, .pdf, .xls or
      .xlsx extension in any letter case; ValueError otherwise. */
  function GetLoader(path: string): (r: Result<Loader>)
    ensures r.Err? <==> !IsLoaderExtension(Extension(path))
  {
    var ext := Extension(path);
    if ext == "docx" then Ok(WordLoader)
    else if ext == "doc" then Ok(DocLoader)
    else if ext == "pdf" then Ok(PdfLoader)
    else if ext == "xls" || ext == "xlsx" then Ok(ExcelLoader)
    else Err("ValueError: Unsupported file type: " + ext)
  }

  predicate IsLoaderExtension(ext: string) {
    ext == "docx" || ext == "doc" || ext == "pdf" || ext == "xls" || ext == "xlsx"
  }

  /** For a path with a '.', a loader exists exactly when the lower-cased
      path ends in one of the document extensions `normalize_url`
      recognises. */
  lemma LoaderIffDocumentExtension(dir: string, ext: string)
    requires forall k :: 0 <= k < |ext| ==> ext[k] != '.'
    ensures GetLoader(dir + "." + ext).Ok? <==> UrlHandler.HasDocumentExtension(Lower(dir + "." + ext))
  {
    var path := dir + "." + ext;
    LastSegmentOfAppend(dir, '.', ext);
    assert Extension(path) == Lower(ext);
    LowerAppend(dir + ".", ext);
    assert Lower(path) == Lower(dir + ".") + Lower(ext);
    LowerDot(dir);
    ExtensionSuffix(Lower(dir), Lower(ext));
  }

  lemma LowerDot(dir: string)
    ensures Lower(dir + ".") == Lower(dir) + "."
  {
    LowerAppend(dir, ".");
  }

  /** `d + "." + e` ends in `.x` for a dot-free `e` exactly when `e` is
      `x`, one extension at a time. */
  lemma ExtensionSuffix(d: string, e: string)
    requires forall k :: 0 <= k < |e| ==> e[k] != '.'
    ensures IsLoaderExtension(e) <==> UrlHandler.HasDocumentExtension(d + "." + e)
  {
    DottedSuffix(d, e, ".pdf");
    DottedSuffix(d, e, ".doc");
    DottedSuffix(d, e, ".docx");
    DottedSuffix(d, e, ".xls");
    DottedSuffix(d, e, ".xlsx");
  }

  lemma DottedSuffix(d: string, e: string, dx: string)
    requires forall k :: 0 <= k < |e| ==> e[k] != '.'
    requires |dx| > 0 && dx[0] == '.' && forall k :: 1 <= k < |dx| ==> dx[k] != '.'
    ensures EndsWith(d + "." + e, dx) <==> e == dx[1..]
  {
    var s := d + "." + e;
    if EndsWith(s, dx) {
      var t := s[|s| - |dx|..];
      assert t == dx;
      assert t[0] == '.' && s[|s| - |e| - 1] == '.';
      assert forall j :: |s| - |e| <= j < |s| ==> s[j] == e[j - (|s| - |e|)];
      assert forall j :: 1 <= j < |dx| ==> t[j] != '.';
      assert |dx| == |e| + 1;
      assert s[|s| - |e|..] == e;
      assert t[1..] == dx[1..];
    }
    if e == dx[1..] {
      assert s[|s| - |dx|..] == dx;
    }
  }

  /** A service URL without a query is left as it is. */
  lemma ServiceUrlFixed(name: string, fileName: string)
    requires UrlHandler.IsSegmentText(name)
    ensures NormalizeUrl(ServicesRoot + name, fileName) == Ok(ServicesRoot + name)
  {
    var url := ServicesRoot + name;
    var path := ServiceBase + name;
    UrlHandler.ServiceUrlPath(name, url, path);
    ServiceUrlFacts(name, url, path);
  }

  // ---------------------------------------------------------------------
  // `cleanup_urls`
  // ---------------------------------------------------------------------

  /** A row of the documents table as `cleanup_urls` selects it; a NULL
      file name is "". */
  datatype DocumentRow = DocumentRow(id: int, url: string, fileName: string, contentType: string)

  /** The URL `cleanup_urls` wants for a row: built from the file name for
      a 'document' row, the normalized URL for any other. */
  function TargetUrl(row: DocumentRow): (r: Result<string>)
    ensures row.contentType == "document" && IsPlainName(row.fileName) ==> r == Ok(FilesRoot + row.fileName)
  {
    if row.contentType == "document" then DocumentUrl(row.fileName, row.contentType)
    else NormalizeUrl(row.url, row.fileName)
  }

  /** A row `cleanup_urls` would leave alone. */
  predicate IsClean(row: DocumentRow) {
    TargetUrl(row) == Ok(row.url)
  }

  // ---------------------------------------------------------------------
  // The `unique_document_url` constraint of the documents table
  // ---------------------------------------------------------------------

  /** The error PostgreSQL raises for an UPDATE that would give a second
      document a URL another one holds. */
  const UniqueViolation: string := "duplicate key value violates unique constraint \"unique_document_url\""

  /** The constraint (src/db/setup.py): no two documents share a URL. */
  predicate UniqueUrls(t: seq<DocumentRow>) {
    forall i, j :: 0 <= i < j < |t| ==> t[i].url != t[j].url
  }

  /** A row other than the `i`-th holds `u`. */
  predicate HeldByOther(t: seq<DocumentRow>, i: int, u: string)
    requires 0 <= i < |t|
  {
    exists j :: 0 <= j < |t| && j != i && t[j].url == u
  }

  /** `UPDATE documents SET url = u WHERE id = ...` for the `i`-th row (the
      id is the primary key, so the statement touches that row alone). The
      constraint is checked when the statement runs, and the statement
      raises when another row already holds `u`. */
  function UpdateUrl(t: seq<DocumentRow>, i: int, u: string): (r: Result<seq<DocumentRow>>)
    requires 0 <= i < |t|
    ensures r.Err? ==> r.msg == UniqueViolation
    ensures r.Ok? ==> r.value == t[i := t[i].(url := u)]
  {
    if HeldByOther(t, i, u) then Err(UniqueViolation) else Ok(t[i := t[i].(url := u)])
  }

  /** On a table that meets the constraint, the database refuses exactly
      the updates after which the table would no longer meet it. */
  lemma UpdateRefusedIffDuplicate(t: seq<DocumentRow>, i: int, u: string)
    requires 0 <= i < |t| && UniqueUrls(t)
    ensures UpdateUrl(t, i, u).Err? <==> !UniqueUrls(t[i := t[i].(url := u)])
  {
    var next := t[i := t[i].(url := u)];
    if HeldByOther(t, i, u) {
      var j :| 0 <= j < |t| && j != i && t[j].url == u;
      if j < i { assert next[j].url == next[i].url; } else { assert next[i].url == next[j].url; }
    } else {
      forall a, b | 0 <= a < b < |t| ensures next[a].url != next[b].url {
        if a == i { assert t[b].url != u; }
        else if b == i { assert t[a].url != u; }
        else { assert t[a].url != t[b].url; }
      }
    }
  }

  /** An update the constraint accepts keeps the table within it. */
  lemma UpdateKeepsUnique(t: seq<DocumentRow>, i: int, u: string)
    requires 0 <= i < |t|
    ensures UpdateUrl(t, i, u).Ok? && UniqueUrls(t) ==> UniqueUrls(UpdateUrl(t, i, u).value)
  {
    if UniqueUrls(t) {
      UpdateRefusedIffDuplicate(t, i, u);
    }
  }

  /** The table as a run over `targets` has left it on reaching row `i`:
      every earlier row holds its target. */
  function Reached(rows: seq<DocumentRow>, targets: seq<Result<string>>, i: nat): (r: seq<DocumentRow>)
    requires |targets| == |rows| && i <= |rows|
    ensures |r| == |rows|
    ensures forall j :: i <= j < |rows| ==> r[j] == rows[j]
  {
    seq(|rows|, j requires 0 <= j < |rows| =>
      if j < i && targets[j].Ok? then rows[j].(url := targets[j].value) else rows[j])
  }

  /** A run that has not started has changed nothing. */
  lemma ReachedNone(rows: seq<DocumentRow>, targets: seq<Result<string>>)
    requires |targets| == |rows|
    ensures Reached(rows, targets, 0) == rows
  {
  }

  /** Moving past row `i` writes its target into that row. */
  lemma ReachedNext(rows: seq<DocumentRow>, targets: seq<Result<string>>, i: nat)
    requires |targets| == |rows| && i < |rows| && targets[i].Ok?
    ensures Reached(rows, targets, i + 1) == Reached(rows, targets, i)[i := rows[i].(url := targets[i].value)]
  {
  }

  /** Row `i` is to change its URL, and a row the run has reached holds
      that URL already, so the constraint refuses the UPDATE. */
  predicate Refused(rows: seq<DocumentRow>, targets: seq<Result<string>>, i: int)
    requires |targets| == |rows| && 0 <= i < |rows|
  {
    targets[i].Ok? && targets[i].value != rows[i].url
    && HeldByOther(Reached(rows, targets, i), i, targets[i].value)
  }

  /** The positions whose URL differs between two versions of the table. */
  function ChangedAt(before: seq<DocumentRow>, after: seq<DocumentRow>, n: nat): set<nat>
    requires n <= |before| && n <= |after|
  {
    set i: nat | i < n && after[i].url != before[i].url
  }

  /** The target of every row, in table order. */
  function Targets(rows: seq<DocumentRow>): (r: seq<Result<string>>)
    ensures |r| == |rows| && forall i :: 0 <= i < |rows| ==> r[i] == TargetUrl(rows[i])
  {
    seq(|rows|, i requires 0 <= i < |rows| => TargetUrl(rows[i]))
  }

  /** `cleanup_urls()`: every row's URL replaced by its target, with the
      number of rows whose URL changed. An exception (a failed target, or
      an UPDATE the URL constraint refuses) ends the run before the
      commit, so the table keeps its old URLs and the error surfaces. */
  method CleanupUrls(rows: seq<DocumentRow>) returns (r: Result<seq<DocumentRow>>, updates: nat)
    ensures r.Err? <==> exists i :: 0 <= i < |rows| && (TargetUrl(rows[i]).Err? || Refused(rows, Targets(rows), i))
    ensures r.Err? && (forall i :: 0 <= i < |rows| ==> TargetUrl(rows[i]).Ok?) ==> r.msg == UniqueViolation
    ensures r.Ok? ==> |r.value| == |rows|
    ensures r.Ok? ==> forall i :: 0 <= i < |rows| ==>
      r.value[i] == rows[i].(url := TargetUrl(rows[i]).value)
    ensures r.Ok? ==> updates == |ChangedAt(rows, r.value, |rows|)|
    ensures r.Ok? ==> forall i :: 0 <= i < |rows| && rows[i].contentType == "document" ==> IsClean(r.value[i])
    ensures r.Ok? && UniqueUrls(rows) ==> UniqueUrls(r.value)
    ensures (forall i :: 0 <= i < |rows| ==> IsClean(rows[i])) ==> r == Ok(rows) && updates == 0
    ensures r.Err? ==> updates == 0
  {
    r, updates := ApplyTargets(rows, Targets(rows));
    if r.Ok? {
      forall i | 0 <= i < |rows| && rows[i].contentType == "document" ensures IsClean(r.value[i]) {
        DocumentTargetIgnoresUrl(rows[i], r.value[i].url);
      }
    }
  }

  /** A 'document' row's target is built from its file name alone. */
  lemma DocumentTargetIgnoresUrl(row: DocumentRow, u: string)
    requires row.contentType == "document"
    ensures TargetUrl(row.(url := u)) == TargetUrl(row)
  {
  }

  /** One more row: its position counts when its URL changed. */
  lemma ChangedStep(before: seq<DocumentRow>, out: seq<DocumentRow>, row: DocumentRow)
    requires |out| < |before|
    ensures |ChangedAt(before, out + [row], |out| + 1)|
      == |ChangedAt(before, out, |out|)| + (if row.url != before[|out|].url then 1 else 0)
  {
    var i := |out|;
    var next := out + [row];
    ChangedPrefix(before, out, row);
    ChangedExtend(before, next, i);
    assert next[i] == row;
  }

  /** Looking one position further adds that position when it changed. */
  lemma ChangedExtend(before: seq<DocumentRow>, after: seq<DocumentRow>, i: nat)
    requires i < |before| && i < |after|
    ensures |ChangedAt(before, after, i + 1)|
      == |ChangedAt(before, after, i)| + (if after[i].url != before[i].url then 1 else 0)
  {
    if after[i].url != before[i].url {
      ChangedAdds(before, after, i);
    } else {
      ChangedKeeps(before, after, i);
    }
  }

  lemma ChangedAdds(before: seq<DocumentRow>, after: seq<DocumentRow>, i: nat)
    requires i < |before| && i < |after| && after[i].url != before[i].url
    ensures ChangedAt(before, after, i + 1) == ChangedAt(before, after, i) + {i}
    ensures i !in ChangedAt(before, after, i)
  {
  }

  lemma ChangedKeeps(before: seq<DocumentRow>, after: seq<DocumentRow>, i: nat)
    requires i < |before| && i < |after| && after[i].url == before[i].url
    ensures ChangedAt(before, after, i + 1) == ChangedAt(before, after, i)
  {
  }

  lemma ChangedPrefix(before: seq<DocumentRow>, out: seq<DocumentRow>, row: DocumentRow)
    requires |out| < |before|
    ensures ChangedAt(before, out + [row], |out|) == ChangedAt(before, out, |out|)
  {
    var next := out + [row];
    assert forall j :: 0 <= j < |out| ==> next[j] == out[j];
  }

  /** The loop of `cleanup_urls` over targets worked out per row: the first
      failed target, or the first UPDATE the URL constraint refuses, aborts
      the run; otherwise each row takes its target and a row whose URL
      changes is counted. */
  method ApplyTargets(rows: seq<DocumentRow>, targets: seq<Result<string>>) returns (r: Result<seq<DocumentRow>>, updates: nat)
    requires |targets| == |rows|
    ensures r.Err? <==> exists i :: 0 <= i < |rows| && (targets[i].Err? || Refused(rows, targets, i))
    ensures r.Err? && (forall i :: 0 <= i < |rows| ==> targets[i].Ok?) ==> r.msg == UniqueViolation
    ensures r.Ok? ==> |r.value| == |rows|
    ensures r.Ok? ==> forall i :: 0 <= i < |rows| ==> r.value[i] == rows[i].(url := targets[i].value)
    ensures r.Ok? ==> updates == |ChangedAt(rows, r.value, |rows|)|
    ensures r.Ok? && UniqueUrls(rows) ==> UniqueUrls(r.value)
    ensures (forall i :: 0 <= i < |rows| ==> targets[i] == Ok(rows[i].url)) ==> r == Ok(rows) && updates == 0
    ensures r.Err? ==> updates == 0
  {
    var out, stop, n := RunTargets(rows, targets);
    if stop.Some? {
      assert targets[|out|].Err? || Refused(rows, targets, |out|);
      r, updates := Err(stop.value), 0;
    } else {
      r, updates := Ok(out), n;
      if forall j :: 0 <= j < |rows| ==> targets[j] == Ok(rows[j].url) {
        assert out == rows;
        assert ChangedAt(rows, out, |rows|) == {};
      }
    }
  }

  /** The loop itself: `out` is what it wrote before it stopped, and `stop`
      the error it stopped with, if any. */
  method RunTargets(rows: seq<DocumentRow>, targets: seq<Result<string>>)
    returns (out: seq<DocumentRow>, stop: Option<string>, updates: nat)
    requires |targets| == |rows|
    ensures WrittenUpTo(rows, targets, out) && NoneRefused(rows, targets, |out|)
    ensures stop.None? ==> |out| == |rows| && updates == |ChangedAt(rows, out, |rows|)|
    ensures stop.None? && UniqueUrls(rows) ==> UniqueUrls(out)
    ensures stop.Some? ==> |out| < |rows|
    ensures stop.Some? && targets[|out|].Err? ==> stop.value == targets[|out|].msg
    ensures stop.Some? && targets[|out|].Ok? ==> Refused(rows, targets, |out|) && stop.value == UniqueViolation
  {
    out := [];
    updates := 0;
    while |out| < |rows|
      invariant Progress(rows, targets, out, updates)
      decreases |rows| - |out|
    {
      var i := |out|;
      var target := targets[i];
      if target.Err? {
        return out, Some(target.msg), 0;
      }
      if target.value != rows[i].url {
        var written := UpdateUrl(out + rows[i..], i, target.value);
        if written.Err? {
          RefusedAt(rows, targets, out);
          return out, Some(written.msg), 0;
        }
      }
      ProgressStep(rows, targets, out, updates);
      updates := updates + (if target.value != rows[i].url then 1 else 0);
      out := out + [rows[i].(url := target.value)];
    }
    stop := None;
    assert out + rows[|rows|..] == out;
  }

  /** What the loop keeps: the rows written so far hold their targets, none
      of them was refused, `updates` counts the changed ones, and the table
      reached still meets the URL constraint if the original did. */
  predicate Progress(rows: seq<DocumentRow>, targets: seq<Result<string>>, out: seq<DocumentRow>, updates: nat)
    requires |targets| == |rows|
  {
    && WrittenUpTo(rows, targets, out)
    && NoneRefused(rows, targets, |out|)
    && updates == |ChangedAt(rows, out, |out|)|
    && (UniqueUrls(rows) ==> UniqueUrls(out + rows[|out|..]))
  }

  /** One row that keeps its URL or takes a URL no other row holds. */
  lemma ProgressStep(rows: seq<DocumentRow>, targets: seq<Result<string>>, out: seq<DocumentRow>, updates: nat)
    requires |targets| == |rows| && |out| < |rows| && Progress(rows, targets, out, updates)
    requires targets[|out|].Ok?
    requires targets[|out|].value == rows[|out|].url || !HeldByOther(out + rows[|out|..], |out|, targets[|out|].value)
    ensures Progress(rows, targets, out + [rows[|out|].(url := targets[|out|].value)],
                     updates + (if targets[|out|].value != rows[|out|].url then 1 else 0))
  {
    var i := |out|;
    var u := targets[i].value;
    var row := rows[i].(url := u);
    ReachedIsOutThenRest(rows, targets, out, i);
    StepTable(out, rows, row);
    if u != rows[i].url && UniqueUrls(rows) {
      UpdateRefusedIffDuplicate(out + rows[i..], i, u);
    } else if u == rows[i].url {
      assert row == rows[i];
    }
    NoneRefusedStep(rows, targets, out, i);
    WrittenStep(rows, targets, out);
    ChangedStep(rows, out, row);
  }

  /** A row whose new URL another row of the reached table holds is refused. */
  lemma RefusedAt(rows: seq<DocumentRow>, targets: seq<Result<string>>, out: seq<DocumentRow>)
    requires |targets| == |rows| && |out| < |rows| && WrittenUpTo(rows, targets, out)
    requires targets[|out|].Ok? && targets[|out|].value != rows[|out|].url
    requires HeldByOther(out + rows[|out|..], |out|, targets[|out|].value)
    ensures Refused(rows, targets, |out|)
  {
    ReachedIsOutThenRest(rows, targets, out, |out|);
  }

  /** `out` holds the targets of the first rows, none of which failed. */
  predicate WrittenUpTo(rows: seq<DocumentRow>, targets: seq<Result<string>>, out: seq<DocumentRow>)
    requires |targets| == |rows|
  {
    |out| <= |rows| && forall j :: 0 <= j < |out| ==> targets[j].Ok? && out[j] == rows[j].(url := targets[j].value)
  }

  lemma WrittenStep(rows: seq<DocumentRow>, targets: seq<Result<string>>, out: seq<DocumentRow>)
    requires |targets| == |rows| && |out| < |rows| && WrittenUpTo(rows, targets, out) && targets[|out|].Ok?
    ensures WrittenUpTo(rows, targets, out + [rows[|out|].(url := targets[|out|].value)])
  {
  }

  /** No row before the `n`-th was refused. */
  predicate NoneRefused(rows: seq<DocumentRow>, targets: seq<Result<string>>, n: nat)
    requires |targets| == |rows| && n <= |rows|
  {
    forall j :: 0 <= j < n ==> !Refused(rows, targets, j)
  }

  /** A row that keeps its URL, or takes one no other row holds, is not
      refused. */
  lemma NoneRefusedStep(rows: seq<DocumentRow>, targets: seq<Result<string>>, out: seq<DocumentRow>, i: nat)
    requires |targets| == |rows| && i < |rows| && |out| == i && NoneRefused(rows, targets, i)
    requires WrittenUpTo(rows, targets, out)
    requires targets[i].Ok?
    requires targets[i].value == rows[i].url || !HeldByOther(out + rows[i..], i, targets[i].value)
    ensures NoneRefused(rows, targets, i + 1)
  {
    ReachedIsOutThenRest(rows, targets, out, i);
  }

  /** The table a run has reached row `i` in: the rows it has written, then
      the untouched rest. */
  lemma ReachedIsOutThenRest(rows: seq<DocumentRow>, targets: seq<Result<string>>, out: seq<DocumentRow>, i: nat)
    requires |targets| == |rows| && i < |rows| && |out| == i
    requires WrittenUpTo(rows, targets, out)
    ensures Reached(rows, targets, i) == out + rows[i..]
  {
    var b := Reached(rows, targets, i);
    forall j | 0 <= j < |rows| ensures b[j] == (out + rows[i..])[j] {
      if j >= i { assert (out + rows[i..])[j] == rows[i..][j - i]; }
    }
  }

  /** Writing row `i` of the table reached at row `i`. */
  lemma StepTable(out: seq<DocumentRow>, rows: seq<DocumentRow>, row: DocumentRow)
    requires |out| < |rows|
    ensures (out + rows[|out|..])[|out| := row] == (out + [row]) + rows[|out| + 1..]
  {
    var i := |out|;
    var a := (out + rows[i..])[i := row];
    var b := (out + [row]) + rows[i + 1..];
    assert |a| == |b|;
    forall j | 0 <= j < |a| ensures a[j] == b[j] {
      if j > i { assert b[j] == rows[i + 1..][j - i - 1]; }
    }
  }
}

=== FILE: seqs.dfy ===
/** Generic sequence helpers shared by the model: order-preserving
    filtering and pairwise relations. */
module Seqs {

  /** `[x for x in s if f(x)]` */
  function Filter<T(!new)>(s: seq<T>, f: T -> bool): (r: seq<T>)
    ensures |r| <= |s|
    ensures forall x :: x in r <==> x in s && f(x)
    ensures forall k :: 0 <= k < |r| ==> f(r[k])
  {
    if s == [] then []
    else if f(s[0]) then [s[0]] + Filter(s[1..], f)
    else Filter(s[1..], f)
  }

  /** `[f(x) for x in s]` */
  function Map<T, U>(s: seq<T>, f: T -> U): (r: seq<U>)
    ensures |r| == |s|
    ensures forall k :: 0 <= k < |s| ==> r[k] == f(s[k])
  {
    seq(|s|, k requires 0 <= k < |s| => f(s[k]))
  }

  /** `R` holds between every element and each later one. */
  predicate Pairwise<T>(s: seq<T>, R: (T, T) -> bool) {
    forall k, l :: 0 <= k < l < |s| ==> R(s[k], s[l])
  }

  /** Filtering keeps the relative order of the survivors. */
  lemma {:induction false} FilterPairwise<T(!new)>(s: seq<T>, f: T -> bool, R: (T, T) -> bool)
    requires Pairwise(s, R)
    ensures Pairwise(Filter(s, f), R)
    decreases |s|
  {
    if s != [] {
      var tail := Filter(s[1..], f);
      FilterPairwise(s[1..], f, R);
      if f(s[0]) {
        var r := [s[0]] + tail;
        forall k, l | 0 <= k < l < |r| ensures R(r[k], r[l]) {
          if k == 0 {
            assert r[l] == tail[l - 1];
            assert tail[l - 1] in s[1..];
            var m :| 0 <= m < |s[1..]| && s[1..][m] == tail[l - 1];
            assert s[m + 1] == r[l];
          } else {
            assert r[k] == tail[k - 1] && r[l] == tail[l - 1];
          }
        }
      }
    }
  }

  /** Filtering a concatenation filters each part. */
  lemma {:induction false} FilterAppend<T(!new)>(a: seq<T>, b: seq<T>, f: T -> bool)
    ensures Filter(a + b, f) == Filter(a, f) + Filter(b, f)
    decreases |a|
  {
    if a != [] {
      var t := a[1..];
      assert (a + b)[0] == a[0];
      assert (a + b)[1..] == t + b;
      FilterAppend(t, b, f);
      if f(a[0]) {
        assert Filter(a + b, f) == [a[0]] + Filter(t + b, f);
        assert Filter(a, f) == [a[0]] + Filter(t, f);
        assert [a[0]] + (Filter(t, f) + Filter(b, f)) == [a[0]] + Filter(t, f) + Filter(b, f);
      } else {
        assert Filter(a + b, f) == Filter(t + b, f);
      }
    } else {
      assert a + b == b;
    }
  }

  /** Filtering twice with the same test changes nothing. */
  lemma {:induction false} FilterIdempotent<T(!new)>(s: seq<T>, f: T -> bool)
    ensures Filter(Filter(s, f), f) == Filter(s, f)
    decreases |s|
  {
    if s != [] {
      FilterIdempotent(s[1..], f);
    }
  }

  /** Filtering keeps everything when every element passes. */
  lemma {:induction false} FilterAll<T(!new)>(s: seq<T>, f: T -> bool)
    requires forall k :: 0 <= k < |s| ==> f(s[k])
    ensures Filter(s, f) == s
    decreases |s|
  {
    if s != [] {
      FilterAll(s[1..], f);
    }
  }

  /** Filtering keeps nothing when no element passes. */
  lemma {:induction false} FilterNone<T(!new)>(s: seq<T>, f: T -> bool)
    requires forall k :: 0 <= k < |s| ==> !f(s[k])
    ensures Filter(s, f) == []
    decreases |s|
  {
    if s != [] {
      FilterNone(s[1..], f);
    }
  }

  /** A sequence is its three slices at `i` and `j`, joined back. */
  lemma SliceThree<T>(s: seq<T>, i: nat, j: nat)
    requires i <= j <= |s|
    ensures s == s[..i] + s[i..j] + s[j..]
  {
    assert s[..i] + s[i..j] == s[..j];
  }

  /** Every element of a prefix is an element of the whole. */
  lemma PrefixMembers<T>(q: seq<T>, n: nat)
    requires n <= |q|
    ensures forall h :: h in q[..n] ==> h in q
  {
    forall h | h in q[..n] ensures h in q {
      var i :| 0 <= i < n && q[..n][i] == h;
      assert q[i] == h;
    }
  }

  /** Filtering a run that passes, a run that fails, and a rest. */
  lemma KeepDropKeep<T(!new)>(a: seq<T>, b: seq<T>, c: seq<T>, f: T -> bool)
    requires forall k :: 0 <= k < |a| ==> f(a[k])
    requires forall k :: 0 <= k < |b| ==> !f(b[k])
    ensures Filter(a + b + c, f) == a + Filter(c, f)
  {
    FilterAppend(a + b, c, f);
    FilterAppend(a, b, f);
    FilterAll(a, f);
    FilterNone(b, f);
    assert a + [] == a;
  }

  /** The concatenation of the parts, in order. */
  function Flatten<T>(ss: seq<seq<T>>): (r: seq<T>)
  {
    if ss == [] then [] else ss[0] + Flatten(ss[1..])
  }
}

=== FILE: text.dfy ===
/** Python string operations the scripts rely on, stated on `seq<char>`.

    `IsSpace` is exactly Python's `str.isspace()`, which is also the set of
    separators used by `str.split()` and `str.strip()` with no argument.
    Case mapping and the letter/digit classes are the ASCII ones. */
module Text {
  import opened Wrappers

  // ---------------------------------------------------------------------
  // Character classes
  // ---------------------------------------------------------------------

  /** Python's `str.isspace()` for one character. */
  predicate IsSpace(c: char) {
    var n := c as int;
    || n == 32 || (9 <= n <= 13) || (28 <= n <= 31)
    || n == 0x85 || n == 0xA0 || n == 0x1680
    || (0x2000 <= n <= 0x200A) || n == 0x2028 || n == 0x2029
    || n == 0x202F || n == 0x205F || n == 0x3000
  }

  predicate IsUpper(c: char) { 'A' <= c <= 'Z' }
  predicate IsLowerLetter(c: char) { 'a' <= c <= 'z' }
  predicate IsLetter(c: char) { IsUpper(c) || IsLowerLetter(c) }
  predicate IsDigit(c: char) { '0' <= c <= '9' }
  predicate IsAlnum(c: char) { IsLetter(c) || IsDigit(c) }

  /** A character of Python's `\w` class (ASCII letters, digits, `_`). */
  predicate IsWordChar(c: char) { IsAlnum(c) || c == '_' }

  function LowerChar(c: char): (r: char)
    ensures !IsUpper(r)
    ensures IsUpper(c) ==> r as int == c as int + 32
    ensures !IsUpper(c) ==> r == c
  {
    if IsUpper(c) then (c as int + 32) as char else c
  }

  function UpperChar(c: char): (r: char)
    ensures !IsLowerLetter(r)
    ensures IsLowerLetter(c) ==> r as int == c as int - 32
    ensures !IsLowerLetter(c) ==> r == c
  {
    if IsLowerLetter(c) then (c as int - 32) as char else c
  }

  /** Case mapping keeps letters letters and leaves everything else alone. */
  lemma CaseKeepsClass(c: char)
    ensures IsLetter(LowerChar(c)) <==> IsLetter(c)
    ensures IsLetter(UpperChar(c)) <==> IsLetter(c)
    ensures !IsLetter(c) ==> LowerChar(c) == c && UpperChar(c) == c
  {
  }

  /** `str.lower()` */
  function Lower(s: string): (r: string)
    ensures |r| == |s|
    ensures forall i :: 0 <= i < |s| ==> r[i] == LowerChar(s[i])
  {
    seq(|s|, i requires 0 <= i < |s| => LowerChar(s[i]))
  }

  lemma LowerHasNoUpper(s: string)
    ensures forall i :: 0 <= i < |s| ==> !IsUpper(Lower(s)[i])
  {
  }

  lemma LowerIdempotent(s: string)
    ensures Lower(Lower(s)) == Lower(s)
  {
  }

  lemma LowerAppend(a: string, b: string)
    ensures Lower(a + b) == Lower(a) + Lower(b)
  {
  }

  /** Lower-casing leaves a character that is not upper case where it is. */
  lemma LowerAround(x: string, c: char, y: string)
    requires !IsUpper(c)
    ensures Lower(x + [c] + y) == Lower(x) + [c] + Lower(y)
  {
    LowerAppend(x + [c], y);
    LowerAppend(x, [c]);
    assert Lower([c]) == [c];
  }

  /** `str.title()` continued after a character that was (or was not)
      cased: each character is lower-cased after a cased one and
      upper-cased otherwise. */
  function TitleFrom(s: string, prevCased: bool): (r: string)
    ensures |r| == |s|
  {
    if s == [] then []
    else [if prevCased then LowerChar(s[0]) else UpperChar(s[0])] + TitleFrom(s[1..], IsLetter(s[0]))
  }

  /** `str.title()` */
  function Title(s: string): (r: string)
    ensures |r| == |s|
  {
    TitleFrom(s, false)
  }

  /** Each character of `s.title()` depends only on it and its predecessor:
      upper case at the start of a word, lower case inside one. */
  lemma {:induction false} TitleFromPointwise(s: string, prevCased: bool)
    ensures forall i :: 0 <= i < |s| ==>
      TitleFrom(s, prevCased)[i]
      == (if (if i == 0 then prevCased else IsLetter(s[i - 1])) then LowerChar(s[i]) else UpperChar(s[i]))
    decreases |s|
  {
    if s != [] {
      TitleFromPointwise(s[1..], IsLetter(s[0]));
      var r := TitleFrom(s, prevCased);
      forall i | 1 <= i < |s|
        ensures r[i] == (if IsLetter(s[i - 1]) then LowerChar(s[i]) else UpperChar(s[i]))
      {
        assert r[i] == TitleFrom(s[1..], IsLetter(s[0]))[i - 1];
        assert s[1..][i - 1] == s[i];
        if i > 1 {
          assert s[1..][i - 2] == s[i - 1];
        }
      }
    }
  }

  lemma TitlePointwise(s: string)
    ensures forall i :: 0 <= i < |s| ==>
      Title(s)[i] == (if i > 0 && IsLetter(s[i - 1]) then LowerChar(s[i]) else UpperChar(s[i]))
  {
    TitleFromPointwise(s, false);
    forall i | 0 <= i < |s|
      ensures Title(s)[i] == (if i > 0 && IsLetter(s[i - 1]) then LowerChar(s[i]) else UpperChar(s[i]))
    {
      assert Title(s)[i] == TitleFrom(s, false)[i];
    }
  }

  /** Applying `title()` twice changes nothing more. */
  lemma TitleIdempotent(s: string)
    ensures Title(Title(s)) == Title(s)
  {
    var t := Title(s);
    TitlePointwise(s);
    TitlePointwise(t);
    forall i | 0 <= i < |s| ensures Title(t)[i] == t[i] {
      if i > 0 {
        var c := s[i - 1];
        assert t[i - 1] == (if i - 1 > 0 && IsLetter(s[i - 2]) then LowerChar(c) else UpperChar(c));
        assert IsLetter(LowerChar(c)) == IsLetter(c) && IsLetter(UpperChar(c)) == IsLetter(c);
      }
    }
  }

  // ---------------------------------------------------------------------
  // Substring search: `sub in s`, `s.find(sub)`
  // ---------------------------------------------------------------------

  predicate OccursAt(s: string, sub: string, i: nat) {
    i + |sub| <= |s| && s[i..i + |sub|] == sub
  }

  /** `s.find(sub, i)`: the first occurrence at or after `i`. */
  function FindFrom(s: string, sub: string, i: nat): (r: Option<nat>)
    decreases |s| - i
    ensures r.Some? ==> i <= r.value && OccursAt(s, sub, r.value)
    ensures r.Some? ==> forall k: nat :: i <= k < r.value ==> !OccursAt(s, sub, k)
    ensures r.None? ==> forall k: nat :: i <= k ==> !OccursAt(s, sub, k)
  {
    if i + |sub| > |s| then None
    else if s[i..i + |sub|] == sub then Some(i)
    else FindFrom(s, sub, i + 1)
  }

  function Find(s: string, sub: string): (r: Option<nat>)
    ensures r.Some? ==> OccursAt(s, sub, r.value)
    ensures r.Some? ==> forall k: nat :: k < r.value ==> !OccursAt(s, sub, k)
    ensures r.None? ==> forall k: nat :: !OccursAt(s, sub, k)
  {
    FindFrom(s, sub, 0)
  }

  /** Python's `sub in s`. */
  predicate Contains(s: string, sub: string) {
    Find(s, sub).Some?
  }

  lemma ContainsIff(s: string, sub: string)
    ensures Contains(s, sub) <==> exists k: nat :: OccursAt(s, sub, k)
  {
  }

  lemma ContainsWitness(s: string, sub: string, k: nat)
    requires OccursAt(s, sub, k)
    ensures Contains(s, sub)
  {
  }

  lemma ContainsEmpty(s: string)
    ensures Contains(s, "")
  {
    assert OccursAt(s, "", 0);
  }

  /** An occurrence inside a slice is an occurrence in the whole string. */
  lemma OccursInSlice(s: string, a: nat, b: nat, sub: string, k: nat)
    requires a <= b <= |s|
    requires OccursAt(s[a..b], sub, k)
    ensures OccursAt(s, sub, a + k)
  {
    var x := s[a..b][k..k + |sub|];
    var y := s[a + k..a + k + |sub|];
    forall t | 0 <= t < |sub|
      ensures x[t] == y[t]
    {
      assert x[t] == s[a..b][k + t] == s[a + k + t];
    }
    assert x == y;
  }

  /** A string without an uppercase character contains no string that has one. */
  lemma NoUpperNoMatch(s: string, sub: string, j: nat)
    requires forall i :: 0 <= i < |s| ==> !IsUpper(s[i])
    requires j < |sub| && IsUpper(sub[j])
    ensures !Contains(s, sub)
  {
  }

  /** `s.startswith(p)` */
  predicate StartsWith(s: string, p: string) {
    |p| <= |s| && s[..|p|] == p
  }

  lemma FirstCharBlocksPrefix(s: string, p: string)
    requires p != [] && (s == [] || s[0] != p[0])
    ensures !StartsWith(s, p)
  {
  }

  /** `s.endswith(p)` */
  predicate EndsWith(s: string, p: string) {
    |p| <= |s| && s[|s| - |p|..] == p
  }

  // ---------------------------------------------------------------------
  // `s.split(sep)[0]`: the text before the first separator
  // ---------------------------------------------------------------------

  function Before(s: string, sep: string): (r: string)
    requires |sep| > 0
    ensures |r| <= |s| && r == s[..|r|]
    ensures !Contains(r, sep)
    ensures !Contains(s, sep) ==> r == s
    ensures Contains(s, sep) ==> OccursAt(s, sep, |r|)
  {
    match Find(s, sep)
    case None => s
    case Some(i) =>
      PrefixBeforeFirst(s, sep, i);
      s[..i]
  }

  /** A prefix that ends before the first occurrence does not contain it. */
  lemma PrefixBeforeFirst(s: string, sep: string, i: nat)
    requires i <= |s| && |sep| > 0
    requires forall k: nat :: k < i ==> !OccursAt(s, sep, k)
    ensures !Contains(s[..i], sep)
  {
    if Contains(s[..i], sep) {
      var k := Find(s[..i], sep).value;
      OccursInSlice(s, 0, i, sep, k);
    }
  }

  lemma BeforeIdempotent(s: string, sep: string)
    requires |sep| > 0
    ensures Before(Before(s, sep), sep) == Before(s, sep)
  {
  }

  // ---------------------------------------------------------------------
  // `str.split()` with no argument, and `sep.join(...)`
  // ---------------------------------------------------------------------

  /** Length of the leading run of non-space characters. */
  function WordLen(s: string): (n: nat)
    ensures n <= |s|
    ensures forall i :: 0 <= i < n ==> !IsSpace(s[i])
    ensures n < |s| ==> IsSpace(s[n])
  {
    if s == [] || IsSpace(s[0]) then 0 else 1 + WordLen(s[1..])
  }

  /** Python's `s.split()`: the maximal runs of non-space characters. */
  function Words(s: string): (ws: seq<string>)
    decreases |s|
  {
    if s == [] then []
    else if IsSpace(s[0]) then Words(s[1..])
    else
      var n := WordLen(s);
      [s[..n]] + Words(s[n..])
  }

  /** The first word of `s` and the words after the whitespace that ends it. */
  lemma WordsAfterFirst(s: string)
    requires s != [] && !IsSpace(s[0])
    ensures WordLen(s) == |s| ==> Words(s) == [s]
    ensures WordLen(s) < |s| ==> Words(s) == [s[..WordLen(s)]] + Words(s[WordLen(s) + 1..])
  {
    var n := WordLen(s);
    if n < |s| {
      var tail := s[n..];
      assert tail[1..] == s[n + 1..];
    } else {
      assert s[..n] == s;
    }
  }

  /** A token as `split()` produces it: non-empty, no whitespace. */
  predicate IsToken(w: string) {
    |w| > 0 && forall i :: 0 <= i < |w| ==> !IsSpace(w[i])
  }

  predicate AllTokens(ws: seq<string>) {
    forall i :: 0 <= i < |ws| ==> IsToken(ws[i])
  }

  lemma {:induction false} WordsAreTokens(s: string)
    ensures AllTokens(Words(s))
    decreases |s|
  {
    if s == [] {
    } else if IsSpace(s[0]) {
      WordsAreTokens(s[1..]);
    } else {
      var n := WordLen(s);
      WordsAreTokens(s[n..]);
    }
  }

  /** `sep.join(ws)` */
  function Join(ws: seq<string>, sep: string): (r: string)
  {
    if ws == [] then ""
    else if |ws| == 1 then ws[0]
    else ws[0] + sep + Join(ws[1..], sep)
  }

  lemma JoinSingle(w: string, sep: string)
    ensures Join([w], sep) == w
  {
  }

  lemma JoinCons(w: string, ws: seq<string>, sep: string)
    requires ws != []
    ensures Join([w] + ws, sep) == w + sep + Join(ws, sep)
  {
    assert ([w] + ws)[1..] == ws;
  }

  /** Every part occurs in the joined text. */
  lemma {:induction false} JoinContains(ws: seq<string>, sep: string, k: nat)
    requires k < |ws|
    ensures Contains(Join(ws, sep), ws[k])
    decreases k
  {
    var whole := Join(ws, sep);
    if |ws| == 1 || k == 0 {
      assert OccursAt(whole, ws[k], 0);
    } else {
      var rest := ws[1..];
      JoinContains(rest, sep, k - 1);
      var p := Find(Join(rest, sep), rest[k - 1]).value;
      var a := |ws[0] + sep|;
      assert whole == ws[0] + sep + Join(rest, sep);
      assert whole[a..|whole|] == Join(rest, sep);
      OccursInSlice(whole, a, |whole|, ws[k], p);
    }
  }

  /** Every character of `Join(ws, sep)` comes from a part or the separator. */
  lemma {:induction false} JoinChars(ws: seq<string>, sep: string, P: char -> bool)
    requires forall i, j :: 0 <= i < |ws| && 0 <= j < |ws[i]| ==> P(ws[i][j])
    requires forall j :: 0 <= j < |sep| ==> P(sep[j])
    ensures forall j :: 0 <= j < |Join(ws, sep)| ==> P(Join(ws, sep)[j])
    decreases |ws|
  {
    if |ws| > 1 {
      JoinChars(ws[1..], sep, P);
      var rest := Join(ws[1..], sep);
      forall j | 0 <= j < |Join(ws, sep)|
        ensures P(Join(ws, sep)[j])
      {
        assert Join(ws, sep) == ws[0] + sep + rest;
        if j < |ws[0]| {
          assert Join(ws, sep)[j] == ws[0][j];
        } else if j < |ws[0]| + |sep| {
          assert Join(ws, sep)[j] == sep[j - |ws[0]|];
        } else {
          assert Join(ws, sep)[j] == rest[j - |ws[0]| - |sep|];
        }
      }
    }
  }

  lemma {:induction false} WordLenOfTokenThenSpace(w: string, rest: string)
    requires IsToken(w)
    requires rest == [] || IsSpace(rest[0])
    ensures WordLen(w + rest) == |w|
    decreases |w|
  {
    assert !IsSpace((w + rest)[0]) by {
      assert (w + rest)[0] == w[0];
    }
    if |w| > 1 {
      assert IsToken(w[1..]) by {
        forall i | 0 <= i < |w[1..]| ensures !IsSpace(w[1..][i]) {
          assert w[1..][i] == w[i + 1];
        }
      }
      assert (w + rest)[1..] == w[1..] + rest;
      WordLenOfTokenThenSpace(w[1..], rest);
    } else {
      assert (w + rest)[1..] == rest;
    }
  }

  /** `split()` undoes `' '.join(...)` on tokens. */
  lemma {:induction false} WordsOfJoin(ws: seq<string>)
    requires AllTokens(ws)
    ensures Words(Join(ws, " ")) == ws
    decreases |ws|
  {
    if ws == [] {
    } else {
      var w := ws[0];
      var rest := if |ws| == 1 then "" else " " + Join(ws[1..], " ");
      assert Join(ws, " ") == w + rest;
      WordLenOfTokenThenSpace(w, rest);
      var s := w + rest;
      assert s[..|w|] == w;
      assert s[|w|..] == rest;
      if |ws| == 1 {
        assert Words(s) == [w] + Words(rest);
        assert ws == [w];
      } else {
        assert Words(rest) == Words(Join(ws[1..], " "));
        WordsOfJoin(ws[1..]);
        assert ws == [w] + ws[1..];
      }
    }
  }

  /** `' '.join(s.split())`: whitespace runs collapsed to one space, ends trimmed. */
  function Collapse(s: string): (r: string)
    ensures Words(r) == Words(s)
  {
    WordsAreTokens(s);
    WordsOfJoin(Words(s));
    Join(Words(s), " ")
  }

  /** Tokens joined by single spaces are already collapsed. */
  lemma CollapseOfJoin(ws: seq<string>)
    requires AllTokens(ws)
    ensures Collapse(Join(ws, " ")) == Join(ws, " ")
  {
    WordsOfJoin(ws);
  }

  lemma CollapseIdempotent(s: string)
    ensures Collapse(Collapse(s)) == Collapse(s)
  {
  }

  /** A string has no words exactly when it is all whitespace. */
  lemma {:induction false} WordsEmptyIff(s: string)
    ensures Words(s) == [] <==> forall i :: 0 <= i < |s| ==> IsSpace(s[i])
    decreases |s|
  {
    if s != [] {
      WordsEmptyIff(s[1..]);
      if IsSpace(s[0]) {
        assert forall i :: 1 <= i < |s| ==> s[i] == s[1..][i - 1];
      }
    }
  }

  lemma JoinEmptyIff(ws: seq<string>)
    requires AllTokens(ws)
    ensures Join(ws, " ") == "" <==> ws == []
  {
    if |ws| > 1 {
      assert |Join(ws, " ")| >= |ws[0]|;
    }
  }

  /** A collapsed string has no space at either end and no two spaces in a row. */
  lemma CollapsedShape(s: string)
    ensures var r := Collapse(s);
      && (r != [] ==> !IsSpace(r[0]) && !IsSpace(r[|r| - 1]))
      && (forall i :: 0 <= i < |r| && IsSpace(r[i]) ==> r[i] == ' ')
      && (forall i :: 0 <= i < |r| - 1 && IsSpace(r[i]) ==> !IsSpace(r[i + 1]))
  {
    WordsAreTokens(s);
    TokenJoinShape(Words(s));
  }

  lemma {:induction false} TokenJoinShape(ws: seq<string>)
    requires AllTokens(ws)
    ensures var r := Join(ws, " ");
      && (r != [] ==> !IsSpace(r[0]) && !IsSpace(r[|r| - 1]))
      && (forall i :: 0 <= i < |r| && IsSpace(r[i]) ==> r[i] == ' ')
      && (forall i :: 0 <= i < |r| - 1 && IsSpace(r[i]) ==> !IsSpace(r[i + 1]))
    decreases |ws|
  {
    if |ws| > 1 {
      var w := ws[0];
      var rest := Join(ws[1..], " ");
      TokenJoinShape(ws[1..]);
      JoinEmptyIff(ws[1..]);
      var r := Join(ws, " ");
      assert r == w + " " + rest;
      forall i | 0 <= i < |r| && IsSpace(r[i])
        ensures r[i] == ' '
      {
        if i > |w| { assert r[i] == rest[i - |w| - 1]; }
      }
      forall i | 0 <= i < |r| - 1 && IsSpace(r[i])
        ensures !IsSpace(r[i + 1])
      {
        if i == |w| { assert r[i + 1] == rest[0]; }
        else { assert r[i] == rest[i - |w| - 1]; assert r[i + 1] == rest[i - |w|]; }
      }
      assert r[|r| - 1] == rest[|rest| - 1];
    }
  }

  // ---------------------------------------------------------------------
  // `str.strip()`
  // ---------------------------------------------------------------------

  function StripLeft(s: string): (r: string)
    ensures |r| <= |s| && r == s[|s| - |r|..]
    ensures forall i :: 0 <= i < |s| - |r| ==> IsSpace(s[i])
    ensures r != [] ==> !IsSpace(r[0])
  {
    if s != [] && IsSpace(s[0]) then StripLeft(s[1..]) else s
  }

  function StripRight(s: string): (r: string)
    ensures |r| <= |s| && r == s[..|r|]
    ensures forall i :: |r| <= i < |s| ==> IsSpace(s[i])
    ensures r != [] ==> !IsSpace(r[|r| - 1])
  {
    if s != [] && IsSpace(s[|s| - 1]) then StripRight(s[..|s| - 1]) else s
  }

  /** Python's `s.strip()`. */
  function Strip(s: string): (r: string)
    ensures |r| <= |s|
    ensures r != [] ==> !IsSpace(r[0]) && !IsSpace(r[|r| - 1])
  {
    StripRight(StripLeft(s))
  }

  /** Where the stripped text starts inside the original. */
  function StripOffset(s: string): (a: nat)
    ensures a <= |s|
  {
    |s| - |StripLeft(s)|
  }

  /** A character that is not whitespace survives `strip()`, in place. */
  lemma StripKeepsNonSpace(s: string, k: nat)
    requires k < |s| && !IsSpace(s[k])
    ensures StripOffset(s) <= k < StripOffset(s) + |Strip(s)|
    ensures Strip(s)[k - StripOffset(s)] == s[k]
  {
    StripSlice(s);
  }

  /** The `i`th character `strip()` keeps is the one at the same place
      after the removed leading whitespace. */
  lemma StripCharAt(s: string, i: nat)
    requires i < |Strip(s)|
    ensures StripOffset(s) + i < |s| && s[StripOffset(s) + i] == Strip(s)[i]
  {
    StripSlice(s);
  }

  /** What `strip()` removes is whitespace, and what it keeps is a slice. */
  lemma StripSlice(s: string)
    ensures StripOffset(s) + |Strip(s)| <= |s|
    ensures Strip(s) == s[StripOffset(s)..StripOffset(s) + |Strip(s)|]
    ensures forall i :: 0 <= i < StripOffset(s) ==> IsSpace(s[i])
    ensures forall i :: StripOffset(s) + |Strip(s)| <= i < |s| ==> IsSpace(s[i])
  {
    var l := StripLeft(s);
    var a := |s| - |l|;
    var r := StripRight(l);
    assert Strip(s) == r && StripOffset(s) == a;
    assert l == s[a..];
    assert r == l[..|r|];
    assert r == s[a..a + |r|];
    forall i | a + |r| <= i < |s|
      ensures IsSpace(s[i])
    {
      assert s[i] == l[i - a];
      assert |r| <= i - a < |l|;
    }
  }

  lemma StripEmptyIff(s: string)
    ensures Strip(s) == [] <==> forall i :: 0 <= i < |s| ==> IsSpace(s[i])
  {
    StripSlice(s);
  }

  lemma StripOfStripped(s: string)
    requires s == [] || (!IsSpace(s[0]) && !IsSpace(s[|s| - 1]))
    ensures Strip(s) == s
  {
  }

  lemma StripIdempotent(s: string)
    ensures Strip(Strip(s)) == Strip(s)
  {
    StripOfStripped(Strip(s));
  }

  // ---------------------------------------------------------------------
  // `s.split(c)` on one character, and `s.split(c)[-1]`
  // ---------------------------------------------------------------------

  function FindChar(s: string, c: char): (r: Option<nat>)
    ensures r.Some? ==> r.value < |s| && s[r.value] == c
    ensures r.Some? ==> forall k :: 0 <= k < r.value ==> s[k] != c
    ensures r.None? ==> forall k :: 0 <= k < |s| ==> s[k] != c
  {
    if s == [] then None
    else if s[0] == c then Some(0)
    else match FindChar(s[1..], c)
      case None => None
      case Some(i) => Some(i + 1)
  }

  /** Python's `s.split(c)`: never empty; the pieces hold no `c`. */
  function SplitChar(s: string, c: char): (r: seq<string>)
    decreases |s|
    ensures |r| >= 1
    ensures forall i, j :: 0 <= i < |r| && 0 <= j < |r[i]| ==> r[i][j] != c
  {
    match FindChar(s, c)
    case None => [s]
    case Some(i) => [s[..i]] + SplitChar(s[i + 1..], c)
  }

  /** Splitting at a separator after a first piece without one. */
  lemma SplitCharCons(w: string, c: char, rest: string)
    requires forall k :: 0 <= k < |w| ==> w[k] != c
    ensures SplitChar(w + [c] + rest, c) == [w] + SplitChar(rest, c)
  {
    var s := w + [c] + rest;
    assert s[|w|] == c;
    assert forall k :: 0 <= k < |w| ==> s[k] == w[k];
    assert FindChar(s, c) == Some(|w|);
    assert s[..|w|] == w && s[|w| + 1..] == rest;
  }

  /** Splitting a join of separator-free pieces gives the pieces back. */
  lemma {:induction false} SplitCharOfJoin(ws: seq<string>, c: char)
    requires ws != []
    requires forall i, j :: 0 <= i < |ws| && 0 <= j < |ws[i]| ==> ws[i][j] != c
    ensures SplitChar(Join(ws, [c]), c) == ws
    decreases |ws|
  {
    if |ws| == 1 {
      SplitCharNone(ws[0], c);
    } else {
      SplitCharOfJoin(ws[1..], c);
      SplitCharCons(ws[0], c, Join(ws[1..], [c]));
      assert ws == [ws[0]] + ws[1..];
    }
  }

  lemma SplitCharNone(w: string, c: char)
    requires forall k :: 0 <= k < |w| ==> w[k] != c
    ensures SplitChar(w, c) == [w]
  {
  }

  lemma {:induction false} SplitCharJoin(s: string, c: char)
    ensures Join(SplitChar(s, c), [c]) == s
    decreases |s|
  {
    match FindChar(s, c)
    case None =>
    case Some(i) =>
      SplitCharJoin(s[i + 1..], c);
      JoinCons(s[..i], SplitChar(s[i + 1..], c), [c]);
      assert s == s[..i] + [c] + s[i + 1..];
  }

  /** `s.split(c)[-1]`: the text after the last `c`, or all of `s`. */
  function LastSegment(s: string, c: char): (r: string)
    decreases |s|
    ensures |r| <= |s| && r == s[|s| - |r|..]
    ensures forall j :: 0 <= j < |r| ==> r[j] != c
    ensures |r| < |s| ==> s[|s| - |r| - 1] == c
  {
    match FindChar(s, c)
    case None => s
    case Some(i) => LastSegment(s[i + 1..], c)
  }

  lemma {:induction false} LastSegmentOfAppend(p: string, c: char, e: string)
    requires forall j :: 0 <= j < |e| ==> e[j] != c
    ensures LastSegment(p + [c] + e, c) == e
    decreases |p|
  {
    var s := p + [c] + e;
    assert s[|p|] == c;
    var i := FindChar(s, c).value;
    if i < |p| {
      assert s[i + 1..] == p[i + 1..] + [c] + e;
      LastSegmentOfAppend(p[i + 1..], c, e);
    } else {
      assert s[i + 1..] == e;
    }
  }

  // ---------------------------------------------------------------------
  // `s.replace(old, new)` and `s.count(sub)`
  // ---------------------------------------------------------------------

  /** Python's `s.replace(pat, rep)`: all non-overlapping occurrences, left to right. */
  function ReplaceAll(s: string, pat: string, rep: string): (r: string)
    requires |pat| > 0
    decreases |s|
    ensures !Contains(s, pat) ==> r == s
  {
    match Find(s, pat)
    case None => s
    case Some(i) => s[..i] + rep + ReplaceAll(s[i + |pat|..], pat, rep)
  }

  /** `s.replace(a, b)` for single characters rewrites each `a` in place. */
  lemma {:induction false} ReplaceCharPointwise(s: string, a: char, b: char)
    ensures |ReplaceAll(s, [a], [b])| == |s|
    ensures forall i :: 0 <= i < |s| ==>
      ReplaceAll(s, [a], [b])[i] == (if s[i] == a then b else s[i])
    decreases |s|
  {
    match Find(s, [a])
    case None =>
      forall i | 0 <= i < |s| ensures s[i] != a {
        assert !OccursAt(s, [a], i);
        assert s[i..i + 1] == [s[i]];
      }
    case Some(i) =>
      var rest := s[i + 1..];
      ReplaceCharPointwise(rest, a, b);
      var r := ReplaceAll(s, [a], [b]);
      assert r == s[..i] + [b] + ReplaceAll(rest, [a], [b]);
      assert s[i..i + 1] == [a];
      forall k | 0 <= k < |s|
        ensures r[k] == (if s[k] == a then b else s[k])
      {
        if k < i {
          assert !OccursAt(s, [a], k);
          assert s[k..k + 1] == [s[k]];
        } else if k > i {
          assert r[k] == ReplaceAll(rest, [a], [b])[k - i - 1];
          assert rest[k - i - 1] == s[k];
        }
      }
  }

  /** Every character of the result comes from `s` or from `rep`. */
  lemma {:induction false} ReplaceChars(s: string, pat: string, rep: string, P: char -> bool)
    requires |pat| > 0
    requires forall j :: 0 <= j < |s| ==> P(s[j])
    requires forall j :: 0 <= j < |rep| ==> P(rep[j])
    ensures forall j :: 0 <= j < |ReplaceAll(s, pat, rep)| ==> P(ReplaceAll(s, pat, rep)[j])
    decreases |s|
  {
    match Find(s, pat)
    case None =>
    case Some(i) =>
      var rest := s[i + |pat|..];
      ReplaceChars(rest, pat, rep, P);
      var r := ReplaceAll(s, pat, rep);
      var tail := ReplaceAll(rest, pat, rep);
      assert r == s[..i] + rep + tail;
      forall j | 0 <= j < |r| ensures P(r[j]) {
        if j < i {
          assert r[j] == s[j];
        } else if j < i + |rep| {
          assert r[j] == rep[j - i];
        } else {
          assert r[j] == tail[j - i - |rep|];
        }
      }
  }

  /** Python's `s.count(sub)` for a non-empty `sub`: non-overlapping, left to right. */
  function Count(s: string, sub: string): (n: nat)
    requires |sub| > 0
    decreases |s|
  {
    match Find(s, sub)
    case None => 0
    case Some(i) => 1 + Count(s[i + |sub|..], sub)
  }

  /** The count is zero exactly when `sub` does not occur. */
  lemma CountZeroIff(s: string, sub: string)
    requires |sub| > 0
    ensures Count(s, sub) == 0 <==> !Contains(s, sub)
  {
  }

  /** An occurrence of `sub` in `x + [c] + y`, where `sub` does not hold
      `c`, lies wholly in `x` or wholly in `y`. */
  lemma {:induction false} OccurrenceAvoids(x: string, c: char, y: string, sub: string, k: nat)
    requires forall j :: 0 <= j < |sub| ==> sub[j] != c
    requires OccursAt(x + [c] + y, sub, k)
    ensures (k + |sub| <= |x| && OccursAt(x, sub, k)) || (k > |x| && OccursAt(y, sub, k - |x| - 1))
  {
    var s := x + [c] + y;
    if k + |sub| <= |x| {
      assert s[k..k + |sub|] == x[k..k + |sub|];
    } else if k > |x| {
      assert s[k..k + |sub|] == y[k - |x| - 1..k - |x| - 1 + |sub|];
    } else {
      CharOfOccurrence(s, sub, k, |x| - k);
    }
  }

  /** `s[k + j]` is `sub[j]` inside an occurrence of `sub` at `k`. */
  lemma CharOfOccurrence(s: string, sub: string, k: nat, j: nat)
    requires OccursAt(s, sub, k) && j < |sub|
    ensures s[k + j] == sub[j]
  {
    assert s[k..k + |sub|][j] == s[k + j];
  }

  /** Occurrences in `x` and in `y` are occurrences in `x + [c] + y`. */
  lemma {:induction false} OccurrenceInside(x: string, c: char, y: string, sub: string)
    ensures forall k: nat :: OccursAt(x, sub, k) ==> OccursAt(x + [c] + y, sub, k)
    ensures forall k: nat :: OccursAt(y, sub, k) ==> OccursAt(x + [c] + y, sub, |x| + 1 + k)
  {
    var s := x + [c] + y;
    forall k: nat | OccursAt(x, sub, k) ensures OccursAt(s, sub, k) {
      assert s[k..k + |sub|] == x[k..k + |sub|];
    }
    forall k: nat | OccursAt(y, sub, k) ensures OccursAt(s, sub, |x| + 1 + k) {
      assert s[|x| + 1 + k..|x| + 1 + k + |sub|] == y[k..k + |sub|];
    }
  }

  /** The first occurrence in `x` stays the first in `x + [c] + y`. */
  lemma {:induction false} FindAcrossInFirst(x: string, c: char, y: string, sub: string)
    requires forall j :: 0 <= j < |sub| ==> sub[j] != c
    requires Find(x, sub).Some?
    ensures Find(x + [c] + y, sub) == Find(x, sub)
  {
    var f := Find(x + [c] + y, sub);
    OccurrenceInside(x, c, y, sub);
    if f.Some? {
      OccurrenceAvoids(x, c, y, sub, f.value);
    }
  }

  /** Without an occurrence in `x`, the first one in `x + [c] + y` is the
      first one in `y`, shifted. */
  lemma {:induction false} FindAcrossInSecond(x: string, c: char, y: string, sub: string)
    requires forall j :: 0 <= j < |sub| ==> sub[j] != c
    requires Find(x, sub).None?
    ensures Find(y, sub).None? ==> Find(x + [c] + y, sub).None?
    ensures Find(y, sub).Some? ==> Find(x + [c] + y, sub) == Some(|x| + 1 + Find(y, sub).value)
  {
    var f := Find(x + [c] + y, sub);
    OccurrenceInside(x, c, y, sub);
    if f.Some? {
      OccurrenceAvoids(x, c, y, sub, f.value);
    }
  }

  /** A character that `sub` does not hold splits the count in two, since no
      occurrence can span it. */
  lemma {:induction false} CountAcross(x: string, c: char, y: string, sub: string)
    requires |sub| > 0
    requires forall j :: 0 <= j < |sub| ==> sub[j] != c
    ensures Count(x + [c] + y, sub) == Count(x, sub) + Count(y, sub)
    decreases |x|
  {
    var s := x + [c] + y;
    if Find(x, sub).Some? {
      var i := Find(x, sub).value;
      FindAcrossInFirst(x, c, y, sub);
      var x' := x[i + |sub|..];
      assert s[i + |sub|..] == x' + [c] + y;
      CountAcross(x', c, y, sub);
      CountAt(s, sub, i);
      CountAt(x, sub, i);
      assert Count(s, sub) == 1 + Count(x' + [c] + y, sub);
    } else {
      FindAcrossInSecond(x, c, y, sub);
      CountNone(x, sub);
      if Find(y, sub).Some? {
        var j := Find(y, sub).value;
        var k := |x| + 1 + j;
        var y' := y[j + |sub|..];
        assert s[k + |sub|..] == y';
        CountAt(s, sub, k);
        CountAt(y, sub, j);
      } else {
        CountNone(s, sub);
        CountNone(y, sub);
      }
    }
  }

  /** `Count` past a first occurrence at `i`. */
  lemma {:induction false} CountAt(s: string, sub: string, i: nat)
    requires |sub| > 0 && i + |sub| <= |s| && Find(s, sub) == Some(i)
    ensures Count(s, sub) == 1 + Count(s[i + |sub|..], sub)
  {
  }

  /** `Count` without an occurrence. */
  lemma {:induction false} CountNone(s: string, sub: string)
    requires |sub| > 0 && Find(s, sub).None?
    ensures Count(s, sub) == 0
  {
  }

  // ---------------------------------------------------------------------
  // `str(n)` for a natural number
  // ---------------------------------------------------------------------

  function DigitChar(d: nat): (c: char)
    requires d < 10
    ensures IsDigit(c)
  {
    ('0' as int + d) as char
  }

  /** Python's `str(n)` for `n >= 0`. */
  function NatToString(n: nat): (r: string)
    decreases n
    ensures |r| >= 1
    ensures forall i :: 0 <= i < |r| ==> IsDigit(r[i])
    ensures n < 10 <==> |r| == 1
  {
    if n < 10 then [DigitChar(n)] else NatToString(n / 10) + [DigitChar(n % 10)]
  }

  lemma DigitCharInjective(a: nat, b: nat)
    requires a < 10 && b < 10 && DigitChar(a) == DigitChar(b)
    ensures a == b
  {
  }

  /** Different numbers print differently. */
  lemma {:induction false} NatToStringInjective(a: nat, b: nat)
    requires NatToString(a) == NatToString(b)
    ensures a == b
    decreases a
  {
    var s := NatToString(a);
    if a < 10 {
      assert b < 10;
      DigitCharInjective(a, b);
    } else {
      assert b >= 10;
      assert s[|s| - 1] == DigitChar(a % 10) == DigitChar(b % 10);
      DigitCharInjective(a % 10, b % 10);
      assert NatToString(a / 10) == s[..|s| - 1] == NatToString(b / 10);
      NatToStringInjective(a / 10, b / 10);
    }
  }

  // ---------------------------------------------------------------------
  // The last piece of `s.split(c)`, and `c.join` of the others
  // ---------------------------------------------------------------------

  lemma {:induction false} JoinSnoc(ws: seq<string>, w: string, sep: string)
    requires ws != []
    ensures Join(ws + [w], sep) == Join(ws, sep) + sep + w
    decreases |ws|
  {
    if |ws| == 1 {
      assert (ws + [w])[1..] == [w];
    } else {
      assert (ws + [w])[1..] == ws[1..] + [w];
      JoinSnoc(ws[1..], w, sep);
    }
  }

  /** Splitting `dir + c + name`, where `name` holds no `c`: the last piece
      is `name` and `c.join` of the others gives `dir` back. */
  lemma SplitLastPiece(p: string, c: char, dir: string, name: string)
    requires p == dir + [c] + name
    requires forall j :: 0 <= j < |name| ==> name[j] != c
    ensures |SplitChar(p, c)| >= 2
    ensures SplitChar(p, c)[|SplitChar(p, c)| - 1] == name
    ensures Join(SplitChar(p, c)[..|SplitChar(p, c)| - 1], [c]) == dir
  {
    var segs := SplitChar(p, c);
    var n := |segs|;
    SplitCharJoin(p, c);
    assert p[|dir|] == c;
    assert segs == segs[..n - 1] + [segs[n - 1]];
    JoinSnoc(segs[..n - 1], segs[n - 1], [c]);
    SplitAtLastSeparator(p, c, Join(segs[..n - 1], [c]), segs[n - 1], dir, name);
  }

  /** A text has one split into a prefix, a separator and a suffix free of it. */
  lemma SplitAtLastSeparator(p: string, c: char, x: string, y: string, dir: string, name: string)
    requires p == x + [c] + y && p == dir + [c] + name
    requires forall j :: 0 <= j < |y| ==> y[j] != c
    requires forall j :: 0 <= j < |name| ==> name[j] != c
    ensures x == dir && y == name
  {
    assert p[|x|] == c && p[|dir|] == c;
    assert forall j :: |p| - |name| <= j < |p| ==> p[j] == name[j - (|p| - |name|)];
    assert forall j :: |p| - |y| <= j < |p| ==> p[j] == y[j - (|p| - |y|)];
    assert |y| == |name|;
    assert y == p[|p| - |y|..] == name;
    assert x == p[..|x|] == dir;
  }

  // ---------------------------------------------------------------------
  // Absence of a two-character pattern such as "_v"
  // ---------------------------------------------------------------------

  /** No `a` is immediately followed by `b`. */
  predicate NoPair(s: string, a: char, b: char) {
    forall i :: 0 <= i < |s| - 1 ==> !(s[i] == a && s[i + 1] == b)
  }

  lemma NoPairIff(s: string, a: char, b: char)
    ensures NoPair(s, a, b) <==> !Contains(s, [a, b])
  {
    if !NoPair(s, a, b) {
      var i :| 0 <= i < |s| - 1 && s[i] == a && s[i + 1] == b;
      assert s[i..i + 2] == [a, b];
      ContainsWitness(s, [a, b], i);
    }
    if Contains(s, [a, b]) {
      var i := Find(s, [a, b]).value;
      assert s[i..i + 2] == [a, b];
      assert s[i] == s[i..i + 2][0] && s[i + 1] == s[i..i + 2][1];
    }
  }

  lemma NoPairAppend(x: string, y: string, a: char, b: char)
    requires NoPair(x, a, b) && NoPair(y, a, b)
    requires x == [] || y == [] || x[|x| - 1] != a || y[0] != b
    ensures NoPair(x + y, a, b)
  {
    var s := x + y;
    forall i | 0 <= i < |s| - 1 ensures !(s[i] == a && s[i + 1] == b) {
      if i + 1 < |x| {
        assert s[i] == x[i] && s[i + 1] == x[i + 1];
      } else if i >= |x| {
        assert s[i] == y[i - |x|] && s[i + 1] == y[i + 1 - |x|];
      } else {
        assert s[i] == x[|x| - 1] && s[i + 1] == y[0];
      }
    }
  }

  lemma NoPairSlice(s: string, lo: nat, hi: nat, a: char, b: char)
    requires lo <= hi <= |s| && NoPair(s, a, b)
    ensures NoPair(s[lo..hi], a, b)
  {
    forall i | 0 <= i < hi - lo - 1 ensures !(s[lo..hi][i] == a && s[lo..hi][i + 1] == b) {
      assert s[lo..hi][i] == s[lo + i] && s[lo..hi][i + 1] == s[lo + i + 1];
    }
  }

  /** Replacing by a text that neither starts with `b` nor ends with `a`
      cannot create the pattern. */
  lemma {:induction false} ReplaceKeepsNoPair(s: string, pat: string, rep: string, a: char, b: char)
    requires |pat| > 0 && |rep| > 0
    requires NoPair(s, a, b) && NoPair(rep, a, b)
    requires rep[0] != b && rep[|rep| - 1] != a
    ensures NoPair(ReplaceAll(s, pat, rep), a, b)
    decreases |s|
  {
    match Find(s, pat)
    case None =>
    case Some(i) =>
      var rest := s[i + |pat|..];
      NoPairSlice(s, 0, i, a, b);
      NoPairSlice(s, i + |pat|, |s|, a, b);
      ReplaceKeepsNoPair(rest, pat, rep, a, b);
      NoPairAppend(s[..i], rep, a, b);
      NoPairAppend(s[..i] + rep, ReplaceAll(rest, pat, rep), a, b);
  }

  /** A text without the first character of `sub` does not contain `sub`. */
  lemma NotContainsLeadingChar(s: string, sub: string)
    requires |sub| > 0
    requires forall k :: 0 <= k < |s| ==> s[k] != sub[0]
    ensures !Contains(s, sub)
  {
    forall k: nat ensures !OccursAt(s, sub, k) {
      if k + |sub| <= |s| {
        assert s[k..k + |sub|][0] == s[k];
      }
    }
    ContainsIff(s, sub);
  }

  lemma EndsWithAppend(a: string, b: string, p: string)
    requires EndsWith(b, p)
    ensures EndsWith(a + b, p)
  {
    assert (a + b)[|a + b| - |p|..] == b[|b| - |p|..];
  }

  /** Replacing in a text that starts with the pattern and has no other
      occurrence rewrites the front only. */
  lemma ReplaceAtFront(pat: string, rest: string, rep: string)
    requires |pat| > 0 && !Contains(rest, pat)
    ensures ReplaceAll(pat + rest, pat, rep) == rep + rest
  {
    var s := pat + rest;
    assert OccursAt(s, pat, 0) by {
      assert s[..|pat|] == pat;
    }
    assert Find(s, pat) == Some(0);
    assert s[|pat|..] == rest;
    assert s[..0] == [];
  }
}

=== FILE: url_cleanup.dfy ===
/** The duplicate-aware URL clean-up script (scripts/cleanup_urls.py). A
    first pass groups the documents by a SQL approximation of their
    normalized URL and gives every member of a group but the first a
    versioned URL; a second pass runs the script's own `normalize_url`, the
    same as the processor's, over every row whose URL no other row shares. Everything commits together,
    and an exception rolls the whole run back. */
module UrlCleanup {
  import opened Wrappers
  import opened Text
  import opened Urls
  import opened Ercot
  import UrlHandler
  import opened ProcessorUrls

  /** `id` is the primary key of the documents table. */
  predicate UniqueIds(rows: seq<DocumentRow>) {
    forall i, j :: 0 <= i < j < |rows| ==> rows[i].id != rows[j].id
  }

  // ---------------------------------------------------------------------
  // The normalized URL of the grouping query
  // ---------------------------------------------------------------------

  /** The CASE expression: a `file://` URL becomes the files directory and
      the file name (CONCAT treats a NULL name as ""); a URL holding `?v=`
      loses everything from its first '?'; any other URL stays. */
  function SqlNormalized(row: DocumentRow): (r: string)
    ensures StartsWith(row.url, "file://") ==> r == FilesRoot + row.fileName
    ensures !StartsWith(row.url, "file://") ==> |r| <= |row.url| && r == row.url[..|r|] && !Contains(r, "?v=")
    ensures !StartsWith(row.url, "file://") && !Contains(row.url, "?v=") ==> r == row.url
  {
    if StartsWith(row.url, "file://") then FilesRoot + row.fileName
    else if Contains(row.url, "?v=") then
      var head := Before(row.url, "?");
      QuestionFreeHasNoVersion(head);
      head
    else row.url
  }

  lemma QuestionFreeHasNoVersion(s: string)
    requires !Contains(s, "?")
    ensures !Contains(s, "?v=")
  {
    ContainsIff(s, "?");
    forall k | 0 <= k < |s| ensures s[k] != '?' {
      assert !OccursAt(s, "?", k);
      assert s[k..k + 1] == [s[k]];
    }
    NotContainsLeadingChar(s, "?v=");
  }

  /** `url LIKE 'file://%'` is the prefix test the model uses. */
  lemma SqlFilePattern(url: string)
    ensures UrlHandler.Like(url, "file://%") <==> StartsWith(url, "file://")
  {
    var u := "file://";
    assert forall k :: 0 <= k < |u| ==> !UrlHandler.IsLikeWildcard(u[k]);
    assert u + "%" == "file://%";
    UrlHandler.LikePlainPrefix(url, u);
  }

  /** `url LIKE '%?v=%'` is the containment test the model uses. */
  lemma SqlVersionPattern(url: string)
    ensures UrlHandler.Like(url, "%?v=%") <==> Contains(url, "?v=")
  {
    var u := "?v=";
    assert forall k :: 0 <= k < |u| ==> !UrlHandler.IsLikeWildcard(u[k]);
    assert "%" + (u + "%") == "%?v=%";
    LikeContains(url, u);
  }

  /** A leading '%' tries the rest of the pattern at every suffix. */
  lemma {:induction false} LikeAnyPrefix(s: string, p: string)
    ensures UrlHandler.Like(s, "%" + p) <==> exists i :: 0 <= i <= |s| && UrlHandler.Like(s[i..], p)
    decreases |s|
  {
    var q := "%" + p;
    assert q[0] == '%' && q[1..] == p;
    if s == [] {
      assert UrlHandler.Like(s, q) == UrlHandler.Like(s, p);
      assert s[0..] == s;
    } else {
      assert UrlHandler.Like(s, q) == (UrlHandler.Like(s, p) || UrlHandler.Like(s[1..], q));
      LikeAnyPrefix(s[1..], p);
      assert forall i :: 1 <= i <= |s| ==> s[1..][i - 1..] == s[i..];
      assert s[0..] == s;
      if UrlHandler.Like(s[1..], q) {
        var i :| 0 <= i <= |s[1..]| && UrlHandler.Like(s[1..][i..], p);
        assert s[1..][i..] == s[i + 1..];
      }
      if exists i :: 0 <= i <= |s| && UrlHandler.Like(s[i..], p) {
        var i :| 0 <= i <= |s| && UrlHandler.Like(s[i..], p);
        if i > 0 {
          assert s[1..][i - 1..] == s[i..];
        }
      }
    }
  }

  /** Without wildcards in `u`, `LIKE '%u%'` is substring containment. */
  lemma LikeContains(s: string, u: string)
    requires forall k :: 0 <= k < |u| ==> !UrlHandler.IsLikeWildcard(u[k])
    ensures UrlHandler.Like(s, "%" + (u + "%")) <==> Contains(s, u)
  {
    LikeAnyPrefix(s, u + "%");
    ContainsIff(s, u);
    forall i | 0 <= i <= |s| ensures UrlHandler.Like(s[i..], u + "%") <==> OccursAt(s, u, i) {
      UrlHandler.LikePlainPrefix(s[i..], u);
      if i + |u| <= |s| {
        assert s[i..][..|u|] == s[i..i + |u|];
      }
    }
    if Contains(s, u) {
      var k: nat :| OccursAt(s, u, k);
      assert UrlHandler.Like(s[k..], u + "%");
    }
  }

  // ---------------------------------------------------------------------
  // First pass: versioned URLs for the duplicate groups
  // ---------------------------------------------------------------------

  /** A row of the grouping query: the shared normalized URL and the ids
      `ARRAY_AGG` collected, in the order the database chose. */
  datatype Group = Group(key: string, ids: seq<int>)

  predicate NoRepeatedIds(ids: seq<int>) {
    forall k, l :: 0 <= k < l < |ids| ==> ids[k] != ids[l]
  }

  predicate HasRowWith(rows: seq<DocumentRow>, id: int, key: string) {
    exists i :: 0 <= i < |rows| && rows[i].id == id && SqlNormalized(rows[i]) == key
  }

  predicate GroupedUnder(groups: seq<Group>, id: int, key: string) {
    exists a :: 0 <= a < |groups| && groups[a].key == key && id in groups[a].ids
  }

  /** What `GROUP BY normalized_url HAVING COUNT(*) > 1` returns: one group
      per normalized URL, each listing two or more ids of rows with that
      URL, and every row whose normalized URL another row shares listed.
      The order of the groups and of the ids inside them is left open. */
  predicate IsDuplicateGrouping(rows: seq<DocumentRow>, groups: seq<Group>) {
    (forall a, b :: 0 <= a < b < |groups| ==> groups[a].key != groups[b].key)
    && (forall a :: 0 <= a < |groups| ==> |groups[a].ids| > 1 && NoRepeatedIds(groups[a].ids))
    && (forall a, k :: 0 <= a < |groups| && 0 <= k < |groups[a].ids| ==>
          HasRowWith(rows, groups[a].ids[k], groups[a].key))
    && (forall i, j :: 0 <= i < |rows| && 0 <= j < |rows| && i != j && SqlNormalized(rows[i]) == SqlNormalized(rows[j]) ==>
          GroupedUnder(groups, rows[i].id, SqlNormalized(rows[i])))
  }

  /** `f"{norm_url}_v{idx}"`. */
  function Versioned(key: string, k: nat): (r: string)
    ensures |r| > |key| + 2
  {
    key + UrlHandler.VersionMarker + NatToString(k)
  }

  /** The digits after the last "_v" tell both the key and the index. */
  lemma VersionedInjective(key1: string, k1: nat, key2: string, k2: nat)
    requires Versioned(key1, k1) == Versioned(key2, k2)
    ensures key1 == key2 && k1 == k2
  {
    var s := Versioned(key1, k1);
    var d1 := NatToString(k1);
    var d2 := NatToString(k2);
    assert s == key1 + "_v" + d1 && s == key2 + "_v" + d2;
    assert s[|s| - |d1| - 1] == 'v' && s[|s| - |d2| - 1] == 'v';
    assert forall j :: |s| - |d1| <= j < |s| ==> s[j] == d1[j - (|s| - |d1|)];
    assert forall j :: |s| - |d2| <= j < |s| ==> s[j] == d2[j - (|s| - |d2|)];
    assert forall j :: |s| - |d1| <= j < |s| ==> IsDigit(s[j]);
    assert forall j :: |s| - |d2| <= j < |s| ==> IsDigit(s[j]);
    assert |d1| == |d2|;
    assert d1 == s[|s| - |d1|..] == d2;
    NatToStringInjective(k1, k2);
    assert key1 == s[..|s| - |d1| - 2] == key2;
  }

  lemma VersionedDistinct(key1: string, k1: nat, key2: string, k2: nat)
    requires key1 != key2 || k1 != k2
    ensures Versioned(key1, k1) != Versioned(key2, k2)
  {
    if Versioned(key1, k1) == Versioned(key2, k2) {
      VersionedInjective(key1, k1, key2, k2);
    }
  }

  /** The first position of `id` in `ids`. */
  function IndexOf(ids: seq<int>, id: int): (r: Option<nat>)
    ensures r.Some? ==> r.value < |ids| && ids[r.value] == id
    ensures r.Some? ==> forall k :: 0 <= k < r.value ==> ids[k] != id
    ensures r.None? <==> id !in ids
  {
    if ids == [] then None
    else if ids[0] == id then Some(0)
    else match IndexOf(ids[1..], id)
      case None => None
      case Some(k) => Some(k + 1)
  }

  /** The URL the first pass gives the row with this id: the versioned
      group URL when the id is listed after the first place of a group. */
  function RenameOf(groups: seq<Group>, id: int): (r: Option<string>)
    ensures r.Some? ==>
      (exists a, k :: 0 <= a < |groups| && 1 <= k < |groups[a].ids|
                      && groups[a].ids[k] == id && r.value == Versioned(groups[a].key, k))
    ensures r.None? ==> forall a, k :: 0 <= a < |groups| && NoRepeatedIds(groups[a].ids) && 1 <= k < |groups[a].ids| ==>
      groups[a].ids[k] != id
    decreases |groups|, 1
  {
    if groups == [] then None
    else match IndexOf(groups[0].ids, id)
      case Some(k) =>
        if k >= 1 then Some(Versioned(groups[0].key, k))
        else RenameTail(groups, id)
      case None => RenameTail(groups, id)
  }

  function RenameTail(groups: seq<Group>, id: int): (r: Option<string>)
    requires groups != [] && (id in groups[0].ids ==> groups[0].ids[0] == id)
    ensures r.Some? ==>
      (exists a, k :: 0 <= a < |groups| && 1 <= k < |groups[a].ids|
                      && groups[a].ids[k] == id && r.value == Versioned(groups[a].key, k))
    ensures r.None? ==> forall a, k :: 0 <= a < |groups| && NoRepeatedIds(groups[a].ids) && 1 <= k < |groups[a].ids| ==>
      groups[a].ids[k] != id
    decreases |groups|, 0
  {
    var r := RenameOf(groups[1..], id);
    if r.Some? then
      var a, k :| 0 <= a < |groups[1..]| && 1 <= k < |groups[1..][a].ids|
        && groups[1..][a].ids[k] == id && r.value == Versioned(groups[1..][a].key, k);
      assert groups[a + 1] == groups[1..][a];
      r
    else
      assert forall a :: 1 <= a < |groups| ==> groups[a] == groups[1..][a - 1];
      r
  }

  /** The table after the first pass. */
  function PassOne(rows: seq<DocumentRow>, groups: seq<Group>): (r: seq<DocumentRow>)
    ensures |r| == |rows|
    ensures forall i :: 0 <= i < |rows| ==>
      (r[i].id == rows[i].id && r[i].fileName == rows[i].fileName && r[i].contentType == rows[i].contentType)
    ensures forall i :: 0 <= i < |rows| && RenameOf(groups, rows[i].id).None? ==> r[i] == rows[i]
  {
    seq(|rows|, i requires 0 <= i < |rows| =>
      match RenameOf(groups, rows[i].id)
      case None => rows[i]
      case Some(u) => rows[i].(url := u))
  }

  /** Two rows the first pass renames end up with different URLs. */
  lemma PassOneRenamesDistinct(rows: seq<DocumentRow>, groups: seq<Group>, i: int, j: int)
    requires UniqueIds(rows) && IsDuplicateGrouping(rows, groups)
    requires 0 <= i < |rows| && 0 <= j < |rows| && i != j
    requires RenameOf(groups, rows[i].id).Some? && RenameOf(groups, rows[j].id).Some?
    ensures PassOne(rows, groups)[i].url != PassOne(rows, groups)[j].url
  {
    var ri := RenameOf(groups, rows[i].id).value;
    var rj := RenameOf(groups, rows[j].id).value;
    var a, k :| 0 <= a < |groups| && 1 <= k < |groups[a].ids| && groups[a].ids[k] == rows[i].id && ri == Versioned(groups[a].key, k);
    var b, l :| 0 <= b < |groups| && 1 <= l < |groups[b].ids| && groups[b].ids[l] == rows[j].id && rj == Versioned(groups[b].key, l);
    assert PassOne(rows, groups)[i].url == ri && PassOne(rows, groups)[j].url == rj;
    assert rows[i].id != rows[j].id by {
      if i < j { assert rows[i].id != rows[j].id; } else { assert rows[j].id != rows[i].id; }
    }
    assert groups[a].key != groups[b].key || k != l by {
      if a < b { assert groups[a].key != groups[b].key; }
      else if b < a { assert groups[b].key != groups[a].key; }
      else { assert groups[a].ids[k] != groups[a].ids[l]; }
    }
    VersionedDistinct(groups[a].key, k, groups[b].key, l);
  }

  /** The first id of every group keeps its URL. */
  lemma PassOneKeepsPrimary(rows: seq<DocumentRow>, groups: seq<Group>, a: int, i: int)
    requires UniqueIds(rows) && IsDuplicateGrouping(rows, groups)
    requires 0 <= a < |groups| && 0 <= i < |rows| && rows[i].id == groups[a].ids[0]
    ensures PassOne(rows, groups)[i] == rows[i]
  {
    forall b, k | 0 <= b < |groups| && 1 <= k < |groups[b].ids| ensures groups[b].ids[k] != rows[i].id {
      IdsDistinct(rows, groups, a, 0, b, k);
    }
  }

  /** Different places in the groups hold different ids: within a group by
      the aggregate, across groups because one row has one normalized URL. */
  lemma IdsDistinct(rows: seq<DocumentRow>, groups: seq<Group>, a: int, k: int, b: int, l: int)
    requires UniqueIds(rows) && IsDuplicateGrouping(rows, groups)
    requires 0 <= a < |groups| && 0 <= k < |groups[a].ids| && 0 <= b < |groups| && 0 <= l < |groups[b].ids|
    requires a != b || k != l
    ensures groups[a].ids[k] != groups[b].ids[l]
  {
    if a == b {
      if k < l { assert NoRepeatedIds(groups[a].ids); }
      else { assert groups[a].ids[l] != groups[a].ids[k]; }
    } else {
      assert HasRowWith(rows, groups[a].ids[k], groups[a].key);
      assert HasRowWith(rows, groups[b].ids[l], groups[b].key);
      var i :| 0 <= i < |rows| && rows[i].id == groups[a].ids[k] && SqlNormalized(rows[i]) == groups[a].key;
      var j :| 0 <= j < |rows| && rows[j].id == groups[b].ids[l] && SqlNormalized(rows[j]) == groups[b].key;
      assert groups[a].key != groups[b].key by {
        if a < b { assert groups[a].key != groups[b].key; }
        else { assert groups[b].key != groups[a].key; }
      }
      if i < j { assert rows[i].id != rows[j].id; }
      else if j < i { assert rows[j].id != rows[i].id; }
    }
  }

  /** The members after the first of a group are renamed with their place
      in the group. */
  lemma PassOneVersionsMembers(rows: seq<DocumentRow>, groups: seq<Group>, a: int, k: int, i: int)
    requires UniqueIds(rows) && IsDuplicateGrouping(rows, groups)
    requires 0 <= a < |groups| && 1 <= k < |groups[a].ids| && 0 <= i < |rows| && rows[i].id == groups[a].ids[k]
    ensures PassOne(rows, groups)[i] == rows[i].(url := Versioned(groups[a].key, k))
  {
    var id := rows[i].id;
    var r := RenameOf(groups, id);
    assert r.Some?;
    forall b, l | 0 <= b < |groups| && 0 <= l < |groups[b].ids| && (a != b || k != l)
      ensures groups[b].ids[l] != id
    {
      IdsDistinct(rows, groups, a, k, b, l);
    }
  }

  // ---------------------------------------------------------------------
  // Second pass: `normalize_url` over the rows whose URL is not shared
  // ---------------------------------------------------------------------

  /** `EXISTS (... WHERE d2.url = d1.url AND d2.id != d1.id)`. */
  predicate SharedUrl(t: seq<DocumentRow>, i: int)
    requires 0 <= i < |t|
  {
    exists j :: 0 <= j < |t| && t[j].url == t[i].url && t[j].id != t[i].id
  }

  /** What `normalize_url` makes of each row's URL. */
  function Normalized(t: seq<DocumentRow>): (r: seq<Result<string>>)
    ensures |r| == |t|
    ensures forall k :: 0 <= k < |t| ==> r[k] == NormalizeUrl(t[k].url, t[k].fileName)
  {
    seq(|t|, k requires 0 <= k < |t| => NormalizeUrl(t[k].url, t[k].fileName))
  }

  /** What the second pass wants in each row: the normalized URL of a row
      the selection found unshared; a row left out keeps its URL. */
  function Wanted(t: seq<DocumentRow>, targets: seq<Result<string>>): (r: seq<Result<string>>)
    requires |targets| == |t|
    ensures |r| == |t|
    ensures forall k :: 0 <= k < |t| ==> r[k] == (if SharedUrl(t, k) then Ok(t[k].url) else targets[k])
  {
    seq(|t|, k requires 0 <= k < |t| => if SharedUrl(t, k) then Ok(t[k].url) else targets[k])
  }

  /** The second pass as written, from row `i` on. `t` is the snapshot the
      selection ran on, `targets` what `normalize_url` returns for each of
      its rows, and `cur` the table as the pass has left it so far. A
      selected row whose normalized URL differs is updated; the first
      failure of `normalize_url` or the first UPDATE the URL constraint
      refuses ends the run, which the caller rolls back. */
  function PassTwo(t: seq<DocumentRow>, targets: seq<Result<string>>, cur: seq<DocumentRow>, i: nat)
    : (r: Result<seq<DocumentRow>>)
    requires i <= |t| && |targets| == |t| && cur == Reached(t, Wanted(t, targets), i)
    ensures r.Err? <==> exists k :: i <= k < |t| && (Wanted(t, targets)[k].Err? || Refused(t, Wanted(t, targets), k))
    ensures r.Err? && (forall k :: i <= k < |t| && !SharedUrl(t, k) ==> targets[k].Ok?) ==>
      r.msg == UniqueViolation
    ensures r.Ok? ==> |r.value| == |t| && forall k :: 0 <= k < i ==> r.value[k] == cur[k]
    ensures r.Ok? ==> forall k :: i <= k < |t| ==>
      r.value[k] == (if SharedUrl(t, k) then t[k] else t[k].(url := targets[k].value))
    ensures r.Ok? && UniqueUrls(cur) ==> UniqueUrls(r.value)
    decreases |t| - i
  {
    if i == |t| then Ok(cur)
    else
      var w := Wanted(t, targets);
      match w[i]
      case Err(e) => Err(e)
      case Ok(u) =>
        ReachedNext(t, w, i);
        if u == t[i].url then
          assert cur[i := t[i].(url := u)] == cur;
          PassTwo(t, targets, cur, i + 1)
        else
          match UpdateUrl(cur, i, u)
          case Err(e) => Err(e)
          case Ok(next) =>
            UpdateKeepsUnique(cur, i, u);
            PassTwo(t, targets, next, i + 1)
  }

  /** On a table that meets the URL constraint no URL is shared, so the
      selection of the second pass takes every row. */
  lemma UniqueUrlsNoneShared(t: seq<DocumentRow>, k: int)
    requires UniqueUrls(t) && 0 <= k < |t|
    ensures !SharedUrl(t, k)
  {
    forall j | 0 <= j < |t| && j != k ensures t[j].url != t[k].url {
      if j < k { assert t[j].url != t[k].url; } else { assert t[k].url != t[j].url; }
    }
  }

  /** `cleanup_urls()` as written: the table it commits, or the error that
      rolled it back. */
  function Cleanup(rows: seq<DocumentRow>, groups: seq<Group>): (r: Result<seq<DocumentRow>>)
    ensures r.Ok? ==> |r.value| == |rows|
    ensures r.Ok? ==> forall i :: 0 <= i < |rows| ==> r.value[i].id == rows[i].id
  {
    var t := PassOne(rows, groups);
    ReachedNone(t, Wanted(t, Normalized(t)));
    PassTwo(t, Normalized(t), t, 0)
  }

  /** Two service URLs of one document with different queries: neither
      holds `?v=`, so the grouping query keeps them apart; the second pass
      normalizes the first to the bare service URL, the UPDATE of the
      second to the same URL violates `unique_document_url`, and the whole
      run is rolled back. */
  lemma CleanupMergesServiceQueries(name: string, q1: string, q2: string)
    requires UrlHandler.IsSegmentText(name) && q1 != q2
    requires ServiceQuery(q1) && ServiceQuery(q2)
    ensures var rows := [DocumentRow(1, ServicesRoot + name + "?" + q1, "", "web"),
                         DocumentRow(2, ServicesRoot + name + "?" + q2, "", "web")];
      IsDuplicateGrouping(rows, []) && UniqueUrls(rows)
      && Cleanup(rows, []) == Err(UniqueViolation)
  {
    var rows := [DocumentRow(1, ServicesRoot + name + "?" + q1, "", "web"),
                 DocumentRow(2, ServicesRoot + name + "?" + q2, "", "web")];
    ServiceRowsUngrouped(name, q1, q2, rows);
    ServiceRowsNormalized(name, q1, q2, rows);
    ServiceUrlsLonger(name, q1, q2, rows);
    CleanupOfTwo(rows, ServicesRoot + name);
  }

  /** Dropping the query makes a service URL shorter. */
  lemma ServiceUrlsLonger(name: string, q1: string, q2: string, rows: seq<DocumentRow>)
    requires rows == [DocumentRow(1, ServicesRoot + name + "?" + q1, "", "web"),
                      DocumentRow(2, ServicesRoot + name + "?" + q2, "", "web")]
    ensures rows[0].url != ServicesRoot + name && rows[1].url != ServicesRoot + name
  {
    assert |rows[0].url| > |ServicesRoot + name| && |rows[1].url| > |ServicesRoot + name|;
  }

  /** Two rows with distinct URLs, no duplicate groups, whose URLs both
      normalize to a third URL `n`: the second UPDATE is refused. */
  lemma CleanupOfTwo(rows: seq<DocumentRow>, n: string)
    requires |rows| == 2 && rows[0].url != rows[1].url
    requires rows[0].url != n && rows[1].url != n
    requires Normalized(rows) == [Ok(n), Ok(n)]
    ensures UniqueUrls(rows)
    ensures Cleanup(rows, []) == Err(UniqueViolation)
  {
    PassOneWithoutGroups(rows);
    ReachedNone(rows, Wanted(rows, Normalized(rows)));
    PassTwoOfTwo(rows, Normalized(rows), n);
  }

  /** Without duplicate groups the first pass renames nothing. */
  lemma PassOneWithoutGroups(rows: seq<DocumentRow>)
    ensures PassOne(rows, []) == rows
  {
  }

  lemma ServiceRowsUngrouped(name: string, q1: string, q2: string, rows: seq<DocumentRow>)
    requires UrlHandler.IsSegmentText(name) && q1 != q2
    requires ServiceQuery(q1) && ServiceQuery(q2)
    requires rows == [DocumentRow(1, ServicesRoot + name + "?" + q1, "", "web"),
                      DocumentRow(2, ServicesRoot + name + "?" + q2, "", "web")]
    ensures rows[0].url != rows[1].url
    ensures IsDuplicateGrouping(rows, [])
  {
    var u1 := rows[0].url;
    var u2 := rows[1].url;
    assert u1 != u2 by {
      assert u1[|ServicesRoot + name| + 1..] == q1;
      assert u2[|ServicesRoot + name| + 1..] == q2;
    }
    ServiceQueryHasNoVersion(name, q1);
    ServiceQueryHasNoVersion(name, q2);
    NotFileUrl(name, q1);
    NotFileUrl(name, q2);
    assert SqlNormalized(rows[0]) == u1 && SqlNormalized(rows[1]) == u2;
  }

  lemma ServiceRowsNormalized(name: string, q1: string, q2: string, rows: seq<DocumentRow>)
    requires UrlHandler.IsSegmentText(name)
    requires ServiceQuery(q1) && ServiceQuery(q2)
    requires rows == [DocumentRow(1, ServicesRoot + name + "?" + q1, "", "web"),
                      DocumentRow(2, ServicesRoot + name + "?" + q2, "", "web")]
    ensures Normalized(rows) == [Ok(ServicesRoot + name), Ok(ServicesRoot + name)]
  {
    NormalizeDropsServiceQuery(name, q1);
    NormalizeDropsServiceQuery(name, q2);
  }

  /** The second pass over two unshared rows that both want `n`: the first
      takes it, and the second is refused. */
  lemma PassTwoOfTwo(t: seq<DocumentRow>, targets: seq<Result<string>>, n: string)
    requires |t| == 2 && t[0].url != t[1].url && t[0].url != n && t[1].url != n
    requires targets == [Ok(n), Ok(n)]
    ensures UniqueUrls(t)
    ensures PassTwo(t, targets, Reached(t, Wanted(t, targets), 0), 0) == Err(UniqueViolation)
  {
    assert !SharedUrl(t, 0) && !SharedUrl(t, 1);
    var w := Wanted(t, targets);
    assert w == targets;
    var mid := Reached(t, w, 1);
    assert mid[0].url == n;
    assert Refused(t, w, 1);
    assert !Refused(t, w, 0);
  }

  /** A query `normalize_url` drops whole and the grouping query does not
      see as a version: no '#', ';' or '?', and not starting with 'v'. */
  predicate ServiceQuery(q: string) {
    AllKept(q) && (forall k :: 0 <= k < |q| ==> q[k] != '#' && q[k] != ';' && q[k] != '?')
    && (q == [] || q[0] != 'v')
  }

  lemma ServiceQueryHasNoVersion(name: string, q: string)
    requires UrlHandler.IsSegmentText(name) && ServiceQuery(q)
    ensures !Contains(ServicesRoot + name + "?" + q, "?v=")
  {
    var u := ServicesRoot + name + "?" + q;
    var h := |ServicesRoot + name|;
    assert forall k :: 0 <= k < h ==> u[k] != '?' by {
      forall k | 0 <= k < h ensures u[k] != '?' {
        if k >= |ServicesRoot| {
          assert u[k] == name[k - |ServicesRoot|];
        }
      }
    }
    assert forall k :: h < k < |u| ==> u[k] == q[k - h - 1];
    forall k: nat ensures !OccursAt(u, "?v=", k) {
      if k + 3 <= |u| {
        assert u[k..k + 3][0] == u[k] && u[k..k + 3][1] == u[k + 1];
        if k == h {
          assert u[k + 1] == q[0];
        }
      }
    }
    ContainsIff(u, "?v=");
  }

  lemma NotFileUrl(name: string, q: string)
    ensures !StartsWith(ServicesRoot + name + "?" + q, "file://")
  {
    var u := ServicesRoot + name + "?" + q;
    assert u[0] == 'h';
    FirstCharBlocksPrefix(u, "file://");
  }

  // ---------------------------------------------------------------------
  // Corrected second pass
  // ---------------------------------------------------------------------

  predicate UrlInUse(t: seq<DocumentRow>, u: string) {
    exists j :: 0 <= j < |t| && t[j].url == u
  }

  /** Every row of `t` whose URL no other row shares is also unshared in
      `cur`. */
  predicate KeepsUnshared(t: seq<DocumentRow>, cur: seq<DocumentRow>) {
    |cur| == |t| && forall k :: 0 <= k < |t| && !SharedUrl(t, k) ==> !SharedUrl(cur, k)
  }

  /** The second pass with the guard it lacks: a normalized URL that some
      row already carries is not written. `t` is the snapshot the
      selection ran on, `targets` what `normalize_url` returns for each of
      its rows, and `cur` the table as updated so far. The constraint never
      refuses one of its updates, so only `normalize_url` can end the run,
      and every row selected as unshared is still unshared at the end. */
  function GuardedPassTwo(t: seq<DocumentRow>, targets: seq<Result<string>>, cur: seq<DocumentRow>, i: nat)
    : (r: Result<seq<DocumentRow>>)
    requires i <= |t| && |targets| == |t| && |cur| == |t| && UniqueIds(t)
    requires forall k :: 0 <= k < |t| ==> cur[k].id == t[k].id
    requires forall k :: i <= k < |t| ==> cur[k] == t[k]
    requires KeepsUnshared(t, cur)
    ensures r.Err? <==> exists k :: i <= k < |t| && !SharedUrl(t, k) && targets[k].Err?
    ensures r.Ok? ==> |r.value| == |t| && forall k :: 0 <= k < |t| ==> r.value[k].id == t[k].id
    ensures r.Ok? ==> KeepsUnshared(t, r.value)
    ensures r.Ok? ==> forall k :: 0 <= k < i ==> r.value[k] == cur[k]
    ensures r.Ok? ==> forall k :: i <= k < |t| ==>
      r.value[k] == t[k] || (!SharedUrl(t, k) && r.value[k] == t[k].(url := targets[k].value))
    ensures r.Ok? && UniqueUrls(cur) ==> UniqueUrls(r.value)
    decreases |t| - i
  {
    if i == |t| then Ok(cur)
    else if SharedUrl(t, i) then GuardedPassTwo(t, targets, cur, i + 1)
    else match targets[i]
      case Err(e) => Err(e)
      case Ok(u) =>
        if u != t[i].url && !UrlInUse(cur, u) then
          FreshUrlAccepted(cur, i, u);
          FreshUrlKeepsUnshared(t, cur, i, u);
          UpdateKeepsUnique(cur, i, u);
          GuardedPassTwo(t, targets, UpdateUrl(cur, i, u).value, i + 1)
        else GuardedPassTwo(t, targets, cur, i + 1)
  }

  /** The constraint accepts an update to a URL no row carries. */
  lemma FreshUrlAccepted(cur: seq<DocumentRow>, i: int, u: string)
    requires 0 <= i < |cur| && !UrlInUse(cur, u)
    ensures UpdateUrl(cur, i, u) == Ok(cur[i := cur[i].(url := u)])
  {
  }

  /** Writing a URL no row carries cannot make any row share its URL. */
  lemma FreshUrlKeepsUnshared(t: seq<DocumentRow>, cur: seq<DocumentRow>, i: nat, u: string)
    requires i < |t| && |cur| == |t| && UniqueIds(t)
    requires forall k :: 0 <= k < |t| ==> cur[k].id == t[k].id
    requires KeepsUnshared(t, cur)
    requires !UrlInUse(cur, u)
    ensures KeepsUnshared(t, cur[i := cur[i].(url := u)])
  {
    var next := cur[i := cur[i].(url := u)];
    forall k | 0 <= k < |t| && !SharedUrl(t, k) ensures !SharedUrl(next, k) {
      assert !SharedUrl(cur, k);
      forall j | 0 <= j < |next| && next[j].id != next[k].id ensures next[j].url != next[k].url {
        if k == i {
          assert cur[j].url != u;
        } else if j == i {
          assert cur[k].url != u;
        } else {
          assert cur[j].id != cur[k].id;
        }
      }
    }
  }

  /** A row the second pass selects whose URL `normalize_url` rejects. */
  predicate NormalizeFails(t: seq<DocumentRow>, k: int)
    requires 0 <= k < |t|
  {
    !SharedUrl(t, k) && NormalizeUrl(t[k].url, t[k].fileName).Err?
  }

  /** `cleanup_urls()` with the guarded second pass. */
  function CleanupGuarded(rows: seq<DocumentRow>, groups: seq<Group>): (r: Result<seq<DocumentRow>>)
    requires UniqueIds(rows)
    ensures r.Err? <==> exists k :: 0 <= k < |rows| && NormalizeFails(PassOne(rows, groups), k)
    ensures r.Ok? ==> |r.value| == |rows|
    ensures r.Ok? && UniqueUrls(PassOne(rows, groups)) ==> UniqueUrls(r.value)
    ensures r.Ok? ==> forall k :: 0 <= k < |rows| && !SharedUrl(PassOne(rows, groups), k) ==> !SharedUrl(r.value, k)
  {
    var t := PassOne(rows, groups);
    assert UniqueIds(t);
    SelectedFailures(t);
    GuardedPassTwo(t, Normalized(t), t, 0)
  }

  lemma SelectedFailures(t: seq<DocumentRow>)
    ensures (exists k :: 0 <= k < |t| && !SharedUrl(t, k) && Normalized(t)[k].Err?)
        <==> (exists k :: 0 <= k < |t| && NormalizeFails(t, k))
  {
    var n := Normalized(t);
    if exists k :: 0 <= k < |t| && NormalizeFails(t, k) {
      var k :| 0 <= k < |t| && NormalizeFails(t, k);
      assert n[k] == NormalizeUrl(t[k].url, t[k].fileName);
      assert !SharedUrl(t, k) && n[k].Err?;
    }
    if exists k :: 0 <= k < |t| && !SharedUrl(t, k) && n[k].Err? {
      var k :| 0 <= k < |t| && !SharedUrl(t, k) && n[k].Err?;
      assert n[k] == NormalizeUrl(t[k].url, t[k].fileName);
      assert NormalizeFails(t, k);
    }
  }

  /** On the two service rows of `CleanupMergesServiceQueries` the guarded
      clean-up succeeds: the first row gets the bare service URL, the
      second keeps its own, and no URL is shared. */
  lemma GuardedKeepsServiceRowsApart(name: string, q1: string, q2: string)
    requires UrlHandler.IsSegmentText(name) && q1 != q2
    requires ServiceQuery(q1) && ServiceQuery(q2)
    ensures var rows := [DocumentRow(1, ServicesRoot + name + "?" + q1, "", "web"),
                         DocumentRow(2, ServicesRoot + name + "?" + q2, "", "web")];
      CleanupGuarded(rows, []) == Ok([rows[0].(url := ServicesRoot + name), rows[1]])
      && UniqueUrls(CleanupGuarded(rows, []).value)
  {
    var rows := [DocumentRow(1, ServicesRoot + name + "?" + q1, "", "web"),
                 DocumentRow(2, ServicesRoot + name + "?" + q2, "", "web")];
    ServiceRowsUngrouped(name, q1, q2, rows);
    ServiceRowsNormalized(name, q1, q2, rows);
    ServiceUrlsLonger(name, q1, q2, rows);
    PassOneWithoutGroups(rows);
    GuardedOfTwo(rows, Normalized(rows), ServicesRoot + name);
  }

  /** The guarded pass over two unshared rows that both want `n`: the first
      takes it and the second, finding it taken, is left alone. */
  lemma GuardedOfTwo(t: seq<DocumentRow>, targets: seq<Result<string>>, n: string)
    requires |t| == 2 && t[0].id != t[1].id && t[0].url != t[1].url && t[0].url != n && t[1].url != n
    requires targets == [Ok(n), Ok(n)]
    ensures GuardedPassTwo(t, targets, t, 0) == Ok([t[0].(url := n), t[1]])
    ensures UniqueUrls([t[0].(url := n), t[1]])
  {
    assert !SharedUrl(t, 0) && !SharedUrl(t, 1);
    assert !UrlInUse(t, n);
    var mid := t[0 := t[0].(url := n)];
    assert UrlInUse(mid, n) by { assert mid[0].url == n; }
    assert mid == [t[0].(url := n), t[1]];
    assert KeepsUnshared(t, mid) by {
      assert !SharedUrl(mid, 0) && !SharedUrl(mid, 1);
    }
    FreshUrlAccepted(t, 0, n);
    assert GuardedPassTwo(t, targets, mid, 2) == Ok(mid);
    assert GuardedPassTwo(t, targets, mid, 1) == Ok(mid);
  }
}

=== FILE: url_encoding.dfy ===
/** The parts of Python's `urllib.parse` the URL handlers rely on.

    `Quote` is `quote(s)` with its default `safe='/'`: the text is encoded
    as UTF-8 and every byte outside the unreserved set of section 2.3 of
    RFC 3986 (letters, digits, `-`, `.`, `_`, `~`) and `/` becomes `%XX`
    with upper-case hex digits, as section 2.1 of RFC 3986 describes.
    `Unquote` (strict UTF-8) is its inverse. `ParsedPath` is the `path`
    component of `urlparse(url)`. `urljoin` is modelled separately, as
    `Joins.UrlJoin` in urljoin.dfy. */
module Urls {
  import opened Wrappers
  import opened Text
  import Seqs

  type Byte = b: int | 0 <= b < 256

  // ---------------------------------------------------------------------
  // UTF-8
  // ---------------------------------------------------------------------

  /** A UTF-8 continuation byte `10xxxxxx`. */
  predicate IsContinuation(b: Byte) { 0x80 <= b < 0xC0 }

  /** The UTF-8 encoding of one scalar value. */
  function Utf8(c: char): (bs: seq<Byte>)
    ensures 1 <= |bs| <= 4
    ensures |bs| == 1 <==> c as int < 0x80
    ensures |bs| == 1 ==> bs[0] == c as int
    ensures |bs| > 1 ==> forall k :: 0 <= k < |bs| ==> bs[k] >= 0x80
  {
    var n := c as int;
    if n < 0x80 then [n]
    else if n < 0x800 then [0xC0 + n / 64, 0x80 + n % 64]
    else if n < 0x1_0000 then
      var m := n % 4096;
      [0xE0 + n / 4096, 0x80 + m / 64, 0x80 + m % 64]
    else
      var m := n % 262144;
      var m' := m % 4096;
      [0xF0 + n / 262144, 0x80 + m / 4096, 0x80 + m' / 64, 0x80 + m' % 64]
  }

  function Utf8Encode(s: string): (bs: seq<Byte>)
    ensures |bs| >= |s|
  {
    if s == [] then [] else Utf8(s[0]) + Utf8Encode(s[1..])
  }

  /** The scalar value a code point denotes, if it is one. */
  function ToChar(n: int): (r: Option<char>)
    ensures r.Some? ==> r.value as int == n
  {
    if 0 <= n < 0xD800 || 0xE000 <= n < 0x11_0000 then Some(n as char) else None
  }

  /** Strict decoding of the first character: the character and how many
      bytes it used. Overlong forms, surrogates and values past U+10FFFF
      are rejected. */
  function DecodeFirst(bs: seq<Byte>): (r: Option<(char, nat)>)
    requires bs != []
    ensures r.Some? ==> 1 <= r.value.1 <= |bs|
  {
    var b0 := bs[0] as int;
    if b0 < 0x80 then Some((b0 as char, 1))
    else if 0xC2 <= b0 < 0xE0 && |bs| >= 2 && IsContinuation(bs[1]) then
      Some((((b0 - 0xC0) * 64 + (bs[1] as int - 0x80)) as char, 2))
    else if 0xE0 <= b0 < 0xF0 && |bs| >= 3 && IsContinuation(bs[1]) && IsContinuation(bs[2]) then
      var n := (b0 - 0xE0) * 4096 + (bs[1] as int - 0x80) * 64 + (bs[2] as int - 0x80);
      if n < 0x800 then None
      else match ToChar(n)
        case None => None
        case Some(c) => Some((c, 3))
    else if 0xF0 <= b0 < 0xF5 && |bs| >= 4 && IsContinuation(bs[1]) && IsContinuation(bs[2])
      && IsContinuation(bs[3]) then
      var n := (b0 - 0xF0) * 262144 + (bs[1] as int - 0x80) * 4096 + (bs[2] as int - 0x80) * 64 + (bs[3] as int - 0x80);
      if n < 0x1_0000 then None
      else match ToChar(n)
        case None => None
        case Some(c) => Some((c, 4))
    else None
  }

  /** `bs.decode('utf-8')`, with `None` where Python would raise. */
  function Utf8Decode(bs: seq<Byte>): (r: Option<string>)
    decreases |bs|
  {
    if bs == [] then Some([])
    else match DecodeFirst(bs)
      case None => None
      case Some((c, n)) =>
        match Utf8Decode(bs[n..])
        case None => None
        case Some(rest) => Some([c] + rest)
  }

  /** Decoding reads back exactly the character that was encoded. */
  lemma DecodeFirstOfUtf8(c: char, rest: seq<Byte>)
    ensures DecodeFirst(Utf8(c) + rest) == Some((c, |Utf8(c)|))
  {
    var n := c as int;
    if n < 0x80 {
    } else if n < 0x800 {
      DecodeTwo(c, Utf8(c) + rest);
    } else if n < 0x1_0000 {
      DecodeThree(c, Utf8(c) + rest);
    } else {
      DecodeFour(c, Utf8(c) + rest);
    }
  }

  lemma DecodeTwo(c: char, bs: seq<Byte>)
    requires 0x80 <= c as int < 0x800
    requires |bs| >= 2 && bs[..2] == Utf8(c)
    ensures DecodeFirst(bs) == Some((c, 2))
  {
    var n := c as int;
    assert bs[0] == bs[..2][0] && bs[1] == bs[..2][1];
    assert (bs[0] as int - 0xC0) * 64 + (bs[1] as int - 0x80) == n;
  }

  lemma DecodeThree(c: char, bs: seq<Byte>)
    requires 0x800 <= c as int < 0x1_0000
    requires |bs| >= 3 && bs[..3] == Utf8(c)
    ensures DecodeFirst(bs) == Some((c, 3))
  {
    var n := c as int;
    var m := n % 4096;
    assert bs[0] == bs[..3][0] == 0xE0 + n / 4096;
    assert bs[1] == bs[..3][1] == 0x80 + m / 64;
    assert bs[2] == bs[..3][2] == 0x80 + m % 64;
    assert (bs[0] as int - 0xE0) * 4096 + (bs[1] as int - 0x80) * 64 + (bs[2] as int - 0x80) == n;
  }

  lemma DecodeFour(c: char, bs: seq<Byte>)
    requires 0x1_0000 <= c as int
    requires |bs| >= 4 && bs[..4] == Utf8(c)
    ensures DecodeFirst(bs) == Some((c, 4))
  {
    var n := c as int;
    var m := n % 262144;
    var m' := m % 4096;
    assert bs[0] == bs[..4][0] == 0xF0 + n / 262144;
    assert bs[1] == bs[..4][1] == 0x80 + m / 4096;
    assert bs[2] == bs[..4][2] == 0x80 + m' / 64;
    assert bs[3] == bs[..4][3] == 0x80 + m' % 64;
    assert (bs[0] as int - 0xF0) * 262144 + (bs[1] as int - 0x80) * 4096
      + (bs[2] as int - 0x80) * 64 + (bs[3] as int - 0x80) == n;
  }

  /** UTF-8 round trip: decoding an encoding gives the text back. */
  lemma {:induction false} Utf8RoundTrip(s: string)
    ensures Utf8Decode(Utf8Encode(s)) == Some(s)
    decreases |s|
  {
    if s != [] {
      var bs := Utf8Encode(s);
      DecodeFirstOfUtf8(s[0], Utf8Encode(s[1..]));
      assert bs[|Utf8(s[0])|..] == Utf8Encode(s[1..]);
      Utf8RoundTrip(s[1..]);
      assert [s[0]] + s[1..] == s;
    }
  }

  // ---------------------------------------------------------------------
  // Percent-encoding
  // ---------------------------------------------------------------------

  /** The unreserved characters of section 2.3 of RFC 3986, which `quote`
      never encodes. */
  predicate IsUnreserved(c: char) {
    IsLetter(c) || IsDigit(c) || c == '-' || c == '.' || c == '_' || c == '~'
  }

  /** What `quote(s)` leaves alone: the unreserved characters and `/`. */
  predicate IsQuoteSafe(c: char) { IsUnreserved(c) || c == '/' }

  const HexDigits: string := "0123456789ABCDEF"

  /** What an escape is written with: `%` and upper-case hex digits. */
  predicate IsEscapeChar(c: char) { c == '%' || IsDigit(c) || 'A' <= c <= 'F' }

  function Hex(d: nat): (c: char)
    requires d < 16
    ensures IsUnreserved(c) && IsEscapeChar(c)
  {
    HexDigits[d]
  }

  /** The value of a hex digit in either case, as `unquote` accepts it. */
  function HexValue(c: char): (r: Option<nat>)
    ensures r.Some? ==> r.value < 16
  {
    if '0' <= c <= '9' then Some(c as int - '0' as int)
    else if 'A' <= c <= 'F' then Some(c as int - 'A' as int + 10)
    else if 'a' <= c <= 'f' then Some(c as int - 'a' as int + 10)
    else None
  }

  lemma HexValueOfHex(d: nat)
    requires d < 16
    ensures HexValue(Hex(d)) == Some(d)
  {
  }

  /** `%XX` for one byte. */
  function Escape(b: Byte): (r: string)
    ensures |r| == 3 && r[0] == '%'
  {
    ['%', Hex(b / 16), Hex(b % 16)]
  }

  function EscapeAll(bs: seq<Byte>): (r: string)
    ensures |r| == 3 * |bs|
    ensures forall i :: 0 <= i < |r| ==> IsEscapeChar(r[i])
  {
    if bs == [] then [] else Escape(bs[0]) + EscapeAll(bs[1..])
  }

  function QuoteChar(c: char): (r: string)
    ensures IsQuoteSafe(c) ==> r == [c]
    ensures !IsQuoteSafe(c) ==> |r| >= 3 && r[0] == '%'
    ensures !IsQuoteSafe(c) ==> forall i :: 0 <= i < |r| ==> IsEscapeChar(r[i])
    ensures forall i :: 0 <= i < |r| ==> IsQuoteSafe(r[i]) || r[i] == '%'
  {
    if IsQuoteSafe(c) then [c] else EscapeAll(Utf8(c))
  }

  /** `urllib.parse.quote(s)` with `safe='/'`. */
  function Quote(s: string): (r: string)
    ensures |r| >= |s|
    ensures forall i :: 0 <= i < |r| ==> IsQuoteSafe(r[i]) || r[i] == '%'
    ensures r == s <==> forall i :: 0 <= i < |s| ==> IsQuoteSafe(s[i])
    ensures r != [] <==> s != []
    ensures s != [] ==> r[0] == (if IsQuoteSafe(s[0]) then s[0] else '%')
  {
    if s == [] then []
    else
      var r := QuoteChar(s[0]) + Quote(s[1..]);
      assert IsQuoteSafe(s[0]) ==> r == [s[0]] + Quote(s[1..]);
      assert s == [s[0]] + s[1..];
      r
  }

  lemma {:induction false} QuoteAppend(a: string, b: string)
    ensures Quote(a + b) == Quote(a) + Quote(b)
    decreases |a|
  {
    if a == [] {
      assert a + b == b;
    } else {
      var s := a + b;
      assert s[0] == a[0] && s[1..] == a[1..] + b;
      QuoteAppend(a[1..], b);
      assert Quote(s) == QuoteChar(a[0]) + Quote(a[1..] + b);
    }
  }

  /** A character that escapes are not written with is in the quoted
      text only if it was in the original. */
  lemma {:induction false} QuoteKeepsAbsent(s: string, c: char)
    requires !IsEscapeChar(c)
    requires forall j :: 0 <= j < |s| ==> s[j] != c
    ensures forall j :: 0 <= j < |Quote(s)| ==> Quote(s)[j] != c
    decreases |s|
  {
    if s != [] {
      QuoteKeepsAbsent(s[1..], c);
      var q := QuoteChar(s[0]);
      var rest := Quote(s[1..]);
      assert Quote(s) == q + rest;
      forall j | 0 <= j < |Quote(s)| ensures Quote(s)[j] != c {
        if j < |q| {
          assert Quote(s)[j] == q[j];
        } else {
          assert Quote(s)[j] == rest[j - |q|];
        }
      }
    }
  }

  /** Quoting cannot create a two-character pattern that escapes are not
      written with, such as "_v". */
  lemma {:induction false} QuoteKeepsNoPair(s: string, a: char, b: char)
    requires !IsEscapeChar(a) && !IsEscapeChar(b)
    requires NoPair(s, a, b)
    ensures NoPair(Quote(s), a, b)
    decreases |s|
  {
    if s != [] {
      NoPairSlice(s, 1, |s|, a, b);
      QuoteKeepsNoPair(s[1..], a, b);
      var q := QuoteChar(s[0]);
      var rest := Quote(s[1..]);
      assert NoPair(q, a, b);
      if q[|q| - 1] == a && rest != [] {
        assert q == [s[0]] && s[0] == a;
        assert s[1] != b;
      }
      NoPairAppend(q, rest, a, b);
    }
  }

  /** Percent-decoding to bytes, as `unquote_to_bytes` does: `%XX` with two
      hex digits (either case) is one byte; anything else stands for its
      own UTF-8 encoding. */
  function PercentDecode(t: string): (bs: seq<Byte>)
    decreases |t|
  {
    if t == [] then []
    else if t[0] == '%' && |t| >= 3 && HexValue(t[1]).Some? && HexValue(t[2]).Some? then
      [HexValue(t[1]).value * 16 + HexValue(t[2]).value] + PercentDecode(t[3..])
    else Utf8(t[0]) + PercentDecode(t[1..])
  }

  /** `urllib.parse.unquote(t, errors='strict')`; `None` where Python raises. */
  function Unquote(t: string): Option<string> {
    Utf8Decode(PercentDecode(t))
  }

  lemma {:induction false} PercentDecodeEscapes(bs: seq<Byte>, rest: string)
    ensures PercentDecode(EscapeAll(bs) + rest) == bs + PercentDecode(rest)
    decreases |bs|
  {
    if bs != [] {
      var tail := EscapeAll(bs[1..]) + rest;
      PercentDecodeEscapes(bs[1..], rest);
      EscapeAllCons(bs, rest, tail);
      PercentDecodeEscape(bs[0], tail);
      ConsAppend(bs, PercentDecode(rest));
    } else {
      assert EscapeAll(bs) + rest == rest;
    }
  }

  /** Escaping a non-empty byte string escapes its first byte first. */
  lemma EscapeAllCons(bs: seq<Byte>, rest: string, tail: string)
    requires bs != [] && tail == EscapeAll(bs[1..]) + rest
    ensures EscapeAll(bs) + rest == Escape(bs[0]) + tail
  {
  }

  lemma ConsAppend<T>(s: seq<T>, t: seq<T>)
    requires s != []
    ensures [s[0]] + (s[1..] + t) == s + t
  {
    assert s == [s[0]] + s[1..];
  }

  lemma PercentDecodeEscape(b: Byte, rest: string)
    ensures PercentDecode(Escape(b) + rest) == [b] + PercentDecode(rest)
  {
    var t := Escape(b) + rest;
    HexValueOfHex(b / 16);
    HexValueOfHex(b % 16);
    assert t[0] == '%' && t[1] == Hex(b / 16) && t[2] == Hex(b % 16);
    assert t[3..] == rest;
  }

  /** Percent-decoding undoes `Quote` down to the UTF-8 bytes. */
  lemma {:induction false} PercentDecodeQuote(s: string)
    ensures PercentDecode(Quote(s)) == Utf8Encode(s)
    decreases |s|
  {
    if s != [] {
      var c := s[0];
      PercentDecodeQuote(s[1..]);
      if IsQuoteSafe(c) {
        assert Quote(s) == [c] + Quote(s[1..]);
        assert (Quote(s))[1..] == Quote(s[1..]);
      } else {
        PercentDecodeEscapes(Utf8(c), Quote(s[1..]));
      }
    }
  }

  /** Round trip: `unquote(quote(s)) == s` for every string. */
  lemma QuoteRoundTrip(s: string)
    ensures Unquote(Quote(s)) == Some(s)
  {
    PercentDecodeQuote(s);
    Utf8RoundTrip(s);
  }

  /** Different names quote differently. */
  lemma QuoteInjective(a: string, b: string)
    requires Quote(a) == Quote(b)
    ensures a == b
  {
    QuoteRoundTrip(a);
    QuoteRoundTrip(b);
  }

  // ---------------------------------------------------------------------
  // `urlsplit(url)` and `urlparse(url).path`
  // ---------------------------------------------------------------------

  /** The C0 controls and space, which `urlsplit` strips from the front. */
  predicate IsC0OrSpace(c: char) { c as int <= 0x20 }

  function StripC0Left(s: string): (r: string)
    ensures |r| <= |s| && r == s[|s| - |r|..]
    ensures r != [] ==> !IsC0OrSpace(r[0])
  {
    if s != [] && IsC0OrSpace(s[0]) then StripC0Left(s[1..]) else s
  }

  /** Everything but tab, carriage return and line feed, which `urlsplit`
      deletes wherever they occur. */
  predicate IsKeptInUrl(c: char) { c != '\t' && c != '\r' && c != '\n' }

  predicate IsSchemeChar(c: char) { IsAlnum(c) || c == '+' || c == '-' || c == '.' }

  /** Where the scheme ends: at the first ':' when a letter and then only
      scheme characters come before it. */
  function SchemeEnd(s: string): (r: Option<nat>)
    ensures r.Some? ==> 0 < r.value < |s| && s[r.value] == ':'
  {
    match FindChar(s, ':')
    case None => None
    case Some(i) =>
      if i > 0 && IsLetter(s[0]) && forall k :: 0 <= k < i ==> IsSchemeChar(s[k]) then Some(i) else None
  }

  /** `s.split(c, 1)` as a pair; the second part is empty when `c` is absent. */
  function SplitOnce(s: string, c: char): (r: (string, string))
    ensures |r.0| <= |s| && r.0 == s[..|r.0|]
    ensures forall k :: 0 <= k < |r.0| ==> r.0[k] != c
    ensures (forall k :: 0 <= k < |s| ==> s[k] != c) ==> r == (s, "")
  {
    match FindChar(s, c)
    case None => (s, "")
    case Some(i) => (s[..i], s[i + 1..])
  }

  predicate IsNetlocDelimiter(c: char) { c == '/' || c == '?' || c == '#' }

  /** Offset of the first '/', '?' or '#', or the length when there is none. */
  function NetlocEnd(s: string): (d: nat)
    ensures d <= |s|
    ensures forall k :: 0 <= k < d ==> !IsNetlocDelimiter(s[k])
    ensures d < |s| ==> IsNetlocDelimiter(s[d])
  {
    if s == [] || IsNetlocDelimiter(s[0]) then 0 else 1 + NetlocEnd(s[1..])
  }

  datatype SplitResult = SplitResult(scheme: string, netloc: string, path: string, query: string, fragment: string)

  /** What `urlsplit` reads: the URL with its front stripped and every
      tab and newline deleted. */
  function Cleaned(url: string): string {
    Seqs.Filter(StripC0Left(url), IsKeptInUrl)
  }

  /** The lower-cased scheme, or "" when there is none. */
  function SchemeOf(u: string): string {
    match SchemeEnd(u) case None => "" case Some(i) => Lower(u[..i])
  }

  function AfterScheme(u: string): (r: string)
    ensures |r| <= |u|
  {
    match SchemeEnd(u) case None => u case Some(i) => u[i + 1..]
  }

  /** The authority after a leading `//` and what follows it. */
  function SplitAuthority(rest: string): (r: (string, string))
  {
    if StartsWith(rest, "//") then
      var d := NetlocEnd(rest[2..]);
      (rest[2..][..d], rest[2..][d..])
    else ("", rest)
  }

  /** `urlsplit(url)`: strip the front, delete tabs and newlines, take the
      scheme, the authority after `//`, then the fragment and the query.
      A bracket without its partner in the authority raises ValueError. */
  function UrlSplit(url: string): (r: Result<SplitResult>)
    ensures r.Ok? ==> forall k :: 0 <= k < |r.value.path| ==>
      r.value.path[k] != '?' && r.value.path[k] != '#'
  {
    SplitCleaned(Cleaned(url))
  }

  /** `urlsplit` raises only for an authority with one bracket unpaired. */
  lemma UrlSplitFailsIff(url: string)
    ensures UrlSplit(url).Err? <==> UnbalancedBrackets(SplitAuthority(AfterScheme(Cleaned(url))).0)
  {
  }

  /** An authority with a `[` but no `]`, or the other way round. */
  predicate UnbalancedBrackets(authority: string) {
    ('[' in authority) != (']' in authority)
  }

  /** The rest of `urlsplit` once the text is cleaned. */
  function SplitCleaned(u: string): (r: Result<SplitResult>)
    ensures r.Ok? ==> forall k :: 0 <= k < |r.value.path| ==>
      r.value.path[k] != '?' && r.value.path[k] != '#'
  {
    var authority := SplitAuthority(AfterScheme(u));
    if UnbalancedBrackets(authority.0) then Err("ValueError: Invalid IPv6 URL")
    else
      var beforeFragment := SplitOnce(authority.1, '#');
      var path := SplitOnce(beforeFragment.0, '?');
      Ok(SplitResult(SchemeOf(u), authority.0, path.0, path.1, beforeFragment.1))
  }

  /** The schemes for which `urlparse` splits off `;params`. */
  const UsesParams: seq<string> := ["", "ftp", "hdl", "prospero", "http", "imap", "https",
    "shttp", "rtsp", "rtspu", "sip", "sips", "mms", "sftp", "tel"]

  /** `_splitparams(path)[0]`: the path without the `;params` that follow
      the first ';' of its last segment. */
  function DropParams(path: string): (r: string)
    ensures |r| <= |path| && r == path[..|r|]
  {
    var last := LastSegment(path, '/');
    match FindChar(last, ';')
    case None => path
    case Some(k) => path[..|path| - |last| + k]
  }

  /** `urlparse(url).path`: never holds '?' or '#'. */
  function ParsedPath(url: string): (r: Result<string>)
    ensures r.Ok? ==> forall k :: 0 <= k < |r.value| ==> r.value[k] != '?' && r.value[k] != '#'
    ensures r.Err? <==> UrlSplit(url).Err?
  {
    match UrlSplit(url)
    case Err(e) => Err(e)
    case Ok(parts) =>
      if parts.scheme in UsesParams && ';' in parts.path then Ok(DropParams(parts.path))
      else Ok(parts.path)
  }

  /** A host name with nothing `urlsplit` would treat specially. */
  predicate IsPlainHost(host: string) {
    forall k :: 0 <= k < |host| ==>
      !IsNetlocDelimiter(host[k]) && IsKeptInUrl(host[k]) && host[k] != '[' && host[k] != ']'
  }

  /** The path of `https://host` followed by a path, query and fragment is
      that path: the query and fragment are cut off. */
  lemma ParsedPathOfHttps(host: string, p: string)
    requires IsPlainHost(host)
    requires p == [] || IsNetlocDelimiter(p[0])
    requires AllKept(p) && ';' !in p
    ensures ParsedPath("https://" + host + p) == Ok(SplitOnce(SplitOnce(p, '#').0, '?').0)
  {
    var url := "https://" + host + p;
    UrlSplitOfHttps(host, p);
    var path := SplitOnce(SplitOnce(p, '#').0, '?').0;
    PrefixLacks(p, SplitOnce(p, '#').0, ';');
    PrefixLacks(SplitOnce(p, '#').0, path, ';');
    PathWithoutParams(url);
  }

  /** A prefix lacks what the whole lacks. */
  lemma PrefixLacks(s: string, pre: string, c: char)
    requires |pre| <= |s| && pre == s[..|pre|] && c !in s
    ensures c !in pre
  {
  }

  /** A split path without ';' is the parsed path as it is. */
  lemma PathWithoutParams(url: string)
    requires UrlSplit(url).Ok? && ';' !in UrlSplit(url).value.path
    ensures ParsedPath(url) == Ok(UrlSplit(url).value.path)
  {
  }

  lemma UrlSplitOfHttps(host: string, p: string)
    requires IsPlainHost(host)
    requires p == [] || IsNetlocDelimiter(p[0])
    requires AllKept(p)
    ensures UrlSplit("https://" + host + p).Ok?
    ensures UrlSplit("https://" + host + p).value.scheme == "https"
    ensures UrlSplit("https://" + host + p).value.path == SplitOnce(SplitOnce(p, '#').0, '?').0
  {
    var url := "https://" + host + p;
    HttpsIsClean(host, p);
    SplitCleanedOfHttps(url, host, p);
  }

  lemma SplitCleanedOfHttps(url: string, host: string, p: string)
    requires url == "https://" + host + p
    requires IsPlainHost(host)
    requires p == [] || IsNetlocDelimiter(p[0])
    ensures SplitCleaned(url).Ok?
    ensures SplitCleaned(url).value.scheme == "https"
    ensures SplitCleaned(url).value.path == SplitOnce(SplitOnce(p, '#').0, '?').0
  {
    assert url == "https://" + (host + p);
    assert url[0] == 'h' && url[1] == 't' && url[2] == 't' && url[3] == 'p' && url[4] == 's';
    assert url[5] == ':' && url[6] == '/' && url[7] == '/';
    HttpsScheme(url);
    assert url[6..][2..] == url[8..] == host + p;
    AuthorityOfHost(url[6..], host, p);
    assert '[' !in host && ']' !in host;
  }

  lemma AuthorityOfHost(rest: string, host: string, p: string)
    requires IsPlainHost(host)
    requires p == [] || IsNetlocDelimiter(p[0])
    requires |rest| >= 2 && rest[0] == '/' && rest[1] == '/' && rest[2..] == host + p
    ensures SplitAuthority(rest) == (host, p)
  {
    assert rest[..2] == "//";
    var tail := host + p;
    NetlocEndAppend(host, p);
    assert tail[..|host|] == host && tail[|host|..] == p;
  }

  /** Nothing is stripped or deleted from such a URL. */
  lemma HttpsIsClean(host: string, p: string)
    requires IsPlainHost(host)
    requires AllKept(p)
    ensures Cleaned("https://" + host + p) == "https://" + host + p
  {
    var url := "https://" + host + p;
    assert url[0] == 'h';
    assert StripC0Left(url) == url;
    assert AllKept("https://");
    AllKeptAppend("https://", host);
    AllKeptAppend("https://" + host, p);
    Seqs.FilterAll(url, IsKeptInUrl);
  }

  predicate AllKept(s: string) {
    forall k :: 0 <= k < |s| ==> IsKeptInUrl(s[k])
  }

  lemma AllKeptAppend(a: string, b: string)
    requires AllKept(a) && AllKept(b)
    ensures AllKept(a + b)
  {
    forall k | 0 <= k < |a + b| ensures IsKeptInUrl((a + b)[k]) {
      if k >= |a| {
        assert (a + b)[k] == b[k - |a|];
      }
    }
  }

  lemma HttpsScheme(url: string)
    requires |url| >= 6 && url[0] == 'h' && url[1] == 't' && url[2] == 't' && url[3] == 'p'
    requires url[4] == 's' && url[5] == ':'
    ensures SchemeEnd(url) == Some(5)
    ensures SchemeOf(url) == "https"
    ensures AfterScheme(url) == url[6..]
  {
    assert FindChar(url, ':') == Some(5);
    assert url[..5] == "https";
  }

  lemma NetlocEndAppend(host: string, p: string)
    requires IsPlainHost(host)
    requires p == [] || IsNetlocDelimiter(p[0])
    ensures NetlocEnd(host + p) == |host|
  {
    var s := host + p;
    if p != [] {
      assert s[|host|] == p[0];
    }
  }
}

=== FILE: url_handler.dfy ===
/** `URLHandler` of the assistant (src/utils/url_handler.py; the
    reprocessing script carries a textually identical copy): canonical
    ERCOT URLs for stored documents. The database lookups of
    `get_complete_url` are parameters. */
module UrlHandler {
  import opened Wrappers
  import opened Text
  import opened Urls
  import opened Ercot
  import opened Joins
  import Seqs

  /** The marker `normalize_url` cuts at: `_v1`, `_v2`, ... but also `_value`. */
  const VersionMarker: string := "_v"

  /** Ends in one of the five document extensions (case-sensitive). */
  predicate HasDocumentExtension(s: string) {
    EndsWith(s, ".pdf") || EndsWith(s, ".doc") || EndsWith(s, ".docx")
    || EndsWith(s, ".xls") || EndsWith(s, ".xlsx")
  }

  // ---------------------------------------------------------------------
  // Quoted names under `urljoin`
  // ---------------------------------------------------------------------

  /** A quoted name without '/' is plain unless it is a dot segment. */
  lemma QuotedNameIsPlain(fileName: string)
    requires forall k :: 0 <= k < |fileName| ==> fileName[k] != '/'
    requires !IsDotSegment(fileName)
    ensures IsPlainName(Quote(fileName))
  {
    var q := Quote(fileName);
    QuoteKeepsAbsent(fileName, '/');
    QuotedIsNoDotSegment(fileName);
    forall k | 0 <= k < |q| ensures IsPlainNameChar(q[k]) && !IsC0OrSpace(q[k]) {
      QuotedCharIsPlain(q[k]);
    }
  }

  /** A character `quote` writes, other than '/', is a plain-name character. */
  lemma QuotedCharIsPlain(c: char)
    requires (IsQuoteSafe(c) || c == '%') && c != '/'
    ensures IsPlainNameChar(c) && !IsC0OrSpace(c)
  {
  }

  /** What `quote` writes holds no ':', '?', '#', ';', control or space. */
  lemma QuotedHasNoDelimiters(q: string)
    requires forall k :: 0 <= k < |q| ==> IsQuoteSafe(q[k]) || q[k] == '%'
    ensures forall k :: 0 <= k < |q| ==>
      q[k] != ':' && q[k] != '?' && q[k] != '#' && q[k] != ';' && IsKeptInUrl(q[k]) && !IsC0OrSpace(q[k])
  {
  }

  lemma QuotedIsNoDotSegment(fileName: string)
    requires !IsDotSegment(fileName)
    ensures !IsDotSegment(Quote(fileName))
  {
    var q := Quote(fileName);
    if IsDotSegment(q) {
      DotSegments(q);
      DotSegments(fileName);
      DotsQuoteToThemselves();
      if IsDot(q) {
        QuoteInjective(fileName, ".");
      } else {
        QuoteInjective(fileName, "..");
      }
    }
  }

  lemma DotsQuoteToThemselves()
    ensures Quote(".") == "." && Quote("..") == ".."
  {
    assert IsQuoteSafe('.');
  }

  /** `urlsplit` accepts every quoted name: it holds no bracket. */
  lemma QuotedNameSplits(q: string)
    requires forall k :: 0 <= k < |q| ==> IsQuoteSafe(q[k]) || q[k] == '%'
    ensures UrlSplit(q).Ok?
  {
    assert '[' !in q && ']' !in q;
    SplitWithoutBrackets(q);
  }

  /** Text without brackets always splits. */
  lemma SplitWithoutBrackets(url: string)
    requires '[' !in url && ']' !in url
    ensures UrlSplit(url).Ok?
  {
    CleanedWithoutBrackets(url);
    SplitCleanedWithoutBrackets(Cleaned(url));
  }

  lemma CleanedWithoutBrackets(url: string)
    requires '[' !in url && ']' !in url
    ensures '[' !in Cleaned(url) && ']' !in Cleaned(url)
  {
    var s := StripC0Left(url);
    assert forall k :: 0 <= k < |s| ==> s[k] == url[|url| - |s| + k];
  }

  lemma SplitCleanedWithoutBrackets(u: string)
    requires '[' !in u && ']' !in u
    ensures SplitCleaned(u).Ok?
  {
    var rest := AfterScheme(u);
    assert '[' !in rest && ']' !in rest by {
      assert forall k :: 0 <= k < |rest| ==> rest[k] == u[|u| - |rest| + k];
    }
    var a := SplitAuthority(rest).0;
    assert '[' !in a && ']' !in a by {
      assert forall k :: 0 <= k < |a| ==> a[k] == rest[2 + k];
    }
    assert !UnbalancedBrackets(a);
  }

  // ---------------------------------------------------------------------
  // `_get_original_url` and `get_document_url`
  // ---------------------------------------------------------------------

  /** `_get_original_url(file_name)`: the file name, percent-encoded,
      under the files directory; decoding the tail recovers the name. */
  function OriginalUrl(fileName: string): (r: string)
    ensures StartsWith(r, FilesRoot)
    ensures Unquote(r[|FilesRoot|..]) == Some(fileName)
  {
    var r := FilesRoot + Quote(fileName);
    assert r[|FilesRoot|..] == Quote(fileName);
    QuoteRoundTrip(fileName);
    r
  }

  /** The directory `get_document_url` resolves against: the services
      directory for 'web', the files directory for anything else. */
  function DocumentBase(contentType: string): (r: string)
    ensures r == FileBase || r == ServiceBase
  {
    if contentType == "web" then ServiceBase else FileBase
  }

  /** `get_document_url(file_name, content_type)`: the quoted name joined
      to the directory; a name that does not start with '/' stays on the
      ERCOT host whatever it holds. */
  function DocumentUrl(fileName: string, contentType: string): (r: string)
    ensures fileName == [] || fileName[0] != '/' ==> StartsWith(r, BaseUrl + "/")
  {
    var base := DocumentBase(contentType);
    var encoded := Quote(fileName);
    QuotedNameSplits(encoded);
    QuotedNameStaysOnHost(base, fileName);
    UrlJoin(base, encoded).value
  }

  /** A quoted name not starting with '/' parses as a path on the base
      host, so `urljoin` keeps the ERCOT host. */
  lemma QuotedNameStaysOnHost(base: string, fileName: string)
    requires base == FileBase || base == ServiceBase
    ensures UrlJoin(base, Quote(fileName)).Ok?
    ensures fileName == [] || fileName[0] != '/' ==>
      StartsWith(UrlJoin(base, Quote(fileName)).value, BaseUrl + "/")
  {
    var q := Quote(fileName);
    QuotedNameSplits(q);
    if fileName == [] {
      EmptyNameJoin(base);
    } else if fileName[0] != '/' {
      NamedJoinOnHost(base, fileName);
    }
  }

  lemma EmptyNameJoin(base: string)
    requires base == FileBase || base == ServiceBase
    ensures UrlJoin(base, Quote("")).Ok? && StartsWith(UrlJoin(base, Quote("")).value, BaseUrl + "/")
  {
    assert Quote("") == "";
    var r := BaseUrl + base;
    assert r[..|BaseUrl| + 1] == BaseUrl + "/";
  }

  lemma NamedJoinOnHost(base: string, fileName: string)
    requires base == FileBase || base == ServiceBase
    requires fileName != [] && fileName[0] != '/'
    ensures UrlJoin(base, Quote(fileName)).Ok?
    ensures StartsWith(UrlJoin(base, Quote(fileName)).value, BaseUrl + "/")
  {
    var q := Quote(fileName);
    QuotedNameSplits(q);
    QuotedHasNoDelimiters(q);
    assert Cleaned(q) == q by {
      assert StripC0Left(q) == q;
      Seqs.FilterAll(q, IsKeptInUrl);
    }
    assert SchemeEnd(q) == None;
    assert q[0] != '/';
    FirstCharBlocksPrefix(q, "//");
    RelativeReference(q);
    JoinStaysOnHost(base, q);
  }

  /** For a name without '/' that is not a dot segment the document URL is
      the directory URL followed by the quoted name. */
  lemma {:induction false} DocumentUrlOfName(fileName: string, contentType: string)
    requires forall k :: 0 <= k < |fileName| ==> fileName[k] != '/'
    requires !IsDotSegment(fileName)
    ensures DocumentUrl(fileName, contentType) == BaseUrl + DocumentBase(contentType) + Quote(fileName)
  {
    var base := DocumentBase(contentType);
    var q := Quote(fileName);
    assert UrlJoin(base, q) == Ok(BaseUrl + base + q) by {
      QuotedNameIsPlain(fileName);
      JoinPlain(base, q);
    }
    assert DocumentUrl(fileName, contentType) == UrlJoin(base, q).value;
  }

  /** The directory URL followed by the quoted name: for 'web' it lies under
      the services root and its tail decodes back to the name; otherwise it
      is `_get_original_url`. */
  lemma DirectoryUrlShape(fileName: string, contentType: string, u: string)
    requires u == BaseUrl + DocumentBase(contentType) + Quote(fileName)
    ensures contentType == "web" ==> StartsWith(u, ServicesRoot) && Unquote(u[|ServicesRoot|..]) == Some(fileName)
    ensures contentType != "web" ==> u == OriginalUrl(fileName)
  {
    if contentType == "web" {
      ServiceUrlUnquotes(fileName, u);
    } else {
      FileUrlIsOriginal(fileName, u);
    }
  }

  /** The services-directory URL of a quoted name gives the name back. */
  lemma ServiceUrlUnquotes(fileName: string, u: string)
    requires u == BaseUrl + ServiceBase + Quote(fileName)
    ensures StartsWith(u, ServicesRoot) && Unquote(u[|ServicesRoot|..]) == Some(fileName)
  {
    QuoteRoundTrip(fileName);
    RootThenTail(BaseUrl, ServiceBase, ServicesRoot, Quote(fileName));
  }

  /** The files-directory URL of a quoted name is `_get_original_url`'s. */
  lemma FileUrlIsOriginal(fileName: string, u: string)
    requires u == BaseUrl + FileBase + Quote(fileName)
    ensures u == OriginalUrl(fileName)
  {
    OriginalUrlShape(fileName);
    RegroupRoot(BaseUrl, FileBase, FilesRoot, Quote(fileName));
  }

  /** A URL made of a root and a tail starts with the root, and cutting the
      root off gives the tail back. */
  lemma RootThenTail(a: string, b: string, root: string, tail: string)
    requires root == a + b
    ensures StartsWith(a + b + tail, root) && (a + b + tail)[|root|..] == tail
  {
    assert (a + b + tail)[..|root|] == root;
  }

  // ---------------------------------------------------------------------
  // `normalize_url`
  // ---------------------------------------------------------------------

  /** `'/'.join(path.split('/')[:-1])` */
  function DirOf(path: string): string {
    var segs := SplitChar(path, '/');
    Join(segs[..|segs| - 1], "/")
  }

  /** `path.split('/')[-1]` */
  function NameOf(path: string): string {
    var segs := SplitChar(path, '/');
    segs[|segs| - 1]
  }

  /** The document branch: the last segment percent-encoded, then every
      `/services/rq/` turned into `/files/docs/`. */
  function RebuildDocumentPath(path: string): string {
    var encoded := DirOf(path) + "/" + Quote(NameOf(path));
    if Contains(encoded, ServiceBase) then ReplaceAll(encoded, ServiceBase, FileBase) else encoded
  }

  /** `normalize_url(url, file_name)`, with "" for a missing url or name.
      Only `urlparse` can fail, on a URL that already names ERCOT. */
  function NormalizeUrl(url: string, fileName: string): (r: Result<string>)
    ensures url == "" ==> r == Ok("")
    ensures r.Err? ==>
      Contains(Before(url, VersionMarker), BaseUrl) && ParsedPath(Before(url, VersionMarker)).Err?
  {
    if url == "" then Ok(url)
    else
      var u := Before(url, VersionMarker);
      if StartsWith(u, "file://") then
        if fileName != "" then Ok(OriginalUrl(fileName)) else Ok(u)
      else if Contains(u, BaseUrl) then
        match ParsedPath(u)
        case Err(e) => Err(e)
        case Ok(parsed) =>
          var path := Before(Before(parsed, "?"), VersionMarker);
          Ok(BaseUrl + (if HasDocumentExtension(path) then RebuildDocumentPath(path) else path))
      else Ok(u)
  }

  /** A `file://` URL: with a file name, the URL built from the name alone
      (its tail decodes back to the name); without one, the URL cut at
      the first "_v". */
  lemma NormalizeFileUrl(url: string, fileName: string)
    requires url != "" && StartsWith(Before(url, VersionMarker), "file://")
    ensures fileName != "" ==> NormalizeUrl(url, fileName) == Ok(OriginalUrl(fileName))
    ensures fileName != "" ==> Unquote(NormalizeUrl(url, fileName).value[|FilesRoot|..]) == Some(fileName)
    ensures fileName == "" ==> NormalizeUrl(url, fileName) == Ok(Before(url, VersionMarker))
  {
  }

  /** Any other URL that does not name ERCOT comes back cut at the first
      "_v", so unchanged exactly when it has none. */
  lemma NormalizeForeignUrl(url: string, fileName: string)
    requires url != ""
    requires !StartsWith(Before(url, VersionMarker), "file://")
    requires !Contains(Before(url, VersionMarker), BaseUrl)
    ensures NormalizeUrl(url, fileName).Ok?
    ensures NormalizeUrl(url, fileName).value == url[..|NormalizeUrl(url, fileName).value|]
    ensures NormalizeUrl(url, fileName).value == url <==> !Contains(url, VersionMarker)
  {
  }

  /** Characters a query or a fragment starts with. */
  predicate NotQueryOrFragment(c: char) { c != '?' && c != '#' }

  /** An ERCOT URL is rebuilt as `BASE_URL` and a path: whatever scheme,
      host, query or fragment it had is gone. */
  lemma NormalizeErcotUrl(url: string, fileName: string)
    requires url != ""
    requires !StartsWith(Before(url, VersionMarker), "file://")
    requires Contains(Before(url, VersionMarker), BaseUrl)
    requires NormalizeUrl(url, fileName).Ok?
    ensures StartsWith(NormalizeUrl(url, fileName).value, BaseUrl)
    ensures forall k :: |BaseUrl| <= k < |NormalizeUrl(url, fileName).value| ==>
      NotQueryOrFragment(NormalizeUrl(url, fileName).value[k])
  {
    var u := Before(url, VersionMarker);
    var parsed := ParsedPath(u).value;
    var path := Before(Before(parsed, "?"), VersionMarker);
    assert forall k :: 0 <= k < |path| ==> NotQueryOrFragment(path[k]) by {
      assert path == parsed[..|path|];
      forall k | 0 <= k < |path| ensures NotQueryOrFragment(path[k]) {
        assert path[k] == parsed[k];
      }
    }
    var tail := if HasDocumentExtension(path) then RebuildDocumentPath(path) else path;
    if HasDocumentExtension(path) {
      RebuildKeepsNoQuery(path);
    }
    var r := BaseUrl + tail;
    assert r == NormalizeUrl(url, fileName).value;
    forall k | |BaseUrl| <= k < |r| ensures NotQueryOrFragment(r[k]) {
      assert r[k] == tail[k - |BaseUrl|];
    }
  }

  /** The segments around the last '/': the path is the directory, '/' and
      the name, or it has no '/' and is all name. */
  lemma PathPieces(path: string)
    ensures (DirOf(path) == "" && NameOf(path) == path) || path == DirOf(path) + "/" + NameOf(path)
  {
    var segs := SplitChar(path, '/');
    var n := |segs|;
    SplitCharJoin(path, '/');
    if n == 1 {
      JoinSingle(segs[0], "/");
      assert segs == [segs[0]];
    } else {
      assert segs == segs[..n - 1] + [segs[n - 1]];
      JoinSnoc(segs[..n - 1], segs[n - 1], "/");
    }
  }

  /** No character that starts a query or a fragment. */
  predicate NoQueryChars(s: string) {
    forall k :: 0 <= k < |s| ==> NotQueryOrFragment(s[k])
  }

  lemma RebuildKeepsNoQuery(path: string)
    requires NoQueryChars(path)
    ensures NoQueryChars(RebuildDocumentPath(path))
  {
    PathPieces(path);
    var dir := DirOf(path);
    var name := NameOf(path);
    if path == dir + "/" + name {
      PiecesKeepNoQuery(path, dir, name);
    }
    var q := Quote(name);
    QuoteKeepsNoQuery(name);
    var encoded := dir + "/" + q;
    assert NoQueryChars(encoded) by {
      SlashNoQuery();
      AppendKeepsNoQuery(dir, "/", q);
    }
    if Contains(encoded, ServiceBase) {
      ServiceToFilesKeepsNoQuery(encoded);
    }
  }

  /** The separator holds no query or fragment character. */
  lemma SlashNoQuery()
    ensures NoQueryChars("/")
  {
  }

  /** Turning `/services/rq/` into `/files/docs/` adds no query or fragment
      character. */
  lemma ServiceToFilesKeepsNoQuery(s: string)
    requires NoQueryChars(s)
    ensures NoQueryChars(ReplaceAll(s, ServiceBase, FileBase))
  {
    assert |ServiceBase| > 0;
    assert NoQueryChars(FileBase);
    ReplaceChars(s, ServiceBase, FileBase, NotQueryOrFragment);
  }

  lemma PiecesKeepNoQuery(path: string, dir: string, name: string)
    requires path == dir + "/" + name && NoQueryChars(path)
    ensures NoQueryChars(dir) && NoQueryChars(name)
  {
    forall k | 0 <= k < |dir| ensures NotQueryOrFragment(dir[k]) {
      assert dir[k] == path[k];
    }
    forall k | 0 <= k < |name| ensures NotQueryOrFragment(name[k]) {
      assert name[k] == path[|dir| + 1 + k];
    }
  }

  lemma QuoteKeepsNoQuery(name: string)
    ensures NoQueryChars(Quote(name))
  {
    var q := Quote(name);
    forall k | 0 <= k < |q| ensures NotQueryOrFragment(q[k]) {
      assert IsQuoteSafe(q[k]) || q[k] == '%';
    }
  }

  lemma AppendKeepsNoQuery(a: string, b: string, c: string)
    requires NoQueryChars(a) && NoQueryChars(b) && NoQueryChars(c)
    ensures NoQueryChars(a + b + c)
  {
    var s := a + b + c;
    forall k | 0 <= k < |s| ensures NotQueryOrFragment(s[k]) {
      if k < |a| {
        assert s[k] == a[k];
      } else if k < |a| + |b| {
        assert s[k] == b[k - |a|];
      } else {
        assert s[k] == c[k - |a| - |b|];
      }
    }
  }

  /** No "_v" in the result, except through a file name that holds one:
      every other branch cuts at "_v" before building its answer, and
      neither the encoding nor the directory rewrite creates one. */
  lemma NormalizeDropsVersionMarker(url: string, fileName: string)
    requires NormalizeUrl(url, fileName).Ok?
    requires !(url != "" && StartsWith(Before(url, VersionMarker), "file://") && fileName != "")
    ensures !Contains(NormalizeUrl(url, fileName).value, VersionMarker)
  {
    if url != "" {
      var u := Before(url, VersionMarker);
      if !StartsWith(u, "file://") && Contains(u, BaseUrl) {
        var parsed := ParsedPath(u).value;
        var path := Before(Before(parsed, "?"), VersionMarker);
        NoPairIff(path, '_', 'v');
        var tail := if HasDocumentExtension(path) then RebuildDocumentPath(path) else path;
        if HasDocumentExtension(path) {
          RebuildKeepsNoVersion(path);
        }
        BaseUrlHasNoVersion();
        NoPairAppend(BaseUrl, tail, '_', 'v');
        NoPairIff(BaseUrl + tail, '_', 'v');
      }
    }
  }

  lemma BaseUrlHasNoVersion()
    ensures NoPair(BaseUrl, '_', 'v') && BaseUrl[|BaseUrl| - 1] != '_'
    ensures NoPair(FileBase, '_', 'v') && FileBase[0] == '/' && FileBase[|FileBase| - 1] == '/'
  {
    assert forall k :: 0 <= k < |BaseUrl| ==> BaseUrl[k] != '_';
    assert forall k :: 0 <= k < |FileBase| ==> FileBase[k] != '_';
  }

  lemma RebuildKeepsNoVersion(path: string)
    requires NoPair(path, '_', 'v')
    ensures NoPair(RebuildDocumentPath(path), '_', 'v')
  {
    PathPieces(path);
    var dir := DirOf(path);
    var name := NameOf(path);
    if path == dir + "/" + name {
      NoPairSlice(path, 0, |dir|, '_', 'v');
      assert path[0..|dir|] == dir;
      NoPairSlice(path, |dir| + 1, |path|, '_', 'v');
      assert path[|dir| + 1..|path|] == name;
    }
    QuoteKeepsNoPair(name, '_', 'v');
    var q := Quote(name);
    NoPairAppend(dir, "/", '_', 'v');
    NoPairAppend(dir + "/", q, '_', 'v');
    var encoded := dir + "/" + q;
    if Contains(encoded, ServiceBase) {
      BaseUrlHasNoVersion();
      ReplaceKeepsNoPair(encoded, ServiceBase, FileBase, '_', 'v');
    }
  }

  // ---------------------------------------------------------------------
  // A document linked under `/services/rq/` moves to `/files/docs/`
  // ---------------------------------------------------------------------

  /** A document name as a page links it under `/services/rq/`: a document
      extension, no "_v", and nothing that ends a path segment, starts a
      query, fragment or parameters, or that `urlsplit` deletes. */
  predicate IsLinkedDocumentName(name: string) {
    HasDocumentExtension(name) && !Contains(name, VersionMarker) && IsSegmentText(name)
  }

  predicate IsSegmentText(name: string) {
    forall k :: 0 <= k < |name| ==>
      name[k] != '/' && NotQueryOrFragment(name[k]) && name[k] != ';' && IsKeptInUrl(name[k])
  }

  /** The service URL of a linked document normalizes to the URL
      `_get_original_url` builds for the same name, whatever the file name
      argument: the name is percent-encoded and the directory rewritten. */
  lemma NormalizeServiceDocument(name: string, fileName: string)
    requires IsLinkedDocumentName(name)
    ensures NormalizeUrl(ServicesRoot + name, fileName) == Ok(OriginalUrl(name))
  {
    var url := ServicesRoot + name;
    var p := ServiceBase + name;
    ServiceUrlUncut(name, url);
    ServiceUrlIsErcot(name, url);
    ServiceUrlPath(name, url, p);
    ServicePathKept(name, p);
    ServiceRebuild(name, p);
    OriginalUrlShape(name);
  }

  lemma OriginalUrlShape(name: string)
    ensures OriginalUrl(name) == BaseUrl + (FileBase + Quote(name))
  {
    RegroupRoot(BaseUrl, FileBase, FilesRoot, Quote(name));
  }

  /** A root built from two parts, followed by a tail. */
  lemma RegroupRoot(a: string, b: string, root: string, tail: string)
    requires root == a + b
    ensures root + tail == a + (b + tail)
  {
  }

  lemma ServiceUrlUncut(name: string, url: string)
    requires IsLinkedDocumentName(name) && url == ServicesRoot + name
    ensures Before(url, VersionMarker) == url
  {
    NoPairIff(name, '_', 'v');
    ServicesRootHasNoUnderscore();
    UnderscoreFreeThenNoPair(ServicesRoot, name);
    NoPairIff(url, '_', 'v');
  }

  lemma ServicesRootHasNoUnderscore()
    ensures forall k :: 0 <= k < |ServicesRoot| ==> ServicesRoot[k] != '_'
  {
  }

  /** Text without '_' followed by text without `_v` has no `_v`. */
  lemma UnderscoreFreeThenNoPair(x: string, y: string)
    requires forall k :: 0 <= k < |x| ==> x[k] != '_'
    requires NoPair(y, '_', 'v')
    ensures NoPair(x + y, '_', 'v')
  {
    NoPairAppend(x, y, '_', 'v');
  }

  lemma ServiceUrlIsErcot(name: string, url: string)
    requires url == ServicesRoot + name
    ensures !StartsWith(url, "file://") && Contains(url, BaseUrl)
  {
    assert url[0] == 'h';
    assert url[..|BaseUrl|] == BaseUrl;
    ContainsWitness(url, BaseUrl, 0);
  }

  lemma ServiceUrlPath(name: string, url: string, p: string)
    requires IsSegmentText(name) && url == ServicesRoot + name && p == ServiceBase + name
    ensures ParsedPath(url) == Ok(p)
  {
    ServiceUrlOnHost(name, url, p);
    ServicePathChars(name, p);
    ParsedPathOfHttps(Host, p);
  }

  /** A service URL is the host's https root followed by its path. */
  lemma ServiceUrlOnHost(name: string, url: string, p: string)
    requires url == ServicesRoot + name && p == ServiceBase + name
    ensures url == "https://" + Host + p && IsPlainHost(Host)
  {
    ErcotRoots();
    RegroupRoot(BaseUrl, ServiceBase, ServicesRoot, name);
  }

  lemma ErcotRoots()
    ensures BaseUrl == "https://" + Host && ServicesRoot == BaseUrl + ServiceBase && IsPlainHost(Host)
  {
  }

  /** The service path of a segment name starts with '/', keeps every
      character through `urlsplit` and holds no ';', '#' or '?'. */
  lemma ServicePathChars(name: string, p: string)
    requires IsSegmentText(name) && p == ServiceBase + name
    ensures p != [] && p[0] == '/' && AllKept(p) && ';' !in p
    ensures forall k :: 0 <= k < |p| ==> p[k] != ';' && p[k] != '#' && p[k] != '?' && IsKeptInUrl(p[k])
  {
    ServiceBaseChars();
    forall k | 0 <= k < |p| ensures p[k] != ';' && p[k] != '#' && p[k] != '?' && IsKeptInUrl(p[k]) {
      if k < |ServiceBase| {
        assert p[k] == ServiceBase[k];
      } else {
        assert p[k] == name[k - |ServiceBase|];
      }
    }
  }

  lemma ServiceBaseChars()
    ensures ServiceBase != [] && ServiceBase[0] == '/'
    ensures forall k :: 0 <= k < |ServiceBase| ==>
      ServiceBase[k] != ';' && ServiceBase[k] != '#' && ServiceBase[k] != '?' && IsKeptInUrl(ServiceBase[k])
  {
  }

  /** The path keeps its whole text through the '?' and "_v" cuts and
      still ends in the document extension. */
  lemma ServicePathKept(name: string, p: string)
    requires IsLinkedDocumentName(name) && p == ServiceBase + name
    ensures Before(Before(p, "?"), VersionMarker) == p
    ensures HasDocumentExtension(p)
  {
    assert forall k :: 0 <= k < |p| ==> p[k] != '?' by {
      forall k | 0 <= k < |p| ensures p[k] != '?' {
        if k >= |ServiceBase| {
          assert p[k] == name[k - |ServiceBase|];
        }
      }
    }
    NotContainsLeadingChar(p, "?");
    NoPairIff(name, '_', 'v');
    assert NoPair(ServiceBase, '_', 'v') by {
      assert forall k :: 0 <= k < |ServiceBase| ==> ServiceBase[k] != '_';
    }
    NoPairAppend(ServiceBase, name, '_', 'v');
    NoPairIff(p, '_', 'v');
    ServicePathExtension(name, p);
  }

  lemma ServicePathExtension(name: string, p: string)
    requires HasDocumentExtension(name) && p == ServiceBase + name
    ensures HasDocumentExtension(p)
  {
    if EndsWith(name, ".pdf") { EndsWithAppend(ServiceBase, name, ".pdf"); }
    if EndsWith(name, ".doc") { EndsWithAppend(ServiceBase, name, ".doc"); }
    if EndsWith(name, ".docx") { EndsWithAppend(ServiceBase, name, ".docx"); }
    if EndsWith(name, ".xls") { EndsWithAppend(ServiceBase, name, ".xls"); }
    if EndsWith(name, ".xlsx") { EndsWithAppend(ServiceBase, name, ".xlsx"); }
  }

  lemma ServiceRebuild(name: string, p: string)
    requires IsSegmentText(name) && p == ServiceBase + name
    ensures RebuildDocumentPath(p) == FileBase + Quote(name)
  {
    var dir := "/services/rq";
    assert ServiceBase == dir + "/";
    ServiceBaseChars();
    RebuildUnderDirectory(dir, name, p);
  }

  lemma RebuildUnderDirectory(dir: string, name: string, p: string)
    requires ServiceBase == dir + "/" && ServiceBase[0] == '/'
    requires IsSegmentText(name) && p == ServiceBase + name
    ensures RebuildDocumentPath(p) == FileBase + Quote(name)
  {
    assert p == dir + ['/'] + name;
    SplitLastPiece(p, '/', dir, name);
    var q := Quote(name);
    var encoded := dir + "/" + q;
    RootThenTail(dir, "/", ServiceBase, q);
    ContainsWitness(encoded, ServiceBase, 0);
    QuoteKeepsAbsent(name, '/');
    NotContainsLeadingChar(q, ServiceBase);
    ReplaceAtFront(ServiceBase, q, FileBase);
  }

  // ---------------------------------------------------------------------
  // `get_complete_url`
  // ---------------------------------------------------------------------

  /** A row of the `documents` table, as the two lookups read it. */
  datatype Document = Document(url: string, title: string)

  /** SQL `s LIKE pattern` as PostgreSQL evaluates it: '%' matches any run
      of characters, '_' any one character, and '\' (the default escape
      character) makes the next character literal. */
  function Like(s: string, pattern: string): (r: bool)
    decreases |s| + |pattern|
    ensures (forall k :: 0 <= k < |pattern| ==> !IsLikeWildcard(pattern[k])) ==> (r <==> s == pattern)
  {
    if pattern == [] then s == []
    else if pattern[0] == '%' then Like(s, pattern[1..]) || (s != [] && Like(s[1..], pattern))
    else if pattern[0] == '_' then s != [] && Like(s[1..], pattern[1..])
    else if pattern[0] == '\\' && |pattern| >= 2 then s != [] && s[0] == pattern[1] && Like(s[1..], pattern[2..])
    else s != [] && s[0] == pattern[0] && Like(s[1..], pattern[1..])
  }

  /** The characters LIKE gives a meaning to. */
  predicate IsLikeWildcard(c: char) { c == '%' || c == '_' || c == '\\' }

  /** A trailing '%' matches whatever is left. */
  lemma {:induction false} LikeAnyRest(s: string)
    ensures Like(s, "%")
    decreases |s|
  {
    if s != [] {
      LikeAnyRest(s[1..]);
    }
  }

  /** `url LIKE prefix || '%'` is a prefix test when the prefix holds no
      LIKE wildcard. */
  lemma {:induction false} LikePlainPrefix(s: string, u: string)
    requires forall k :: 0 <= k < |u| ==> !IsLikeWildcard(u[k])
    ensures Like(s, u + "%") <==> StartsWith(s, u)
    decreases |u|
  {
    if u == [] {
      assert u + "%" == "%";
      LikeAnyRest(s);
    } else {
      var pattern := u + "%";
      assert pattern[0] == u[0] && pattern[1..] == u[1..] + "%";
      if s != [] {
        LikePlainPrefix(s[1..], u[1..]);
        assert StartsWith(s, u) <==> s[0] == u[0] && StartsWith(s[1..], u[1..]) by {
          if s[0] == u[0] && StartsWith(s[1..], u[1..]) {
            assert s[..|u|] == [s[0]] + s[1..][..|u| - 1];
          }
          if StartsWith(s, u) {
            assert s[1..][..|u| - 1] == s[..|u|][1..];
          }
        }
      }
    }
  }

  /** `SELECT url FROM documents WHERE url LIKE pattern ORDER BY
      LENGTH(url) DESC LIMIT 1`; among rows of equal length the first. */
  function LongestLike(docs: seq<Document>, pattern: string): (r: Option<string>)
    ensures r.None? <==> forall k :: 0 <= k < |docs| ==> !Like(docs[k].url, pattern)
    ensures r.Some? ==> exists k :: 0 <= k < |docs| && docs[k].url == r.value && Like(r.value, pattern)
    ensures r.Some? ==> forall k :: 0 <= k < |docs| && Like(docs[k].url, pattern) ==> |docs[k].url| <= |r.value|
  {
    if docs == [] then None
    else
      var rest := LongestLike(docs[1..], pattern);
      assert forall k :: 1 <= k < |docs| ==> docs[k] == docs[1..][k - 1];
      if Like(docs[0].url, pattern) && (rest.None? || |docs[0].url| >= |rest.value|) then Some(docs[0].url)
      else rest
  }

  /** `SELECT url FROM documents WHERE title = title LIMIT 1`; the first
      such row. */
  function UrlOfTitle(docs: seq<Document>, title: string): (r: Option<string>)
    ensures r.None? <==> forall k :: 0 <= k < |docs| ==> docs[k].title != title
    ensures r.Some? ==> exists k :: 0 <= k < |docs| && docs[k].title == title && docs[k].url == r.value
  {
    if docs == [] then None
    else if docs[0].title == title then Some(docs[0].url)
    else
      assert forall k :: 1 <= k < |docs| ==> docs[k] == docs[1..][k - 1];
      UrlOfTitle(docs[1..], title)
  }

  /** Ends in a document extension in any letter case. */
  predicate NamesDocument(url: string) {
    HasDocumentExtension(Lower(url))
  }

  /** `get_complete_url(url, doc_title)` against the rows of `documents`;
      a missing title is "". When neither lookup finds a row the URL comes
      back unchanged. */
  function GetCompleteUrl(url: string, docTitle: string, docs: seq<Document>): (r: string)
    ensures url == "" || NamesDocument(url) ==> r == url
    ensures url != "" && !NamesDocument(url) ==>
      if exists k :: 0 <= k < |docs| && Like(docs[k].url, url + "%") then
        && (exists k :: 0 <= k < |docs| && docs[k].url == r && Like(r, url + "%"))
        && forall k :: 0 <= k < |docs| && Like(docs[k].url, url + "%") ==> |docs[k].url| <= |r|
      else if docTitle != "" && exists k :: 0 <= k < |docs| && docs[k].title == docTitle then
        exists k :: 0 <= k < |docs| && docs[k].title == docTitle && docs[k].url == r
      else
        r == url
  {
    if url == "" then url
    else if NamesDocument(url) then url
    else
      match LongestLike(docs, url + "%")
      case Some(found) => found
      case None =>
        if docTitle != "" then
          match UrlOfTitle(docs, docTitle)
          case Some(found) => found
          case None => url
        else url
  }

  /** For a URL without LIKE wildcards the first lookup is a prefix search:
      a stored URL that extends it comes back, and it is a longest one. */
  lemma CompleteUrlExtendsPlainUrl(url: string, docTitle: string, docs: seq<Document>, k: nat)
    requires url != "" && !NamesDocument(url)
    requires forall j :: 0 <= j < |url| ==> !IsLikeWildcard(url[j])
    requires k < |docs| && StartsWith(docs[k].url, url)
    ensures StartsWith(GetCompleteUrl(url, docTitle, docs), url)
    ensures forall j :: 0 <= j < |docs| && StartsWith(docs[j].url, url) ==>
      |docs[j].url| <= |GetCompleteUrl(url, docTitle, docs)|
  {
    LikePlainPrefix(docs[k].url, url);
    var r := GetCompleteUrl(url, docTitle, docs);
    LikePlainPrefix(r, url);
    forall j | 0 <= j < |docs| && StartsWith(docs[j].url, url) ensures |docs[j].url| <= |r| {
      LikePlainPrefix(docs[j].url, url);
    }
  }

  /** The prefix lookup as written treats a '_' in the URL as "any
      character": asked about `<head>_b` it answers with a stored
      `<head>Xb.pdf`, which does not extend the URL. */
  lemma UnderscoreMatchesOtherDocument(head: string)
    requires forall k :: 0 <= k < |head| ==> !IsLikeWildcard(head[k])
    ensures GetCompleteUrl(head + "_b", "", [Document(head + "Xb.pdf", "")]) == head + "Xb.pdf"
    ensures !StartsWith(head + "Xb.pdf", head + "_b")
  {
    var url := head + "_b";
    var other := head + "Xb.pdf";
    XbMatchesUnderscoreB();
    LikeAfterPlainHead(head, "Xb.pdf", "_b%");
    assert url + "%" == head + "_b%";
    LastCharNotDocument(url);
    SingleRowLookup(url, other);
    assert other[|head|] != url[|head|];
  }

  lemma XbMatchesUnderscoreB()
    ensures Like("Xb.pdf", "_b%")
  {
    LikeAnyRest(".pdf");
    assert "Xb.pdf"[1..] == "b.pdf" && "b.pdf"[1..] == ".pdf";
    assert "_b%"[1..] == "b%" && "b%"[1..] == "%";
  }

  /** With one stored row whose URL the prefix pattern matches, the lookup
      answers with that row's URL. */
  lemma SingleRowLookup(url: string, other: string)
    requires url != [] && !NamesDocument(url) && Like(other, url + "%")
    ensures GetCompleteUrl(url, "", [Document(other, "")]) == other
  {
    var docs := [Document(other, "")];
    assert docs[0].url == other;
  }

  /** A URL ending in 'b' names no document. */
  lemma LastCharNotDocument(url: string)
    requires url != [] && url[|url| - 1] == 'b'
    ensures !NamesDocument(url)
  {
    assert Lower(url)[|url| - 1] == 'b';
  }

  /** A literal head of a pattern matches itself. */
  lemma {:induction false} LikeAfterPlainHead(head: string, s: string, pattern: string)
    requires forall k :: 0 <= k < |head| ==> !IsLikeWildcard(head[k])
    requires Like(s, pattern)
    ensures Like(head + s, head + pattern)
    decreases |head|
  {
    if head != [] {
      LikeAfterPlainHead(head[1..], s, pattern);
      assert (head + s)[0] == head[0] && (head + pattern)[0] == head[0];
      assert (head + s)[1..] == head[1..] + s;
      assert (head + pattern)[1..] == head[1..] + pattern;
    } else {
      assert head + s == s && head + pattern == pattern;
    }
  }

  /** The URL with every LIKE wildcard preceded by the escape character. */
  function EscapeLike(u: string): (r: string)
    ensures |r| >= |u|
  {
    if u == [] then []
    else (if IsLikeWildcard(u[0]) then ['\\', u[0]] else [u[0]]) + EscapeLike(u[1..])
  }

  /** A URL without wildcards is its own escaped form. */
  lemma {:induction false} EscapeLikePlain(u: string)
    requires forall k :: 0 <= k < |u| ==> !IsLikeWildcard(u[k])
    ensures EscapeLike(u) == u
    decreases |u|
  {
    if u != [] {
      EscapeLikePlain(u[1..]);
      assert [u[0]] + u[1..] == u;
    }
  }

  /** On a URL without wildcards escaping changes nothing: the corrected
      lookup answers as the one written does. */
  lemma EscapedAgreesOnPlainUrl(url: string, docTitle: string, docs: seq<Document>)
    requires forall k :: 0 <= k < |url| ==> !IsLikeWildcard(url[k])
    ensures GetCompleteUrlEscaped(url, docTitle, docs) == GetCompleteUrl(url, docTitle, docs)
  {
    EscapeLikePlain(url);
  }

  /** With the wildcards escaped the lookup is exactly a prefix test. */
  lemma {:induction false} LikeEscapedPrefix(s: string, u: string)
    ensures Like(s, EscapeLike(u) + "%") <==> StartsWith(s, u)
    decreases |u|
  {
    if u == [] {
      assert EscapeLike(u) + "%" == "%";
      LikeAnyRest(s);
    } else {
      var pattern := EscapeLike(u) + "%";
      var tail := EscapeLike(u[1..]) + "%";
      if IsLikeWildcard(u[0]) {
        assert pattern == ['\\', u[0]] + tail;
        assert pattern[2..] == tail;
      } else {
        assert pattern == [u[0]] + tail;
        assert pattern[1..] == tail;
      }
      if s != [] {
        LikeEscapedPrefix(s[1..], u[1..]);
        StartsWithCons(s, u);
      }
    }
  }

  lemma StartsWithCons(s: string, u: string)
    requires s != [] && u != []
    ensures StartsWith(s, u) <==> s[0] == u[0] && StartsWith(s[1..], u[1..])
  {
    if s[0] == u[0] && StartsWith(s[1..], u[1..]) {
      assert s[..|u|] == [s[0]] + s[1..][..|u| - 1];
    }
    if StartsWith(s, u) {
      assert s[1..][..|u| - 1] == s[..|u|][1..];
    }
  }

  /** `get_complete_url` with the URL escaped before it is used as a LIKE
      prefix: the first lookup answers only with URLs that extend it. */
  function GetCompleteUrlEscaped(url: string, docTitle: string, docs: seq<Document>): (r: string)
    ensures url == "" || NamesDocument(url) ==> r == url
    ensures url != "" && !NamesDocument(url) && (exists k :: 0 <= k < |docs| && StartsWith(docs[k].url, url)) ==>
      StartsWith(r, url) && exists k :: 0 <= k < |docs| && docs[k].url == r
    ensures url != "" && !NamesDocument(url) ==>
      forall k :: 0 <= k < |docs| && StartsWith(docs[k].url, url) ==> |docs[k].url| <= |r|
    ensures url != "" && !NamesDocument(url) && (forall k :: 0 <= k < |docs| ==> !StartsWith(docs[k].url, url)) ==>
      if docTitle != "" && exists k :: 0 <= k < |docs| && docs[k].title == docTitle then
        exists k :: 0 <= k < |docs| && docs[k].title == docTitle && docs[k].url == r
      else
        r == url
  {
    if url == "" then url
    else if NamesDocument(url) then url
    else
      var pattern := EscapeLike(url) + "%";
      assert forall t :: Like(t, pattern) <==> StartsWith(t, url) by {
        forall t ensures Like(t, pattern) <==> StartsWith(t, url) {
          LikeEscapedPrefix(t, url);
        }
      }
      match LongestLike(docs, pattern)
      case Some(found) => found
      case None =>
        if docTitle != "" then
          match UrlOfTitle(docs, docTitle)
          case Some(found) => found
          case None => url
        else url
  }
}

=== FILE: urljoin.dfy ===
/** `urllib.parse.urljoin` against the ERCOT directory URLs, as CPython
    implements reference resolution (section 5.2 of RFC 3986), with the
    `urlparse` and `urlunparse` it is built on. */
module Joins {
  import opened Wrappers
  import opened Text
  import opened Urls
  import opened Ercot
  import Seqs

  /** `.` */
  predicate IsDot(s: string) { |s| == 1 && s[0] == '.' }

  /** `..` */
  predicate IsDotDot(s: string) { |s| == 2 && s[0] == '.' && s[1] == '.' }

  /** The segments reference resolution removes. */
  predicate IsDotSegment(s: string) { IsDot(s) || IsDotDot(s) }

  lemma DotSegments(s: string)
    ensures IsDot(s) <==> s == "."
    ensures IsDotDot(s) <==> s == ".."
  {
    if IsDotDot(s) {
      assert s == [s[0], s[1]];
    }
  }

  /** A reference `urljoin` appends unchanged to a directory URL: no
      scheme, authority, parameters, query or fragment, no dot segment,
      nothing that `urlsplit` strips or deletes. */
  predicate IsPlainName(name: string) {
    !IsDotSegment(name) && (name == [] || !IsC0OrSpace(name[0]))
    && forall k :: 0 <= k < |name| ==> IsPlainNameChar(name[k])
  }

  predicate IsPlainNameChar(c: char) {
    c != '/' && c != ':' && c != '?' && c != '#' && c != ';' && IsKeptInUrl(c)
  }

  // ---------------------------------------------------------------------
  // `urlparse` and `urlunparse`
  // ---------------------------------------------------------------------

  datatype Parsed = Parsed(scheme: string, netloc: string, path: string, params: string, query: string, fragment: string)

  /** `_splitparams(path)`: the `;params` after the first ';' of the last
      segment, split off. */
  function SplitParams(path: string): (r: (string, string))
    ensures r.0 == DropParams(path)
    ensures path == r.0 || path == r.0 + ";" + r.1
  {
    var last := LastSegment(path, '/');
    match FindChar(last, ';')
    case None => (path, "")
    case Some(k) =>
      var i := |path| - |last| + k;
      CutAtSemicolon(path, last, k, i);
      (path[..i], path[i + 1..])
  }

  /** The ';' at position `k` of the last segment splits the path around it. */
  lemma CutAtSemicolon(path: string, last: string, k: nat, i: nat)
    requires |last| <= |path| && last == path[|path| - |last|..]
    requires k < |last| && last[k] == ';' && i == |path| - |last| + k
    ensures i < |path| && path == path[..i] + ";" + path[i + 1..]
  {
    assert path[i] == last[k];
    Seqs.SliceThree(path, i, i + 1);
    assert path[i..i + 1] == ";";
  }

  /** `urlparse(url, scheme)`: `urlsplit`, the given scheme when the URL
      names none, and `;params` split off for the schemes that use them. */
  function UrlParse(url: string, defaultScheme: string): (r: Result<Parsed>)
    ensures r.Err? <==> UrlSplit(url).Err?
    ensures r.Ok? && defaultScheme != "" ==> r.value.scheme != ""
  {
    match UrlSplit(url)
    case Err(e) => Err(e)
    case Ok(s) =>
      var scheme := if s.scheme == "" then defaultScheme else s.scheme;
      if scheme in UsesParams && ';' in s.path then
        var split := SplitParams(s.path);
        Ok(Parsed(scheme, s.netloc, split.0, split.1, s.query, s.fragment))
      else Ok(Parsed(scheme, s.netloc, s.path, "", s.query, s.fragment))
  }

  /** `urlparse(url).path` is what `ParsedPath` models. */
  lemma UrlParsePath(url: string)
    ensures UrlParse(url, "").Ok? <==> ParsedPath(url).Ok?
    ensures UrlParse(url, "").Ok? ==> UrlParse(url, "").value.path == ParsedPath(url).value
  {
  }

  /** `urlunparse` of components with an authority: `scheme://netloc`,
      the path behind a '/', then `;params`, `?query` and `#fragment`
      when they are not empty. */
  function Unparse(p: Parsed): (r: string)
    requires p.netloc != ""
  {
    var withParams := if p.params != "" then p.path + ";" + p.params else p.path;
    var path := if withParams != "" && withParams[0] != '/' then "/" + withParams else withParams;
    (if p.scheme != "" then p.scheme + ":" else "") + "//" + p.netloc + path
    + (if p.query != "" then "?" + p.query else "")
    + (if p.fragment != "" then "#" + p.fragment else "")
  }

  // ---------------------------------------------------------------------
  // `urljoin(BASE_URL + base_path, url)`
  // ---------------------------------------------------------------------

  /** `bpath.split('/')` without its last, empty, piece
      (`DirectoryParts` shows the split). */
  function BaseParts(basePath: string): (r: seq<string>)
    requires basePath == FileBase || basePath == ServiceBase
    ensures Join(r, "/") + "/" == basePath
    ensures |r| == 3 && r[0] == "" && r[1] != "" && r[2] != ""
    ensures !IsDotSegment(r[1]) && !IsDotSegment(r[2])
  {
    if basePath == FileBase then
      JoinParts("files", "docs", basePath);
      ["", "files", "docs"]
    else
      JoinParts("services", "rq", basePath);
      ["", "services", "rq"]
  }

  predicate IsNonEmpty(s: string) { s != "" }

  /** `segments[1:-1] = filter(None, segments[1:-1])` */
  function FilterMiddle(segs: seq<string>): (r: seq<string>)
    requires |segs| >= 2
  {
    [segs[0]] + Seqs.Filter(segs[1..|segs| - 1], IsNonEmpty) + [segs[|segs| - 1]]
  }

  /** The resolution loop: `..` pops the last kept segment (if any), `.`
      is dropped, everything else is kept. */
  function RemoveDotSegments(acc: seq<string>, segs: seq<string>): (r: seq<string>)
    decreases |segs|
  {
    if segs == [] then acc
    else if IsDotDot(segs[0]) then RemoveDotSegments(if acc == [] then [] else acc[..|acc| - 1], segs[1..])
    else if IsDot(segs[0]) then RemoveDotSegments(acc, segs[1..])
    else RemoveDotSegments(acc + [segs[0]], segs[1..])
  }

  /** The path of a reference resolved against the base path: an absolute
      path stands alone, a relative one follows the base directory. */
  function MergedPath(basePath: string, path: string): (r: string)
    requires basePath == FileBase || basePath == ServiceBase
    ensures r != ""
  {
    if path != [] && path[0] == '/' then Resolve(SplitChar(path, '/'))
    else Resolve(FilterMiddle(BaseParts(basePath) + SplitChar(path, '/')))
  }

  /** Dot segments resolved and the rest joined by '/'; a trailing dot
      segment leaves a trailing '/', and nothing at all is "/". */
  function Resolve(segments: seq<string>): (r: string)
    requires segments != []
    ensures r != ""
  {
    var resolved := RemoveDotSegments([], segments);
    var resolved := if IsDotSegment(segments[|segments| - 1]) then resolved + [""] else resolved;
    var joined := Join(resolved, "/");
    if joined == "" then "/" else joined
  }

  /** `urljoin(BASE_URL + base_path, url)` for the two ERCOT directories.
      Only `urlparse` can fail, on an unbalanced bracket in the authority. */
  function UrlJoin(basePath: string, url: string): (r: Result<string>)
    requires basePath == FileBase || basePath == ServiceBase
    ensures url == "" ==> r == Ok(BaseUrl + basePath)
    ensures r.Err? <==> url != "" && UrlSplit(url).Err?
  {
    if url == "" then Ok(BaseUrl + basePath)
    else
      match UrlParse(url, "https")
      case Err(e) => Err(e)
      case Ok(p) =>
        if p.scheme != "https" then Ok(url)
        else if p.netloc != "" then Ok(Unparse(p))
        else if p.path == "" && p.params == "" then Ok(Unparse(p.(netloc := Host, path := basePath)))
        else Ok(Unparse(p.(netloc := Host, path := MergedPath(basePath, p.path))))
  }

  // ---------------------------------------------------------------------
  // Properties
  // ---------------------------------------------------------------------

  /** The pieces of `/a/b/` are "", "a", "b" and "". */
  lemma DirectoryParts(a: string, b: string, basePath: string)
    requires basePath == "/" + a + "/" + b + "/"
    requires forall k :: 0 <= k < |a| ==> a[k] != '/'
    requires forall k :: 0 <= k < |b| ==> b[k] != '/'
    ensures SplitChar(basePath, '/') == ["", a, b, ""]
  {
    var ws := ["", a, b, ""];
    JoinParts(a, b, basePath);
    JoinSnoc(["", a, b], "", "/");
    assert ["", a, b] + [""] == ws;
    assert Join(ws, ['/']) == basePath;
    assert forall i, j :: 0 <= i < |ws| && 0 <= j < |ws[i]| ==> ws[i][j] != '/' by {
      forall i, j | 0 <= i < |ws| && 0 <= j < |ws[i]| ensures ws[i][j] != '/' {
        if i == 1 {
          assert ws[i][j] == a[j];
        } else {
          assert ws[i][j] == b[j];
        }
      }
    }
    SplitCharOfJoin(ws, '/');
  }

  lemma JoinParts(a: string, b: string, basePath: string)
    requires basePath == "/" + a + "/" + b + "/"
    ensures Join(["", a, b], "/") + "/" == basePath
  {
    JoinCons("", ["", a, b][1..], "/");
    JoinCons(a, [b], "/");
    JoinSingle(b, "/");
    assert Join(["", a, b], "/") == "/" + a + "/" + b;
  }

  /** A reference without dot segments resolves to itself. */
  lemma {:induction false} NoDotsKept(acc: seq<string>, segs: seq<string>)
    requires forall k :: 0 <= k < |segs| ==> !IsDotSegment(segs[k])
    ensures RemoveDotSegments(acc, segs) == acc + segs
    decreases |segs|
  {
    if segs != [] {
      NoDotsKept(acc + [segs[0]], segs[1..]);
      assert acc + [segs[0]] + segs[1..] == acc + segs;
    } else {
      assert acc + segs == acc;
    }
  }

  /** What `urlparse` makes of a plain name: a bare path. */
  lemma PlainNameParses(name: string)
    requires IsPlainName(name) && name != ""
    ensures UrlParse(name, "https") == Ok(Parsed("https", "", name, "", "", ""))
  {
    PlainNameSplits(name);
    assert ';' !in name by {
      assert forall k :: 0 <= k < |name| ==> IsPlainNameChar(name[k]);
    }
  }

  /** What `urlsplit` makes of a plain name: a bare path. */
  lemma PlainNameSplits(name: string)
    requires IsPlainName(name) && name != ""
    ensures UrlSplit(name) == Ok(SplitResult("", "", name, "", ""))
  {
    PlainNameCleaned(name);
    assert SchemeEnd(name) == None;
    assert !StartsWith(name, "//") by {
      assert name[0] != '/';
    }
    assert SplitAuthority(AfterScheme(name)) == ("", name);
    assert SplitOnce(name, '#') == (name, "");
    assert SplitOnce(name, '?') == (name, "");
  }

  lemma PlainNameCleaned(name: string)
    requires IsPlainName(name) && name != ""
    ensures Cleaned(name) == name
  {
    assert StripC0Left(name) == name;
    Seqs.FilterAll(name, IsKeptInUrl);
  }

  /** The path a plain name resolves to: the base directory and the name. */
  lemma PlainNameMerges(basePath: string, name: string)
    requires basePath == FileBase || basePath == ServiceBase
    requires IsPlainName(name) && name != ""
    ensures MergedPath(basePath, name) == basePath + name
  {
    SplitCharNone(name, '/');
    RelativeNameMerges(BaseParts(basePath), basePath, name);
  }

  lemma RelativeNameMerges(base: seq<string>, basePath: string, name: string)
    requires |base| == 3 && base[0] == "" && base[1] != "" && base[2] != ""
    requires !IsDotSegment(base[1]) && !IsDotSegment(base[2])
    requires Join(base, "/") + "/" == basePath
    requires !IsDotSegment(name) && name != ""
    ensures Resolve(FilterMiddle(base + [name])) == basePath + name
  {
    var all := base + [name];
    FilterMiddleKeepsAll(base, name);
    ResolveWithoutDots(all);
    JoinSnoc(base, name, "/");
  }

  /** Three non-empty middle segments pass the empty-segment filter. */
  lemma FilterMiddleKeepsAll(base: seq<string>, name: string)
    requires |base| == 3 && base[1] != "" && base[2] != ""
    ensures FilterMiddle(base + [name]) == base + [name]
  {
    var all := base + [name];
    assert all[1..|all| - 1] == base[1..];
    Seqs.FilterAll(base[1..], IsNonEmpty);
    assert [base[0]] + base[1..] == base;
  }

  /** Segments without dot segments resolve to their join. */
  lemma ResolveWithoutDots(all: seq<string>)
    requires |all| == 4 && all[0] == "" && all[1] != ""
    requires forall k :: 1 <= k < |all| ==> !IsDotSegment(all[k])
    ensures Resolve(all) == Join(all, "/")
  {
    assert !IsDotSegment(all[0]);
    NoDotsKept([], all);
    assert [] + all == all;
  }

  /** `urljoin` appends a plain name to the directory URL. */
  lemma JoinPlain(basePath: string, name: string)
    requires basePath == FileBase || basePath == ServiceBase
    requires IsPlainName(name)
    ensures UrlJoin(basePath, name) == Ok(BaseUrl + basePath + name)
  {
    if name != "" {
      PlainNameParses(name);
      PlainNameMerges(basePath, name);
      var path := basePath + name;
      assert path[0] == '/';
      UnparseBare("https", Host, path);
      BaseUrlParts();
      assert UrlJoin(basePath, name) == Ok(Unparse(Parsed("https", Host, path, "", "", "")));
      assert Unparse(Parsed("https", Host, path, "", "", "")) == BaseUrl + path;
      assert BaseUrl + path == BaseUrl + basePath + name;
    } else {
      assert BaseUrl + basePath + name == BaseUrl + basePath;
    }
  }

  lemma BaseUrlParts()
    ensures BaseUrl == "https" + "://" + Host
  {
  }

  /** Unparsing a bare absolute path under an authority. */
  lemma UnparseBare(scheme: string, netloc: string, path: string)
    requires scheme != "" && netloc != "" && path != [] && path[0] == '/'
    ensures Unparse(Parsed(scheme, netloc, path, "", "", "")) == scheme + "://" + netloc + path
  {
    assert scheme + ":" + "//" == scheme + "://";
  }

  /** A reference that names no scheme and does not start with `//` is
      parsed as a path on the base's scheme. */
  lemma RelativeReference(u: string)
    requires UrlSplit(u).Ok?
    requires SchemeEnd(Cleaned(u)) == None && !StartsWith(Cleaned(u), "//")
    ensures UrlParse(u, "https").Ok?
    ensures UrlParse(u, "https").value.scheme == "https" && UrlParse(u, "https").value.netloc == ""
  {
    assert SplitAuthority(AfterScheme(Cleaned(u))).0 == "";
  }

  /** A reference with neither another scheme nor an authority of its own
      stays on the ERCOT host. */
  lemma JoinStaysOnHost(basePath: string, url: string)
    requires basePath == FileBase || basePath == ServiceBase
    requires url != "" && UrlParse(url, "https").Ok?
    requires UrlParse(url, "https").value.scheme == "https" && UrlParse(url, "https").value.netloc == ""
    ensures StartsWith(UrlJoin(basePath, url).value, BaseUrl + "/")
  {
    var p := UrlParse(url, "https").value;
    var q := if p.path == "" && p.params == "" then p.(netloc := Host, path := basePath)
      else p.(netloc := Host, path := MergedPath(basePath, p.path));
    assert UrlJoin(basePath, url) == Ok(Unparse(q));
    UnparseUnderHost(q);
  }

  /** Unparsing with scheme `https` and the ERCOT host gives a URL under
      `https://www.ercot.com/`. */
  lemma UnparseUnderHost(q: Parsed)
    requires q.scheme == "https" && q.netloc == Host && q.path != ""
    ensures StartsWith(Unparse(q), BaseUrl + "/")
  {
    UnparseStartsWith(q, "https" + "://" + Host);
    BaseUrlParts();
  }

  lemma UnparseStartsWith(q: Parsed, authority: string)
    requires q.scheme != "" && q.netloc != "" && q.path != ""
    requires authority == q.scheme + "://" + q.netloc
    ensures StartsWith(Unparse(q), authority + "/")
  {
    var withParams := if q.params != "" then q.path + ";" + q.params else q.path;
    var path := if withParams[0] != '/' then "/" + withParams else withParams;
    var tail := (if q.query != "" then "?" + q.query else "") + (if q.fragment != "" then "#" + q.fragment else "");
    assert Unparse(q) == authority + path + tail by {
      assert q.scheme + ":" + "//" + q.netloc == authority;
    }
    SlashAfter(authority, path, tail);
  }

  lemma SlashAfter(a: string, path: string, tail: string)
    requires path != [] && path[0] == '/'
    ensures StartsWith(a + path + tail, a + "/")
  {
    assert (a + path + tail)[..|a| + 1] == a + "/";
  }
}

=== FILE: wrappers.dfy ===
/** Failure-compatible wrappers used across the model: an optional value
    (Python's `None` or a value) and a result carrying either a value or the
    message of the exception the source would raise. */
module Wrappers {

  datatype Option<+T> = None | Some(value: T) {

    /** The value, or `default` when there is none. */
    function GetOr(default: T): T {
      match this
      case Some(v) => v
      case None => default
    }
  }

  /** `Err(msg)` stands for a raised exception whose `str()` is `msg`. */
  datatype Result<+T> = Ok(value: T) | Err(msg: string)
}
